=== FILE: README.md ===
# Simplify Truths in Dafny

A Dafny model of the core of Simplify Truths, a REST service that takes a
propositional formula over AND (`⋀`), OR (`⋁`), implication (`➔`) and NOT
(`¬`), validates it, parses it into an expression tree, rewrites the tree
with named algebraic laws while recording every step, and builds a truth
table over its sub-expressions.

The model follows the Java sources file by file:

| file | module | what it holds |
|---|---|---|
| `strings.dfy` | `Optional`, `Strings` | `numberOfChar` as a counting loop against `CountChar`, the `¬`-removal helpers, Java's `compareTo`, `capitalizeFirstLetter`, decimal rendering of an index |
| `operators.dfy` | `Operators`, `OperatorEnum`, `ApiOperatorEnum`, `OperatorTable` | the four operator catalogs: the two enum revisions (input `/` and input `\|` for OR) with their truth functions, and the older fixed operator table with weights and aliases |
| `enums.dfy` | `Enums` | `Hide`, `Sort`, `Language`, `OrderOperations`, `CenterOperator` |
| `expression.dfy` | `Expressions` | the expression node (`leading`, `left`, `operator`, `right`, `trailing`, `atomic`), negation as the parity of `¬` in `leading`, `toString`, `equals`, `equalsAndOpposite`, `solve`, atom counting, and a reference truth value `Value` of a tree under an assignment |
| `laws.dfy` | `Laws` | every rewrite law, the trace of before/after/law records, and `laws()` |
| `parser.dfy` | `Parser` | `utils/ExpressionUtils.java`: `isValid`, `isOuterParentheses`/`removeOuterParentheses`, `getCenterOperatorIndex`, `simplifyRec`/`simplify`, `getNumberOfUniqueAtomics` |
| `legacy_parser.dfy` | `LegacyParser` | `classes/ExpressionUtils.java`: `isLegalExpression` with square brackets, `error`, the one-character `isAtomic`, `isOuterParentheses`, `getCenterOperatorIndex` |
| `truth_table.dfy` | `TruthTables` | `helperMatrix`, `create` (fill, hide, bubble-sort, filter), `findExp`, `mapToStrings` |

How the model is built:
- Java mutates expression nodes in place. Each law is modelled as a function
  from the old node to the new one.
- The static list of operations is a trace parameter that every law
  returns extended. The global language is also a parameter.
- A Java exception (a null dereference, an index out of range, an empty
  stack) is `None` in an `Option` result, so every error path is part of the
  contract.
- Loops stay loops. Each such method is proved against a specification
  function:
  - `numberOfChar`, the `¬` run of `doubleNegation` and `isValid`;
  - `isOuterParentheses` and `getCenterOperatorIndex` (in both revisions);
  - `getNumberOfUniqueAtomics`, `isLegalExpression` and `findExp`;
  - `helperMatrix`, which fills a two-dimensional array;
  - `create`, which writes an array of rows, nulls hidden rows and bubbles
    rows up.
- The truth value of a tree, `Expressions.Value`, is the reference against
  which the laws are shown to keep or change a formula's meaning.

`simplifyRec` is modelled in two revisions, `AsWritten` and `Corrected`
(see Findings):
- `AsWritten` removes every `¬` while peeling signs in front of outer
  parentheses, and looks for the split operator in a string with one pair of
  parentheses fewer than the one it cuts.
- `Corrected` removes one sign per step and cuts the string the index was
  computed in.

The same `Revision` selects `equals` and `commutativeProperty` wherever
they are used: in the laws, in `equalsAndOpposite`, in `findExp` and in
the rewriting step of `simplifyRec` (see Findings):
- `AsWritten` matches the operands crosswise one way only (`left` against
  `other.right`, under any operator), and sorts atomic operands under any
  operator, implication included.
- `Corrected` matches both crossed pairs, and only under AND and OR, whose
  operands can be exchanged; it sorts operands only under AND and OR.

It also selects how `absorptionLaw` treats two compound children (see
Findings):
- `AsWritten` keeps the OR child of two children over the same operands,
  whatever the node's operator, and drops an operand the children share
  whatever their signs.
- `Corrected` keeps the child whose operator is the node's, and drops a
  shared operand only from un-negated children of an AND or OR node.

And it selects how `distributiveProperty` decides to factor (see Findings):
- `AsWritten` factors whenever the left child's operator differs from the
  node's, and finds the shared operand by its leftmost atom's name.
- `Corrected` factors only an AND or OR node over two un-negated children
  that both carry the other operator (`DistributiveGuard`), and finds the
  shared operand with `equals`.

## Model

| member | source | states |
|---|---|---|
| Strings.NumberOfChar | src/main/java/com/github/martials/utils/StringUtils.java:23-31 | the counting loop returns the number of positions holding `c`, which never exceeds the length |
| Strings.CountCharIsPositions | src/main/java/com/github/martials/utils/StringUtils.java:23-31 | the count is the size of the set of positions where `c` occurs |
| Strings.CountCharBound | src/main/java/com/github/martials/utils/StringUtils.java:23-31 | the count lies between 0 and the length of the string |
| Strings.CountCharAppend | src/main/java/com/github/martials/utils/StringUtils.java:23-31 | counting is additive over concatenation, so a `¬` prepended to `leading` flips its parity |
| Strings.CountCharPositive | src/main/java/com/github/martials/utils/ExpressionUtils.java:87-90 | the count is positive exactly when the string contains the character, which is the loop test `contains("¬")` |
| Strings.RemoveAllCounts | src/main/java/com/github/martials/expressions/Expression.java:363-365 | `replace("¬", "")` leaves no `¬`, keeps the count of every other character, and shortens the string by the number removed |
| Strings.RemoveAllShorter | src/main/java/com/github/martials/utils/ExpressionUtils.java:102 | removing every occurrence of a character never lengthens a string, and shortens it when the character occurs |
| Strings.RemoveFirst | src/main/java/com/github/martials/utils/ExpressionUtils.java:87-90 | `replaceFirst` removes exactly one occurrence when there is one and leaves the string unchanged otherwise |
| Strings.RemoveAllAfterRemoveFirst | src/main/java/com/github/martials/utils/ExpressionUtils.java:87-90 | removing one occurrence first does not change what removing all of them leaves |
| Strings.RemoveAllAppend | src/main/java/com/github/martials/expressions/Expression.java:363-365 | removal of every occurrence distributes over concatenation |
| Strings.CompareToProperties | src/main/java/com/github/martials/expressions/Expression.java:381 | `compareTo` is zero exactly for equal names and is antisymmetric |
| Strings.CapitalizeFirstLetter | src/main/java/com/github/martials/utils/StringUtils.java:55-60 | the empty string stays empty; otherwise the first character is upper-cased and every later character is kept, as is the length |
| Strings.NatToString | src/main/java/com/github/martials/classes/ExpressionUtils.java:273 | the decimal rendering of an index is a non-empty string of digits |
| Strings.NatToStringRoundTrip | src/main/java/com/github/martials/classes/ExpressionUtils.java:273 | reading the decimal rendering back gives the index |
| Operators.Ordinal | src/main/java/com/github/martials/enums/Operator.java:23-27 | the ordinal of an operator is its position in declaration order |
| Operators.OrdinalOrder | src/main/java/com/github/martials/enums/Operator.java:11-27 | declaration order makes IMPLICATION < OR < AND < NOT, the precedence the split point uses |
| Operators.SymbolInjective | src/main/java/com/github/martials/enums/Operator.java:24-27 | distinct operators have distinct output symbols |
| Operators.OperatorString | src/main/java/com/github/martials/enums/Operator.java:89-92 | toString is the one-character output symbol |
| Operators.FindFirst | src/main/java/com/github/martials/enums/Operator.java:51-58 | the search over `values()` returns the first operator that matches, and nothing exactly when none matches |
| OperatorEnum.GetOperator | src/main/java/com/github/martials/enums/Operator.java:50-58 | getOperator(String) returns the first variant whose input (`->`, `/`, `&`, `!`) or output symbol equals the string, and null exactly when none does |
| OperatorEnum.GetOperatorSearches | src/main/java/com/github/martials/enums/Operator.java:50-58 | the lookup written out in declaration order is the search over `values()` for the first variant the string spells |
| OperatorEnum.GetOperatorChar | src/main/java/com/github/martials/enums/Operator.java:45-48 | a character names an operator by its output symbol or by a one-character input |
| OperatorEnum.GetOperatorCharAgrees | src/main/java/com/github/martials/enums/Operator.java:45-48 | getOperator(char) is getOperator of the one-character string |
| OperatorEnum.IsOperatorCharAgrees | src/main/java/com/github/martials/enums/Operator.java:66-68 | isOperator(char) holds exactly when getOperator(char) finds an operator |
| OperatorEnum.OperatorChars | src/main/java/com/github/martials/enums/Operator.java:66-78 | the operator characters are exactly ➔ ⋁ ⋀ ¬ / & ! |
| OperatorEnum.FirstCharacterOnly | src/main/java/com/github/martials/enums/Operator.java:76-78 | isOperator compares only the first character with the output symbols, so `⋀B` counts as an operator that getOperator does not find |
| OperatorEnum.InputLookups | src/main/java/com/github/martials/enums/Operator.java:24-27 | each input spelling (`->`, `/`, `&`, `!`) finds its own variant; `\|` is not an input of this revision |
| ApiOperatorEnum.GetOperator | src/main/java/no/martials/api/enums/Operator.java:52-60 | getOperator(String) returns the first variant whose input (`->`, `\|`, `&`, `!`) or output symbol equals the string, and null exactly when none does |
| ApiOperatorEnum.GetOperatorSearches | src/main/java/no/martials/api/enums/Operator.java:52-60 | the lookup written out in declaration order is the search over `values()` for the first variant the string spells |
| ApiOperatorEnum.GetOperatorChar | src/main/java/no/martials/api/enums/Operator.java:47-50 | a character names an operator by its output symbol or by a one-character input |
| ApiOperatorEnum.GetOperatorCharAgrees | src/main/java/no/martials/api/enums/Operator.java:47-50 | getOperator(char) is getOperator of the one-character string |
| ApiOperatorEnum.OperatorChars | src/main/java/no/martials/api/enums/Operator.java:68-80 | the operator characters are exactly ➔ ⋁ ⋀ ¬ \| & !, and isOperator agrees with getOperator on one character |
| ApiOperatorEnum.InputLookups | src/main/java/no/martials/api/enums/Operator.java:26-29 | each input spelling (`->`, `\|`, `&`, `!`) finds its own variant, and the character `\|` finds OR |
| ApiOperatorEnum.SlashIsNotAnInput | src/main/java/no/martials/api/enums/Operator.java:26-29 | `/` is not an operator in this revision |
| OperatorTable.Predefined | src/main/java/com/github/martials/expressions/Operator.java:38-55 | the predefined operators are ➔, ⋁, ⋀, ¬ with weights 0, 1, 2, 3 in that order |
| OperatorTable.GetOperatorChar | src/main/java/com/github/martials/expressions/Operator.java:57-65 | getOperator(char) returns the operator with that symbol, and null exactly when no symbol matches |
| OperatorTable.GetOperatorCharSearches | src/main/java/com/github/martials/expressions/Operator.java:57-65 | the lookup written out per symbol is the search over getPredefined for the operator with that symbol |
| OperatorTable.GetOperatorString | src/main/java/com/github/martials/expressions/Operator.java:67-76 | getOperator(String) returns the first operator whose symbol equals the string or whose aliases contain it, and null exactly when none does |
| OperatorTable.GetOperatorStringSearches | src/main/java/com/github/martials/expressions/Operator.java:67-76 | the lookup written out in weight order is the search over getPredefined for the first operator the string spells |
| OperatorTable.IsOperatorStringAgrees | src/main/java/com/github/martials/expressions/Operator.java:94-98 | isOperator(String) holds exactly when getOperator(String) finds an operator |
| OperatorTable.IsOperatorCharExactly | src/main/java/com/github/martials/classes/Operator.java:67-71 | the operator characters are exactly the four symbols and the one-character aliases \|, &, !, ~ |
| OperatorTable.CaseSensitive | src/main/java/com/github/martials/expressions/Operator.java:89-98 | aliases match case-sensitively: `and` is an operator and `AND` is not; `og` finds AND and `=>` finds IMPLICATION |
| Expressions.RemoveNot | src/main/java/com/github/martials/expressions/Expression.java:363-365 | removeNot leaves no `¬` in `leading`, so the node is no longer negated, and keeps its children, operator and name |
| Expressions.Positive | src/main/java/com/github/martials/expressions/Expression.java:122-124 | the positive copy has no markers, is not negated, and keeps the children, operator and name |
| Expressions.ToString | src/main/java/com/github/martials/expressions/Expression.java:716-732 | the rendering starts with `leading`, a compound one ends with `trailing`, and a leaf is `leading` followed by its name |
| Expressions.ToStringLayout | src/main/java/com/github/martials/expressions/Expression.java:716-732 | a node with two children renders as `leading`, the left child, a space, the operator symbol, a space, the right child and `trailing`; a node with only a left child as `leading`, that child and `trailing` |
| Expressions.ToStringWritesOperators | src/main/java/com/github/martials/expressions/Expression.java:716-732 | when no name or marker holds an operator's symbol, the rendering holds that symbol exactly once per node with that operator |
| Expressions.Equals | src/main/java/com/github/martials/expressions/Expression.java:81-103 | the corrected `equals`: identical nodes are equal, and equal nodes are both atomic or both not, both negated or both not, and atomic ones share their name; its meaning is stated by `EqualsAtoms`, `EqualsSymmetric` and `EqualsSound` |
| Expressions.EqualsAsWritten | src/main/java/com/github/martials/expressions/Expression.java:81-103 | `equals` as written, with the one-sided crossed match of lines 98-99: the same three facts as `Expressions.Equals`; `EqualsAtoms` and `EqualsAsWrittenCrossMatch` state how it differs |
| Expressions.EqualsAtoms | src/main/java/com/github/martials/expressions/Expression.java:92 | two atomic nodes are equal exactly when their names are equal and they are both negated or both not |
| Expressions.EqualsSymmetric | src/main/java/com/github/martials/expressions/Expression.java:81-103 | the corrected equality is symmetric |
| Expressions.EqualsSound | src/main/java/com/github/martials/expressions/Expression.java:81-103 | equal trees have the same truth value under every assignment of the atoms |
| Expressions.EqualsAsWrittenCrossMatch | src/main/java/com/github/martials/expressions/Expression.java:98-99 | as written, `A ⋀ B` equals `C ⋀ A` while `C ⋀ A` does not equal `A ⋀ B`, and the two differ in truth value |
| Expressions.EqualsAndOpposite | src/main/java/com/github/martials/expressions/Expression.java:110-124 | `equalsAndOpposite`: opposites are never both negated; an atomic node is opposite only to an atomic node with its name and the other sign; two un-negated opposites have different operators; `EqualsAndOppositeAtoms`, `EqualsAndOppositeIrreflexive` and `EqualsAndOppositeSound` state its meaning |
| Expressions.EqualsAndOppositeAtoms | src/main/java/com/github/martials/expressions/Expression.java:110-124 | two atomic nodes are opposites exactly when their names are equal and one of them is negated |
| Expressions.EqualsAndOppositeIrreflexive | src/main/java/com/github/martials/expressions/Expression.java:110-124 | no node is the opposite of itself |
| Expressions.EqualsAndOppositeSound | src/main/java/com/github/martials/expressions/Expression.java:110-124 | when one of them is negated, opposites have different truth values under every assignment |
| Expressions.FindAtomicValue | src/main/java/com/github/martials/expressions/Expression.java:133-138 | `findAtomicValue` returns the name of a leaf of the tree; `FindAtomicValueIsFirstLeaf` pins it to the leftmost one |
| Expressions.FindAtomicValueIsFirstLeaf | src/main/java/com/github/martials/expressions/Expression.java:133-138 | findAtomicValue returns the leftmost leaf name |
| Expressions.NumberOfAtomics | src/main/java/com/github/martials/expressions/Expression.java:585-598 | `getNumberOfAtomics` is at least one for a well-formed tree and one for a leaf; `NumberOfAtomicsIsLeafCount` makes it the number of leaves |
| Expressions.NumberOfAtomicsIsLeafCount | src/main/java/com/github/martials/expressions/Expression.java:585-598 | getNumberOfAtomics is the number of leaves, at least one |
| Expressions.Solve | src/main/java/com/github/martials/expressions/Expression.java:607-625 | solve is and / or / ¬l ∨ r for AND / OR / implication and false without an operator, negated when the node is |
| Expressions.SolveIsValue | src/main/java/com/github/martials/expressions/Expression.java:607-625 | solve over the children's truth values is the node's truth value |
| Laws.IsChangedThenAdd | src/main/java/com/github/martials/expressions/Expression.java:148-155 | a record (before, toString(), law) is appended exactly when the rendering changed, and the returned string is the new rendering |
| Laws.ExtendsTrans | src/main/java/com/github/martials/expressions/Expression.java:160-176 | two trace extensions that chain renderings compose into one |
| Laws.Parenthesize | src/main/java/com/github/martials/expressions/Expression.java:403-410 | a compound left child gets `(` and `)` if it lacks them, keeping its negation count and its shape |
| Laws.EliminationOfImplication | src/main/java/com/github/martials/expressions/Expression.java:399-414 | an implication with two children becomes an OR with one more `¬` at the head of the left child's `leading`, parenthesized when compound; every other node is unchanged |
| Laws.EliminationOfImplicationSound | src/main/java/com/github/martials/expressions/Expression.java:399-414 | eliminating an implication keeps the truth value |
| Laws.EliminationOfImplicationExample | src/main/java/com/github/martials/expressions/Expression.java:397 | `A ➔ ¬A` becomes `¬A ⋁ ¬A` |
| Laws.CountLeadingNots | src/main/java/com/github/martials/expressions/Expression.java:560-563 | the loop stops at the length of the initial `¬` run of `leading` |
| Laws.NotRun | src/main/java/com/github/martials/expressions/Expression.java:560-563 | the run is a prefix of `¬` signs followed by something else or by the end |
| Laws.DoubleNegationLeading | src/main/java/com/github/martials/expressions/Expression.java:564-569 | a run of 0 or 1 leaves `leading` as it is; a longer run removes every `¬` and puts one back exactly when the run was odd |
| Laws.DoubleNegationLeadingExamples | src/main/java/com/github/martials/expressions/Expression.java:555 | `¬¬` becomes empty and `¬¬¬` becomes `¬` |
| Laws.DoubleNegationLeadingParity | src/main/java/com/github/martials/expressions/Expression.java:559-569 | with every `¬` in front, the negation parity is kept |
| Laws.DoubleNegationLeadingNeedsSignsUpFront | src/main/java/com/github/martials/expressions/Expression.java:564-569 | when a `¬` follows `(` in `leading`, the parity can change: `¬¬(¬` has three signs and keeps none |
| Laws.DoubleNegation | src/main/java/com/github/martials/expressions/Expression.java:559-577 | the node's `leading` is rewritten as above, the law recurses into both children, and the shape is kept |
| Laws.DoubleNegationSound | src/main/java/com/github/martials/expressions/Expression.java:559-577 | on trees whose signs are all in front, double negation keeps the truth value |
| Laws.Flip | src/main/java/com/github/martials/expressions/Expression.java:291-296 | AND and OR swap, and the result is never an implication |
| Laws.Cleared | src/main/java/com/github/martials/expressions/Expression.java:325-338 | the markers are cleared, so the node is not negated, and its shape is kept |
| Laws.SetNot | src/main/java/com/github/martials/expressions/Expression.java:340-348 | the node loses its markers and its operator flips; the child named `remove` loses its negation and the other one gains it |
| Laws.DeMorgansLaws | src/main/java/com/github/martials/expressions/Expression.java:284-323 | two negated children under AND/OR become `¬( … )` with the flipped operator and no signs in the children; an implication or a node without children is unchanged |
| Laws.DeMorgansLawsSound | src/main/java/com/github/martials/expressions/Expression.java:284-323 | De Morgan keeps the truth value wherever it does not merge two negated children under a node that is itself negated, and does not push a sign into an implication |
| Laws.DeMorgansLawsExamples | src/main/java/com/github/martials/expressions/Expression.java:280 | `¬A ⋀ ¬B` becomes `¬(A ⋁ B)` and `¬A ⋁ ¬B` becomes `¬(A ⋀ B)` |
| Laws.RemoveRight | src/main/java/com/github/martials/expressions/Expression.java:488-496 | the node loses its operator, right child and markers; a negated node passes a single `¬` to its left child |
| Laws.RemoveRedundant | src/main/java/com/github/martials/expressions/Expression.java:505-550 | dropping one side of the compound child, with `equals` and `equalsAndOpposite` of the chosen revision, keeps the tree well formed |
| Laws.RemoveRedundantContradiction | src/main/java/com/github/martials/expressions/Expression.java:513-533 | corrected, when the compound child is an AND of two opposites, an AND node is reduced (by removeRight) to that child and an OR node to its other operand |
| Laws.ContradictionIsFalse | src/main/java/com/github/martials/expressions/Expression.java:513-533 | an un-negated AND of two opposites, one of them negated, is false under every assignment |
| Laws.RemoveRedundantContradictionSound | src/main/java/com/github/martials/expressions/Expression.java:513-533 | corrected, dropping such a contradiction keeps the truth value, except for an OR node that is negated as is its kept operand |
| Laws.RemoveRightValue | src/main/java/com/github/martials/expressions/Expression.java:488-496 | after removeRight the node is worth its left child, negated when the node was, unless both were negated |
| Laws.RemoveRedundantRepeatedSound | src/main/java/com/github/martials/expressions/Expression.java:536-541 | corrected, when the operand equals the first operand of a compound child with the same AND/OR operator, dropping that repetition keeps the truth value (`A ⋀ (A ⋀ B)` becomes `A ⋀ B`) |
| Laws.RemoveRedundantComplementSound | src/main/java/com/github/martials/expressions/Expression.java:536-541 | corrected, under an OR node whose compound child is an AND starting with the operand's opposite, dropping that opposite keeps the truth value (`A ⋁ (¬A ⋀ B)` becomes `A ⋁ B`) |
| Laws.RemoveRedundantKeepsOpposite | src/main/java/com/github/martials/expressions/Expression.java:543-547 | `A ⋀ (¬A ⋁ B)` becomes `A ⋀ ¬A`: the operand's opposite is kept and the truth value changes |
| Laws.AbsorptionLaw | src/main/java/com/github/martials/expressions/Expression.java:421-486 | absorption fails (a null dereference) exactly in the cases named by `AbsorptionFails`, keeps a node without children, and otherwise yields a well-formed tree, in both revisions; the value lemmas below and the Findings state where it keeps the meaning |
| Laws.AbsorptionOfEqualAtomsSound | src/main/java/com/github/martials/expressions/Expression.java:426-430 | two equal atomic children collapse into one, rendered as the left child, with the same truth value |
| Laws.AbsorptionOfCompoundSound | src/main/java/com/github/martials/expressions/Expression.java:513-526 | an atom absorbed by a compound child of the dual operator leaves the same truth value |
| Laws.AbsorptionOfEqualCompoundsSound | src/main/java/com/github/martials/expressions/Expression.java:443-451 | two equal compound children of an AND or OR node collapse into the left one, with its markers cleared when it is not negated, and the truth value is kept unless the node and that child are both negated |
| Laws.AbsorptionOfCoveringCompoundSound | src/main/java/com/github/martials/expressions/Expression.java:461-470 | corrected: two children over the same pair of operands, both negated or both not, leave a result with the node's truth value; un-negated children under AND and OR collapse into the one with the node's operator |
| Laws.CoveringValue | src/main/java/com/github/martials/expressions/Expression.java:461-470 | of two un-negated AND/OR children over operands of equal value, the one with the node's operator, once alone, has the node's truth value |
| Laws.AbsorptionOfSharedOperandSound | src/main/java/com/github/martials/expressions/Expression.java:472-481 | corrected: when both compound children carry the node's operator, dropping the operand the right child shares with the left keeps the truth value; with a negated child or another operator the node is kept |
| Laws.SharedFirstValue | src/main/java/com/github/martials/expressions/Expression.java:474-477 | when the right child's left operand also occurs in the left child, dropping it from the right child keeps the truth value of an AND or OR node whose children share its operator and are not negated |
| Laws.SharedSecondValue | src/main/java/com/github/martials/expressions/Expression.java:478-480 | the same for the right child's right operand |
| Laws.AbsorptionOfCompoundsSound | src/main/java/com/github/martials/expressions/Expression.java:442-483 | corrected: absorption over two compound children keeps the truth value whenever it does not fail, provided equal children stand under AND or OR and are not negated together with the node |
| Laws.AbsorptionExamples | src/main/java/com/github/martials/expressions/Expression.java:417 | `A ⋀ A` and `A ⋁ A` become `A`, and `¬A ⋁ ¬A` becomes `¬A` |
| Laws.AbsorptionAsWrittenKeepsLeft | src/main/java/com/github/martials/expressions/Expression.java:443-452 | as written, `(A ⋀ B) ⋁ (C ⋀ A)` passes the one-sided `equals` and is reduced to its left child `A ⋀ B` with the markers cleared |
| Laws.AbsorptionAsWrittenKeepsOrChild | src/main/java/com/github/martials/expressions/Expression.java:461-470 | as written, `(A ⋁ B) ⋀ (B ⋀ A)` becomes its OR child `A ⋁ B`, which is true where the input is false (A true, B false); corrected, it becomes the AND child |
| Laws.AbsorptionAsWrittenSharedIgnoresSign | src/main/java/com/github/martials/expressions/Expression.java:472-481 | as written, `¬(A ⋁ B) ⋁ (A ⋁ C)` becomes `¬(A ⋁ B) ⋁ C`, which is false where the input is true (A and B true, C false); corrected, the node is kept |
| Laws.AbsorptionAsWrittenRendering | src/main/java/com/github/martials/expressions/Expression.java:443-452 | the node kept renders as `A ⋀ B` |
| Laws.AbsorptionAsWrittenDropsOperand | src/main/java/com/github/martials/expressions/Expression.java:98-99 | `(A ⋀ B) ⋁ (C ⋀ A)` is true where the kept `A ⋀ B` is false (A and C true, B false) |
| Laws.SetObjects | src/main/java/com/github/martials/expressions/Expression.java:254-277 | the node becomes the common factor, the flipped operator, and the other two operands under the old operator, parenthesized when the new operator is AND |
| Laws.SetObjectsValue | src/main/java/com/github/martials/expressions/Expression.java:254-277 | the factored node's value is the flipped operator over the common factor and the two operands |
| Laws.DistributiveProperty | src/main/java/com/github/martials/expressions/Expression.java:226-252 | in both revisions only a node with two compound children whose left operator differs from its own changes, and corrected only under `DistributiveGuard`; a changed node has the flipped operator and the old one below it |
| Laws.DistributivePropertySound | src/main/java/com/github/martials/expressions/Expression.java:226-252 | as written: when the four grandchildren are atoms whose shared names carry the same sign, and both children are un-negated groups of the flipped operator, factoring keeps the truth value |
| Laws.DistributiveMixedOperatorsChangesMeaning | src/main/java/com/github/martials/expressions/Expression.java:230-231 | as written, `(A ⋀ B) ⋁ (A ⋁ C)`, whose children carry different operators, becomes `A ⋀ (B ⋁ C)`, which is false where the input is true (C alone true); corrected, the node is kept |
| Laws.DistributiveIgnoresSign | src/main/java/com/github/martials/expressions/Expression.java:233-239 | as written, `(A ⋀ B) ⋁ (¬A ⋀ C)` is factored on the name `A` and becomes `A ⋀ (B ⋁ C)`, which is false where the input is true (C alone true); corrected, the node is kept |
| Laws.DistributiveCorrectedSound | src/main/java/com/github/martials/expressions/Expression.java:226-252 | corrected, distributivity keeps the truth value of every well-formed tree under every assignment |
| Laws.FactorShared | src/main/java/com/github/martials/expressions/Expression.java:238-249 | the corrected factoring, on a node that meets `DistributiveGuard`: the first operand that `equals` one on the other side is factored out; the result is well formed, keeps the markers, and when it changes has the flipped operator over the old one |
| Laws.FactorSharedSound | src/main/java/com/github/martials/expressions/Expression.java:238-249 | the corrected factoring keeps the truth value |
| Laws.FactorSharedCase | src/main/java/com/github/martials/expressions/Expression.java:254-257 | factoring `common` out of two children each worth `common` joined to its other operand keeps the truth value |
| Laws.FactorValue | src/main/java/com/github/martials/expressions/Expression.java:254-257 | setObjects keeps the truth value whenever the node is worth `(c op' a) op (c op' b)`: the distributive law of AND over OR and of OR over AND |
| Laws.DistributeSharedMiddle | src/main/java/com/github/martials/expressions/Expression.java:244-246 | when the left child is `x op y` and the right child `y op z` over three differently named atoms, the node becomes setObjects with `y` as the common factor and `x`, `z` as the new pair |
| Laws.DistributivePropertyFactorsAnd | src/main/java/com/github/martials/expressions/Expression.java:221 | `A ⋀ B ⋁ B ⋀ C` becomes `B ⋀ (A ⋁ C)` |
| Laws.DistributivePropertyFactorsOr | src/main/java/com/github/martials/expressions/Expression.java:222 | `(A ⋁ B) ⋀ (B ⋁ C)` becomes `B ⋁ A ⋀ C` |
| Laws.Swapped | src/main/java/com/github/martials/expressions/Expression.java:390-394 | swap exchanges the children and keeps everything else |
| Laws.CommutativePropertyAsWritten | src/main/java/com/github/martials/expressions/Expression.java:379-388 | as written the law keeps or swaps the node, fails exactly where a null is dereferenced, and records the change |
| Laws.CommutativeAsWrittenSwapsImplication | src/main/java/com/github/martials/expressions/Expression.java:379-388 | as written `B ➔ A` is swapped into `A ➔ B`, which has a different truth value |
| Laws.CommutativeProperty | src/main/java/com/github/martials/expressions/Expression.java:379-388 | the corrected law swaps only atomic children of AND/OR that are out of order and records the change; after a swap the names are in order |
| Laws.CommutativePropertySound | src/main/java/com/github/martials/expressions/Expression.java:379-388 | the corrected law keeps the truth value |
| Laws.CommutativePropertyIdempotent | src/main/java/com/github/martials/expressions/Expression.java:379-388 | sorting a sorted node again changes nothing |
| Laws.CommutativePropertyExample | src/main/java/com/github/martials/expressions/Expression.java:375 | `B ⋁ A` becomes `A ⋁ B` with one "Commutative" record |
| Laws.RemoveParenthesis | src/main/java/com/github/martials/expressions/Expression.java:181-213 | only markers are removed, the negation of the node and of each child is kept, an un-negated AND loses its own markers, and the change is recorded |
| Laws.ParenthesesCleared | src/main/java/com/github/martials/expressions/Expression.java:181-213 | the node removeParenthesis builds keeps the operator, the negation of the node and of each child, changes children only in their markers, and clears the markers of an un-negated AND |
| Laws.RemoveParenthesisSound | src/main/java/com/github/martials/expressions/Expression.java:181-213 | removing parentheses keeps the truth value |
| Laws.RemoveParenthesisExample | src/main/java/com/github/martials/expressions/Expression.java:181-213 | `(A ⋀ B)` becomes `A ⋀ B` |
| Laws.LawName | src/main/java/com/github/martials/expressions/Expression.java:160-176 | every law has a non-empty name in each language |
| Laws.LawNamesDistinct | src/main/java/com/github/martials/expressions/Expression.java:160-176 | within one language, distinct laws have distinct names |
| Laws.LawStep | src/main/java/com/github/martials/expressions/Expression.java:163-175 | one step of laws() returns the new rendering and records at most one change under that law's name |
| Laws.LawStepsTrans | src/main/java/com/github/martials/expressions/Expression.java:160-176 | consecutive steps compose |
| Laws.FirstLaws | src/main/java/com/github/martials/expressions/Expression.java:163-169 | implication elimination, double negation and De Morgan run in order, with three recorded steps |
| Laws.ApplyLaws | src/main/java/com/github/martials/expressions/Expression.java:160-176 | laws() fails exactly when absorption fails on what the first three laws leave; otherwise it yields a well-formed tree after six recorded steps |
| Parser.IsOuterParentheses | src/main/java/com/github/martials/utils/ExpressionUtils.java:307-332 | the depth-counter loop returns exactly `OuterParentheses`: after the `¬` run, an opening `(` whose matching `)` is the last character, and nothing (an exception) when the run reaches the end |
| Parser.OuterParenthesesClosedLast | src/main/java/com/github/martials/utils/ExpressionUtils.java:316-330 | when the test holds on a balanced string, it starts (after the signs) with `(` and ends with `)` |
| Parser.RemoveOuterParentheses | src/main/java/com/github/martials/utils/ExpressionUtils.java:303-305 | removeOuterParentheses drops the first and last characters exactly when the test holds, and otherwise returns the input unchanged |
| Parser.RemoveOuterParenthesesBalanced | src/main/java/com/github/martials/utils/ExpressionUtils.java:303-305 | stripping outer parentheses from a balanced string leaves a balanced string |
| Parser.WrapThenRemoveOuterParentheses | src/main/java/com/github/martials/utils/ExpressionUtils.java:303-332 | wrapping a balanced string in parentheses and removing the outer ones gives it back |
| Parser.NoParenthesesBalanced | src/main/java/com/github/martials/utils/ExpressionUtils.java:307-332 | a string without parentheses is balanced |
| Parser.DepthZeroOperators | src/main/java/com/github/martials/utils/ExpressionUtils.java:177-202 | the operators it lists are binary, stand outside all parentheses, and come in increasing index order |
| Parser.SkipGroup | src/main/java/com/github/martials/utils/ExpressionUtils.java:183-193 | skipping a parenthesized group ends just past its matching `)`, or fails when the group never closes |
| Parser.ScanOperators | src/main/java/com/github/martials/utils/ExpressionUtils.java:177-202 | the scan computes `ScanFrom` and lists only binary operators; on a balanced string without `)(` it lists exactly those outside all parentheses |
| Parser.CandidateAt | src/main/java/com/github/martials/utils/ExpressionUtils.java:195-201 | one index contributes an entry exactly when it holds a binary operator |
| Parser.RightmostMin | src/main/java/com/github/martials/utils/ExpressionUtils.java:204-215 | the chosen index is within the list |
| Parser.RightmostMinIsMinimal | src/main/java/com/github/martials/utils/ExpressionUtils.java:204-215 | the chosen operator has the smallest ordinal, and every later one has a larger ordinal |
| Parser.CenterChoiceIsWeakest | src/main/java/com/github/martials/utils/ExpressionUtils.java:204-216 | the choice is in the list with the smallest ordinal; unless all ordinals are equal it is the rightmost such |
| Parser.ChooseCenter | src/main/java/com/github/martials/utils/ExpressionUtils.java:204-216 | the loop returns the rightmost minimum, or the element at size/2 when all ordinals are equal, and nothing (an exception) for an empty list |
| Parser.GetCenterOperatorIndex | src/main/java/com/github/martials/utils/ExpressionUtils.java:173-217 | the result is `CenterOf`, a binary operator of the stripped string; on a balanced stripped string without `)(` it is the choice over the operators outside all parentheses |
| Parser.CenterOf | src/main/java/com/github/martials/utils/ExpressionUtils.java:173-217 | a center is a binary operator of the string with its outer parentheses removed |
| Parser.CenterOfConjunction | src/main/java/com/github/martials/utils/ExpressionUtils.java:173-217 | in `A⋀B` the center is AND at index 1 |
| Parser.StripConjunction | src/main/java/com/github/martials/utils/ExpressionUtils.java:303-305 | `(A⋀B)` loses its outer parentheses |
| Parser.StripDoubledConjunction | src/main/java/com/github/martials/utils/ExpressionUtils.java:303-305 | `((A⋀B))` loses only one pair |
| Parser.CenterIndexOfDoubledParentheses | src/main/java/com/github/martials/utils/ExpressionUtils.java:107-117 | for `((A⋀B))` the index is computed in `A⋀B` but the string cut is `(A⋀B)`, where index 1 holds `A` |
| Parser.IsValid | src/main/java/com/github/martials/utils/ExpressionUtils.java:239-290 | isValid reports the illegal-pattern match first, then an empty expression as missing `A` at 0, then too many operators, a `)` with nothing to close as missing `(` at its index, and an unclosed `(` as missing `)` at the length; it accepts exactly balanced expressions with fewer than 15 counted operators |
| Parser.ScanBrackets | src/main/java/com/github/martials/utils/ExpressionUtils.java:258-289 | the counting and bracket loop succeeds exactly on balanced strings with fewer than 15 counted operators; it reports too many operators only when the count is reached, and always when it is reached in a string where no `)` is unmatched, a `)` at index i as missing `(` exactly when it is the first unmatched one, and an unclosed `(` as missing `)` at the length; it never reports an invalid character |
| Parser.OperatorCountMonotone | src/main/java/com/github/martials/utils/ExpressionUtils.java:263-268 | longer prefixes hold at least as many counted operators |
| Parser.TooBigFound | src/main/java/com/github/martials/utils/ExpressionUtils.java:263-268 | when the limit is reached before any unmatched `)`, the whole string is over the limit and no unmatched `)` is reported |
| Parser.UnmatchedCloseFirst | src/main/java/com/github/martials/utils/ExpressionUtils.java:273-280 | the first unmatched `)` is unique |
| Parser.NoUnmatchedClose | src/main/java/com/github/martials/utils/ExpressionUtils.java:273-280 | a string whose depth never goes below zero has no unmatched `)` |
| Parser.Nots | src/main/java/com/github/martials/utils/ExpressionUtils.java:87-90 | the leaf's `leading` is one `¬` per sign removed |
| Parser.LeafName | src/main/java/com/github/martials/utils/ExpressionUtils.java:91-93 | a name that is a single parenthesis becomes empty; any other is kept |
| Parser.AtomOfProperties | src/main/java/com/github/martials/utils/ExpressionUtils.java:86-98 | a string without binary operators becomes a well-formed leaf whose name has no `¬`, negated exactly when the string has an odd number of signs, with at most one sign when simplifying |
| Parser.AtomOfRoundTrip | src/main/java/com/github/martials/utils/ExpressionUtils.java:86-98 | without simplifying, rendering the leaf gives back a string whose signs are in front |
| Parser.BuildAtom | src/main/java/com/github/martials/utils/ExpressionUtils.java:86-98 | the loop that moves the signs into `leading` builds exactly that leaf |
| Parser.PeelNegations | src/main/java/com/github/martials/utils/ExpressionUtils.java:101-104 | the loop ends with the peeled signs and a rest that no longer starts with a sign in front of outer parentheses, and it terminates whenever the string holds something other than signs |
| Parser.PeelAsWrittenLosesSign | src/main/java/com/github/martials/utils/ExpressionUtils.java:101-104 | as written, `¬(¬A⋀B)` peels to `¬` and `(A⋀B)`: the inner sign is lost |
| Parser.PeelCorrectedKeepsSigns | src/main/java/com/github/martials/utils/ExpressionUtils.java:101-104 | corrected, the peeled signs and the rest make up the string again, so no sign is lost |
| Parser.RemoveNotsExample | src/main/java/com/github/martials/utils/ExpressionUtils.java:102 | `replace` removes both signs of `¬(¬A⋀B)` |
| Parser.SplitPoint | src/main/java/com/github/martials/utils/ExpressionUtils.java:114-117 | the split index is a binary operator of the stripped string; corrected, that string is the one cut; as written, the unstripped string is cut |
| Parser.SplitAsWrittenMissesOperator | src/main/java/com/github/martials/utils/ExpressionUtils.java:106-117 | as written, `((A⋀B))` is cut at index 1 of `(A⋀B)`, which holds no operator |
| Parser.PeelFrom | src/main/java/com/github/martials/utils/ExpressionUtils.java:101-104 | the rest left after peeling signs is never longer than the string peeled |
| Parser.SplitOf | src/main/java/com/github/martials/utils/ExpressionUtils.java:106-117 | the string cut is no longer than the rest, and the split index lies inside it on a binary operator |
| Parser.CutOf | src/main/java/com/github/martials/utils/ExpressionUtils.java:106-117 | after the signs, the cut string is no longer than the rest, and the index lies inside it on a binary operator |
| Parser.DecomposeOf | src/main/java/com/github/martials/utils/ExpressionUtils.java:101-117 | for the whole input, the cut string is no longer than the input, and the index lies inside it on a binary operator |
| Parser.MoveUp | src/main/java/com/github/martials/utils/ExpressionUtils.java:124-133 | a node without a right child is replaced by its left child, otherwise a left or right child without a right child by its own left child; a leaf is a crash |
| Parser.MoveUpSound | src/main/java/com/github/martials/utils/ExpressionUtils.java:124-133 | moving up keeps the truth value when the dropped node is not negated; for a node without a right child, exactly then |
| Parser.SimplifyRec | src/main/java/com/github/martials/utils/ExpressionUtils.java:80-138 | the recursive method computes exactly `Build`: an atomic string becomes its leaf, any other is split at the center with both halves built recursively |
| Parser.SimplifyCut | src/main/java/com/github/martials/utils/ExpressionUtils.java:106-137 | the recursive half of the method computes exactly `BuildCut` |
| Parser.ParseTree | src/main/java/com/github/martials/utils/ExpressionUtils.java:80-119 | every tree the plain parse (no laws, no rearranging) builds is well formed |
| Parser.ParseCut | src/main/java/com/github/martials/utils/ExpressionUtils.java:106-119 | every node the plain parse builds over a split is well formed |
| Parser.Build | src/main/java/com/github/martials/utils/ExpressionUtils.java:80-138 | the tree is well formed and the trace only grows; without the laws, corrected, it exists exactly when the plain parse does, has no wrapper root, and has the plain parse's truth value under every assignment |
| Parser.BuildCut | src/main/java/com/github/martials/utils/ExpressionUtils.java:106-138 | the same for a split string, against the plain parse of that split |
| Parser.BuildRight | src/main/java/com/github/martials/utils/ExpressionUtils.java:119-137 | with the left half built, the node exists, without the laws and corrected, exactly when the right half parses, and is worth the node over the left half and the parsed right half |
| Parser.Join | src/main/java/com/github/martials/utils/ExpressionUtils.java:117-137 | joining two built halves, without the laws and corrected, always succeeds, has no wrapper root, and is worth the node over the two halves; with the laws it fails whenever absorption dereferences null on the joined node |
| Parser.RightEquivalent | src/main/java/com/github/martials/utils/ExpressionUtils.java:119-137 | a tree worth the node over the built right half is worth the node over any right half of the same value, such as the parsed one |
| Parser.CutEquivalent | src/main/java/com/github/martials/utils/ExpressionUtils.java:117-119 | a node worth the one over the built left half and the parsed right half is worth the plain parse of the split |
| Parser.Rearrange | src/main/java/com/github/martials/utils/ExpressionUtils.java:124-136 | moving up, sorting and removing parentheses keep the tree well formed, only extend the trace, and fail on an atomic node |
| Parser.RearrangeKeepsValue | src/main/java/com/github/martials/utils/ExpressionUtils.java:124-136 | corrected, a node with two children that moving up does not strip of a sign keeps two children and its truth value |
| Parser.RewriteKeepsShape | src/main/java/com/github/martials/utils/ExpressionUtils.java:121-136 | without the laws, corrected, a node with two children is rewritten without failure into a node with two children |
| Parser.RewriteKeepsValue | src/main/java/com/github/martials/utils/ExpressionUtils.java:121-136 | without the laws, corrected, such a node keeps its truth value under a given assignment |
| Parser.RewriteEquivalent | src/main/java/com/github/martials/utils/ExpressionUtils.java:121-136 | without the laws, corrected, such a node keeps its truth value under every assignment and gets no wrapper root |
| Parser.RewriteAsWrittenSwapsImplication | src/main/java/com/github/martials/utils/ExpressionUtils.java:135 | as written, without the laws, `B ➔ A` is rewritten into `A ➔ B` |
| Parser.RewriteKeepsImplication | src/main/java/com/github/martials/utils/ExpressionUtils.java:135 | corrected, without the laws, `B ➔ A` is kept as it is |
| Parser.Decompose | src/main/java/com/github/martials/utils/ExpressionUtils.java:101-115 | the method computes exactly `DecomposeOf`; the markers hold only peeled signs and at most one `(`, and the trailing marker is empty or `)` |
| Parser.Cut | src/main/java/com/github/martials/utils/ExpressionUtils.java:106-115 | the method computes exactly `CutOf`; after the peeled signs the markers hold at most one `(` and one `)` |
| Parser.Rewrite | src/main/java/com/github/martials/utils/ExpressionUtils.java:121-137 | laws, moving up, commutative sort and parenthesis removal keep the tree well formed and only extend the trace; an absorption that fails makes the step fail, and an atomic node cannot be rearranged |
| Parser.ClearRoot | src/main/java/com/github/martials/utils/ExpressionUtils.java:72-75 | a root without `¬` loses its markers; one with `¬` is kept; negation is unchanged |
| Parser.ClearRootKeepsValue | src/main/java/com/github/martials/utils/ExpressionUtils.java:72-75 | clearing the root's markers keeps its truth value |
| Parser.Simplify | src/main/java/com/github/martials/utils/ExpressionUtils.java:65-77 | simplify reports exactly the inputs isValid rejects; an accepted input gives `Build`'s tree with the root markers cleared when it holds no `¬`, or a crash where `Build` fails; an atomic input gives its cleared leaf |
| Parser.UniqueAtomicsBounds | src/main/java/com/github/martials/utils/ExpressionUtils.java:140-159 | the unique count is at most the number of atomic entries and at least one when there is an atomic entry |
| Parser.UniqueAtomicsOfOpposites | src/main/java/com/github/martials/utils/ExpressionUtils.java:145-152 | an atom and its opposite count once |
| Parser.GetNumberOfUniqueAtomics | src/main/java/com/github/martials/utils/ExpressionUtils.java:140-159 | the nested loops count the atomic entries that have no opposite earlier in the list |
| LegacyParser.ErrorHead | src/main/java/com/github/martials/classes/ExpressionUtils.java:272-276 | the message begins with the error text, and the character stands in quotes after it |
| LegacyParser.ErrorMessage | src/main/java/com/github/martials/classes/ExpressionUtils.java:272-276 | error builds message, quoted character, "at index:" and the index |
| LegacyParser.ErrorMessageReadBack | src/main/java/com/github/martials/classes/ExpressionUtils.java:272-276 | the character and the index can be read back from the message |
| LegacyParser.ErrorMessageInjective | src/main/java/com/github/martials/classes/ExpressionUtils.java:272-276 | two equal messages name the same character and index |
| LegacyParser.ErrorMessageDistinct | src/main/java/com/github/martials/classes/ExpressionUtils.java:184-187 | an error message is neither empty (legal) nor "Expression too big" |
| LegacyParser.IsAtomic | src/main/java/com/github/martials/classes/ExpressionUtils.java:85-111 | isAtomic holds exactly for a one-character string of a letter, a digit or a square bracket |
| LegacyParser.IsOuterParentheses | src/main/java/com/github/martials/classes/ExpressionUtils.java:290-315 | the scan without a bound check returns only `false`, exactly when the bounded test says false; whenever outer parentheses are found it reads past the end |
| LegacyParser.OuterParenthesesCrashExample | src/main/java/com/github/martials/classes/ExpressionUtils.java:302 | `(A⋀B)` has outer parentheses, so the older scan reads past its end |
| LegacyParser.WeightIsOrdinal | src/main/java/com/github/martials/classes/Operator.java:38-50 | the table weights equal the enum ordinals |
| LegacyParser.SkipGroup | src/main/java/com/github/martials/classes/ExpressionUtils.java:132-141 | skipping a group with square brackets stays within the string; without them it is the newer skip |
| LegacyParser.ScanOperators | src/main/java/com/github/martials/classes/ExpressionUtils.java:125-148 | the scan lists only binary operators; on a balanced string without square brackets and without `)(` it fails exactly when the string ends with `)` |
| LegacyParser.GetCenterOperatorIndex | src/main/java/com/github/martials/classes/ExpressionUtils.java:121-163 | a result is a binary operator of a string without outer parentheses; a balanced string without `)(` that ends with `)` always crashes |
| LegacyParser.CenterCrashExample | src/main/java/com/github/martials/classes/ExpressionUtils.java:121-163 | `A⋀(B)` crashes although AND at index 1 is the evident center |
| LegacyParser.MatchBrackets | src/main/java/com/github/martials/classes/ExpressionUtils.java:212-237 | one bracket step: push, pop, square-bracket checks and the truth-value flag |
| LegacyParser.CheckNeighbours | src/main/java/com/github/martials/classes/ExpressionUtils.java:239-259 | one neighbour step: misplaced `¬`, two operators in a row, two atoms in a row |
| LegacyParser.IsLegalExpression | src/main/java/com/github/martials/classes/ExpressionUtils.java:181-269 | the loop returns exactly `Legality`: the illegal pattern, then each turn's checks, then the missing truth value or bracket |
| LegacyParser.Turn | src/main/java/com/github/martials/classes/ExpressionUtils.java:203-259 | one turn of the loop (the operator count, then the brackets, then the neighbours) is exactly `LegalStep` |
| LegacyParser.TruthSeen | src/main/java/com/github/martials/classes/ExpressionUtils.java:235-237 | a truth value was seen exactly when some character so far is neither an operator nor a bracket |
| LegacyParser.ReachedBounds | src/main/java/com/github/martials/classes/ExpressionUtils.java:205-233 | a scan that gets through n characters has counted at most 9 operators and closed every bracket correctly |
| LegacyParser.LegalityReports | src/main/java/com/github/martials/classes/ExpressionUtils.java:181-269 | the result is "", "Expression too big", or an illegal- or missing-character message |
| LegacyParser.MismatchedClose | src/main/java/com/github/martials/classes/ExpressionUtils.java:226-233 | a closing bracket that does not match the open one reports an illegal character at its index; with nothing open the pop throws |
| LegacyParser.MisplacedNegation | src/main/java/com/github/martials/classes/ExpressionUtils.java:242-246 | a `¬` after something other than an operator or `(`, or last, reports an illegal character at its index |
| LegacyParser.TenthOperator | src/main/java/com/github/martials/classes/ExpressionUtils.java:205-210 | a tenth counted operator gives "Expression too big" |
| LegacyParser.EndOfInput | src/main/java/com/github/martials/classes/ExpressionUtils.java:261-268 | without a truth value the message is missing `A` at the length; an open bracket gives a missing `)` or `]` matching it; otherwise the result is "" |
| LegacyParser.LegalExpressionShape | src/main/java/com/github/martials/classes/ExpressionUtils.java:181-269 | "" is returned exactly when the pattern does not match, the scan reaches the end, a truth value was seen and every bracket is closed; then at most 9 operators were counted |
| TruthTables.Pow2 | src/main/java/com/github/martials/expressions/TruthTable.java:37 | 2^n is at least one |
| TruthTables.HelperRow | src/main/java/com/github/martials/expressions/TruthTable.java:36-58 | helper row r lists the cells of the n columns at row r |
| TruthTables.HelperRowsDistinct | src/main/java/com/github/martials/expressions/TruthTable.java:36-58 | distinct helper rows are distinct combinations |
| TruthTables.HelperRowsComplete | src/main/java/com/github/martials/expressions/TruthTable.java:36-58 | every combination of n truth values is a helper row |
| TruthTables.FillColumn | src/main/java/com/github/martials/expressions/TruthTable.java:44-54 | the inner loop fills column k with true exactly where ⌊r / 2^(n-1-k)⌋ is even, and leaves the other columns |
| TruthTables.HelperMatrix | src/main/java/com/github/martials/expressions/TruthTable.java:36-58 | the matrix has n columns of 2^n cells, and cell (k, r) is true exactly when ⌊r / 2^(n-1-k)⌋ is even |
| TruthTables.FindFirst | src/main/java/com/github/martials/expressions/TruthTable.java:132-140 | the first index whose expression equals the one sought, with the chosen revision's `equals`, or -1 exactly when there is none |
| TruthTables.FindExp | src/main/java/com/github/martials/expressions/TruthTable.java:132-140 | the search loop returns that index |
| TruthTables.FindAsWrittenCrossMatch | src/main/java/com/github/martials/expressions/TruthTable.java:132-140 | in `[A, B, C, C ⋀ A, A ⋀ B, …]` the search for `A ⋀ B` stops at index 3 (`C ⋀ A`) as written and at index 4 corrected |
| TruthTables.Advance | src/main/java/com/github/martials/expressions/TruthTable.java:85-89 | the atom index advances modulo n, and the combination advances modulo 2^n each time the atom index wraps |
| TruthTables.AdvanceWraps | src/main/java/com/github/martials/expressions/TruthTable.java:85-89 | the cursor step is the pair of modular increments: the atom index modulo n, and the combination modulo 2^n when the atom index wraps to 0 |
| TruthTables.Blank | src/main/java/com/github/martials/expressions/TruthTable.java:70 | a new row is all false |
| TruthTables.ColumnSpec | src/main/java/com/github/martials/expressions/TruthTable.java:76-104 | the cursor handed on by a column stays within the helper matrix |
| TruthTables.ColumnValue | src/main/java/com/github/martials/expressions/TruthTable.java:76-104 | one column of create computes that value, or fails (an exception) where a child is missing or not found |
| TruthTables.FillRow | src/main/java/com/github/martials/expressions/TruthTable.java:74-104 | the column loop computes exactly the row `RowFrom` defines, starting from a blank row |
| TruthTables.FillTable | src/main/java/com/github/martials/expressions/TruthTable.java:72-127 | the row loop fails exactly when some row throws (`RowsFrom` is `None`); otherwise its non-null rows are the shown rows in the arranged order |
| TruthTables.RowsFrom | src/main/java/com/github/martials/expressions/TruthTable.java:72-104 | the rows from `row` on number 2^n - row, each as wide as the list |
| TruthTables.PlaceRow | src/main/java/com/github/martials/expressions/TruthTable.java:106-122 | the kept rows so far stay in the arranged order after the row is hidden, stored or bubbled up |
| TruthTables.BubbleUp | src/main/java/com/github/martials/expressions/TruthTable.java:115-121 | the row moves up past every null row and every row of the other value, which shift down by one, and stops at the top or under a row of its own value; the rows above and below are unchanged |
| TruthTables.RaiseRow | src/main/java/com/github/martials/expressions/TruthTable.java:113-121 | a stored row whose last cell comes first is bubbled up, after which the non-null rows up to it are the arrangement of the kept rows followed by it, and the rows below are untouched |
| TruthTables.NonNullRows | src/main/java/com/github/martials/expressions/TruthTable.java:127 | the filter keeps the non-null rows in order |
| TruthTables.Create | src/main/java/com/github/martials/expressions/TruthTable.java:61-129 | create returns exactly `Table`: nothing without an atomic, otherwise the rows filled, hidden and arranged |
| TruthTables.ShownCount | src/main/java/com/github/martials/expressions/TruthTable.java:106-109 | hiding removes every copy of a hidden row and no other row |
| TruthTables.ArrangedShown | src/main/java/com/github/martials/expressions/TruthTable.java:106-127 | the result holds every row that is not hidden, as often as before, and no hidden row |
| TruthTables.TableNeedsAtomic | src/main/java/com/github/martials/expressions/TruthTable.java:63-72 | create succeeds only when there is an atomic entry, so at least one unique atomic |
| TruthTables.TableHides | src/main/java/com/github/martials/expressions/TruthTable.java:106-127 | Hide.TRUE (FALSE) removes exactly the rows whose last column is true (false); with Hide.NONE every one of the 2^n rows stays |
| TruthTables.ArrangedGroups | src/main/java/com/github/martials/expressions/TruthTable.java:113-122 | the first-value rows come first, and each group keeps its order |
| TruthTables.TableSorted | src/main/java/com/github/martials/expressions/TruthTable.java:113-122 | Sort.TRUE_FIRST (FALSE_FIRST) puts the true (false) rows first keeping order within each group; Sort.DEFAULT keeps the order |
| TruthTables.RowFromColumns | src/main/java/com/github/martials/expressions/TruthTable.java:91-104 | filling a row keeps the cells already filled and makes every column hold |
| TruthTables.RowsFromColumns | src/main/java/com/github/martials/expressions/TruthTable.java:72-104 | every computed row satisfies every column |
| TruthTables.TableColumns | src/main/java/com/github/martials/expressions/TruthTable.java:91-111 | in every row of the table a negated atomic is the complement of its twin, or true without one, and a compound is solve over its children, both present |
| TruthTables.CursorAt | src/main/java/com/github/martials/expressions/TruthTable.java:82-89 | the cursor stays within the helper matrix |
| TruthTables.RowFromPlain | src/main/java/com/github/martials/expressions/TruthTable.java:81-90 | the k-th plain atomic of row r reads helper cell (k, r), and the row hands on the cursor of row r + 1 |
| TruthTables.RowsFromPlain | src/main/java/com/github/martials/expressions/TruthTable.java:72-90 | the plain atomics of row i read helper row i |
| TruthTables.AllRowsEnumerate | src/main/java/com/github/martials/expressions/TruthTable.java:63-90 | with one plain column per unique atomic, there are 2^n rows that give the atomics every combination of truth values, each once |
| TruthTables.MapToStrings | src/main/java/com/github/martials/utils/StringUtils.java:63-70 | no table gives null; otherwise one rendering per expression, in order |

## Left out

- Logging (`log.debug`) and the Java `assert` statements have no effect on results and are not modelled.
- The regular expression that `isValid` in `utils/ExpressionUtils.java` tests first is not modelled. Its outcome is the parameter `illegal` of `Parser.IsValid` and `Parser.Simplify`: `None` when it does not match, and otherwise the illegal text and index that it reports. The older `isLegalExpression` regex is small, and it is modelled exactly (`LegacyParser.IllegalPattern`).
- The case-sensitivity flag that `simplifyRec` sets on every node is not read by any code in `Expression.java`. It is not part of this model.
- `associativeProperty` is an empty method. Only its place in `laws()` is modelled.
- Nodes are values, not shared objects. A law returns a new node rather than updating `this`, so aliasing between nodes is not modelled. The identity test at the top of `equals` (`this == other`) becomes value equality: two distinct wrapper nodes (no operator) with equal fields are equal in the model, while Java, which compares children only when `operator != null`, finds them unequal. `findExp` tests the last expression by reference (`exp == expressions[last]`). The model tests it by its position as the last entry.
- TruthTables.HelperMatrix: follows the code, which returns a matrix with no columns for 0 atomics and, for a negative count, fails with `NegativeArraySizeException` (the model takes a `nat`). `TruthTableTest.java:30-34` expects `IllegalArgumentException` for -1 and 0, which no line of `helperMatrix` throws; the model does not add that check.
- `Math.pow(2, n)` cast to `int` overflows for 31 or more unique atomics. `TruthTables.Pow2` is the unbounded power.
- `create` hides and sorts a row on the column loop's turn for the last expression, which is also the loop's last turn. The model does this right after the column loop. The row, the array writes and the order of the rows are the same.
- `StringUtils.mapToStrings` takes an array. The model takes the rows as a sequence.
- Strings.CapitalizeFirstLetter: upper-cases ASCII letters only, because Java's full Unicode case mapping is not modelled.
- The legacy `simplifyRec` in `classes/ExpressionUtils.java` and its operator replacement are not modelled. It builds nodes with the helpers modelled in `LegacyParser`, which differ from the newer ones: its `isAtomic` accepts one character only, its `getCenterOperatorIndex` crashes on a string ending with `)`, and its `isOuterParentheses` reads past the end (Findings). Its results on inputs those helpers accept are not stated.
- `classes/Operator.java` holds the same operator table as `expressions/Operator.java`. Both are modelled once, by `OperatorTable`.
- The two `StringUtils.java` files share `numberOfChar`, `capitalizeFirstLetter` and `mapToStrings`, which `Strings` and `TruthTables.MapToStrings` model once. They differ in `replaceOperators` (one replaces by each operator's regex, the other by its input spelling) and in their imports; `replaceOperators` is not modelled, and inputs are taken after it.
- Parser.MoveUpSound: states both directions only for a node without a right child. The other two move-up cases keep the value only when the dropped node is not negated, which is stated one way.
- TruthTables.AllRowsEnumerate: requires one plain (un-negated atomic) column per unique atomic. The negated-only case is covered by `TruthTables.TableColumns` instead.
- Laws.DoubleNegationSound: holds only for trees whose `¬` signs stand in front of any `(` in `leading`. `Laws.DoubleNegationLeadingNeedsSignsUpFront` shows that the law changes the parity otherwise.
- Laws.DeMorgansLawsSound: holds only where the law does not merge two negated children under a node that is itself negated, and does not push a sign into an implication (`DeMorganSafe`). In the first case `deMorgansLaws` sets `leading` to `¬(` and drops the node's own sign. In the second case `setNot` treats the implication like AND and OR.
- Laws.DistributivePropertySound: is proved, as written, only when the four grandchildren are atoms whose shared names carry the same sign and both children are un-negated groups of the flipped operator, the case the law's examples show. Outside that case the law as written changes the meaning of inputs it rewrites: `(A ⋀ B) ⋁ (A ⋁ C)` and `(A ⋀ B) ⋁ (¬A ⋀ C)` (Findings). The corrected revision is sound for every tree (`Laws.DistributiveCorrectedSound`).
- Laws.AbsorptionOfCompoundSound: covers only the branch that drops the compound child. The other branches of `removeRedundant` are covered by their own lemmas below.
- Laws.AbsorptionOfCompoundsSound: needs equal compound children to stand under AND or OR, and the node and its left child not to be both negated. An implication node never reaches `absorptionLaw` in `laws()`, which eliminates implications first (Expression.java:164). `removeRight` gives a negated node's child a single `¬` even when that child was negated already (`Laws.RemoveRightValue`).
- Laws.AbsorptionOfEqualCompoundsSound: the same two conditions as `Laws.AbsorptionOfCompoundsSound`, for the same reasons.
- Laws.RemoveRedundant: the truth value is shown kept in the contradiction, absorption, repeated-operand and complementary-operand branches only. The branches that act on the operand's opposite (`equalsAndOpposite` at Expression.java:537-538 and 545) change the meaning: `A ⋀ (¬A ⋁ B)` becomes `A ⋀ ¬A` (`Laws.RemoveRedundantKeepsOpposite`). What the authors meant there depends on the operators and is not evident, so the model keeps the code as written and lists no corrected version.
- Parser.Build: the truth value of the built tree is related to the plain parse only without the laws and in the corrected revision. With the laws, it holds only as far as each law's own soundness lemma does.
- Parser.BuildCut: with the laws, or as written, only well-formedness and the growing trace are stated; when it fails is not stated, for the same reason as `Parser.Build`.
- Parser.BuildRight: the same as `Parser.BuildCut`, for the right half and the joining node.
- Parser.Join: with the laws, failure is stated for absorption's null dereference only; the failures of the moving up of nodes after the laws (`Parser.Rearrange`) are not characterised, and as written without the laws only well-formedness and the growing trace are stated.
- Expressions.ToString: no parse round trip is proved for a rendering. The layout is stated node by node by `Expressions.ToStringLayout` and the operator count by `Expressions.ToStringWritesOperators`.
- Strings.CompareTo: compares Unicode scalar values, where Java's `compareTo` compares UTF-16 code units. The two orders differ when a character above U+FFFF meets one between U+E000 and U+FFFF (U+1F600 sorts after U+FF5E here and before it in Java). String indices in `isValid` messages likewise count scalar values, not UTF-16 units, after such a character.

## Findings

| source | as written | input that shows it | evidently intended | confidence | as-written member | corrected member |
|---|---|---|---|---|---|---|
| src/main/java/com/github/martials/expressions/Expression.java:98-99 | the crossed comparison of `equals` tests only `left` against `other.right`, so it matches two nodes that share one operand | `A ⋀ B` against `C ⋀ A`: equal one way and not the other, with different truth values | both crossed pairs match, and only under AND and OR, since the operands of an implication cannot be exchanged; equality is then symmetric and keeps the truth value | not executed | Expressions.EqualsAsWrittenCrossMatch | Expressions.EqualsSound |
| src/main/java/com/github/martials/expressions/Expression.java:379-388 | `commutativeProperty` swaps atomic operands whatever the operator | `B ➔ A` becomes `A ➔ B` | swap only under AND and OR | not executed | Laws.CommutativeAsWrittenSwapsImplication | Laws.CommutativePropertySound |
| src/main/java/com/github/martials/utils/ExpressionUtils.java:106-117 | the center index is computed after `getCenterOperatorIndex` strips the outer parentheses a second time, but the string cut is stripped only once | `((A⋀B))`: index 1 of `A⋀B`, cut in `(A⋀B)` where index 1 holds `A` | cut the string the index was computed in | not executed | Parser.SplitAsWrittenMissesOperator | Parser.SplitPoint |
| src/main/java/com/github/martials/utils/ExpressionUtils.java:101-104 | peeling a sign in front of outer parentheses removes every `¬` in the string | `¬(¬A⋀B)` peels to `¬` and `(A⋀B)` | remove the leading sign only | not executed | Parser.PeelAsWrittenLosesSign | Parser.PeelCorrectedKeepsSigns |
| src/main/java/com/github/martials/classes/ExpressionUtils.java:302 | the depth scan of `isOuterParentheses` has no bound check, so it reads past the last `)` | `(A⋀B)` | stop at the end of the string, as the newer revision does | not executed | LegacyParser.OuterParenthesesCrashExample | Parser.IsOuterParentheses |
| src/main/java/com/github/martials/classes/ExpressionUtils.java:131-144 | after skipping a group that ends the string, `getCenterOperatorIndex` reads the character at the length | `A⋀(B)` | test the index before reading, as the newer revision does | not executed | LegacyParser.CenterCrashExample | Parser.GetCenterOperatorIndex |
| src/main/java/com/github/martials/expressions/Expression.java:461-470 | when two children share their operands, the OR child is kept whatever the node's operator | `(A ⋁ B) ⋀ (B ⋀ A)` becomes `A ⋁ B`, true where the input is false | keep the child whose operator is the node's, as in `(A ⋁ B) ⋁ (A ⋀ B)` to `A ⋁ B` | not executed | Laws.AbsorptionAsWrittenKeepsOrChild | Laws.AbsorptionOfCoveringCompoundSound |
| src/main/java/com/github/martials/expressions/Expression.java:472-481 | an operand shared by two children with the node's operator is dropped from the right child although a child is negated | `¬(A ⋁ B) ⋁ (A ⋁ C)` becomes `¬(A ⋁ B) ⋁ C`, false where the input is true | drop it only when neither child is negated and the node is AND or OR, as in `(A ⋁ B) ⋁ (A ⋁ C)` to `(A ⋁ B) ⋁ C` | not executed | Laws.AbsorptionAsWrittenSharedIgnoresSign | Laws.AbsorptionOfSharedOperandSound |
| src/main/java/com/github/martials/expressions/Expression.java:230-231 | distributivity tests only that the left child's operator differs from the node's, not that the right child carries the same operator nor that the children are un-negated | `(A ⋀ B) ⋁ (A ⋁ C)` becomes `A ⋀ (B ⋁ C)`, false where the input is true (C alone true) | factor only an AND or OR node over two un-negated children that both carry the other operator | not executed | Laws.DistributiveMixedOperatorsChangesMeaning | Laws.DistributiveCorrectedSound |
| src/main/java/com/github/martials/expressions/Expression.java:233-239 | the shared operand is found by the name of its leftmost atom, which ignores its signs | `(A ⋀ B) ⋁ (¬A ⋀ C)` becomes `A ⋀ (B ⋁ C)`, false where the input is true (C alone true) | factor only an operand that `equals` one on the other side | not executed | Laws.DistributiveIgnoresSign | Laws.DistributiveCorrectedSound |

=== FILE: enums.dfy ===
/** The small value types shared by the simplifier and the truth table. */
module Enums {
  import opened Operators

  /** The language of the law names in the trace. */
  datatype Language = NorwegianBokmaal | English

  /** Which rows of the truth table to hide, by the value of the last column. */
  datatype Hide = HideNone | HideTrue | HideFalse

  /** How to order the rows of the truth table, by the value of the last column. */
  datatype Sort = Default | TrueFirst | FalseFirst

  /** One step of the simplification trace: the rendering before and after a law, and the law's name. */
  datatype OrderOperations = OrderOperations(before: string, after: string, law: string)

  /** The operator the parser splits on, and its index in the string it scanned. */
  datatype CenterOperator = CenterOperator(operator: Op, index: nat)
}

=== FILE: expression.dfy ===
/**
 * The expression tree of `Expression.java` as a value: a node is either an
 * atomic leaf (its `atomic` name is set) or a `left`/`operator`/`right`
 * node, and it carries a `leading` marker (negation signs and an opening
 * parenthesis) and a `trailing` marker (a closing parenthesis). Negation is
 * the parity of the negation signs in `leading`.
 */
module Expressions {
  import opened Optional
  import opened Strings
  import opened Operators

  /** The Java object's nullable fields; `None` is `null`. The operator is never NOT. */
  datatype Expr = Expr(leading: string, left: Option<Expr>, operator: Option<BinaryOp>,
                       right: Option<Expr>, trailing: string, atomic: Option<string>)

  /** `new Expression()` with only an atomic name. */
  function Atom(leading: string, name: string): Expr
  {
    Expr(leading, None, None, None, "", Some(name))
  }

  /** `new Expression(left, operator, right)`. */
  function Node(l: Expr, op: BinaryOp, r: Expr): Expr
  {
    Expr("", Some(l), Some(op), Some(r), "", None)
  }

  /** `new Expression(left)`: a node with only a left child. */
  function Wrap(l: Expr): Expr
  {
    Expr("", Some(l), None, None, "", None)
  }

  predicate IsAtomic(e: Expr)
  {
    e.atomic.Some?
  }

  /**
   * The shape every constructor and law keeps: a leaf has no children and no
   * operator; an inner node has a left child, and an operator exactly when it
   * has a right child.
   */
  predicate Valid(e: Expr)
  {
    if e.atomic.Some? then e.left.None? && e.operator.None? && e.right.None?
    else e.left.Some? && (e.operator.Some? <==> e.right.Some?) &&
         Valid(e.left.value) && (e.right.Some? ==> Valid(e.right.value))
  }

  /** isInverse: an odd number of negation signs in `leading`. */
  predicate IsInverse(e: Expr)
  {
    CountChar(e.leading, NOT) % 2 == 1
  }

  /** removeNot: every negation sign dropped from `leading`. */
  function RemoveNot(e: Expr): (r: Expr)
    ensures !IsInverse(r) && CountChar(r.leading, NOT) == 0
    ensures r.left == e.left && r.operator == e.operator && r.right == e.right && r.atomic == e.atomic
  {
    RemoveAllCounts(e.leading, NOT, NOT);
    e.(leading := RemoveAll(e.leading, NOT))
  }

  /** The same node with `leading` and `trailing` emptied, as comparePositiveEquals builds it. */
  function Positive(e: Expr): (r: Expr)
    ensures !IsInverse(r) && r.leading == [] && r.trailing == []
    ensures r.left == e.left && r.operator == e.operator && r.right == e.right && r.atomic == e.atomic
  {
    Expr("", e.left, e.operator, e.right, "", e.atomic)
  }

  /**
   * The truth value of a well-formed tree under an assignment of the atomic
   * names: the operator's truth function over the children (a node with only
   * a left child has the child's value), negated when the node is inverse.
   */
  function Value(e: Expr, env: string -> bool): bool
    requires Valid(e)
  {
    var v :=
      if e.atomic.Some? then env(e.atomic.value)
      else if e.right.None? then Value(e.left.value, env)
      else Test(e.operator.value, Value(e.left.value, env), Value(e.right.value, env));
    v != IsInverse(e)
  }

  /** toString: `leading`, then the name of a leaf or the children around ` op `, then `trailing`. */
  function ToString(e: Expr): (r: string)
    ensures e.leading <= r
    ensures !IsAtomic(e) ==> |e.trailing| <= |r| && r[|r| - |e.trailing|..] == e.trailing
    ensures IsAtomic(e) ==> r == e.leading + e.atomic.value
  {
    if e.atomic.Some? then e.leading + e.atomic.value
    else
      var body := (if e.left.Some? then ToString(e.left.value) else "")
                  + (if e.operator.Some? then " " + Operators.OperatorString(e.operator.value) + " " else "")
                  + (if e.right.Some? then ToString(e.right.value) else "");
      assert (e.leading + body + e.trailing)[..|e.leading|] == e.leading;
      e.leading + body + e.trailing
  }

  /**
   * The layout toString gives a well-formed inner node: its markers around
   * the left child's rendering, then, when there is a right child, the
   * operator's symbol between two spaces and the right child's rendering.
   */
  lemma ToStringLayout(e: Expr)
    requires Valid(e) && !IsAtomic(e)
    ensures e.right.Some? ==>
              ToString(e) == e.leading + ToString(e.left.value) + " " + [Symbol(e.operator.value)] + " " + ToString(e.right.value) + e.trailing
    ensures e.right.None? ==> ToString(e) == e.leading + ToString(e.left.value) + e.trailing
  {
    var l := ToString(e.left.value);
    if e.right.Some? {
      var sym := " " + OperatorString(e.operator.value) + " ";
      assert e.leading + (l + sym + ToString(e.right.value)) + e.trailing ==
             e.leading + l + " " + [Symbol(e.operator.value)] + " " + ToString(e.right.value) + e.trailing;
    } else {
      assert e.leading + (l + "" + "") + e.trailing == e.leading + l + e.trailing;
    }
  }

  /** The number of nodes of `e` that carry the operator `o`. */
  function NodesWith(e: Expr, o: BinaryOp): nat
  {
    (if e.operator == Some(o) then 1 else 0) +
    (if e.left.Some? then NodesWith(e.left.value, o) else 0) +
    (if e.right.Some? then NodesWith(e.right.value, o) else 0)
  }

  /** No name and no marker of `e` holds the character `c`. */
  predicate FreeOf(e: Expr, c: char)
  {
    c !in e.leading && c !in e.trailing && (e.atomic.Some? ==> c !in e.atomic.value) &&
    (e.left.Some? ==> FreeOf(e.left.value, c)) && (e.right.Some? ==> FreeOf(e.right.value, c))
  }

  /** Counting over the seven pieces of a rendered inner node. */
  lemma CountPieces(a: string, b: string, c: string, d: string, e: string, f: string, g: string, ch: char)
    ensures CountChar(a + b + c + d + e + f + g, ch) ==
            CountChar(a, ch) + CountChar(b, ch) + CountChar(c, ch) + CountChar(d, ch) +
            CountChar(e, ch) + CountChar(f, ch) + CountChar(g, ch)
  {
    CountCharAppend(a, b, ch);
    CountCharAppend(a + b, c, ch);
    CountCharAppend(a + b + c, d, ch);
    CountCharAppend(a + b + c + d, e, ch);
    CountCharAppend(a + b + c + d + e, f, ch);
    CountCharAppend(a + b + c + d + e + f, g, ch);
  }

  /**
   * toString writes an operator's symbol once for every node that carries
   * it: when no name or marker holds the symbol, the rendering holds it
   * exactly as often as the tree has such nodes.
   */
  lemma {:induction false} ToStringWritesOperators(e: Expr, o: BinaryOp)
    requires Valid(e) && FreeOf(e, Symbol(o))
    ensures CountChar(ToString(e), Symbol(o)) == NodesWith(e, o)
  {
    if e.atomic.Some? {
      var c := Symbol(o);
      CountCharPositive(e.leading, c);
      CountCharPositive(e.atomic.value, c);
      CountCharAppend(e.leading, e.atomic.value, c);
    } else {
      ToStringWritesOperators(e.left.value, o);
      if e.right.Some? {
        ToStringWritesOperators(e.right.value, o);
      }
      CountNode(e, o);
    }
  }

  /** One inner node adds its own symbol, if it is `o`'s, to its children's counts. */
  lemma CountNode(e: Expr, o: BinaryOp)
    requires Valid(e) && !IsAtomic(e) && Symbol(o) !in e.leading && Symbol(o) !in e.trailing
    requires CountChar(ToString(e.left.value), Symbol(o)) == NodesWith(e.left.value, o)
    requires e.right.Some? ==> CountChar(ToString(e.right.value), Symbol(o)) == NodesWith(e.right.value, o)
    ensures CountChar(ToString(e), Symbol(o)) == NodesWith(e, o)
  {
    var c := Symbol(o);
    CountCharPositive(e.leading, c);
    CountCharPositive(e.trailing, c);
    ToStringLayout(e);
    var l := ToString(e.left.value);
    if e.right.Some? {
      SymbolCount(e.operator.value, o);
      CountPieces(e.leading, l, " ", [Symbol(e.operator.value)], " ", ToString(e.right.value), e.trailing, c);
    } else {
      CountCharAppend(e.leading, l, c);
      CountCharAppend(e.leading + l, e.trailing, c);
    }
  }

  /** The separators of a rendered node hold no symbol, and the operator's symbol is `o`'s only for `o`. */
  lemma SymbolCount(op: Op, o: Op)
    ensures CountChar(" ", Symbol(o)) == 0
    ensures CountChar([Symbol(op)], Symbol(o)) == if op == o then 1 else 0
  {
    assert [Symbol(op)][..0] == [] && " "[..0] == [];
    SymbolInjective(op, o);
  }

  // ---------------------------------------------------------------------
  // Equality

  /**
   * equals with the "regardless of order" match the documentation promises:
   * the children of an AND or OR node may match crosswise, both of them.
   * Java's identity test `this == other` is value equality here.
   */
  function Equals(a: Expr, b: Expr): (r: bool)
    decreases a, 1
    ensures a == b ==> r
    ensures r ==> IsAtomic(a) == IsAtomic(b) && IsInverse(a) == IsInverse(b)
    ensures r && IsAtomic(a) ==> a.atomic == b.atomic
  {
    a == b
    || (IsAtomic(a) && IsAtomic(b) && a.atomic == b.atomic && IsInverse(a) == IsInverse(b))
    || (!IsAtomic(a) && !IsAtomic(b) && a.operator.Some? && a.operator == b.operator && a.leading == b.leading &&
        ((ChildEquals(a.left, b.left) && ChildEquals(a.right, b.right))
         || (a.operator.value != Implication && ChildEquals(a.left, b.right) && ChildEquals(a.right, b.left))))
  }

  /** Objects.equals on two nullable children. */
  function ChildEquals(x: Option<Expr>, y: Option<Expr>): bool
    decreases x, 0
  {
    match x
    case None => y.None?
    case Some(xv) => y.Some? && Equals(xv, y.value)
  }

  /** equals as written: the crosswise match only compares this.left with other.right. */
  function EqualsAsWritten(a: Expr, b: Expr): (r: bool)
    decreases a, 1
    ensures a == b ==> r
    ensures r ==> IsAtomic(a) == IsAtomic(b) && IsInverse(a) == IsInverse(b)
    ensures r && IsAtomic(a) ==> a.atomic == b.atomic
  {
    a == b
    || (IsAtomic(a) && IsAtomic(b) && a.atomic == b.atomic && IsInverse(a) == IsInverse(b))
    || (!IsAtomic(a) && !IsAtomic(b) && a.operator.Some? && a.operator == b.operator && a.leading == b.leading &&
        ((ChildEqualsAsWritten(a.left, b.left) && ChildEqualsAsWritten(a.right, b.right))
         || ChildEqualsAsWritten(a.left, b.right)))
  }

  function ChildEqualsAsWritten(x: Option<Expr>, y: Option<Expr>): bool
    decreases x, 0
  {
    match x
    case None => y.None?
    case Some(xv) => y.Some? && EqualsAsWritten(xv, y.value)
  }

  /**
   * The two readings of the code that has defects (see the findings): as
   * written, and with the defects corrected.
   */
  datatype Revision = AsWritten | Corrected

  /** equals as the given revision reads it. */
  function EqualsIn(rev: Revision, a: Expr, b: Expr): bool
  {
    if rev == AsWritten then EqualsAsWritten(a, b) else Equals(a, b)
  }

  /** Objects.equals on two nullable children, with equals as the given revision reads it. */
  function ChildEqualsIn(rev: Revision, x: Option<Expr>, y: Option<Expr>): bool
  {
    if rev == AsWritten then ChildEqualsAsWritten(x, y) else ChildEquals(x, y)
  }

  /**
   * As written, equals holds between A ⋀ B and C ⋀ A, whose truth values
   * differ, and it is not symmetric; the corrected equality rejects the pair.
   */
  lemma EqualsAsWrittenCrossMatch()
    ensures var a := Node(Atom("", "A"), And, Atom("", "B"));
            var b := Node(Atom("", "C"), And, Atom("", "A"));
            var env := (name: string) => name != "B";
            EqualsAsWritten(a, b) && !EqualsAsWritten(b, a) && !Equals(a, b) &&
            Valid(a) && Valid(b) && Value(a, env) != Value(b, env)
  {
    var a := Node(Atom("", "A"), And, Atom("", "B"));
    var b := Node(Atom("", "C"), And, Atom("", "A"));
    assert EqualsAsWritten(Atom("", "A"), Atom("", "A"));
    assert !EqualsAsWritten(Atom("", "C"), Atom("", "A"));
    assert !EqualsAsWritten(Atom("", "C"), Atom("", "B"));
    assert !Equals(Atom("", "A"), Atom("", "C"));
    assert !Equals(Atom("", "B"), Atom("", "A"));
  }

  /** In both readings, two leaves are equal exactly when their names and negation parities agree. */
  lemma EqualsAtoms(rev: Revision, a: Expr, b: Expr)
    requires IsAtomic(a) && IsAtomic(b)
    ensures EqualsIn(rev, a, b) <==> a.atomic == b.atomic && IsInverse(a) == IsInverse(b)
  {
  }

  /** Equality is symmetric. */
  lemma {:induction false} EqualsSymmetric(a: Expr, b: Expr)
    ensures Equals(a, b) <==> Equals(b, a)
    decreases a
  {
    if !IsAtomic(a) && !IsAtomic(b) && a.operator.Some? && a.operator == b.operator && a.leading == b.leading {
      ChildEqualsSymmetric(a.left, b.left);
      ChildEqualsSymmetric(a.right, b.right);
      ChildEqualsSymmetric(a.left, b.right);
      ChildEqualsSymmetric(a.right, b.left);
    }
  }

  lemma {:induction false} ChildEqualsSymmetric(x: Option<Expr>, y: Option<Expr>)
    ensures ChildEquals(x, y) <==> ChildEquals(y, x)
    decreases x
  {
    if x.Some? && y.Some? {
      EqualsSymmetric(x.value, y.value);
    }
  }

  /** Equal trees have equal truth values under every assignment. */
  lemma {:induction false} EqualsSound(a: Expr, b: Expr, env: string -> bool)
    requires Valid(a) && Valid(b) && Equals(a, b)
    ensures Value(a, env) == Value(b, env)
    decreases a
  {
    if a != b && !IsAtomic(a) {
      var l, r := a.left.value, a.right.value;
      if ChildEquals(a.left, b.left) && ChildEquals(a.right, b.right) {
        EqualsSound(l, b.left.value, env);
        EqualsSound(r, b.right.value, env);
      } else {
        EqualsSound(l, b.right.value, env);
        EqualsSound(r, b.left.value, env);
      }
    }
  }

  /**
   * equalsAndOpposite: when one side is inverse, its positive form equals the
   * other side; otherwise same children under two different operators,
   * neither of them implication.
   */
  function EqualsAndOpposite(rev: Revision, a: Expr, b: Expr): (r: bool)
    ensures r ==> !(IsInverse(a) && IsInverse(b))
    ensures r && Valid(a) && Valid(b) && IsAtomic(a) ==> IsAtomic(b) && a.atomic == b.atomic && IsInverse(a) != IsInverse(b)
    ensures r && !IsInverse(a) && !IsInverse(b) ==> a.operator != b.operator
  {
    if IsInverse(a) then EqualsIn(rev, Positive(a), b)
    else if IsInverse(b) then EqualsIn(rev, Positive(b), a)
    else ChildEqualsIn(rev, a.left, b.left) && ChildEqualsIn(rev, a.right, b.right) && a.operator != b.operator &&
         a.operator != Some(Implication) && b.operator != Some(Implication)
  }

  /** In both readings, two leaves are opposite exactly when they share a name and differ in negation. */
  lemma EqualsAndOppositeAtoms(rev: Revision, a: Expr, b: Expr)
    requires Valid(a) && Valid(b) && IsAtomic(a) && IsAtomic(b)
    ensures EqualsAndOpposite(rev, a, b) <==> a.atomic == b.atomic && IsInverse(a) != IsInverse(b)
  {
    if IsInverse(a) {
      EqualsAtoms(rev, Positive(a), b);
    } else if IsInverse(b) {
      EqualsAtoms(rev, Positive(b), a);
    }
  }

  /** In both readings, no expression is the opposite of itself. */
  lemma EqualsAndOppositeIrreflexive(rev: Revision, e: Expr)
    ensures !EqualsAndOpposite(rev, e, e)
  {
    if IsInverse(e) {
      CountCharPositive(e.leading, NOT);
      assert Positive(e) != e;
    }
  }

  /** When a negation is involved, opposite trees have opposite truth values. */
  lemma EqualsAndOppositeSound(a: Expr, b: Expr, env: string -> bool)
    requires Valid(a) && Valid(b) && (IsInverse(a) || IsInverse(b))
    requires EqualsAndOpposite(Corrected, a, b)
    ensures Value(a, env) != Value(b, env)
  {
    if IsInverse(a) {
      EqualsSound(Positive(a), b, env);
    } else {
      EqualsSound(Positive(b), a, env);
    }
  }

  // ---------------------------------------------------------------------
  // Atoms

  /** The names of the leaves, left to right. */
  function Leaves(e: Expr): (r: seq<string>)
    requires Valid(e)
    ensures |r| >= 1
  {
    if e.atomic.Some? then [e.atomic.value]
    else Leaves(e.left.value) + (if e.right.Some? then Leaves(e.right.value) else [])
  }

  /** findAtomicValue: follow left children down to a leaf. */
  function FindAtomicValue(e: Expr): (r: string)
    requires Valid(e)
    ensures r in Leaves(e)
  {
    if e.atomic.Some? then e.atomic.value else FindAtomicValue(e.left.value)
  }

  /** findAtomicValue returns the leftmost leaf's name. */
  lemma {:induction false} FindAtomicValueIsFirstLeaf(e: Expr)
    requires Valid(e)
    ensures FindAtomicValue(e) == Leaves(e)[0]
  {
    if e.atomic.None? {
      FindAtomicValueIsFirstLeaf(e.left.value);
    }
  }

  /** getNumberOfAtomics: zero for null, one for a leaf, otherwise the sum over both children. */
  function NumberOfAtomics(x: Option<Expr>): (r: nat)
    ensures x.Some? && Valid(x.value) ==> r >= 1
    ensures x.Some? && Valid(x.value) && IsAtomic(x.value) ==> r == 1
  {
    match x
    case None => 0
    case Some(e) => if e.atomic.Some? then 1 else NumberOfAtomics(e.left) + NumberOfAtomics(e.right)
  }

  /** getNumberOfAtomics counts the leaves. */
  lemma {:induction false} NumberOfAtomicsIsLeafCount(e: Expr)
    requires Valid(e)
    ensures NumberOfAtomics(Some(e)) == |Leaves(e)| >= 1
  {
    if e.atomic.None? {
      NumberOfAtomicsIsLeafCount(e.left.value);
      if e.right.Some? {
        NumberOfAtomicsIsLeafCount(e.right.value);
      }
    }
  }

  /**
   * solve: the node's operator applied to the two given values, false for a
   * missing operator, negated when the node is inverse.
   */
  function Solve(e: Expr, l: bool, r: bool): (res: bool)
    ensures e.operator.Some? ==> res == (Test(e.operator.value, l, r) != IsInverse(e))
    ensures e.operator.None? ==> res == IsInverse(e)
  {
    var result :=
      if e.operator == Some(And) then l && r
      else if e.operator == Some(Or) then l || r
      else if e.operator == Some(Implication) then !l || r
      else false;
    if IsInverse(e) then !result else result
  }

  /** On a node with two children, solve over the children's values is the node's value. */
  lemma SolveIsValue(e: Expr, env: string -> bool)
    requires Valid(e) && e.right.Some?
    ensures Value(e, env) == Solve(e, Value(e.left.value, env), Value(e.right.value, env))
  {
  }
}

=== FILE: laws.dfy ===
/**
 * The rewrite laws of `Expression.java`. Each law that updates a node in
 * place is a function from the old node to the new one; the trace of
 * before/after/law records and the language of the law names are explicit
 * parameters instead of a static list and a global setting.
 */
module Laws {
  import opened Optional
  import opened Strings
  import opened Operators
  import opened Enums
  import opened Expressions

  // ---------------------------------------------------------------------
  // The trace

  /**
   * A run of trace records that leads from rendering `from` to rendering
   * `to`: each record starts where the previous one ended, and each one is a
   * real change.
   */
  ghost predicate Chain(steps: seq<OrderOperations>, from: string, to: string)
  {
    if steps == [] then from == to
    else steps[0].before == from && steps[0].before != steps[0].after && Chain(steps[1..], steps[0].after, to)
  }

  /** Two chains that meet join into one. */
  lemma {:induction false} ChainConcat(s1: seq<OrderOperations>, s2: seq<OrderOperations>, a: string, b: string, c: string)
    requires Chain(s1, a, b) && Chain(s2, b, c)
    ensures Chain(s1 + s2, a, c)
  {
    if s1 != [] {
      ChainConcat(s1[1..], s2, s1[0].after, b, c);
      assert (s1 + s2)[1..] == s1[1..] + s2;
    } else {
      assert s1 + s2 == s2;
    }
  }

  /** A trace extended by a chain: the old trace is kept and the new records lead from `from` to `to`. */
  ghost predicate Extends(trace': seq<OrderOperations>, trace: seq<OrderOperations>, from: string, to: string)
  {
    |trace| <= |trace'| && trace'[..|trace|] == trace && Chain(trace'[|trace|..], from, to)
  }

  /** Extensions compose. */
  lemma ExtendsTrans(t1: seq<OrderOperations>, t2: seq<OrderOperations>, t3: seq<OrderOperations>, a: string, b: string, c: string)
    requires Extends(t2, t1, a, b) && Extends(t3, t2, b, c)
    ensures Extends(t3, t1, a, c)
  {
    assert t3[|t1|..] == t2[|t1|..] + t3[|t2|..] by {
      assert t3[..|t2|] == t2;
    }
    ChainConcat(t2[|t1|..], t3[|t2|..], a, b, c);
  }

  /**
   * isChangedThenAdd: when the node no longer renders as `exp`, append
   * (exp, new rendering, law). The returned string is always the current
   * rendering.
   */
  function IsChangedThenAdd(e: Expr, exp: string, law: string, trace: seq<OrderOperations>): (r: (string, seq<OrderOperations>))
    ensures r.0 == ToString(e)
    ensures Extends(r.1, trace, exp, ToString(e))
    ensures |r.1| == |trace| + (if exp == ToString(e) then 0 else 1)
    ensures forall k :: |trace| <= k < |r.1| ==> r.1[k].law == law
  {
    if exp != ToString(e) then
      var t := trace + [OrderOperations(exp, ToString(e), law)];
      assert t[|trace|..] == [OrderOperations(exp, ToString(e), law)];
      (ToString(e), t)
    else
      assert trace[|trace|..] == [];
      (exp, trace)
  }

  // ---------------------------------------------------------------------
  // Negation signs and values

  /** Relabelling `leading`/`trailing` only changes the value through the parity. */
  lemma ValueRelabel(e: Expr, e': Expr, env: string -> bool)
    requires Valid(e)
    requires e'.left == e.left && e'.operator == e.operator && e'.right == e.right && e'.atomic == e.atomic
    ensures Valid(e')
    ensures Value(e', env) == (Value(e, env) == (IsInverse(e) == IsInverse(e')))
  {
  }

  /** Validity does not depend on `leading` or `trailing`. */
  lemma ValidRelabel(e: Expr, e': Expr)
    requires Valid(e)
    requires e'.left == e.left && e'.operator == e.operator && e'.right == e.right && e'.atomic == e.atomic
    ensures Valid(e')
  {
  }

  /** One more negation sign flips the parity. */
  lemma OneMoreSignFlips(x: string, y: string)
    requires CountChar(y, NOT) == CountChar(x, NOT) + 1
    ensures (CountChar(y, NOT) % 2 == 1) != (CountChar(x, NOT) % 2 == 1)
  {
  }

  /** One negation sign in front adds one to the count. */
  lemma CountNotPrepend(x: string)
    ensures CountChar([NOT] + x, NOT) == CountChar(x, NOT) + 1
  {
    CountCharAppend([NOT], x, NOT);
    assert [NOT][..0] == [];
  }

  /** A parenthesis at the end does not change the count. */
  lemma CountNotAppendParen(x: string, p: char)
    requires p != NOT
    ensures CountChar(x + [p], NOT) == CountChar(x, NOT)
  {
    assert (x + [p])[..|x|] == x;
  }

  // ---------------------------------------------------------------------
  // Elimination of implication

  predicate IsImplicationNode(e: Expr)
  {
    e.left.Some? && e.right.Some? && e.operator == Some(Implication)
  }

  /** Add `(` to `leading` and `)` to `trailing` where they are missing. */
  function Parenthesize(x: Expr): (r: Expr)
    ensures r.left == x.left && r.operator == x.operator && r.right == x.right && r.atomic == x.atomic
    ensures CountChar(r.leading, NOT) == CountChar(x.leading, NOT)
    ensures '(' in r.leading && ')' in r.trailing
  {
    CountNotAppendParen(x.leading, '(');
    var lead := if '(' in x.leading then x.leading else x.leading + "(";
    var trail := if ')' in x.trailing then x.trailing else x.trailing + ")";
    assert lead[|lead| - 1] == '(' || '(' in x.leading;
    assert trail[|trail| - 1] == ')' || ')' in x.trailing;
    x.(leading := lead, trailing := trail)
  }

  /**
   * eliminationOfImplication: an implication node with two children becomes
   * an OR node whose left child is negated (and parenthesized when
   * compound); every other node is left alone.
   */
  function EliminationOfImplication(e: Expr): (r: Expr)
    ensures Valid(e) ==> Valid(r)
    ensures !IsImplicationNode(e) ==> r == e
    ensures IsImplicationNode(e) ==>
              r.operator == Some(Or) && r.leading == e.leading && r.trailing == e.trailing &&
              r.right == e.right && r.atomic == e.atomic && r.left.Some? &&
              var l, l' := e.left.value, r.left.value;
              l'.left == l.left && l'.operator == l.operator && l'.right == l.right && l'.atomic == l.atomic &&
              |l'.leading| > 0 && l'.leading[0] == NOT &&
              CountChar(l'.leading, NOT) == CountChar(l.leading, NOT) + 1 &&
              (!IsAtomic(l) ==> '(' in l'.leading && ')' in l'.trailing)
  {
    if IsImplicationNode(e) then
      var l := e.left.value;
      var l1 := if IsAtomic(l) then l else Parenthesize(l);
      CountNotPrepend(l1.leading);
      var l2 := l1.(leading := [NOT] + l1.leading);
      assert Valid(e) ==> Valid(l2) by {
        if Valid(e) {
          ValidRelabel(l, l2);
        }
      }
      e.(left := Some(l2), operator := Some(Or))
    else e
  }

  /** Elimination of implication keeps the truth value: a ➔ b is ¬a ⋁ b. */
  lemma EliminationOfImplicationSound(e: Expr, env: string -> bool)
    requires Valid(e)
    ensures Value(EliminationOfImplication(e), env) == Value(e, env)
  {
    if IsImplicationNode(e) {
      var r := EliminationOfImplication(e);
      var l, l' := e.left.value, r.left.value;
      assert Valid(l) && Valid(e.right.value);
      ValueRelabel(l, l', env);
      OneMoreSignFlips(l.leading, l'.leading);
      var a, b := Value(l, env), Value(e.right.value, env);
      assert Value(l', env) == !a;
      assert Value(r, env) == ((!a || b) != IsInverse(r));
    }
  }

  /** `A ➔ ¬A` becomes `¬A ⋁ ¬A`. */
  lemma EliminationOfImplicationExample()
    ensures ToString(EliminationOfImplication(Node(Atom("", "A"), Implication, Atom("¬", "A")))) == "¬A ⋁ ¬A"
  {
    var e := Node(Atom("", "A"), Implication, Atom("¬", "A"));
    assert IsImplicationNode(e) && IsAtomic(e.left.value);
    var r := EliminationOfImplication(e);
    assert [NOT] + "" == "¬";
    assert r == Node(Atom("¬", "A"), Or, Atom("¬", "A"));
  }

  // ---------------------------------------------------------------------
  // Double negation

  /** The length of the run of negation signs at the start of `s`. */
  function NotRun(s: string): (k: nat)
    ensures k <= |s|
    ensures forall i :: 0 <= i < k ==> s[i] == NOT
    ensures k < |s| ==> s[k] != NOT
  {
    if s != [] && s[0] == NOT then 1 + NotRun(s[1..]) else 0
  }

  /** The while loop of doubleNegation that measures the initial run of negation signs. */
  method CountLeadingNots(leading: string) returns (index: nat)
    ensures index == NotRun(leading)
  {
    index := 0;
    while index < |leading| && leading[index] == NOT
      invariant index <= |leading|
      invariant forall i :: 0 <= i < index ==> leading[i] == NOT
    {
      index := index + 1;
    }
    NotRunUnique(leading, index);
  }

  /** The run length is determined by its defining properties. */
  lemma {:induction false} NotRunUnique(s: string, k: nat)
    requires k <= |s|
    requires forall i :: 0 <= i < k ==> s[i] == NOT
    requires k < |s| ==> s[k] != NOT
    ensures k == NotRun(s)
  {
    if k > 0 {
      NotRunUnique(s[1..], k - 1);
    }
  }

  /** The negation signs of the initial run are all counted. */
  lemma NotRunCounted(s: string)
    ensures CountChar(s, NOT) >= NotRun(s)
    ensures CountChar(s[..NotRun(s)], NOT) == NotRun(s)
  {
    var k := NotRun(s);
    AllNotsCount(s[..k]);
    CountCharAppend(s[..k], s[k..], NOT);
    assert s[..k] + s[k..] == s;
  }

  lemma {:induction false} AllNotsCount(p: string)
    requires forall i :: 0 <= i < |p| ==> p[i] == NOT
    ensures CountChar(p, NOT) == |p|
  {
    if p != [] {
      AllNotsCount(p[..|p| - 1]);
    }
  }

  /** The new `leading` of doubleNegation: a run of two or more signs collapses to its parity. */
  function DoubleNegationLeading(leading: string): (r: string)
    ensures NotRun(leading) <= 1 ==> r == leading
    ensures NotRun(leading) > 1 ==> CountChar(r, NOT) == NotRun(leading) % 2 && NotRun(r) == NotRun(leading) % 2
    ensures NotRun(leading) > 1 ==> RemoveAll(r, NOT) == RemoveAll(leading, NOT)
  {
    var index := NotRun(leading);
    if index > 1 then
      var stripped := RemoveAll(leading, NOT);
      StrippedRuns(leading);
      if index % 2 == 1 then [NOT] + stripped else stripped
    else leading
  }

  /** Without its signs a string has none, and with one sign put back it has exactly one, in front. */
  lemma StrippedRuns(s: string)
    ensures var stripped := RemoveAll(s, NOT);
      CountChar(stripped, NOT) == 0 && NotRun(stripped) == 0 && RemoveAll(stripped, NOT) == stripped &&
      CountChar([NOT] + stripped, NOT) == 1 && NotRun([NOT] + stripped) == 1 && RemoveAll([NOT] + stripped, NOT) == stripped
  {
    var stripped := RemoveAll(s, NOT);
    RemoveAllCounts(s, NOT, NOT);
    RemoveAllIdempotent(s, NOT);
    CountNotPrepend(stripped);
    RemoveAllPrepend(stripped);
    CountCharPositive(stripped, NOT);
    NotRunUnique([NOT] + stripped, 1);
    NotRunUnique(stripped, 0);
  }

  lemma {:induction false} RemoveAllIdempotent(s: string, c: char)
    ensures RemoveAll(RemoveAll(s, c), c) == RemoveAll(s, c)
  {
    if s != [] {
      var t := s[..|s| - 1];
      RemoveAllIdempotent(t, c);
      RemoveAllAppend(RemoveAll(t, c), if s[|s| - 1] == c then [] else [s[|s| - 1]], c);
    }
  }

  lemma RemoveAllPrepend(s: string)
    ensures RemoveAll([NOT] + s, NOT) == RemoveAll(s, NOT)
  {
    RemoveAllAppend([NOT], s, NOT);
    assert [NOT][..0] == [];
  }

  /** The test cases: `¬¬` becomes empty and `¬¬¬` becomes `¬`. */
  lemma DoubleNegationLeadingExamples()
    ensures DoubleNegationLeading("¬¬") == "" && DoubleNegationLeading("¬¬¬") == "¬"
  {
    assert NotRun("¬¬") == 2 && NotRun("¬¬¬") == 3;
    assert RemoveAll("¬¬", NOT) == "" by {
      assert "¬¬"[..1] == "¬";
      assert "¬"[..0] == "";
    }
    assert RemoveAll("¬¬¬", NOT) == "" by {
      assert "¬¬¬"[..2] == "¬¬";
      assert "¬¬"[..1] == "¬";
      assert "¬"[..0] == "";
    }
  }

  /** Every negation sign of `leading` stands in the initial run, as the parser and the laws place them. */
  predicate NotsUpFront(leading: string)
  {
    CountChar(leading, NOT) == NotRun(leading)
  }

  /** With the signs up front, collapsing the run keeps the parity. */
  lemma DoubleNegationLeadingParity(leading: string)
    requires NotsUpFront(leading)
    ensures CountChar(DoubleNegationLeading(leading), NOT) % 2 == CountChar(leading, NOT) % 2
    ensures NotsUpFront(DoubleNegationLeading(leading))
  {
    var n := NotRun(leading);
    if n > 1 {
      var m := n % 2;
      assert CountChar(DoubleNegationLeading(leading), NOT) == m;
      assert m % 2 == m;
    }
  }

  /** A run of negation signs with text after it can lose its parity when it is collapsed. */
  lemma DoubleNegationLeadingNeedsSignsUpFront()
    ensures var s := "¬¬(¬";
            NotRun(s) == 2 && CountChar(s, NOT) == 3 &&
            CountChar(DoubleNegationLeading(s), NOT) % 2 != CountChar(s, NOT) % 2
  {
    SignsOfExample();
    assert NotRun("¬¬(¬") > 1;
    assert CountChar(DoubleNegationLeading("¬¬(¬"), NOT) == 0;
  }

  /** The run and the count of `¬¬(¬`. */
  lemma SignsOfExample()
    ensures NotRun("¬¬(¬") == 2 && CountChar("¬¬(¬", NOT) == 3
  {
    var s := "¬¬(¬";
    assert NotRun(s) == 2;
    assert s[..3] == "¬¬(" && "¬¬("[..2] == "¬¬" && "¬¬"[..1] == "¬" && "¬"[..0] == "";
    assert CountChar(s, NOT) == 3;
  }

  /**
   * doubleNegation: collapse the node's run of negation signs, then do the
   * same in both subtrees.
   */
  function DoubleNegation(e: Expr): (r: Expr)
    ensures r.leading == DoubleNegationLeading(e.leading)
    ensures r.operator == e.operator && r.atomic == e.atomic && r.trailing == e.trailing
    ensures r.left.Some? <==> e.left.Some?
    ensures r.right.Some? <==> e.right.Some?
    ensures Valid(e) ==> Valid(r)
  {
    e.(leading := DoubleNegationLeading(e.leading),
       left := if e.left.Some? then Some(DoubleNegation(e.left.value)) else None,
       right := if e.right.Some? then Some(DoubleNegation(e.right.value)) else None)
  }

  /** Every node keeps its negation signs in the initial run of `leading`. */
  predicate AllNotsUpFront(e: Expr)
  {
    NotsUpFront(e.leading) &&
    (e.left.Some? ==> AllNotsUpFront(e.left.value)) &&
    (e.right.Some? ==> AllNotsUpFront(e.right.value))
  }

  /** Double negation keeps the truth value when every sign is up front. */
  lemma {:induction false} DoubleNegationSound(e: Expr, env: string -> bool)
    requires Valid(e) && AllNotsUpFront(e)
    ensures Value(DoubleNegation(e), env) == Value(e, env)
    ensures AllNotsUpFront(DoubleNegation(e))
  {
    DoubleNegationLeadingParity(e.leading);
    if e.left.Some? {
      DoubleNegationSound(e.left.value, env);
    }
    if e.right.Some? {
      DoubleNegationSound(e.right.value, env);
    }
  }

  // ---------------------------------------------------------------------
  // De Morgan's laws

  /** The operator swap of deMorgansLaws and removeLeadingAndTrailing: AND becomes OR, anything else AND. */
  function Flip(op: BinaryOp): (r: BinaryOp)
    ensures r != Implication && (op != Implication ==> r != op)
  {
    if op == And then Or else And
  }

  /** Empty `leading` and `trailing`. */
  function Cleared(x: Expr): (r: Expr)
    ensures r.left == x.left && r.operator == x.operator && r.right == x.right && r.atomic == x.atomic
    ensures r.leading == [] && r.trailing == [] && !IsInverse(r)
  {
    x.(leading := "", trailing := "")
  }

  /** The negation sign counts of the markers the laws write. */
  lemma MarkerCounts()
    ensures CountChar("", NOT) == 0 && CountChar("¬", NOT) == 1 && CountChar("¬(", NOT) == 1
  {
    assert "¬("[..1] == "¬" && "¬"[..0] == "";
  }

  /** Two nodes that differ at most in `leading` and `trailing`. */
  predicate Relabelled(a: Expr, b: Expr)
  {
    a.left == b.left && a.operator == b.operator && a.right == b.right && a.atomic == b.atomic
  }

  /**
   * setNot(remove, add) with `removeIsLeft` telling which child is `remove`:
   * removeLeadingAndTrailing clears the node, flips its operator and clears
   * the first compound child; then `remove` loses its negation signs and
   * `add` is negated, parenthesized when compound.
   */
  function SetNot(e: Expr, removeIsLeft: bool): (r: Expr)
    requires Valid(e) && e.right.Some?
    ensures Valid(r)
    ensures r.leading == "" && r.trailing == "" && !IsInverse(r) && r.atomic == e.atomic
    ensures r.operator == Some(Flip(e.operator.value)) && r.left.Some? && r.right.Some?
    ensures Relabelled(r.left.value, e.left.value) && Relabelled(r.right.value, e.right.value)
    ensures removeIsLeft ==> !IsInverse(r.left.value) && IsInverse(r.right.value)
    ensures !removeIsLeft ==> IsInverse(r.left.value) && !IsInverse(r.right.value)
  {
    MarkerCounts();
    var l, rt := e.left.value, e.right.value;
    var l1 := if !IsAtomic(l) then Cleared(l) else l;
    var r1 := if IsAtomic(l) && !IsAtomic(rt) then Cleared(rt) else rt;
    var rem := RemoveNot(if removeIsLeft then l1 else r1);
    var add := if removeIsLeft then r1 else l1;
    var add' := if IsAtomic(add) then add.(leading := "¬") else add.(leading := "¬(", trailing := ")");
    ValidRelabel(l, if removeIsLeft then rem else add');
    ValidRelabel(rt, if removeIsLeft then add' else rem);
    e.(leading := "", left := Some(if removeIsLeft then rem else add'), operator := Some(Flip(e.operator.value)),
       right := Some(if removeIsLeft then add' else rem), trailing := "")
  }

  /**
   * deMorgansLaws: when both children are negated and the operator is AND or
   * OR, strip the children's signs, flip the operator and negate the node as
   * `¬(`…`)`; when only the node is negated, push the negation inward with
   * setNot; when only the left child is negated, apply the law there.
   */
  function DeMorgansLaws(e: Expr): (r: Expr)
    requires Valid(e)
    ensures Valid(r)
    ensures e.right.Some? && IsInverse(e.left.value) && IsInverse(e.right.value) && e.operator.value != Implication ==>
              r.leading == "¬(" && r.trailing == ")" && r.operator == Some(Flip(e.operator.value)) &&
              Relabelled(r.left.value, e.left.value) && Relabelled(r.right.value, e.right.value) &&
              CountChar(r.left.value.leading, NOT) == 0 && CountChar(r.right.value.leading, NOT) == 0
    ensures e.right.Some? && IsInverse(e.left.value) && IsInverse(e.right.value) && e.operator.value == Implication ==> r == e
    ensures e.right.None? ==> r == e
    decreases e
  {
    if e.right.Some? then
      var l, rt, op := e.left.value, e.right.value, e.operator.value;
      if IsInverse(l) && IsInverse(rt) then
        if op == Implication then e
        else
          ValidRelabel(l, RemoveNot(l));
          ValidRelabel(rt, RemoveNot(rt));
          e.(leading := "¬(", left := Some(RemoveNot(l)), operator := Some(Flip(op)),
                right := Some(RemoveNot(rt)), trailing := ")")
      else if IsInverse(e) then
        if IsInverse(l) then SetNot(e, true)
        else if IsInverse(rt) then SetNot(e, false)
        else e
      else if IsInverse(l) && !IsInverse(rt) then e.(left := Some(DeMorgansLaws(l)))
      else e
    else e
  }

  /**
   * Where De Morgan's rewriting is sound: the node is not itself negated when
   * its two negated children are merged, the node's operator is not
   * implication when its negation is pushed inward, and the same holds where
   * the law recurses.
   */
  predicate DeMorganSafe(e: Expr)
  {
    e.left.Some? && e.right.Some? && e.operator.Some? ==>
      var l, rt := e.left.value, e.right.value;
      if IsInverse(l) && IsInverse(rt) then e.operator.value != Implication ==> !IsInverse(e)
      else if IsInverse(e) then e.operator.value != Implication
      else IsInverse(l) ==> DeMorganSafe(l)
  }

  /** De Morgan's laws keep the truth value where they are sound. */
  lemma {:induction false} DeMorgansLawsSound(e: Expr, env: string -> bool)
    requires Valid(e) && DeMorganSafe(e)
    ensures Value(DeMorgansLaws(e), env) == Value(e, env)
  {
    var r := DeMorgansLaws(e);
    MarkerCounts();
    if e.right.Some? {
      var l, rt, op := e.left.value, e.right.value, e.operator.value;
      if IsInverse(l) && IsInverse(rt) {
        if op != Implication {
          ValueRelabel(l, r.left.value, env);
          ValueRelabel(rt, r.right.value, env);
        }
      } else if IsInverse(e) {
        if IsInverse(l) || IsInverse(rt) {
          ValueRelabel(l, r.left.value, env);
          ValueRelabel(rt, r.right.value, env);
        }
      } else if IsInverse(l) {
        DeMorgansLawsSound(l, env);
      }
    }
  }

  /** `¬A ⋀ ¬B` becomes `¬(A ⋁ B)` and `¬A ⋁ ¬B` becomes `¬(A ⋀ B)`. */
  lemma DeMorgansLawsExamples()
    ensures ToString(DeMorgansLaws(Node(Atom("¬", "A"), And, Atom("¬", "B")))) == "¬(A ⋁ B)"
    ensures ToString(DeMorgansLaws(Node(Atom("¬", "A"), Or, Atom("¬", "B")))) == "¬(A ⋀ B)"
  {
    DeMorganTree(And);
    DeMorganTree(Or);
    DeMorganText();
  }

  /** Both negated atoms lose their sign, the operator flips and the node is negated and parenthesized. */
  lemma DeMorganTree(o: Op)
    requires o == And || o == Or
    ensures DeMorgansLaws(Node(Atom("¬", "A"), o, Atom("¬", "B")))
            == Expr("¬(", Some(Atom("", "A")), Some(if o == And then Or else And), Some(Atom("", "B")), ")", None)
  {
    MarkerCounts();
    assert RemoveAll("¬", NOT) == "" by {
      assert "¬"[..0] == "";
    }
  }

  lemma DeMorganText()
    ensures ToString(Expr("¬(", Some(Atom("", "A")), Some(Or), Some(Atom("", "B")), ")", None)) == "¬(A ⋁ B)"
    ensures ToString(Expr("¬(", Some(Atom("", "A")), Some(And), Some(Atom("", "B")), ")", None)) == "¬(A ⋀ B)"
  {
  }

  // ---------------------------------------------------------------------
  // Absorption

  /**
   * removeRight: drop the operator and the right child and empty the
   * markers; a negated node hands a single negation sign to its left child.
   */
  function RemoveRight(x: Expr): (r: Expr)
    ensures r.operator.None? && r.right.None? && r.leading == "" && r.trailing == "" && r.atomic == x.atomic
    ensures r.left.Some? <==> x.left.Some?
    ensures x.left.Some? ==> Relabelled(r.left.value, x.left.value)
    ensures x.left.Some? && IsInverse(x) ==> r.left.value.leading == "¬"
    ensures !IsInverse(x) ==> r.left == x.left
    ensures Valid(x) ==> Valid(r)
  {
    var l := if IsInverse(x) && x.left.Some? then Some(x.left.value.(leading := "¬")) else x.left;
    assert Valid(x) && x.left.Some? ==> Valid(l.value) by {
      if Valid(x) && x.left.Some? {
        ValidRelabel(x.left.value, l.value);
      }
    }
    x.(leading := "", left := l, operator := None, right := None, trailing := "")
  }

  /**
   * removeRedundant(x, y, removeLeft): `x` is the atomic child and `y` the
   * compound one (on the left when `removeLeft`). Depending on how `x`
   * relates to `y`'s children, the node collapses to one side, or one child
   * of `y` is dropped.
   */
  function RemoveRedundant(rev: Revision, e: Expr, x: Expr, y: Expr, removeLeft: bool): (r: Expr)
    requires Valid(e) && e.right.Some?
    requires if removeLeft then e.left == Some(y) && e.right == Some(x) else e.left == Some(x) && e.right == Some(y)
    ensures Valid(r)
  {
    if y.left.Some? && y.right.Some? then
      var yl, yr, op := y.left.value, y.right.value, e.operator.value;
      var leftEqualsLeft := EqualsIn(rev, x, yl);
      var leftEqualsRight := EqualsIn(rev, x, yr);
      if op == And && EqualsAndOpposite(rev, yl, yr) then
        RemoveRight(if !removeLeft then e.(left := e.right) else e)
      else if ((op == Or && y.operator == Some(And)) || (op == And && y.operator == Some(Or))) && !IsInverse(y) &&
              (leftEqualsLeft || leftEqualsRight) then
        RemoveRight(if removeLeft then e.(left := e.right) else e)
      else if op == Or && EqualsAndOpposite(rev, yl, yr) && y.operator == Some(And) then
        RemoveRight(if removeLeft then e.(left := e.right) else e)
      else if (leftEqualsLeft && (op != Implication || y.operator == Some(And)) && !IsInverse(y)) ||
              (EqualsAndOpposite(rev, x, yl) && op == Or && y.operator == Some(And)) || EqualsAndOpposite(rev, x, yr) then
        assert Valid(y) && Valid(y.(left := y.right));
        var y' := RemoveRight(y.(left := y.right));
        if removeLeft then e.(left := Some(y')) else e.(right := Some(y'))
      else if leftEqualsRight || (leftEqualsLeft && ((op == Implication && y.operator == Some(Or)) || x.leading != y.leading)) ||
              EqualsAndOpposite(rev, x, yr) || EqualsAndOpposite(rev, x, yl) then
        assert Valid(y);
        var y' := RemoveRight(y);
        if removeLeft then e.(left := Some(y')) else e.(right := Some(y'))
      else e
    else e
  }

  /**
   * The only null dereference of absorptionLaw: two compound children that
   * are neither equal nor opposite, where the left child has no right child.
   */
  predicate AbsorptionFails(rev: Revision, e: Expr)
    requires Valid(e)
  {
    e.right.Some? && !IsAtomic(e.left.value) && !IsAtomic(e.right.value) &&
    !EqualsIn(rev, e.left.value, e.right.value) && !EqualsAndOpposite(rev, e.left.value, e.right.value) &&
    e.left.value.right.None?
  }

  /** The operators under which operands may be exchanged and repeated: AND and OR. */
  predicate AndOr(o: Option<BinaryOp>)
  {
    o == Some(And) || o == Some(Or)
  }

  /**
   * absorptionLaw: two equal atomic children collapse to one; one atomic and
   * one compound child go through removeRedundant; two compound children
   * collapse when equal, and otherwise shared operands are dropped.
   * `None` is the null dereference of a left child without a right child.
   * Two branches for two compound children differ between the revisions
   * (see the findings): over the same two operands, as written the OR child
   * is kept whatever the node's operator, corrected the child with the
   * node's operator is kept; and a shared operand is dropped, as written,
   * whatever the children's signs, corrected only from un-negated children
   * under AND or OR.
   */
  function AbsorptionLaw(rev: Revision, e: Expr): (r: Option<Expr>)
    requires Valid(e)
    ensures r.None? <==> AbsorptionFails(rev, e)
    ensures r.Some? ==> Valid(r.value)
    ensures e.right.None? ==> r == Some(e)
  {
    if e.right.Some? then
      var l, rt := e.left.value, e.right.value;
      if IsAtomic(l) && IsAtomic(rt) then
        Some(if EqualsIn(rev, l, rt) then RemoveRight(e) else e)
      else if IsAtomic(l) || IsAtomic(rt) then
        Some(if IsAtomic(l) then RemoveRedundant(rev, e, l, rt, false) else RemoveRedundant(rev, e, rt, l, true))
      else if EqualsIn(rev, l, rt) then
        var e1 := if IsInverse(l) == IsInverse(rt) then RemoveRight(e) else e;
        var l1 := e1.left.value;
        if !IsInverse(l1) then
          ValidRelabel(l1, Cleared(l1));
          Some(e1.(left := Some(Cleared(l1))))
        else Some(e1)
      else if !EqualsAndOpposite(rev, l, rt) then
        if l.right.None? then None
        else
          var leftLeftEqRightLeft := ChildEqualsIn(rev, l.left, rt.left);
          var leftRightEqRightRight := ChildEqualsIn(rev, l.right, rt.right);
          var leftLeftEqRightRight := ChildEqualsIn(rev, l.left, rt.right);
          var leftRightEqRightLeft := ChildEqualsIn(rev, l.right, rt.left);
          if IsInverse(l) == IsInverse(rt) &&
             ((leftLeftEqRightLeft && leftRightEqRightRight) || (leftLeftEqRightRight && leftRightEqRightLeft)) then
            if rev == AsWritten then
              if l.operator == Some(And) then Some(RemoveRight(e.(left := e.right)))
              else if rt.operator == Some(And) then Some(RemoveRight(e))
              else Some(e)
            else if !IsInverse(l) && AndOr(e.operator) && AndOr(l.operator) && AndOr(rt.operator) then
              if l.operator == e.operator then Some(RemoveRight(e))
              else if rt.operator == e.operator then Some(RemoveRight(e.(left := e.right)))
              else Some(e)
            else Some(e)
          else if l.operator == e.operator && rt.operator == e.operator &&
                  (rev == AsWritten || (AndOr(e.operator) && !IsInverse(l) && !IsInverse(rt))) then
            assert Valid(rt) && rt.right.Some? && Valid(rt.(left := rt.right));
            if leftLeftEqRightLeft || leftRightEqRightLeft then
              Some(e.(right := Some(RemoveRight(rt.(left := rt.right)))))
            else if leftLeftEqRightRight || leftRightEqRightRight then
              Some(e.(right := Some(RemoveRight(rt))))
            else Some(e)
          else Some(e)
      else Some(e)
    else Some(e)
  }

  /**
   * Two equal atomic children under AND or OR collapse to the left one, and
   * the truth value is kept unless both the node and its left child carry
   * the negation. The node then renders as its left child.
   */
  lemma AbsorptionOfEqualAtomsSound(e: Expr, env: string -> bool)
    requires Valid(e) && e.right.Some? && IsAtomic(e.left.value) && IsAtomic(e.right.value)
    requires Equals(e.left.value, e.right.value) && e.operator.value != Implication
    requires !(IsInverse(e) && IsInverse(e.left.value))
    ensures AbsorptionLaw(Corrected, e).Some?
    ensures var r := AbsorptionLaw(Corrected, e).value;
            Value(r, env) == Value(e, env) && r.right.None? &&
            ToString(r) == ToString(r.left.value)
  {
    var l, rt := e.left.value, e.right.value;
    var r := AbsorptionLaw(Corrected, e).value;
    assert r == RemoveRight(e);
    EqualsSound(l, rt, env);
    ValueRelabel(l, r.left.value, env);
    MarkerCounts();
    assert ToString(r) == "" + ToString(r.left.value) + "" + "" + "";
  }

  /**
   * The absorption law proper: x ⋁ (x ⋀ z) and x ⋀ (x ⋁ z), in either order
   * of the node's children, collapse to x with the same truth value, when the
   * compound child is not negated and the node and x are not both negated.
   */
  lemma AbsorptionOfCompoundSound(e: Expr, env: string -> bool)
    requires Valid(e) && e.right.Some?
    requires var l, rt := e.left.value, e.right.value;
             IsAtomic(l) != IsAtomic(rt) &&
             var x := if IsAtomic(l) then l else rt;
             var y := if IsAtomic(l) then rt else l;
             y.left.Some? && y.right.Some? && !IsInverse(y) && !(IsInverse(e) && IsInverse(x)) &&
             ((e.operator == Some(Or) && y.operator == Some(And)) || (e.operator == Some(And) && y.operator == Some(Or))) &&
             (Equals(x, y.left.value) || Equals(x, y.right.value)) &&
             !(e.operator == Some(And) && EqualsAndOpposite(Corrected, y.left.value, y.right.value))
    ensures AbsorptionLaw(Corrected, e).Some?
    ensures Value(AbsorptionLaw(Corrected, e).value, env) == Value(e, env)
  {
    var l, rt := e.left.value, e.right.value;
    var x := if IsAtomic(l) then l else rt;
    var y := if IsAtomic(l) then rt else l;
    var r := AbsorptionLaw(Corrected, e).value;
    assert r == RemoveRight(if IsAtomic(rt) then e.(left := e.right) else e);
    assert r.left.Some? && Relabelled(r.left.value, x);
    ValueRelabel(x, r.left.value, env);
    if Equals(x, y.left.value) {
      EqualsSound(x, y.left.value, env);
    } else {
      EqualsSound(x, y.right.value, env);
    }
    MarkerCounts();
  }

  /**
   * The contradiction cases of removeRedundant: when the compound child is
   * `p ⋀ q` with `p` and `q` opposite through a negation, it is false, so
   * under AND the node becomes that child and under OR the other child, and
   * the truth value is kept, provided the compound child is not negated and
   * under OR the node and the other child are not both negated.
   */
  lemma RemoveRedundantContradictionSound(e: Expr, x: Expr, y: Expr, removeLeft: bool, env: string -> bool)
    requires Valid(e) && e.right.Some?
    requires if removeLeft then e.left == Some(y) && e.right == Some(x) else e.left == Some(x) && e.right == Some(y)
    requires y.left.Some? && y.right.Some? && y.operator == Some(And) && !IsInverse(y)
    requires (IsInverse(y.left.value) || IsInverse(y.right.value)) && EqualsAndOpposite(Corrected, y.left.value, y.right.value)
    requires e.operator == Some(And) || (e.operator == Some(Or) && !(IsInverse(e) && IsInverse(x)))
    ensures Value(RemoveRedundant(Corrected, e, x, y, removeLeft), env) == Value(e, env)
  {
    var kept := if e.operator == Some(And) then y else x;
    RemoveRedundantContradiction(e, x, y, removeLeft);
    assert Valid(y) && Valid(x);
    ContradictionIsFalse(y, env);
    RemoveRightValue(e.(left := Some(kept)), env);
  }

  /** Which child the contradiction cases of removeRedundant keep. */
  lemma RemoveRedundantContradiction(e: Expr, x: Expr, y: Expr, removeLeft: bool)
    requires Valid(e) && e.right.Some?
    requires if removeLeft then e.left == Some(y) && e.right == Some(x) else e.left == Some(x) && e.right == Some(y)
    requires y.left.Some? && y.right.Some? && y.operator == Some(And) && !IsInverse(y)
    requires EqualsAndOpposite(Corrected, y.left.value, y.right.value)
    requires e.operator == Some(And) || e.operator == Some(Or)
    ensures RemoveRedundant(Corrected, e, x, y, removeLeft) ==
            RemoveRight(e.(left := Some(if e.operator == Some(And) then y else x)))
  {
  }

  /** `p ⋀ q` with `p` and `q` opposite through a negation is false. */
  lemma ContradictionIsFalse(y: Expr, env: string -> bool)
    requires Valid(y) && y.right.Some? && y.operator == Some(And) && !IsInverse(y)
    requires (IsInverse(y.left.value) || IsInverse(y.right.value)) && EqualsAndOpposite(Corrected, y.left.value, y.right.value)
    ensures !Value(y, env)
  {
    EqualsAndOppositeSound(y.left.value, y.right.value, env);
  }

  /**
   * removeRight keeps the left child's value, negated when the node was;
   * that holds unless both the node and the child carry the negation.
   */
  lemma RemoveRightValue(e: Expr, env: string -> bool)
    requires Valid(e) && !IsAtomic(e) && !(IsInverse(e) && IsInverse(e.left.value))
    ensures Value(RemoveRight(e), env) == (Value(e.left.value, env) != IsInverse(e))
  {
    var r := RemoveRight(e);
    ValueRelabel(e.left.value, r.left.value, env);
    MarkerCounts();
  }

  /**
   * The branch of removeRedundant that drops the compound child's left
   * operand, on a repeated operand: x op (x op z) becomes x op z under AND
   * and under OR, in either order, with the same truth value.
   */
  lemma {:induction false} RemoveRedundantRepeatedSound(e: Expr, x: Expr, y: Expr, removeLeft: bool, env: string -> bool)
    requires Valid(e) && e.right.Some?
    requires if removeLeft then e.left == Some(y) && e.right == Some(x) else e.left == Some(x) && e.right == Some(y)
    requires y.left.Some? && y.right.Some? && !IsInverse(y)
    requires (e.operator == Some(And) || e.operator == Some(Or)) && y.operator == e.operator
    requires Equals(x, y.left.value) && !EqualsAndOpposite(Corrected, y.left.value, y.right.value)
    ensures Value(RemoveRedundant(Corrected, e, x, y, removeLeft), env) == Value(e, env)
  {
    assert Valid(x) && Valid(y) && Valid(y.(left := y.right));
    var y' := RemoveRight(y.(left := y.right));
    assert RemoveRedundant(Corrected, e, x, y, removeLeft) == if removeLeft then e.(left := Some(y')) else e.(right := Some(y'));
    EqualsSound(x, y.left.value, env);
    RemoveRightValue(y.(left := y.right), env);
  }

  /**
   * The same branch on a complementary operand: x ⋁ (¬x ⋀ z) becomes x ⋁ z,
   * in either order, with the same truth value.
   */
  lemma {:induction false} RemoveRedundantComplementSound(e: Expr, x: Expr, y: Expr, removeLeft: bool, env: string -> bool)
    requires Valid(e) && e.right.Some?
    requires if removeLeft then e.left == Some(y) && e.right == Some(x) else e.left == Some(x) && e.right == Some(y)
    requires y.left.Some? && y.right.Some? && !IsInverse(y)
    requires e.operator == Some(Or) && y.operator == Some(And)
    requires EqualsAndOpposite(Corrected, x, y.left.value) && (IsInverse(x) || IsInverse(y.left.value))
    requires !Equals(x, y.left.value) && !Equals(x, y.right.value) && !EqualsAndOpposite(Corrected, y.left.value, y.right.value)
    ensures Value(RemoveRedundant(Corrected, e, x, y, removeLeft), env) == Value(e, env)
  {
    assert Valid(x) && Valid(y) && Valid(y.(left := y.right));
    var y' := RemoveRight(y.(left := y.right));
    assert RemoveRedundant(Corrected, e, x, y, removeLeft) == if removeLeft then e.(left := Some(y')) else e.(right := Some(y'));
    EqualsAndOppositeSound(x, y.left.value, env);
    RemoveRightValue(y.(left := y.right), env);
  }

  /**
   * The branch that drops the compound child's right operand when x is the
   * opposite of its left operand changes the meaning: `A ⋀ (¬A ⋁ B)`, which
   * is `A ⋀ B`, becomes `A ⋀ ¬A`, which is false.
   */
  lemma RemoveRedundantKeepsOpposite(rev: Revision)
    ensures var a, na := Atom("", "A"), Atom("¬", "A");
            var e := Node(a, And, Node(na, Or, Atom("", "B")));
            var env := (n: string) => true;
            AbsorptionLaw(rev, e) == Some(Node(a, And, Wrap(na))) &&
            Value(e, env) && !Value(Node(a, And, Wrap(na)), env)
  {
    var a, na, b := Atom("", "A"), Atom("¬", "A"), Atom("", "B");
    MarkerCounts();
    EqualsAndOppositeAtoms(rev, a, na);
    EqualsAndOppositeAtoms(rev, a, b);
    EqualsAndOppositeAtoms(rev, na, b);
    EqualsAtoms(rev, a, na);
    EqualsAtoms(rev, a, b);
  }

  /**
   * As written, `(A⋀B) ⋁ (C⋀A)` counts as two equal children, since the
   * left child's left operand equals the right child's right operand, and
   * absorption keeps only `A ⋀ B` (see AbsorptionAsWrittenKeepsLeft): with
   * A and C true and B false the expression was true and the result is false.
   */
  lemma AbsorptionAsWrittenDropsOperand()
    ensures var ab := Node(Atom("", "A"), And, Atom("", "B"));
            var e := Node(ab, Or, Node(Atom("", "C"), And, Atom("", "A")));
            var env := (n: string) => n != "B";
            Value(e, env) && !Value(Wrap(Cleared(ab)), env)
  {
    MarkerCounts();
  }

  /** The node absorption keeps in `(A⋀B) ⋁ (C⋀A)`, as written, is rendered `A ⋀ B`. */
  lemma AbsorptionAsWrittenRendering()
    ensures ToString(Wrap(Cleared(Node(Atom("", "A"), And, Atom("", "B"))))) == "A ⋀ B"
  {
    var ab := Node(Atom("", "A"), And, Atom("", "B"));
    MarkerCounts();
    ToStringLayout(ab);
    assert ToString(Wrap(Cleared(ab))) == "" + ToString(Cleared(ab)) + "";
  }

  /** As written, absorption on `(A⋀B) ⋁ (C⋀A)` keeps the left child alone. */
  lemma AbsorptionAsWrittenKeepsLeft()
    ensures var ab := Node(Atom("", "A"), And, Atom("", "B"));
            AbsorptionLaw(AsWritten, Node(ab, Or, Node(Atom("", "C"), And, Atom("", "A")))) == Some(Wrap(Cleared(ab)))
  {
    var ab, ca := Node(Atom("", "A"), And, Atom("", "B")), Node(Atom("", "C"), And, Atom("", "A"));
    assert EqualsAsWritten(Atom("", "A"), Atom("", "A"));
    assert EqualsAsWritten(ab, ca);
  }

  /**
   * As written, `(A ⋁ B) ⋀ (B ⋀ A)` keeps its OR child although the node is
   * an AND, which changes the truth value (A true, B false); corrected, the
   * AND child is kept.
   */
  lemma AbsorptionAsWrittenKeepsOrChild()
    ensures var a, b := Atom("", "A"), Atom("", "B");
            var e := Node(Node(a, Or, b), And, Node(b, And, a));
            var env := (n: string) => n == "A";
            AbsorptionLaw(AsWritten, e) == Some(Wrap(Node(a, Or, b))) &&
            AbsorptionLaw(Corrected, e) == Some(Wrap(Node(b, And, a))) &&
            !Value(e, env) && Value(Wrap(Node(a, Or, b)), env)
  {
    var a, b := Atom("", "A"), Atom("", "B");
    MarkerCounts();
    assert EqualsAsWritten(a, a) && EqualsAsWritten(b, b) && !EqualsAsWritten(a, b);
    assert Equals(a, a) && Equals(b, b) && !Equals(a, b);
  }

  /**
   * As written, `¬(A ⋁ B) ⋁ (A ⋁ C)` loses the `A` of its right child although
   * the left child is negated, which changes the truth value (A and B true,
   * C false); corrected, the node is kept.
   */
  lemma AbsorptionAsWrittenSharedIgnoresSign()
    ensures var a, b, c := Atom("", "A"), Atom("", "B"), Atom("", "C");
            var l := Expr("¬(", Some(a), Some(Or), Some(b), ")", None);
            var e := Node(l, Or, Node(a, Or, c));
            var env := (n: string) => n != "C";
            AbsorptionLaw(AsWritten, e) == Some(Node(l, Or, Wrap(c))) &&
            AbsorptionLaw(Corrected, e) == Some(e) &&
            Value(e, env) && !Value(Node(l, Or, Wrap(c)), env)
  {
    var a, b, c := Atom("", "A"), Atom("", "B"), Atom("", "C");
    var l := Expr("¬(", Some(a), Some(Or), Some(b), ")", None);
    MarkerCounts();
    assert Positive(l) == Node(a, Or, b);
    assert EqualsAsWritten(a, a) && !EqualsAsWritten(b, c) && !EqualsAsWritten(a, c);
    assert Equals(a, a) && !Equals(b, c) && !Equals(a, c);
  }

  /**
   * Two equal compound children under AND or OR collapse into the left one,
   * and the truth value is kept unless the node and that child are both
   * negated.
   */
  lemma AbsorptionOfEqualCompoundsSound(e: Expr, env: string -> bool)
    requires Valid(e) && e.right.Some? && !IsAtomic(e.left.value) && !IsAtomic(e.right.value)
    requires Equals(e.left.value, e.right.value) && AndOr(e.operator)
    requires !(IsInverse(e) && IsInverse(e.left.value))
    ensures AbsorptionLaw(Corrected, e).Some?
    ensures Value(AbsorptionLaw(Corrected, e).value, env) == Value(e, env)
  {
    var l, rt := e.left.value, e.right.value;
    assert IsInverse(l) == IsInverse(rt);
    var e1 := RemoveRight(e);
    var l1 := e1.left.value;
    EqualsSound(l, rt, env);
    RemoveRightValue(e, env);
    if !IsInverse(l1) {
      ValueRelabel(l1, Cleared(l1), env);
      assert AbsorptionLaw(Corrected, e) == Some(e1.(left := Some(Cleared(l1))));
    } else {
      assert AbsorptionLaw(Corrected, e) == Some(e1);
    }
  }

  /**
   * Corrected, two un-negated compound children over the same two operands
   * under AND or OR collapse into the child with the node's operator, which
   * keeps the truth value: `(A ⋁ B) ⋀ (A ⋀ B)` is `A ⋀ B`.
   */
  lemma AbsorptionOfCoveringCompoundSound(e: Expr, env: string -> bool)
    requires Valid(e) && e.right.Some? && !IsAtomic(e.left.value) && !IsAtomic(e.right.value)
    requires var l, rt := e.left.value, e.right.value;
             !Equals(l, rt) && !EqualsAndOpposite(Corrected, l, rt) && l.right.Some? && IsInverse(l) == IsInverse(rt) &&
             ((ChildEquals(l.left, rt.left) && ChildEquals(l.right, rt.right)) ||
              (ChildEquals(l.left, rt.right) && ChildEquals(l.right, rt.left)))
    ensures AbsorptionLaw(Corrected, e).Some?
    ensures Value(AbsorptionLaw(Corrected, e).value, env) == Value(e, env)
  {
    var l, rt := e.left.value, e.right.value;
    var r := AbsorptionLaw(Corrected, e);
    if !IsInverse(l) && AndOr(e.operator) && AndOr(l.operator) && AndOr(rt.operator) {
      CoveringValue(e, env);
      if l.operator == e.operator {
        assert r == Some(RemoveRight(e));
      } else if rt.operator == e.operator {
        assert r == Some(RemoveRight(e.(left := e.right)));
      } else {
        assert r == Some(e);
      }
    } else {
      assert r == Some(e);
    }
  }

  /**
   * Of two un-negated compound children of an AND or OR node over equal
   * operands, the one with the node's operator has the node's value.
   */
  lemma CoveringValue(e: Expr, env: string -> bool)
    requires Valid(e) && e.right.Some? && !IsAtomic(e.left.value) && !IsAtomic(e.right.value)
    requires var l, rt := e.left.value, e.right.value;
             !IsInverse(l) && IsInverse(l) == IsInverse(rt) && l.right.Some? &&
             AndOr(e.operator) && AndOr(l.operator) && AndOr(rt.operator) &&
             ((ChildEquals(l.left, rt.left) && ChildEquals(l.right, rt.right)) ||
              (ChildEquals(l.left, rt.right) && ChildEquals(l.right, rt.left)))
    ensures e.left.value.operator == e.operator ==> Value(RemoveRight(e), env) == Value(e, env)
    ensures e.right.value.operator == e.operator ==> Value(RemoveRight(e.(left := e.right)), env) == Value(e, env)
  {
    var l, rt := e.left.value, e.right.value;
    assert Valid(l) && Valid(rt);
    if ChildEquals(l.left, rt.left) && ChildEquals(l.right, rt.right) {
      EqualsSound(l.left.value, rt.left.value, env);
      EqualsSound(l.right.value, rt.right.value, env);
    } else {
      EqualsSound(l.left.value, rt.right.value, env);
      EqualsSound(l.right.value, rt.left.value, env);
    }
    RemoveRightValue(e, env);
    RemoveRightValue(e.(left := e.right), env);
  }

  /**
   * Corrected, a shared operand is dropped from the right child only when
   * both children are un-negated and share the node's operator, AND or OR,
   * which keeps the truth value: `(A ⋁ B) ⋁ (A ⋁ C)` is `(A ⋁ B) ⋁ C`.
   */
  lemma AbsorptionOfSharedOperandSound(e: Expr, env: string -> bool)
    requires Valid(e) && e.right.Some? && !IsAtomic(e.left.value) && !IsAtomic(e.right.value)
    requires var l, rt := e.left.value, e.right.value;
             !Equals(l, rt) && !EqualsAndOpposite(Corrected, l, rt) && l.right.Some? &&
             !(IsInverse(l) == IsInverse(rt) &&
               ((ChildEquals(l.left, rt.left) && ChildEquals(l.right, rt.right)) ||
                (ChildEquals(l.left, rt.right) && ChildEquals(l.right, rt.left)))) &&
             l.operator == e.operator && rt.operator == e.operator
    ensures AbsorptionLaw(Corrected, e).Some?
    ensures Value(AbsorptionLaw(Corrected, e).value, env) == Value(e, env)
  {
    var l, rt := e.left.value, e.right.value;
    var r := AbsorptionLaw(Corrected, e);
    if AndOr(e.operator) && !IsInverse(l) && !IsInverse(rt) {
      if ChildEquals(l.left, rt.left) || ChildEquals(l.right, rt.left) {
        SharedFirstValue(e, env);
        assert r == Some(e.(right := Some(RemoveRight(rt.(left := rt.right)))));
      } else if ChildEquals(l.left, rt.right) || ChildEquals(l.right, rt.right) {
        SharedSecondValue(e, env);
        assert r == Some(e.(right := Some(RemoveRight(rt))));
      } else {
        assert r == Some(e);
      }
    } else {
      assert r == Some(e);
    }
  }

  /**
   * When two un-negated compound children share the AND or OR operator of
   * their node, an operand of the right child that also occurs in the left
   * one may be dropped from the right child without changing the value; here
   * the right child's left operand is the shared one.
   */
  lemma SharedFirstValue(e: Expr, env: string -> bool)
    requires Valid(e) && e.right.Some? && !IsAtomic(e.left.value) && !IsAtomic(e.right.value)
    requires var l, rt := e.left.value, e.right.value;
             !IsInverse(l) && !IsInverse(rt) && l.right.Some? && AndOr(e.operator) &&
             l.operator == e.operator && rt.operator == e.operator &&
             (ChildEquals(l.left, rt.left) || ChildEquals(l.right, rt.left))
    ensures var rt := e.right.value;
            assert Valid(rt) && rt.right.Some? && Valid(rt.(left := rt.right));
            Value(e.(right := Some(RemoveRight(rt.(left := rt.right)))), env) == Value(e, env)
  {
    var l, rt := e.left.value, e.right.value;
    assert Valid(l) && Valid(rt) && rt.right.Some? && Valid(rt.(left := rt.right));
    RemoveRightValue(rt.(left := rt.right), env);
    if ChildEquals(l.left, rt.left) {
      EqualsSound(l.left.value, rt.left.value, env);
    } else {
      EqualsSound(l.right.value, rt.left.value, env);
    }
  }

  /** The same as SharedFirstValue, with the right child's right operand shared. */
  lemma SharedSecondValue(e: Expr, env: string -> bool)
    requires Valid(e) && e.right.Some? && !IsAtomic(e.left.value) && !IsAtomic(e.right.value)
    requires var l, rt := e.left.value, e.right.value;
             !IsInverse(l) && !IsInverse(rt) && l.right.Some? && AndOr(e.operator) &&
             l.operator == e.operator && rt.operator == e.operator &&
             (ChildEquals(l.left, rt.right) || ChildEquals(l.right, rt.right))
    ensures Value(e.(right := Some(RemoveRight(e.right.value))), env) == Value(e, env)
  {
    var l, rt := e.left.value, e.right.value;
    assert Valid(l) && Valid(rt);
    RemoveRightValue(rt, env);
    if ChildEquals(l.left, rt.right) {
      EqualsSound(l.left.value, rt.right.value, env);
    } else {
      EqualsSound(l.right.value, rt.right.value, env);
    }
  }

  /**
   * Corrected, absorption over two compound children keeps the truth value
   * whenever it does not fail; equal children need the node to be AND or OR
   * and not negated together with its left child.
   */
  lemma AbsorptionOfCompoundsSound(e: Expr, env: string -> bool)
    requires Valid(e) && e.right.Some? && !IsAtomic(e.left.value) && !IsAtomic(e.right.value)
    requires !AbsorptionFails(Corrected, e)
    requires Equals(e.left.value, e.right.value) ==> AndOr(e.operator) && !(IsInverse(e) && IsInverse(e.left.value))
    ensures AbsorptionLaw(Corrected, e).Some?
    ensures Value(AbsorptionLaw(Corrected, e).value, env) == Value(e, env)
  {
    var l, rt := e.left.value, e.right.value;
    if Equals(l, rt) {
      AbsorptionOfEqualCompoundsSound(e, env);
    } else if EqualsAndOpposite(Corrected, l, rt) {
      assert AbsorptionLaw(Corrected, e) == Some(e);
    } else if IsInverse(l) == IsInverse(rt) &&
              ((ChildEquals(l.left, rt.left) && ChildEquals(l.right, rt.right)) ||
               (ChildEquals(l.left, rt.right) && ChildEquals(l.right, rt.left))) {
      AbsorptionOfCoveringCompoundSound(e, env);
    } else if l.operator == e.operator && rt.operator == e.operator {
      AbsorptionOfSharedOperandSound(e, env);
    } else {
      assert AbsorptionLaw(Corrected, e) == Some(e);
    }
  }

  /** `A ⋀ A` and `A ⋁ A` become `A`; `¬A ⋁ ¬A` becomes `¬A`. */
  lemma AbsorptionExamples()
    ensures AbsorptionLaw(Corrected, Node(Atom("", "A"), And, Atom("", "A"))).Some?
    ensures ToString(AbsorptionLaw(Corrected, Node(Atom("", "A"), And, Atom("", "A"))).value) == "A"
    ensures ToString(AbsorptionLaw(Corrected, Node(Atom("", "A"), Or, Atom("", "A"))).value) == "A"
    ensures ToString(AbsorptionLaw(Corrected, Node(Atom("¬", "A"), Or, Atom("¬", "A"))).value) == "¬A"
  {
    MarkerCounts();
    assert AbsorptionLaw(Corrected, Node(Atom("", "A"), And, Atom("", "A"))) == Some(Wrap(Atom("", "A")));
    assert AbsorptionLaw(Corrected, Node(Atom("", "A"), Or, Atom("", "A"))) == Some(Wrap(Atom("", "A")));
    assert AbsorptionLaw(Corrected, Node(Atom("¬", "A"), Or, Atom("¬", "A"))) == Some(Wrap(Atom("¬", "A")));
  }

  // ---------------------------------------------------------------------
  // Distributivity

  /**
   * setObjects: the node becomes `common` (wrapped) joined by the flipped
   * operator to `a op b`, where `op` is the node's old operator; the new
   * right child is parenthesized when the new operator is AND.
   */
  function SetObjects(e: Expr, a: Expr, b: Expr, common: Expr): (r: Expr)
    requires e.operator.Some?
    ensures r.leading == e.leading && r.trailing == e.trailing && r.atomic == e.atomic
    ensures r.left == Some(Wrap(common)) && r.operator == Some(Flip(e.operator.value)) && r.right.Some?
    ensures Relabelled(r.right.value, Node(a, e.operator.value, b)) && !IsInverse(r.right.value)
    ensures Flip(e.operator.value) == And ==> r.right.value.leading == "(" && r.right.value.trailing == ")"
    ensures Valid(a) && Valid(b) && Valid(common) && !IsAtomic(e) ==> Valid(r)
  {
    MarkerCounts();
    var op := e.operator.value;
    var inner := Node(a, op, b);
    var left := Wrap(common);
    var inner' := if Flip(op) == And then inner.(leading := "(", trailing := ")") else inner;
    // For a new OR operator the node is parenthesized only when both new
    // children are atomic, and the new left child is a wrapper.
    var e' := if Flip(op) != And && IsAtomic(left) && IsAtomic(inner) then Parenthesize(e) else e;
    e'.(left := Some(left), operator := Some(Flip(op)), right := Some(inner'))
  }

  /** The four grandchildren distributivity looks at exist. */
  predicate HasGrandchildren(e: Expr)
  {
    e.left.Some? && e.right.Some? && e.operator.Some? &&
    !IsAtomic(e.left.value) && !IsAtomic(e.right.value) &&
    e.left.value.left.Some? && e.left.value.right.Some? &&
    e.right.value.left.Some? && e.right.value.right.Some?
  }

  /**
   * distributiveProperty: when both children are compound with two children
   * each and the left child's operator differs from the node's, the first
   * grandchild whose leftmost atom occurs on both sides (and the other pair
   * differs) is factored out with setObjects. As written, nothing else is
   * tested, so children of different operators and shared names of
   * different signs are factored too (see Findings). Corrected, the law
   * applies only under `DistributiveGuard`, and the shared operand is found
   * with `equals` rather than by its leftmost atom's name.
   */
  function DistributiveProperty(rev: Revision, e: Expr): (r: Expr)
    requires Valid(e)
    ensures Valid(r)
    ensures r.leading == e.leading && r.trailing == e.trailing
    ensures !(HasGrandchildren(e) && e.left.value.operator != e.operator) ==> r == e
    ensures rev == Corrected && HasGrandchildren(e) && !DistributiveGuard(e) ==> r == e
    ensures r != e ==> r.operator == Some(Flip(e.operator.value)) && r.right.value.operator == e.operator
  {
    if HasGrandchildren(e) && e.left.value.operator != e.operator then
      var l, rt := e.left.value, e.right.value;
      assert Valid(l) && Valid(rt);
      var ll, lr, rl, rr := l.left.value, l.right.value, rt.left.value, rt.right.value;
      assert Valid(ll) && Valid(lr) && Valid(rl) && Valid(rr);
      if rev == AsWritten then
        var leftLeft := FindAtomicValue(ll);
        var leftRight := FindAtomicValue(lr);
        var rightLeft := FindAtomicValue(rl);
        var rightRight := FindAtomicValue(rr);
        if leftLeft == rightLeft && leftRight != rightRight then
          SetObjects(e, lr, rr, ll)
        else if leftLeft == rightRight && leftRight != rightLeft then
          SetObjects(e, lr, rl, ll)
        else if leftRight == rightLeft && leftLeft != rightRight then
          SetObjects(e, ll, rr, lr)
        else if leftRight == rightRight && leftLeft != rightLeft then
          SetObjects(e, ll, rl, lr)
        else e
      else if DistributiveGuard(e) then FactorShared(e)
      else e
    else e
  }

  /**
   * The corrected factoring: the first grandchild that `equals` one on the
   * other side (while the remaining pair differs) is factored out.
   */
  function FactorShared(e: Expr): (r: Expr)
    requires Valid(e) && HasGrandchildren(e) && DistributiveGuard(e)
    ensures Valid(r)
    ensures r.leading == e.leading && r.trailing == e.trailing
    ensures r != e ==> r.operator == Some(Flip(e.operator.value)) && r.right.value.operator == e.operator
  {
    var l, rt := e.left.value, e.right.value;
    assert Valid(l) && Valid(rt);
    var ll, lr, rl, rr := l.left.value, l.right.value, rt.left.value, rt.right.value;
    if Equals(ll, rl) && !Equals(lr, rr) then
      SetObjects(e, lr, rr, ll)
    else if Equals(ll, rr) && !Equals(lr, rl) then
      SetObjects(e, lr, rl, ll)
    else if Equals(lr, rl) && !Equals(ll, rr) then
      SetObjects(e, ll, rr, lr)
    else if Equals(lr, rr) && !Equals(ll, rl) then
      SetObjects(e, ll, rl, lr)
    else e
  }

  /** The corrected factoring keeps the truth value. */
  lemma FactorSharedSound(e: Expr, env: string -> bool)
    requires Valid(e) && HasGrandchildren(e) && DistributiveGuard(e)
    ensures Value(FactorShared(e), env) == Value(e, env)
  {
    var l, rt := e.left.value, e.right.value;
    assert Valid(l) && Valid(rt);
    var ll, lr, rl, rr := l.left.value, l.right.value, rt.left.value, rt.right.value;
    assert Valid(ll) && Valid(lr) && Valid(rl) && Valid(rr);
    if Equals(ll, rl) && !Equals(lr, rr) {
      EqualsSound(ll, rl, env);
      FactorSharedCase(e, lr, rr, ll, env);
    } else if Equals(ll, rr) && !Equals(lr, rl) {
      EqualsSound(ll, rr, env);
      FactorSharedCase(e, lr, rl, ll, env);
    } else if Equals(lr, rl) && !Equals(ll, rr) {
      EqualsSound(lr, rl, env);
      FactorSharedCase(e, ll, rr, lr, env);
    } else if Equals(lr, rr) && !Equals(ll, rl) {
      EqualsSound(lr, rr, env);
      FactorSharedCase(e, ll, rl, lr, env);
    }
  }

  /**
   * When each child is worth `common` joined to its other operand by the
   * child's operator, factoring `common` out keeps the truth value.
   */
  lemma FactorSharedCase(e: Expr, a: Expr, b: Expr, common: Expr, env: string -> bool)
    requires Valid(e) && HasGrandchildren(e) && DistributiveGuard(e) && Valid(a) && Valid(b) && Valid(common)
    requires var f, c := Flip(e.operator.value), Value(common, env);
             Value(e.left.value, env) == Test(f, c, Value(a, env)) &&
             Value(e.right.value, env) == Test(f, c, Value(b, env))
    ensures Value(SetObjects(e, a, b, common), env) == Value(e, env)
  {
    FactorValue(e, a, b, common, env);
  }

  /**
   * The case distributivity is meant for: an AND or OR node over two
   * un-negated children that both carry the other one of the two operators.
   */
  predicate DistributiveGuard(e: Expr)
    requires HasGrandchildren(e)
  {
    AndOr(e.operator) && e.left.value.operator == Some(Flip(e.operator.value)) &&
    e.right.value.operator == e.left.value.operator &&
    !IsInverse(e.left.value) && !IsInverse(e.right.value)
  }

  /** Corrected, distributivity keeps the truth value of every well-formed tree. */
  lemma DistributiveCorrectedSound(e: Expr, env: string -> bool)
    requires Valid(e)
    ensures Value(DistributiveProperty(Corrected, e), env) == Value(e, env)
  {
    if HasGrandchildren(e) && e.left.value.operator != e.operator && DistributiveGuard(e) {
      FactorSharedSound(e, env);
    }
  }

  /**
   * As written, `(A ⋀ B) ⋁ (A ⋁ C)`, whose children carry different
   * operators, is factored into `A ⋀ (B ⋁ C)`, which is false where the input
   * is true (C alone true); corrected, the node is kept.
   */
  lemma DistributiveMixedOperatorsChangesMeaning()
    ensures var a, b, c := Atom("", "A"), Atom("", "B"), Atom("", "C");
            var e := Node(Node(a, And, b), Or, Node(a, Or, c));
            var r := Expr("", Some(Wrap(a)), Some(And), Some(Expr("(", Some(b), Some(Or), Some(c), ")", None)), "", None);
            var env := (n: string) => n == "C";
            DistributiveProperty(AsWritten, e) == r && DistributiveProperty(Corrected, e) == e &&
            Value(e, env) && !Value(r, env)
  {
    var a, b, c := Atom("", "A"), Atom("", "B"), Atom("", "C");
    var e := Node(Node(a, And, b), Or, Node(a, Or, c));
    MarkerCounts();
    assert FindAtomicValue(a) == "A" && FindAtomicValue(b) == "B" && FindAtomicValue(c) == "C";
    assert SetObjects(e, b, c, a) ==
           Expr("", Some(Wrap(a)), Some(And), Some(Expr("(", Some(b), Some(Or), Some(c), ")", None)), "", None);
  }

  /**
   * As written, `(A ⋀ B) ⋁ (¬A ⋀ C)` is factored on the name `A` although
   * the two occurrences differ in sign, into `A ⋀ (B ⋁ C)`, which is false
   * where the input is true (C alone true); corrected, the node is kept.
   */
  lemma DistributiveIgnoresSign()
    ensures var a, na, b, c := Atom("", "A"), Atom("¬", "A"), Atom("", "B"), Atom("", "C");
            var e := Node(Node(a, And, b), Or, Node(na, And, c));
            var r := Expr("", Some(Wrap(a)), Some(And), Some(Expr("(", Some(b), Some(Or), Some(c), ")", None)), "", None);
            var env := (n: string) => n == "C";
            DistributiveProperty(AsWritten, e) == r && DistributiveProperty(Corrected, e) == e &&
            Value(e, env) && !Value(r, env)
  {
    var a, na, b, c := Atom("", "A"), Atom("¬", "A"), Atom("", "B"), Atom("", "C");
    var e := Node(Node(a, And, b), Or, Node(na, And, c));
    MarkerCounts();
    assert FindAtomicValue(a) == "A" && FindAtomicValue(na) == "A" && FindAtomicValue(b) == "B" && FindAtomicValue(c) == "C";
    assert !Equals(a, na) && !Equals(b, c) && !Equals(a, c) && !Equals(b, na);
    assert FactorShared(e) == e;
    assert DistributiveProperty(AsWritten, e) == SetObjects(e, b, c, a);
    assert SetObjects(e, b, c, a) ==
           Expr("", Some(Wrap(a)), Some(And), Some(Expr("(", Some(b), Some(Or), Some(c), ")", None)), "", None);
  }

  /** Two atoms that share a name carry the same parity of negation signs. */
  predicate SameLiteral(x: Expr, y: Expr)
  {
    IsAtomic(x) && IsAtomic(y) && (x.atomic == y.atomic ==> IsInverse(x) == IsInverse(y))
  }

  /**
   * Distributivity proper: (c ⋀ a) ⋁ (c ⋀ b) is c ⋀ (a ⋁ b) and
   * (c ⋁ a) ⋀ (c ⋁ b) is c ⋁ (a ⋀ b). When the grandchildren are atoms
   * whose names decide their values, and both children carry the flipped
   * operator without negation, the factored node has the same truth value.
   */
  lemma DistributivePropertySound(e: Expr, env: string -> bool)
    requires Valid(e) && HasGrandchildren(e) && e.operator.value != Implication
    requires var l, rt := e.left.value, e.right.value;
             l.operator == Some(Flip(e.operator.value)) && rt.operator == l.operator &&
             !IsInverse(l) && !IsInverse(rt) &&
             SameLiteral(l.left.value, rt.left.value) && SameLiteral(l.left.value, rt.right.value) &&
             SameLiteral(l.right.value, rt.left.value) && SameLiteral(l.right.value, rt.right.value)
    ensures Value(DistributiveProperty(AsWritten, e), env) == Value(e, env)
  {
    var l, rt := e.left.value, e.right.value;
    var ll, lr, rl, rr := l.left.value, l.right.value, rt.left.value, rt.right.value;
    var op := e.operator.value;
    assert Valid(l) && Valid(rt);
    var vll, vlr, vrl, vrr := Value(ll, env), Value(lr, env), Value(rl, env), Value(rr, env);
    assert Value(e, env) == (Test(op, Test(Flip(op), vll, vlr), Test(Flip(op), vrl, vrr)) != IsInverse(e));
    SameLiteralValue(ll, rl, env);
    SameLiteralValue(ll, rr, env);
    SameLiteralValue(lr, rl, env);
    SameLiteralValue(lr, rr, env);
    var leftLeft, leftRight, rightLeft, rightRight := ll.atomic.value, lr.atomic.value, rl.atomic.value, rr.atomic.value;
    assert FindAtomicValue(ll) == leftLeft && FindAtomicValue(lr) == leftRight;
    assert FindAtomicValue(rl) == rightLeft && FindAtomicValue(rr) == rightRight;
    if leftLeft == rightLeft && leftRight != rightRight {
      FactorValue(e, lr, rr, ll, env);
    } else if leftLeft == rightRight && leftRight != rightLeft {
      FactorValue(e, lr, rl, ll, env);
    } else if leftRight == rightLeft && leftLeft != rightRight {
      FactorValue(e, ll, rr, lr, env);
    } else if leftRight == rightRight && leftLeft != rightLeft {
      FactorValue(e, ll, rl, lr, env);
    }
  }

  /** Factoring `common` out of both children keeps the value: the distributive law of AND and OR. */
  lemma FactorValue(e: Expr, a: Expr, b: Expr, common: Expr, env: string -> bool)
    requires Valid(e) && !IsAtomic(e) && e.operator.Some? && e.operator.value != Implication
    requires Valid(a) && Valid(b) && Valid(common)
    requires var op, c := e.operator.value, Value(common, env);
             Value(e, env) == (Test(op, Test(Flip(op), c, Value(a, env)), Test(Flip(op), c, Value(b, env))) != IsInverse(e))
    ensures Value(SetObjects(e, a, b, common), env) == Value(e, env)
  {
    SetObjectsValue(e, a, b, common, env);
  }

  /** Atoms with the same name and parity have the same value. */
  lemma SameLiteralValue(x: Expr, y: Expr, env: string -> bool)
    requires Valid(x) && Valid(y) && SameLiteral(x, y)
    ensures x.atomic == y.atomic ==> Value(x, env) == Value(y, env)
  {
  }

  /** The value of the factored node. */
  lemma {:induction false} SetObjectsValue(e: Expr, a: Expr, b: Expr, common: Expr, env: string -> bool)
    requires Valid(e) && e.operator.Some? && !IsAtomic(e) && Valid(a) && Valid(b) && Valid(common)
    ensures Valid(SetObjects(e, a, b, common))
    ensures Value(SetObjects(e, a, b, common), env) ==
            (Test(Flip(e.operator.value), Value(common, env), Test(e.operator.value, Value(a, env), Value(b, env))) != IsInverse(e))
  {
    var r := SetObjects(e, a, b, common);
    var op := e.operator.value;
    assert Value(r.left.value, env) == Value(common, env);
    ValueRelabel(Node(a, op, b), r.right.value, env);
    assert Value(Node(a, op, b), env) == Test(op, Value(a, env), Value(b, env));
  }

  /** When the shared atom is the inner pair `y`, it is factored out and the outer atoms are joined. */
  lemma DistributeSharedMiddle(e: Expr, x: Expr, y: Expr, z: Expr)
    requires IsAtomic(x) && IsAtomic(y) && IsAtomic(z) && Valid(x) && Valid(y) && Valid(z)
    requires x.atomic != y.atomic && x.atomic != z.atomic && y.atomic != z.atomic
    requires e.left.Some? && e.right.Some? && e.operator.Some? && e.atomic.None?
    requires var l, r := e.left.value, e.right.value;
             l.atomic.None? && r.atomic.None? && l.operator.Some? && r.operator.Some? && l.operator != e.operator &&
             l.left == Some(x) && l.right == Some(y) && r.left == Some(y) && r.right == Some(z)
    ensures Valid(e) && DistributiveProperty(AsWritten, e) == SetObjects(e, x, z, y)
  {
    assert FindAtomicValue(x) == x.atomic.value && FindAtomicValue(y) == y.atomic.value && FindAtomicValue(z) == z.atomic.value;
  }

  /** The documented example `A ⋀ B ⋁ B ⋀ C` becomes `B ⋀ (A ⋁ C)`. */
  lemma DistributivePropertyFactorsAnd()
    ensures ToString(DistributiveProperty(AsWritten, Node(Node(Atom("", "A"), And, Atom("", "B")), Or, Node(Atom("", "B"), And, Atom("", "C")))))
            == "B ⋀ (A ⋁ C)"
  {
    FactorsAndTree();
    FactorsAndText();
  }

  /** The tree of the first example: `B` wrapped, AND, and the parenthesized `A ⋁ C`. */
  lemma FactorsAndTree()
    ensures DistributiveProperty(AsWritten, Node(Node(Atom("", "A"), And, Atom("", "B")), Or, Node(Atom("", "B"), And, Atom("", "C"))))
            == Expr("", Some(Wrap(Atom("", "B"))), Some(And), Some(Expr("(", Some(Atom("", "A")), Some(Or), Some(Atom("", "C")), ")", None)), "", None)
  {
    var a, b, c := Atom("", "A"), Atom("", "B"), Atom("", "C");
    var e := Node(Node(a, And, b), Or, Node(b, And, c));
    DistributeSharedMiddle(e, a, b, c);
    assert SetObjects(e, a, c, b) == Expr("", Some(Wrap(b)), Some(And), Some(Expr("(", Some(a), Some(Or), Some(c), ")", None)), "", None);
  }

  lemma FactorsAndText()
    ensures ToString(Expr("", Some(Wrap(Atom("", "B"))), Some(And), Some(Expr("(", Some(Atom("", "A")), Some(Or), Some(Atom("", "C")), ")", None)), "", None))
            == "B ⋀ (A ⋁ C)"
  {
  }

  /** The documented example `(A ⋁ B) ⋀ (B ⋁ C)` becomes `B ⋁ A ⋀ C`. */
  lemma DistributivePropertyFactorsOr()
    ensures ToString(DistributiveProperty(AsWritten, Node(Expr("(", Some(Atom("", "A")), Some(Or), Some(Atom("", "B")), ")", None), And,
                                               Expr("(", Some(Atom("", "B")), Some(Or), Some(Atom("", "C")), ")", None))))
            == "B ⋁ A ⋀ C"
  {
    FactorsOrTree();
    FactorsOrText();
  }

  /** The tree of the second example: `B` wrapped, OR, and `A ⋀ C` without parentheses. */
  lemma FactorsOrTree()
    ensures DistributiveProperty(AsWritten, Node(Expr("(", Some(Atom("", "A")), Some(Or), Some(Atom("", "B")), ")", None), And,
                                      Expr("(", Some(Atom("", "B")), Some(Or), Some(Atom("", "C")), ")", None)))
            == Expr("", Some(Wrap(Atom("", "B"))), Some(Or), Some(Node(Atom("", "A"), And, Atom("", "C"))), "", None)
  {
    var a, b, c := Atom("", "A"), Atom("", "B"), Atom("", "C");
    var e := Node(Expr("(", Some(a), Some(Or), Some(b), ")", None), And, Expr("(", Some(b), Some(Or), Some(c), ")", None));
    DistributeSharedMiddle(e, a, b, c);
    assert SetObjects(e, a, c, b) == Expr("", Some(Wrap(b)), Some(Or), Some(Node(a, And, c)), "", None);
  }

  lemma FactorsOrText()
    ensures ToString(Expr("", Some(Wrap(Atom("", "B"))), Some(Or), Some(Node(Atom("", "A"), And, Atom("", "C"))), "", None)) == "B ⋁ A ⋀ C"
  {
  }

  // ---------------------------------------------------------------------
  // Commutativity

  /** The null dereference of commutativeProperty: an atomic left child and no right child. */
  predicate CommutativeFails(e: Expr)
  {
    e.left.Some? && IsAtomic(e.left.value) && e.right.None?
  }

  /** The node with its children exchanged. */
  function Swapped(e: Expr): (r: Expr)
    ensures r.left == e.right && r.right == e.left
    ensures r.leading == e.leading && r.operator == e.operator && r.trailing == e.trailing && r.atomic == e.atomic
  {
    e.(left := e.right, right := e.left)
  }

  /**
   * commutativeProperty as written: two atomic children out of order by
   * compareTo are exchanged, and so are `¬A` and `A`; the operator is not
   * looked at, so an implication is turned around too.
   */
  function CommutativePropertyAsWritten(e: Expr, trace: seq<OrderOperations>): (r: Option<(Expr, seq<OrderOperations>)>)
    requires Valid(e)
    ensures r.None? <==> CommutativeFails(e)
    ensures r.Some? ==> Valid(r.value.0)
    ensures r.Some? ==> r.value.0 == e || r.value.0 == Swapped(e)
    ensures r.Some? ==> Extends(r.value.1, trace, ToString(e), ToString(r.value.0))
  {
    if e.left.Some? && IsAtomic(e.left.value) then
      if e.right.None? then None
      else
        var l, rt := e.left.value, e.right.value;
        if IsAtomic(rt) && CompareTo(l.atomic.value, rt.atomic.value) >= 0 &&
           (l.atomic != rt.atomic || (EqualsAndOpposite(AsWritten, l, rt) && !IsInverse(rt))) then
          var e' := Swapped(e);
          Some((e', IsChangedThenAdd(e', ToString(e), "Commutative", trace).1))
        else Some((e, IsChangedThenAdd(e, ToString(e), "Commutative", trace).1))
    else Some((e, IsChangedThenAdd(e, ToString(e), "Commutative", trace).1))
  }

  /** `B ➔ A` is turned into `A ➔ B`, which has a different truth value when B holds and A does not. */
  lemma CommutativeAsWrittenSwapsImplication()
    ensures var e := Node(Atom("", "B"), Implication, Atom("", "A"));
            CommutativePropertyAsWritten(e, []).Some? &&
            CommutativePropertyAsWritten(e, []).value.0 == Node(Atom("", "A"), Implication, Atom("", "B")) &&
            Value(e, (n: string) => n == "B") != Value(Node(Atom("", "A"), Implication, Atom("", "B")), (n: string) => n == "B")
  {
    var e := Node(Atom("", "B"), Implication, Atom("", "A"));
    assert CompareTo("B", "A") == 1;
    assert Swapped(e) == Node(Atom("", "A"), Implication, Atom("", "B"));
    MarkerCounts();
  }

  /**
   * commutativeProperty with implication excluded: an implication node is
   * left as it is, every other node is treated as written.
   */
  function CommutativeProperty(e: Expr, trace: seq<OrderOperations>): (r: Option<(Expr, seq<OrderOperations>)>)
    requires Valid(e)
    ensures r.None? <==> CommutativeFails(e)
    ensures r.Some? ==> Valid(r.value.0)
    ensures r.Some? ==> Extends(r.value.1, trace, ToString(e), ToString(r.value.0))
    ensures r.Some? ==> r.value.0 == e || (r.value.0 == Swapped(e) && e.operator != Some(Implication))
    ensures r.Some? && r.value.0 != e ==>
              IsAtomic(r.value.0.left.value) && IsAtomic(r.value.0.right.value) &&
              CompareTo(r.value.0.left.value.atomic.value, r.value.0.right.value.atomic.value) <= 0
  {
    if e.operator == Some(Implication) && e.right.Some? then
      Some((e, IsChangedThenAdd(e, ToString(e), "Commutative", trace).1))
    else
      var r := CommutativePropertyAsWritten(e, trace);
      if r.Some? && r.value.0 != e then
        CompareToProperties(e.left.value.atomic.value, e.right.value.atomic.value);
        r
      else r
  }

  /** Exchanging the children of an AND or OR node keeps its truth value. */
  lemma CommutativePropertySound(e: Expr, trace: seq<OrderOperations>, env: string -> bool)
    requires Valid(e) && !CommutativeFails(e)
    ensures Value(CommutativeProperty(e, trace).value.0, env) == Value(e, env)
  {
    var r := CommutativeProperty(e, trace).value.0;
    if r != e {
      assert Value(r, env) == (Test(e.operator.value, Value(e.right.value, env), Value(e.left.value, env)) != IsInverse(e));
    }
  }

  /** A node commutativity has put in order stays as it is. */
  lemma {:induction false} CommutativePropertyIdempotent(e: Expr, trace: seq<OrderOperations>)
    requires Valid(e) && !CommutativeFails(e)
    ensures var r := CommutativeProperty(e, trace).value;
            CommutativeProperty(r.0, r.1).Some? && CommutativeProperty(r.0, r.1).value.0 == r.0
  {
    var r := CommutativeProperty(e, trace).value.0;
    if r != e {
      var l, rt := e.left.value, e.right.value;
      EqualsAndOppositeAtoms(AsWritten, l, rt);
      EqualsAndOppositeAtoms(AsWritten, rt, l);
      CompareToProperties(l.atomic.value, rt.atomic.value);
    }
  }

  /** `B ⋁ A` becomes `A ⋁ B`, with one record. */
  lemma CommutativePropertyExample()
    ensures CommutativeProperty(Node(Atom("", "B"), Or, Atom("", "A")), []) ==
            Some((Node(Atom("", "A"), Or, Atom("", "B")), [OrderOperations("B ⋁ A", "A ⋁ B", "Commutative")]))
  {
    CommutativePropertyExampleText();
  }

  /** The order and the texts the example's trace entry records. */
  lemma CommutativePropertyExampleText()
    ensures CompareTo("B", "A") == 1
    ensures ToString(Node(Atom("", "B"), Or, Atom("", "A"))) == "B ⋁ A"
    ensures ToString(Node(Atom("", "A"), Or, Atom("", "B"))) == "A ⋁ B"
  {
    assert CompareTo("B", "A") == 1;
  }

  // ---------------------------------------------------------------------
  // Removal of parentheses

  /**
   * removeParenthesis: an AND node that is not negated loses its own
   * markers; otherwise a child that carries the node's operator and is not
   * negated loses its markers (with two compound children of the same
   * operator, both of them first).
   */
  function RemoveParenthesis(e: Expr, trace: seq<OrderOperations>): (r: (Expr, seq<OrderOperations>))
    requires Valid(e)
    ensures Valid(r.0) && r.0.operator == e.operator && r.0.atomic == e.atomic
    ensures r.0.left.Some? == e.left.Some? && r.0.right.Some? == e.right.Some?
    ensures e.left.Some? ==> Relabelled(r.0.left.value, e.left.value)
    ensures e.right.Some? ==> Relabelled(r.0.right.value, e.right.value)
    ensures IsInverse(r.0) == IsInverse(e)
    ensures e.left.Some? ==> IsInverse(r.0.left.value) == IsInverse(e.left.value)
    ensures e.right.Some? ==> IsInverse(r.0.right.value) == IsInverse(e.right.value)
    ensures e.left.Some? && e.right.Some? && e.operator == Some(And) && !IsInverse(e) ==>
              r.0.leading == "" && r.0.trailing == ""
    ensures Extends(r.1, trace, ToString(e), ToString(r.0))
    ensures !(e.left.Some? && e.right.Some?) ==> r == (e, trace)
  {
    if e.left.Some? && e.right.Some? then
      var e' := ParenthesesCleared(e);
      (e', IsChangedThenAdd(e', ToString(e), "Removal of parentheses", trace).1)
    else
      assert trace[|trace|..] == [];
      (e, trace)
  }

  /** The node removeParenthesis builds: markers are cleared where they are not needed, nothing else changes. */
  function ParenthesesCleared(e: Expr): (r: Expr)
    requires Valid(e) && e.left.Some? && e.right.Some?
    ensures Valid(r) && r.operator == e.operator && r.atomic == e.atomic && r.left.Some? && r.right.Some?
    ensures Relabelled(r.left.value, e.left.value) && Relabelled(r.right.value, e.right.value)
    ensures IsInverse(r) == IsInverse(e)
    ensures IsInverse(r.left.value) == IsInverse(e.left.value) && IsInverse(r.right.value) == IsInverse(e.right.value)
    ensures e.operator == Some(And) && !IsInverse(e) ==> r.leading == "" && r.trailing == ""
  {
    var l, rt := e.left.value, e.right.value;
    assert Valid(l) && Valid(rt);
    if (e.operator == Some(And) && !IsInverse(e)) || IsAtomic(e) then Cleared(e)
    else if IsAtomic(l) || IsAtomic(rt) then
      if e.operator == l.operator && !IsInverse(l) then e.(left := Some(Cleared(l)))
      else if e.operator == rt.operator && !IsInverse(rt) then e.(right := Some(Cleared(rt)))
      else e
    else
      var both := if l.operator == rt.operator && !IsInverse(l) && !IsInverse(rt)
                  then e.(left := Some(Cleared(l)), right := Some(Cleared(rt))) else e;
      var l2, r2 := both.left.value, both.right.value;
      if e.operator == l2.operator && !IsInverse(l2) then both.(left := Some(Cleared(l2)))
      else if e.operator == r2.operator && !IsInverse(r2) then both.(right := Some(Cleared(r2)))
      else both
  }

  /** Removing markers from nodes that are not negated keeps the truth value. */
  lemma RemoveParenthesisSound(e: Expr, trace: seq<OrderOperations>, env: string -> bool)
    requires Valid(e)
    ensures Value(RemoveParenthesis(e, trace).0, env) == Value(e, env)
  {
    var r := RemoveParenthesis(e, trace).0;
    if e.left.Some? && e.right.Some? {
      var l, rt, op := e.left.value, e.right.value, e.operator.value;
      ValueRelabel(l, r.left.value, env);
      ValueRelabel(rt, r.right.value, env);
      assert Value(r, env) == (Test(op, Value(r.left.value, env), Value(r.right.value, env)) != IsInverse(r));
      assert Value(e, env) == (Test(op, Value(l, env), Value(rt, env)) != IsInverse(e));
    }
  }

  /** `(A ⋀ B)` becomes `A ⋀ B`. */
  lemma RemoveParenthesisExample()
    ensures ToString(RemoveParenthesis(Expr("(", Some(Atom("", "A")), Some(And), Some(Atom("", "B")), ")", None), []).0) == "A ⋀ B"
  {
    var e := Expr("(", Some(Atom("", "A")), Some(And), Some(Atom("", "B")), ")", None);
    MarkerCounts();
    assert CountChar("(", NOT) == 0 by {
      assert "("[..0] == "";
    }
    assert ParenthesesCleared(e) == Node(Atom("", "A"), And, Atom("", "B"));
    assert RemoveParenthesis(e, []).0 == ParenthesesCleared(e);
  }

  // ---------------------------------------------------------------------
  // All laws in order

  /** The laws `laws` applies, in the order it applies them. */
  datatype Law = ImplicationElimination | NegationElimination | DeMorgan | Absorption | Associativity | Distributivity

  /** The name of a law in the trace, in the chosen language. */
  function LawName(law: Law, lang: Language): (r: string)
    ensures r != ""
  {
    match law
    case ImplicationElimination => if lang == English then "Elimination of implication" else "Eliminering av implikasjon"
    case NegationElimination => if lang == English then "Double negation" else "Dobbel negasjon"
    case DeMorgan => if lang == English then "De Morgan's Laws" else "De Morgans lover"
    case Absorption => if lang == English then "Absorption law" else "Absorpsjons loven"
    case Associativity => if lang == English then "Associative property" else "Assosisative egenskaper"
    case Distributivity => if lang == English then "Distributivity" else "Distributivitet"
  }

  /** In either language every law has its own name, so the trace tells the laws apart. */
  lemma LawNamesDistinct(a: Law, b: Law, lang: Language)
    ensures LawName(a, lang) == LawName(b, lang) <==> a == b
  {
    if a != b {
      var x, y := LawName(a, lang), LawName(b, lang);
      NameKey(a, lang);
      NameKey(b, lang);
      assert |x| != |y| || x[0] != y[0] || x[1] != y[1];
    }
  }

  /** Length and first two letters of each name, which already tell the names of one language apart. */
  lemma NameKey(law: Law, lang: Language)
    ensures var x := LawName(law, lang);
            |x| > 1 && (|x|, x[0], x[1]) ==
            match law
            case ImplicationElimination => (26, 'E', 'l')
            case NegationElimination => (15, 'D', 'o')
            case DeMorgan => (16, 'D', 'e')
            case Absorption => (if lang == English then 14 else 17, 'A', 'b')
            case Associativity => (if lang == English then 20 else 23, 'A', 's')
            case Distributivity => (if lang == English then 14 else 15, 'D', 'i')
  {
  }

  /**
   * A trace extended by records of named laws: the old trace is kept, the
   * new records lead from `from` to `to`, there are at most `n` of them and
   * each names a law in the chosen language.
   */
  ghost predicate LawSteps(trace': seq<OrderOperations>, trace: seq<OrderOperations>, from: string, to: string, lang: Language, n: nat)
  {
    Extends(trace', trace, from, to) && |trace'| <= |trace| + n &&
    forall k :: |trace| <= k < |trace'| ==> exists law :: trace'[k].law == LawName(law, lang)
  }

  /** Law steps compose. */
  lemma LawStepsTrans(t1: seq<OrderOperations>, t2: seq<OrderOperations>, t3: seq<OrderOperations>,
                      a: string, b: string, c: string, lang: Language, m: nat, n: nat)
    requires LawSteps(t2, t1, a, b, lang, m) && LawSteps(t3, t2, b, c, lang, n)
    ensures LawSteps(t3, t1, a, c, lang, m + n)
  {
    ExtendsTrans(t1, t2, t3, a, b, c);
    forall k | |t1| <= k < |t3|
      ensures exists law :: t3[k].law == LawName(law, lang)
    {
      if k < |t2| {
        assert t3[..|t2|] == t2;
        assert t3[k] == t2[k];
      }
    }
  }

  /** isChangedThenAdd with the name of `law`. */
  function LawStep(e: Expr, exp: string, law: Law, lang: Language, trace: seq<OrderOperations>): (r: (string, seq<OrderOperations>))
    ensures r.0 == ToString(e)
    ensures LawSteps(r.1, trace, exp, ToString(e), lang, 1)
  {
    var r := IsChangedThenAdd(e, exp, LawName(law, lang), trace);
    assert forall k :: |trace| <= k < |r.1| ==> r.1[k].law == LawName(law, lang);
    r
  }

  /**
   * A law step after `n` earlier ones: the rendering `prev.0` reached from
   * `from` with the records `prev.1` is compared with the new node's.
   */
  function NextLawStep(e: Expr, prev: (string, seq<OrderOperations>), law: Law, lang: Language,
                       ghost trace: seq<OrderOperations>, ghost from: string, ghost n: nat): (r: (string, seq<OrderOperations>))
    requires LawSteps(prev.1, trace, from, prev.0, lang, n)
    ensures r.0 == ToString(e)
    ensures LawSteps(r.1, trace, from, ToString(e), lang, n + 1)
  {
    var r := LawStep(e, prev.0, law, lang, prev.1);
    LawStepsTrans(trace, prev.1, r.1, from, prev.0, r.0, lang, n, 1);
    r
  }

  /** The node after the first three laws, which absorption is applied to. */
  function BeforeAbsorption(e: Expr): (r: Expr)
    requires Valid(e)
    ensures Valid(r)
  {
    DeMorgansLaws(DoubleNegation(EliminationOfImplication(e)))
  }

  /** The first three laws of `laws`, each followed by its trace record. */
  function FirstLaws(e: Expr, trace: seq<OrderOperations>, lang: Language): (r: (Expr, seq<OrderOperations>))
    requires Valid(e)
    ensures r.0 == BeforeAbsorption(e)
    ensures LawSteps(r.1, trace, ToString(e), ToString(r.0), lang, 3)
  {
    var e1 := EliminationOfImplication(e);
    var s1 := LawStep(e1, ToString(e), ImplicationElimination, lang, trace);
    var e2 := DoubleNegation(e1);
    var s2 := NextLawStep(e2, s1, NegationElimination, lang, trace, ToString(e), 1);
    var e3 := DeMorgansLaws(e2);
    var s3 := NextLawStep(e3, s2, DeMorgan, lang, trace, ToString(e), 2);
    (e3, s3.1)
  }

  /**
   * laws: elimination of implication, double negation, De Morgan's laws,
   * absorption, the (empty) associative property and distributivity, each
   * followed by a trace record when it changed the rendering. `None` is
   * absorption's null dereference.
   */
  function ApplyLaws(rev: Revision, e: Expr, trace: seq<OrderOperations>, lang: Language): (r: Option<(Expr, seq<OrderOperations>)>)
    requires Valid(e)
    ensures r.None? <==> AbsorptionFails(rev, BeforeAbsorption(e))
    ensures r.Some? ==> Valid(r.value.0)
    ensures r.Some? ==> LawSteps(r.value.1, trace, ToString(e), ToString(r.value.0), lang, 6)
  {
    var s3 := FirstLaws(e, trace, lang);
    var a := AbsorptionLaw(rev, s3.0);
    if a.None? then None
    else
      var e4 := a.value;
      var s4 := NextLawStep(e4, (ToString(s3.0), s3.1), Absorption, lang, trace, ToString(e), 3);
      // associativeProperty leaves the node as it is
      var s5 := NextLawStep(e4, s4, Associativity, lang, trace, ToString(e), 4);
      var e6 := DistributiveProperty(rev, e4);
      var s6 := NextLawStep(e6, s5, Distributivity, lang, trace, ToString(e), 5);
      Some((e6, s6.1))
  }
}

=== FILE: legacy_parser.dfy ===
/**
 * The older parser of `classes/ExpressionUtils.java`: an expression check
 * that returns an error message (empty for a legal expression) and knows
 * square brackets, a one-character isAtomic, isOuterParentheses and
 * getCenterOperatorIndex. Operators come from the operator table of
 * `classes/Operator.java`. A Java exception is `None`.
 */
module LegacyParser {
  import opened Optional
  import opened Strings
  import opened Operators
  import OperatorTable
  import opened Enums
  import Parser
  import Laws

  // ---------------------------------------------------------------------
  // Error messages

  const IllegalChar: string := "Illegal character"
  const MissingChar: string := "Missing character"
  const AtIndex: string := "at index:"
  const ExpressionTooBig: string := "Expression too big"

  /** The part of an error message before the index. */
  function ErrorHead(c: char, msg: string): (r: string)
    ensures |r| == |msg| + |AtIndex| + 6 && r[..|msg|] == msg && r[|msg| + 2] == c
  {
    msg + " '" + [c] + "' " + AtIndex + " "
  }

  /** error: the message, the character in quotes, "at index:" and the index in decimal. */
  function ErrorMessage(c: char, index: nat, msg: string): (r: string)
    ensures |r| > |msg| + |AtIndex| + 6 && r[..|msg|] == msg && r[|msg| + 2] == c
  {
    var h := ErrorHead(c, msg);
    assert (h + NatToString(index))[..|h|] == h;
    h + NatToString(index)
  }

  /** An error message can be read back: it determines its character and its index. */
  lemma ErrorMessageReadBack(c: char, index: nat, msg: string)
    ensures var r := ErrorMessage(c, index, msg);
            var digits := r[|msg| + |AtIndex| + 6..];
            r[|msg| + 2] == c &&
            (forall i :: 0 <= i < |digits| ==> '0' <= digits[i] <= '9') && DigitsValue(digits) == index
  {
    var h := ErrorHead(c, msg);
    assert (h + NatToString(index))[|h|..] == NatToString(index);
    NatToStringRoundTrip(index);
  }

  /** Two error messages with the same text name the same character and index. */
  lemma ErrorMessageInjective(c: char, i: nat, d: char, j: nat, msg: string)
    requires ErrorMessage(c, i, msg) == ErrorMessage(d, j, msg)
    ensures c == d && i == j
  {
    ErrorMessageReadBack(c, i, msg);
    ErrorMessageReadBack(d, j, msg);
  }

  /** An error message is never empty and never the message of a too big expression. */
  lemma ErrorMessageDistinct(c: char, index: nat, msg: string)
    requires msg == IllegalChar || msg == MissingChar
    ensures ErrorMessage(c, index, msg) != "" && ErrorMessage(c, index, msg) != ExpressionTooBig
  {
    var r := ErrorMessage(c, index, msg);
    assert r[0] == r[..|msg|][0] == msg[0] != ExpressionTooBig[0];
  }

  // ---------------------------------------------------------------------
  // isAtomic

  /** The character class of the isAtomic pattern: a letter a-z, A-Z, æøå, ÆØÅ, a digit or a square bracket. */
  predicate IsAtomChar(c: char)
  {
    'a' <= c <= 'z' || 'A' <= c <= 'Z' || c in "æøåÆØÅ" || '0' <= c <= '9' || c == '[' || c == ']'
  }

  /**
   * isAtomic: the anchored pattern matches exactly one character of the
   * class, and the loop that follows, which would reject a second atomic
   * value, never finds one in a one-character string.
   */
  method IsAtomic(s: string) returns (atomic: bool)
    ensures atomic <==> |s| == 1 && IsAtomChar(s[0])
  {
    atomic := |s| == 1 && IsAtomChar(s[0]);
    var nrOfAtomics := 0;
    var isSquareBracket := false;
    var i := 0;
    while atomic && i < |s|
      invariant 0 <= i <= |s|
      invariant nrOfAtomics <= i
      invariant atomic <==> |s| == 1 && IsAtomChar(s[0])
      decreases |s| - i
    {
      if s[i] == '[' {
        isSquareBracket := true;
      } else if s[i] == ']' {
        nrOfAtomics := nrOfAtomics + 1;
        isSquareBracket := false;
        if nrOfAtomics > 1 {
          atomic := false;
        }
      } else if IsAtomChar(s[i]) && !isSquareBracket {
        nrOfAtomics := nrOfAtomics + 1;
        if nrOfAtomics > 1 {
          atomic := false;
        }
      }
      i := i + 1;
    }
  }

  // ---------------------------------------------------------------------
  // isOuterParentheses

  /**
   * isOuterParentheses of this revision: the depth loop lacks the bound
   * check of the newer revision, so whenever the first `(` stays open up to
   * the last character the loop reads past the end. It therefore never
   * answers true: it crashes exactly where the newer revision answers true
   * (or crashes itself), and otherwise answers false.
   */
  method IsOuterParentheses(s: string) returns (r: Option<bool>)
    ensures r.Some? <==> Parser.OuterParentheses(s) == Some(false)
    ensures r.Some? ==> r.value == false
  {
    var index := 0;
    while index < |s| && s[index] == NOT
      invariant index <= |s|
      invariant forall i :: 0 <= i < index ==> s[i] == NOT
    {
      index := index + 1;
    }
    if index == |s| {
      Laws.NotRunUnique(s, index);
      return None;
    }
    Laws.NotRunUnique(s, index);
    ghost var k := index;
    var operators := 0;
    var isOuter := s[index] == '(';
    while isOuter && (index == |s| || s[index] == '(' || operators > 0)
      invariant k <= index <= |s|
      invariant isOuter ==> s[k] == '(' && operators == Parser.Depth(s[k..index]) && operators >= 0
      invariant isOuter && k < index < |s| ==> operators > 0
      invariant isOuter ==> forall j :: k < j <= index && j < |s| ==> Parser.SliceDepth(s, k, j) > 0
      invariant !isOuter ==> !(s[k] == '(' && forall j :: k < j < |s| ==> Parser.SliceDepth(s, k, j) > 0)
      decreases |s| - index
    {
      if index == |s| {
        return None;
      }
      Parser.DepthStep(s, k, index);
      assert s[k..k] == [];
      assert isOuter && index > k ==> Parser.SliceDepth(s, k, index) == operators;
      assert Parser.SliceDepth(s, k, index + 1) == Parser.Depth(s[k..index + 1]);
      if s[index] == '(' {
        operators := operators + 1;
      } else if s[index] == ')' {
        operators := operators - 1;
        if operators == 0 && index != |s| - 1 {
          isOuter := false;
        }
      }
      index := index + 1;
    }
    return Some(isOuter);
  }

  /**
   * `(A⋀B)` has outer parentheses, so this revision's isOuterParentheses,
   * and with it removeOuterParentheses, reads past its end on it.
   */
  lemma OuterParenthesesCrashExample()
    ensures Parser.OuterParentheses("(A⋀B)") == Some(true)
  {
    Parser.StripConjunction();
  }

  // ---------------------------------------------------------------------
  // getCenterOperatorIndex

  /** No square bracket anywhere; this revision counts `[` and `]` like parentheses. */
  predicate NoSquare(t: string)
  {
    forall i :: 0 <= i < |t| ==> t[i] != '[' && t[i] != ']'
  }

  /** `co` names a binary operator of the table standing at its index in `t`. */
  predicate IsCandidateAt(t: string, co: CenterOperator)
  {
    co.index < |t| && OperatorTable.GetOperatorChar(t[co.index]) == Some(co.operator) && co.operator != Not
  }

  /** The weights of the table are the ordinals of the enum revisions. */
  lemma WeightIsOrdinal(o: Op)
    ensures OperatorTable.Weight(o) == Ordinal(o)
  {
  }

  /**
   * The inner loop of the scan, skipping a group opened by `(` or `[`.
   * Without square brackets it stops where the newer revision's does.
   * `None` is the index overflow of a group that is not closed.
   */
  method SkipGroup(t: string, s: nat) returns (r: Option<nat>)
    requires s < |t|
    ensures r.Some? ==> s <= r.value <= |t|
    ensures NoSquare(t) && r.None? ==> Parser.Depth(t[s..]) > 0
    ensures NoSquare(t) && r.Some? ==> Parser.GroupEnd(t, s, r.value)
  {
    ghost var h := NoSquare(t);
    var i := s;
    var parentheses := 0;
    var c := t[i];
    assert t[s..s] == [];
    while c == '(' || c == '[' || parentheses > 0
      invariant s <= i <= |t|
      invariant h ==> parentheses == Parser.Depth(t[s..i])
      invariant i == s ==> c == t[s] && parentheses == 0
      invariant i > s ==> c == t[i - 1]
      invariant h && i > s ==> t[s] == '('
      invariant h ==> forall p :: s < p < i ==> Parser.SliceDepth(t, s, p) > 0
      decreases |t| - i
    {
      if h && i > s {
        Parser.DepthStep(t, s, i - 1);
        assert i - 1 > s ==> Parser.SliceDepth(t, s, i - 1) > 0;
        assert Parser.SliceDepth(t, s, i) == parentheses;
      }
      if i >= |t| {
        assert t[s..i] == t[s..];
        return None;
      }
      if h {
        Parser.DepthStep(t, s, i);
      }
      c := t[i];
      if c == '(' || c == '[' {
        parentheses := parentheses + 1;
      } else if c == ')' || c == ']' {
        parentheses := parentheses - 1;
      }
      i := i + 1;
    }
    if h {
      Parser.GroupEndAt(t, s, i, c);
    }
    return Some(i);
  }

  /**
   * The scan of this revision: like the newer one, but the character after
   * a skipped group is read without checking that the group did not end
   * the string. On a balanced string without square brackets and without
   * `)(` it therefore crashes exactly when the string ends with `)`.
   */
  method ScanOperators(t: string) returns (r: Option<seq<CenterOperator>>)
    ensures r.Some? ==> forall k :: 0 <= k < |r.value| ==> IsCandidateAt(t, r.value[k])
    ensures NoSquare(t) && Parser.Balanced(t) && Parser.NoCloseOpen(t) ==>
              (r.None? <==> t != [] && t[|t| - 1] == ')')
  {
    ghost var h := NoSquare(t) && Parser.Balanced(t) && Parser.NoCloseOpen(t);
    var operators: seq<CenterOperator> := [];
    var i := 0;
    while i < |t|
      invariant 0 <= i <= |t|
      invariant forall k :: 0 <= k < |operators| ==> IsCandidateAt(t, operators[k])
      invariant h ==> Parser.Depth(t[..i]) == 0
      invariant h && i > 0 ==> Parser.Depth(t[..i - 1]) == 0
      decreases |t| - i
    {
      var skipped := SkipGroup(t, i);
      if skipped.None? {
        if h {
          Parser.BalancedGroupCloses(t, i);
        }
        return None;
      }
      var j := skipped.value;
      if j == |t| {
        return None;
      }
      if h {
        ScanStep(t, i, j, j + 1);
      }
      var op := OperatorTable.GetOperatorChar(t[j]);
      if op.Some? && op.value != Not {
        operators := operators + [CenterOperator(op.value, j)];
      }
      i := j + 1;
    }
    if h && |t| > 0 {
      Parser.DepthStep(t, 0, |t| - 1);
      assert t[0..|t|] == t[..|t|] && t[0..|t| - 1] == t[..|t| - 1];
    }
    r := Some(operators);
  }

  /** The character read after a skipped group, and the string before it, stand at depth zero. */
  lemma ScanStep(t: string, s: nat, j: nat, i: nat)
    requires Parser.GroupEnd(t, s, j) && j < |t| && i == j + 1
    requires Parser.Balanced(t) && Parser.NoCloseOpen(t) && Parser.Depth(t[..s]) == 0
    ensures Parser.Depth(t[..i]) == 0 && Parser.Depth(t[..i - 1]) == 0
  {
    Parser.GroupEndSkips(t, s, j);
  }

  /**
   * getCenterOperatorIndex of this revision: remove outer parentheses
   * (which crashes whenever there are any), scan, and choose by weight as
   * the newer revision chooses by ordinal. On a well-formed string that
   * ends with a parenthesized group it crashes.
   */
  method GetCenterOperatorIndex(t: string) returns (r: Option<CenterOperator>)
    ensures r.Some? ==> Parser.OuterParentheses(t) == Some(false) && IsCandidateAt(t, r.value)
    ensures NoSquare(t) && Parser.Balanced(t) && Parser.NoCloseOpen(t) && t != [] && t[|t| - 1] == ')' ==> r.None?
  {
    var outer := IsOuterParentheses(t);
    if outer.None? {
      return None;
    }
    // isOuterParentheses answered false, so removeOuterParentheses keeps the string
    var operators := ScanOperators(t);
    if operators.None? {
      return None;
    }
    r := Parser.ChooseCenter(operators.value);
    if r.Some? {
      Parser.CenterChoiceIsWeakest(operators.value);
    }
  }

  /**
   * `A⋀(B)` is balanced and ends with a group: this revision crashes on it,
   * while the newer revision finds ⋀ at index 1.
   */
  lemma CenterCrashExample()
    ensures var t := "A⋀(B)";
            NoSquare(t) && Parser.Balanced(t) && Parser.NoCloseOpen(t) && t[|t| - 1] == ')' &&
            Parser.OuterParentheses(t) == Some(false) &&
            Parser.CenterChoice(Parser.DepthZeroOperators(t, |t|)) == Some(CenterOperator(And, 1))
  {
    CenterCrashBalanced();
    CenterCrashNotOuter();
    CenterCrashOperators();
  }

  /** `A⋀(B)` is balanced: every prefix has a non-negative depth and the whole has depth zero. */
  lemma CenterCrashBalanced()
    ensures Parser.Balanced("A⋀(B)") && forall j :: 0 <= j <= 5 ==> Parser.PrefixDepth("A⋀(B)", j) >= 0
  {
    var t := "A⋀(B)";
    assert t == "A⋀" + "(B)";
    Parser.NoParenthesesBalanced("B");
    Parser.WrapThenRemoveOuterParentheses("B");
    assert "(" + "B" + ")" == "(B)";
    assert Parser.Balanced("(B)");
    Parser.NoParenthesesBalanced("A⋀");
    Parser.DepthAppend("A⋀", "(B)");
    forall j | 0 <= j <= |t|
      ensures Parser.PrefixDepth(t, j) >= 0
    {
      if j <= 2 {
        assert t[..j] == "A⋀"[..j];
        assert Parser.PrefixDepth("A⋀", j) >= 0;
      } else {
        assert t[..j] == "A⋀" + "(B)"[..j - 2];
        Parser.DepthAppend("A⋀", "(B)"[..j - 2]);
        assert Parser.PrefixDepth("(B)", j - 2) >= 0;
      }
    }
  }

  /** `A⋀(B)` does not start with parentheses around the whole. */
  lemma CenterCrashNotOuter()
    ensures NoSquare("A⋀(B)") && Parser.NoCloseOpen("A⋀(B)") && Parser.OuterParentheses("A⋀(B)") == Some(false)
  {
    CenterCrashBalanced();
    assert Laws.NotRun("A⋀(B)") == 0;
  }

  /** The only operator of `A⋀(B)` at depth zero is ⋀ at index 1. */
  lemma CenterCrashOperators()
    ensures Parser.CenterChoice(Parser.DepthZeroOperators("A⋀(B)", 5)) == Some(CenterOperator(And, 1))
  {
    var t := "A⋀(B)";
    assert Parser.Depth(t[..0]) == 0 && Parser.Depth(t[..1]) == 0;
    assert Parser.DepthZeroOperators(t, 1) == [];
    assert Parser.DepthZeroOperators(t, 2) == [CenterOperator(And, 1)];
    Parser.DepthZeroOperatorsSkip(t, 2, 5) by {
      forall p | 2 <= p < 5
        ensures !(Parser.Depth(t[..p]) == 0 && Parser.IsCandidate(t[p]))
      {
        assert t[p] == '(' || t[p] == 'B' || t[p] == ')';
      }
    }
  }

  // ---------------------------------------------------------------------
  // isLegalExpression

  /** isOperator(char) of the operator table. */
  predicate IsOp(c: char)
  {
    OperatorTable.IsOperatorChar(c)
  }

  /** isParentheses: `(` or `)`; square brackets do not count. */
  predicate IsParentheses(c: char)
  {
    c == '(' || c == ')'
  }

  /** The character class of the first alternative of the illegal pattern, negated there. */
  predicate IsLegalChar(c: char)
  {
    'a' <= c <= 'z' || 'A' <= c <= 'Z' || c in "æøåÆØÅ" || '0' <= c <= '9' || c in "()⋁⋀➔¬[]"
  }

  /**
   * The illegal pattern, matched against the whole string (Java's
   * `matches`): a single character outside the class, or exactly one of
   * `][`, `)[`, `)(`, `()`. The match is then the whole string, at index 0.
   */
  predicate IllegalPattern(t: string)
  {
    (|t| == 1 && !IsLegalChar(t[0])) || t == "][" || t == ")[" || t == ")(" || t == "()"
  }

  /** The state of the loop: the bracket stack (top last), the two flags and the operator counter. */
  datatype Scan = Scan(brackets: seq<char>, truthValue: bool, insideSquare: bool, operators: nat)

  /** One turn of the loop either goes on with a new state or returns (`None` for an exception). */
  datatype Step = Next(scan: Scan) | Stop(result: Option<string>)

  /** The bracket part of one turn, after the operator count. */
  function BracketStep(t: string, i: nat, sc: Scan): Step
    requires i < |t|
  {
    var c := t[i];
    var b := sc.brackets;
    if c == '(' || c == '[' then
      if i > 0 && !IsOp(t[i - 1]) && !IsParentheses(t[i - 1]) then Stop(Some(ErrorMessage(c, i, IllegalChar)))
      else if c == '[' then
        // pop, then peek: both need an element
        if |b| < 2 then Stop(None)
        else if b[|b| - 2] == '[' then Stop(Some(ErrorMessage(c, i, IllegalChar)))
        else Next(sc.(brackets := b + [c], insideSquare := true))
      else Next(sc.(brackets := b + [c]))
    else if c == ')' || c == ']' then
      if b == [] then Stop(None)
      else if (c == ')' && b[|b| - 1] != '(') || (c == ']' && b[|b| - 1] != '[') then
        Stop(Some(ErrorMessage(c, i, IllegalChar)))
      else Next(sc.(brackets := b[..|b| - 1], insideSquare := if c == ']' then false else sc.insideSquare))
    else if !IsOp(c) && !IsParentheses(c) then Next(sc.(truthValue := true))
    else Next(sc)
  }

  /** The neighbour checks of one turn, outside square brackets and after the first character. */
  function AdjacencyStep(t: string, i: nat, sc: Scan): Step
    requires i < |t|
  {
    var c := t[i];
    if i > 0 && !sc.insideSquare then
      var prev := t[i - 1];
      if c == NOT then
        if (!IsOp(prev) && prev != '(') || i == |t| - 1 then Stop(Some(ErrorMessage(c, i, IllegalChar)))
        else Next(sc)
      else if IsOp(c) && (IsOp(prev) || prev == '(' || i == |t| - 1) then Stop(Some(ErrorMessage(c, i, IllegalChar)))
      else if !(c == ']' || IsOp(c) || IsOp(prev) || IsParentheses(c) || IsParentheses(prev)) then
        Stop(Some(ErrorMessage(c, i, IllegalChar)))
      else Next(sc)
    else Next(sc)
  }

  /** One turn of the loop of isLegalExpression at index `i`. */
  function LegalStep(t: string, i: nat, sc: Scan): Step
    requires i < |t|
  {
    var c := t[i];
    var counts := !sc.insideSquare && IsOp(c) && c != NOT;
    if counts && sc.operators + 1 > 9 then Stop(Some(ExpressionTooBig))
    else
      var b := BracketStep(t, i, sc.(operators := if counts then sc.operators + 1 else sc.operators));
      if b.Stop? then b else AdjacencyStep(t, i, b.scan)
  }

  /** After the loop: no truth value, then an open bracket, is reported as missing. */
  function Finish(t: string, sc: Scan): string
  {
    if !sc.truthValue then ErrorMessage('A', |t|, MissingChar)
    else if sc.brackets != [] then
      ErrorMessage(if sc.brackets[|sc.brackets| - 1] == '(' then ')' else ']', |t|, MissingChar)
    else ""
  }

  /** The loop from index `i` on. */
  function LegalRun(t: string, i: nat, sc: Scan): Option<string>
    requires i <= |t|
    decreases |t| - i
  {
    if i == |t| then Some(Finish(t, sc))
    else
      match LegalStep(t, i, sc)
      case Stop(r) => r
      case Next(sc') => LegalRun(t, i + 1, sc')
  }

  const Start: Scan := Scan([], false, false, 0)

  /** What isLegalExpression returns: `""` for a legal expression, else a message; `None` for an exception. */
  function Legality(t: string): Option<string>
  {
    if IllegalPattern(t) then Some(ErrorMessage(t[0], 0, IllegalChar)) else LegalRun(t, 0, Start)
  }

  /** The bracket part of one turn: push, pop and the square-bracket checks. */
  method MatchBrackets(t: string, i: nat, sc: Scan) returns (st: Step)
    requires i < |t|
    ensures st == BracketStep(t, i, sc)
  {
    var c := t[i];
    var brackets := sc.brackets;
    if c == '(' || c == '[' {
      if i > 0 && !IsOp(t[i - 1]) && !IsParentheses(t[i - 1]) {
        return Stop(Some(ErrorMessage(c, i, IllegalChar)));
      }
      var insideSquare := sc.insideSquare;
      if c == '[' {
        if brackets == [] {
          return Stop(None);
        }
        var top := brackets[|brackets| - 1];
        brackets := brackets[..|brackets| - 1];
        if brackets == [] {
          return Stop(None);
        }
        if brackets[|brackets| - 1] == '[' {
          return Stop(Some(ErrorMessage(c, i, IllegalChar)));
        }
        brackets := brackets + [top];
        assert brackets == sc.brackets;
        insideSquare := true;
      }
      return Next(sc.(brackets := brackets + [c], insideSquare := insideSquare));
    } else if c == ')' || c == ']' {
      if brackets == [] {
        return Stop(None);
      }
      var pop := brackets[|brackets| - 1];
      brackets := brackets[..|brackets| - 1];
      var insideSquare := if c == ']' then false else sc.insideSquare;
      if (c == ')' && pop != '(') || (c == ']' && pop != '[') {
        return Stop(Some(ErrorMessage(c, i, IllegalChar)));
      }
      return Next(sc.(brackets := brackets, insideSquare := insideSquare));
    } else if !IsOp(c) && !IsParentheses(c) {
      return Next(sc.(truthValue := true));
    }
    return Next(sc);
  }

  /** The neighbour checks of one turn. */
  method CheckNeighbours(t: string, i: nat, sc: Scan) returns (st: Step)
    requires i < |t|
    ensures st == AdjacencyStep(t, i, sc)
  {
    var c := t[i];
    if i > 0 && !sc.insideSquare {
      var prev := t[i - 1];
      if c == NOT {
        if (!IsOp(prev) && prev != '(') || i == |t| - 1 {
          return Stop(Some(ErrorMessage(c, i, IllegalChar)));
        }
      } else if IsOp(c) && (IsOp(prev) || prev == '(' || i == |t| - 1) {
        return Stop(Some(ErrorMessage(c, i, IllegalChar)));
      } else if !(c == ']' || IsOp(c) || IsOp(prev) || IsParentheses(c) || IsParentheses(prev)) {
        return Stop(Some(ErrorMessage(c, i, IllegalChar)));
      }
    }
    return Next(sc);
  }

  /** One turn of the loop: the operator count, then the brackets, then the neighbours. */
  method Turn(t: string, i: nat, sc: Scan) returns (st: Step)
    requires i < |t|
    ensures st == LegalStep(t, i, sc)
  {
    var c := t[i];
    var operators := sc.operators;
    if !sc.insideSquare && IsOp(c) && c != NOT {
      operators := operators + 1;
      if operators > 9 {
        return Stop(Some(ExpressionTooBig));
      }
    }
    var counted := sc.(operators := operators);
    st := MatchBrackets(t, i, counted);
    if st.Stop? {
      return st;
    }
    st := CheckNeighbours(t, i, st.scan);
  }

  /** The run from `i`: the end of the string finishes, a turn that stops returns, a turn that goes on runs on. */
  lemma RunFrom(t: string, i: nat, sc: Scan)
    requires i <= |t|
    ensures i == |t| ==> LegalRun(t, i, sc) == Some(Finish(t, sc))
    ensures i < |t| && LegalStep(t, i, sc).Stop? ==> LegalRun(t, i, sc) == LegalStep(t, i, sc).result
    ensures i < |t| && LegalStep(t, i, sc).Next? ==> LegalRun(t, i, sc) == LegalRun(t, i + 1, LegalStep(t, i, sc).scan)
  {
  }

  /**
   * isLegalExpression: the pattern check, then one turn per character with
   * the bracket stack, the two flags and the operator counter (held together
   * in a `Scan`), then the checks after the loop.
   */
  method IsLegalExpression(t: string) returns (r: Option<string>)
    ensures r == Legality(t)
  {
    if IllegalPattern(t) {
      return Some(ErrorMessage(t[0], 0, IllegalChar));
    }
    var sc := Start;
    var i := 0;
    while i < |t|
      invariant i <= |t|
      invariant LegalRun(t, i, sc) == Legality(t)
      decreases |t| - i
    {
      var st := Turn(t, i, sc);
      RunFrom(t, i, sc);
      if st.Stop? {
        return st.result;
      }
      sc := st.scan;
      i := i + 1;
    }
    RunFrom(t, i, sc);
    if !sc.truthValue {
      return Some(ErrorMessage('A', |t|, MissingChar));
    }
    if sc.brackets != [] {
      return Some(ErrorMessage(if sc.brackets[|sc.brackets| - 1] == '(' then ')' else ']', |t|, MissingChar));
    }
    return Some("");
  }

  // ---------------------------------------------------------------------
  // What the loop has seen after a prefix, and what isLegalExpression reports

  /** The bracket stack the loop holds on reaching index `n`. */
  function BracketStack(t: string, n: nat): seq<char>
    requires n <= |t|
  {
    if n == 0 then []
    else
      var b := BracketStack(t, n - 1);
      var c := t[n - 1];
      if c == '(' || c == '[' then b + [c]
      else if (c == ')' || c == ']') && b != [] then b[..|b| - 1]
      else b
  }

  /** Whether the last square bracket among the first `n` characters opens a group. */
  function SquareAfter(t: string, n: nat): bool
    requires n <= |t|
  {
    if n == 0 then false
    else if t[n - 1] == '[' then true
    else if t[n - 1] == ']' then false
    else SquareAfter(t, n - 1)
  }

  /** A character that is neither an operator nor a bracket of either kind. */
  predicate IsTruthChar(c: char)
  {
    !IsOp(c) && c !in "()[]"
  }

  /** Whether a truth value occurs among the first `n` characters. */
  function TruthSeen(t: string, n: nat): (r: bool)
    requires n <= |t|
    ensures r <==> exists j :: 0 <= j < n && IsTruthChar(t[j])
  {
    if n == 0 then false
    else
      assert forall j :: 0 <= j < n - 1 ==> t[..n - 1][j] == t[j];
      TruthSeen(t, n - 1) || IsTruthChar(t[n - 1])
  }

  /** Whether the character at `i` is a binary operator outside square brackets. */
  predicate Counted(t: string, i: nat)
    requires i < |t|
  {
    !SquareAfter(t, i) && IsOp(t[i]) && t[i] != NOT
  }

  /** The binary operators outside square brackets among the first `n` characters. */
  function OperatorCount(t: string, n: nat): nat
    requires n <= |t|
  {
    if n == 0 then 0 else OperatorCount(t, n - 1) + (if Counted(t, n - 1) then 1 else 0)
  }

  /** The state the loop holds on reaching index `n`. */
  function Expected(t: string, n: nat): Scan
    requires n <= |t|
  {
    Scan(BracketStack(t, n), TruthSeen(t, n), SquareAfter(t, n), OperatorCount(t, n))
  }

  /** The loop reaches index `n` without returning. */
  predicate Reaches(t: string, n: nat)
    requires n <= |t|
  {
    n == 0 || (Reaches(t, n - 1) && LegalStep(t, n - 1, Expected(t, n - 1)).Next?)
  }

  /** The closing bracket at `i`, if any, closes the bracket on top of the stack. */
  predicate Closes(t: string, i: nat)
    requires i < |t|
  {
    var b := BracketStack(t, i);
    (t[i] == ')' ==> b != [] && b[|b| - 1] == '(') && (t[i] == ']' ==> b != [] && b[|b| - 1] == '[')
  }

  /** A turn that goes on leaves exactly the state the prefix functions describe. */
  lemma StepNext(t: string, i: nat)
    requires i < |t| && LegalStep(t, i, Expected(t, i)).Next?
    ensures LegalStep(t, i, Expected(t, i)).scan == Expected(t, i + 1)
  {
    var c := t[i];
    OperatorTable.IsOperatorCharExactly(c);
    assert TruthSeen(t, i + 1) == (TruthSeen(t, i) || IsTruthChar(c));
  }

  /** The run from the start equals the run from any index it reaches. */
  lemma {:induction false} RunFromReached(t: string, n: nat)
    requires n <= |t| && Reaches(t, n)
    ensures LegalRun(t, 0, Start) == LegalRun(t, n, Expected(t, n))
  {
    if n == 0 {
      assert Expected(t, 0) == Start;
    } else {
      RunFromReached(t, n - 1);
      RunStepNext(t, n - 1, n);
    }
  }

  /** A turn that goes on hands the rest of the run the state the prefix functions describe. */
  lemma RunStepNext(t: string, i: nat, j: nat)
    requires i < |t| && j == i + 1 && LegalStep(t, i, Expected(t, i)).Next?
    ensures LegalRun(t, i, Expected(t, i)) == LegalRun(t, j, Expected(t, j))
  {
    StepNext(t, i);
  }

  /** Up to any index it reaches, the loop counted at most nine operators and every closing bracket matched. */
  lemma {:induction false} ReachedBounds(t: string, n: nat)
    requires n <= |t| && Reaches(t, n)
    ensures OperatorCount(t, n) <= 9
    ensures forall i :: 0 <= i < n ==> Closes(t, i)
  {
    if n > 0 {
      ReachedBounds(t, n - 1);
      StepBounds(t, n - 1, n);
    }
  }

  /** A turn that goes on counted at most nine operators and matched its closing bracket. */
  lemma StepBounds(t: string, i: nat, j: nat)
    requires i < |t| && j == i + 1 && LegalStep(t, i, Expected(t, i)).Next? && OperatorCount(t, i) <= 9
    ensures OperatorCount(t, j) <= 9 && Closes(t, i)
  {
    StepNext(t, i);
    var c := t[i];
    if c == ')' || c == ']' {
      OperatorTable.IsOperatorCharExactly(c);
      assert Closes(t, i);
    }
  }

  /** Every report is empty, the size error, or an illegal or missing character message. */
  ghost predicate IsReport(s: string)
  {
    s == "" || s == ExpressionTooBig
    || (exists c: char, k: nat :: s == ErrorMessage(c, k, IllegalChar))
    || (exists c: char, k: nat :: s == ErrorMessage(c, k, MissingChar))
  }

  /** A turn that returns a message other than the size error reports the current character at the current index. */
  lemma StopReport(t: string, i: nat, sc: Scan)
    requires i < |t|
    ensures var st := LegalStep(t, i, sc);
      st.Stop? && st.result.Some? && st.result.value != ExpressionTooBig ==>
      st.result.value == ErrorMessage(t[i], i, IllegalChar)
  {
  }

  lemma {:induction false} RunReports(t: string, i: nat, sc: Scan)
    requires i <= |t|
    ensures LegalRun(t, i, sc).Some? ==> IsReport(LegalRun(t, i, sc).value)
    decreases |t| - i
  {
    if i < |t| {
      var c := t[i];
      match LegalStep(t, i, sc)
      case Stop(r) =>
        StopReport(t, i, sc);
        if r.Some? && r.value != ExpressionTooBig {
          assert r.value == ErrorMessage(c, i, IllegalChar);
        }
      case Next(sc') => RunReports(t, i + 1, sc');
    } else if sc.truthValue && sc.brackets != [] {
      assert Finish(t, sc) == ErrorMessage(if sc.brackets[|sc.brackets| - 1] == '(' then ')' else ']', |t|, MissingChar);
    } else if !sc.truthValue {
      assert Finish(t, sc) == ErrorMessage('A', |t|, MissingChar);
    }
  }

  /** isLegalExpression returns the empty string, the size error, or one of the two character messages; `None` is an exception. */
  lemma LegalityReports(t: string)
    ensures Legality(t).Some? ==> IsReport(Legality(t).value)
  {
    if IllegalPattern(t) {
      assert Legality(t).value == ErrorMessage(t[0], 0, IllegalChar);
    } else {
      RunReports(t, 0, Start);
    }
  }

  /** A closing bracket that does not close the top of the stack is reported at its index; with an empty stack the pop throws. */
  lemma MismatchedClose(t: string, i: nat)
    requires !IllegalPattern(t) && i < |t| && Reaches(t, i)
    requires (t[i] == ')' || t[i] == ']') && !Closes(t, i)
    ensures Legality(t) == if BracketStack(t, i) == [] then None else Some(ErrorMessage(t[i], i, IllegalChar))
  {
    RunFromReached(t, i);
    ReachedBounds(t, i);
    OperatorTable.IsOperatorCharExactly(t[i]);
  }

  /** A negation outside square brackets that follows neither an operator nor `(`, or ends the input, is reported at its index. */
  lemma MisplacedNegation(t: string, i: nat)
    requires !IllegalPattern(t) && 0 < i < |t| && Reaches(t, i)
    requires t[i] == NOT && !SquareAfter(t, i)
    requires (!IsOp(t[i - 1]) && t[i - 1] != '(') || i == |t| - 1
    ensures Legality(t) == Some(ErrorMessage(NOT, i, IllegalChar))
  {
    RunFromReached(t, i);
    OperatorTable.IsOperatorCharExactly(t[i]);
  }

  /** The tenth binary operator outside square brackets ends the scan with the size error. */
  lemma TenthOperator(t: string, i: nat)
    requires !IllegalPattern(t) && i < |t| && Reaches(t, i)
    requires OperatorCount(t, i + 1) > 9
    ensures Legality(t) == Some(ExpressionTooBig)
  {
    RunFromReached(t, i);
    ReachedBounds(t, i);
  }

  /** Once the loop has gone through the whole input, a missing truth value and then an unclosed bracket are reported at the end. */
  lemma EndOfInput(t: string)
    requires !IllegalPattern(t) && Reaches(t, |t|)
    ensures !TruthSeen(t, |t|) ==> Legality(t) == Some(ErrorMessage('A', |t|, MissingChar))
    ensures TruthSeen(t, |t|) && BracketStack(t, |t|) != [] ==>
      var b := BracketStack(t, |t|);
      Legality(t) == Some(ErrorMessage(if b[|b| - 1] == '(' then ')' else ']', |t|, MissingChar))
    ensures TruthSeen(t, |t|) && BracketStack(t, |t|) == [] ==> Legality(t) == Some("")
  {
    RunFromReached(t, |t|);
  }

  lemma {:induction false} EmptyReportReaches(t: string, n: nat)
    requires n <= |t| && Reaches(t, n)
    requires LegalRun(t, n, Expected(t, n)) == Some("")
    ensures Reaches(t, |t|)
    decreases |t| - n
  {
    if n < |t| {
      EmptyReportSteps(t, n);
      EmptyReportReaches(t, n + 1);
    }
  }

  /** A turn of a run that ends with the empty report goes on to the next character. */
  lemma EmptyReportSteps(t: string, n: nat)
    requires n < |t| && Reaches(t, n) && LegalRun(t, n, Expected(t, n)) == Some("")
    ensures Reaches(t, n + 1) && LegalRun(t, n + 1, Expected(t, n + 1)) == Some("")
  {
    StopReport(t, n, Expected(t, n));
    ErrorMessageDistinct(t[n], n, IllegalChar);
    if LegalStep(t, n, Expected(t, n)).Next? {
      StepNext(t, n);
    }
  }

  /**
   * A legal expression (the empty report) is exactly one that does not
   * match the pattern, that the loop goes through to the end, that holds a
   * truth value and leaves no bracket open; it then has at most nine binary
   * operators outside square brackets and every closing bracket matched.
   */
  lemma {:induction false} LegalExpressionShape(t: string)
    ensures Legality(t) == Some("") <==>
      !IllegalPattern(t) && Reaches(t, |t|) && TruthSeen(t, |t|) && BracketStack(t, |t|) == []
    ensures Legality(t) == Some("") ==>
      OperatorCount(t, |t|) <= 9 && forall i :: 0 <= i < |t| ==> Closes(t, i)
  {
    if IllegalPattern(t) {
      ErrorMessageDistinct(t[0], 0, IllegalChar);
    } else {
      if Legality(t) == Some("") {
        EmptyReportReaches(t, 0);
      }
      if Reaches(t, |t|) {
        EndOfInput(t);
        ReachedBounds(t, |t|);
        if !TruthSeen(t, |t|) {
          ErrorMessageDistinct('A', |t|, MissingChar);
        } else if BracketStack(t, |t|) != [] {
          var b := BracketStack(t, |t|);
          ErrorMessageDistinct(if b[|b| - 1] == '(' then ')' else ']', |t|, MissingChar);
        }
      }
    }
  }
}

=== FILE: operators.dfy ===
/**
 * The operator enum (`enums/Operator.java`): four variants in declaration
 * order IMPLICATION, OR, AND, NOT, whose ordinal is the precedence weight,
 * each with an output symbol and a truth function.
 */
module Operators {
  import opened Optional

  datatype Op = Implication | Or | And | Not

  /** The operators a tree node may carry: NOT is only ever a `leading` marker. */
  type BinaryOp = o: Op | o != Not witness And

  /** `Operator.values()`, in declaration order. */
  const Values: seq<Op> := [Implication, Or, And, Not]

  /** The ordinal, used by the parser as the binding weight. */
  function Ordinal(o: Op): (r: nat)
    ensures r < |Values| && Values[r] == o
  {
    match o
    case Implication => 0
    case Or => 1
    case And => 2
    case Not => 3
  }

  /** The canonical output symbol. */
  function Symbol(o: Op): char
  {
    match o
    case Implication => '➔'
    case Or => '⋁'
    case And => '⋀'
    case Not => '¬'
  }

  /** `toString`: the one-character output symbol. */
  function OperatorString(o: Op): (r: string)
    ensures |r| == 1 && r[0] == Symbol(o)
  {
    [Symbol(o)]
  }

  /** `test`: the truth function of each variant; NOT ignores its second argument. */
  function Test(o: Op, a: bool, b: bool): bool
  {
    match o
    case Implication => !a || b
    case Or => a || b
    case And => a && b
    case Not => !a
  }

  /** The first operator of `ops` satisfying `p`, the shape of every lookup loop. */
  function FindFirst(ops: seq<Op>, p: Op -> bool): (r: Option<Op>)
    ensures r.Some? ==> exists i :: 0 <= i < |ops| && ops[i] == r.value && p(ops[i]) &&
                                    forall j :: 0 <= j < i ==> !p(ops[j])
    ensures r.None? <==> forall i :: 0 <= i < |ops| ==> !p(ops[i])
  {
    if ops == [] then None
    else if p(ops[0]) then Some(ops[0])
    else
      var r := FindFirst(ops[1..], p);
      assert forall i :: 1 <= i < |ops| ==> ops[i] == ops[1..][i - 1];
      r
  }

  /** A search over the variants tries them in declaration order. */
  lemma FindFirstValues(p: Op -> bool)
    ensures FindFirst(Values, p) ==
      if p(Implication) then Some(Implication)
      else if p(Or) then Some(Or)
      else if p(And) then Some(And)
      else if p(Not) then Some(Not)
      else None
  {
    assert Values[1..] == [Or, And, Not] && [Or, And, Not][1..] == [And, Not] && [And, Not][1..] == [Not];
    assert [Not][1..] == [];
    assert FindFirst([Not], p) == if p(Not) then Some(Not) else None;
    assert FindFirst([And, Not], p) == if p(And) then Some(And) else FindFirst([Not], p);
    assert FindFirst([Or, And, Not], p) == if p(Or) then Some(Or) else FindFirst([And, Not], p);
  }

  /** Symbols are pairwise distinct, so a symbol names one operator. */
  lemma SymbolInjective(a: Op, b: Op)
    ensures Symbol(a) == Symbol(b) ==> a == b
  {
  }

  /** The ordinal order IMPLICATION < OR < AND < NOT. */
  lemma OrdinalOrder()
    ensures Ordinal(Implication) < Ordinal(Or) < Ordinal(And) < Ordinal(Not)
    ensures forall o :: Values[Ordinal(o)] == o
  {
  }
}

/**
 * `enums/Operator.java`: the lookups of the enum revision whose input
 * spellings are `->`, `/`, `&` and `!`. The input patterns are literals, so
 * `String.matches` is string equality.
 */
module OperatorEnum {
  import opened Optional
  import opened Operators

  function Input(o: Op): string
  {
    match o
    case Implication => "->"
    case Or => "/"
    case And => "&"
    case Not => "!"
  }

  /** `s` is the input or the output symbol of `o`. */
  predicate Spells(s: string, o: Op)
  {
    s == Input(o) || s == OperatorString(o)
  }

  /**
   * getOperator(String): the first variant whose input or output symbol is
   * `s`, written out in declaration order; GetOperatorSearches proves it
   * equal to the search over the variants.
   */
  function GetOperator(s: string): (r: Option<Op>)
    ensures r.Some? ==> (s == Input(r.value) || s == OperatorString(r.value)) &&
                        forall i :: 0 <= i < Ordinal(r.value) ==> s != Input(Values[i]) && s != OperatorString(Values[i])
    ensures r.None? <==> forall o: Op :: s != Input(o) && s != OperatorString(o)
  {
    if Spells(s, Implication) then Some(Implication)
    else if Spells(s, Or) then Some(Or)
    else if Spells(s, And) then Some(And)
    else if Spells(s, Not) then Some(Not)
    else None
  }

  /** The written-out lookup is the search over values() in declaration order. */
  lemma GetOperatorSearches(s: string)
    ensures GetOperator(s) == FindFirst(Values, o => Spells(s, o))
  {
    FindFirstValues(o => Spells(s, o));
  }

  /**
   * getOperator(char), which delegates to the one-character string, written
   * out per character; GetOperatorCharAgrees proves it equal to the lookup.
   */
  function GetOperatorChar(c: char): (r: Option<Op>)
    ensures r.Some? ==> Symbol(r.value) == c || Input(r.value) == [c]
  {
    if c == '➔' then Some(Implication)
    else if c == '⋁' || c == '/' then Some(Or)
    else if c == '⋀' || c == '&' then Some(And)
    else if c == '¬' || c == '!' then Some(Not)
    else None
  }

  /** The per-character lookup is getOperator on the one-character string. */
  lemma GetOperatorCharAgrees(c: char)
    ensures GetOperatorChar(c) == GetOperator([c])
  {
    var r := GetOperator([c]);
    if r.Some? {
      assert [c] == Input(r.value) || [c] == OperatorString(r.value);
      assert Ordinal(r.value) > 0 ==> [c] != Input(Values[0]) && [c] != OperatorString(Values[0]);
    } else {
      assert forall o: Op :: [c] != Input(o) && [c] != OperatorString(o);
      assert [c] != OperatorString(Implication) && [c] != OperatorString(Or);
      assert [c] != OperatorString(And) && [c] != OperatorString(Not);
      assert [c] != Input(Or) && [c] != Input(And) && [c] != Input(Not);
    }
  }

  /** isOperator(String): some input equals `s` or some output symbol is `s`'s first character. */
  function IsOperator(s: string): bool
    requires |s| > 0
  {
    exists i :: 0 <= i < |Values| && (s == Input(Values[i]) || Symbol(Values[i]) == s[0])
  }

  /** isOperator(char) delegates to the one-character string. */
  function IsOperatorChar(c: char): bool
  {
    IsOperator([c])
  }

  /** On one character, isOperator and getOperator agree. */
  lemma IsOperatorCharAgrees(c: char)
    ensures IsOperatorChar(c) <==> GetOperatorChar(c).Some?
  {
    GetOperatorCharAgrees(c);
    if IsOperatorChar(c) {
      var i :| 0 <= i < |Values| && ([c] == Input(Values[i]) || Symbol(Values[i]) == c);
      assert [c] == Input(Values[i]) || [c] == OperatorString(Values[i]);
    }
  }

  /** The characters that count as operators: the four symbols and `/`, `&`, `!`. */
  lemma OperatorChars(c: char)
    ensures IsOperatorChar(c) <==> c in {'➔', '⋁', '⋀', '¬', '/', '&', '!'}
  {
    if c in {'➔', '⋁', '⋀', '¬', '/', '&', '!'} {
      var i := if c == '➔' then 0 else if c == '⋁' || c == '/' then 1
               else if c == '⋀' || c == '&' then 2 else 3;
      assert [c] == Input(Values[i]) || Symbol(Values[i]) == c;
    }
  }

  /** isOperator looks only at the first character for output symbols; getOperator needs the whole string. */
  lemma FirstCharacterOnly()
    ensures IsOperator("⋀B") && GetOperator("⋀B") == None
  {
    assert Symbol(Values[2]) == "⋀B"[0];
  }

  /** Lookups by input spelling: each input finds its own variant; `|` is not an input of this revision. */
  lemma InputLookups()
    ensures forall o :: GetOperator(Input(o)) == Some(o)
    ensures GetOperatorChar('|') == None
  {
    forall o
      ensures GetOperator(Input(o)) == Some(o)
    {
      var r := GetOperator(Input(o));
      assert r.Some?;
      InputsApart(o, r.value);
    }
  }

  /** No input spells another variant's input or output symbol. */
  lemma InputsApart(a: Op, b: Op)
    ensures Input(a) == Input(b) || Input(a) == OperatorString(b) ==> a == b
  {
    if a != b {
      assert Input(a) != Input(b) by {
        assert Input(a)[0] != Input(b)[0];
      }
      assert Input(a)[0] != OperatorString(b)[0];
    }
  }
}

/**
 * `no/martials/api/enums/Operator.java`: the revision whose OR input is `|`
 * (the pattern `\|`, a literal bar).
 */
module ApiOperatorEnum {
  import opened Optional
  import opened Operators

  function Input(o: Op): string
  {
    match o
    case Implication => "->"
    case Or => "|"
    case And => "&"
    case Not => "!"
  }

  /** `s` is the input or the output symbol of `o`. */
  predicate Spells(s: string, o: Op)
  {
    s == Input(o) || s == OperatorString(o)
  }

  /**
   * getOperator(String): the first variant whose input or output symbol is
   * `s`, written out in declaration order; GetOperatorSearches proves it
   * equal to the search over the variants.
   */
  function GetOperator(s: string): (r: Option<Op>)
    ensures r.Some? ==> (s == Input(r.value) || s == OperatorString(r.value)) &&
                        forall i :: 0 <= i < Ordinal(r.value) ==> s != Input(Values[i]) && s != OperatorString(Values[i])
    ensures r.None? <==> forall o: Op :: s != Input(o) && s != OperatorString(o)
  {
    if Spells(s, Implication) then Some(Implication)
    else if Spells(s, Or) then Some(Or)
    else if Spells(s, And) then Some(And)
    else if Spells(s, Not) then Some(Not)
    else None
  }

  /** The written-out lookup is the search over values() in declaration order. */
  lemma GetOperatorSearches(s: string)
    ensures GetOperator(s) == FindFirst(Values, o => Spells(s, o))
  {
    FindFirstValues(o => Spells(s, o));
  }

  /**
   * getOperator(char), which delegates to the one-character string, written
   * out per character; GetOperatorCharAgrees proves it equal to the lookup.
   */
  function GetOperatorChar(c: char): (r: Option<Op>)
    ensures r.Some? ==> Symbol(r.value) == c || Input(r.value) == [c]
  {
    if c == '➔' then Some(Implication)
    else if c == '⋁' || c == '|' then Some(Or)
    else if c == '⋀' || c == '&' then Some(And)
    else if c == '¬' || c == '!' then Some(Not)
    else None
  }

  /** The per-character lookup is getOperator on the one-character string. */
  lemma GetOperatorCharAgrees(c: char)
    ensures GetOperatorChar(c) == GetOperator([c])
  {
    var r := GetOperator([c]);
    if r.Some? {
      assert [c] == Input(r.value) || [c] == OperatorString(r.value);
      assert Ordinal(r.value) > 0 ==> [c] != Input(Values[0]) && [c] != OperatorString(Values[0]);
    } else {
      assert forall o: Op :: [c] != Input(o) && [c] != OperatorString(o);
      assert [c] != OperatorString(Implication) && [c] != OperatorString(Or);
      assert [c] != OperatorString(And) && [c] != OperatorString(Not);
      assert [c] != Input(Or) && [c] != Input(And) && [c] != Input(Not);
    }
  }

  /** isOperator(String): some input equals `s` or some output symbol is `s`'s first character. */
  function IsOperator(s: string): bool
    requires |s| > 0
  {
    exists i :: 0 <= i < |Values| && (s == Input(Values[i]) || Symbol(Values[i]) == s[0])
  }

  /** The characters that count as operators: the four symbols and `|`, `&`, `!`. */
  lemma OperatorChars(c: char)
    ensures IsOperator([c]) <==> c in {'➔', '⋁', '⋀', '¬', '|', '&', '!'}
    ensures IsOperator([c]) <==> GetOperatorChar(c).Some?
  {
    GetOperatorCharAgrees(c);
    if c in {'➔', '⋁', '⋀', '¬', '|', '&', '!'} {
      var i := if c == '➔' then 0 else if c == '⋁' || c == '|' then 1
               else if c == '⋀' || c == '&' then 2 else 3;
      assert [c] == Input(Values[i]) || Symbol(Values[i]) == c;
    }
    if IsOperator([c]) {
      var i :| 0 <= i < |Values| && ([c] == Input(Values[i]) || Symbol(Values[i]) == c);
      assert [c] == Input(Values[i]) || [c] == OperatorString(Values[i]);
    }
  }

  /** Lookups by input spelling: each input, the bar for OR among them, finds its own variant. */
  lemma InputLookups()
    ensures forall o :: GetOperator(Input(o)) == Some(o)
    ensures GetOperatorChar('|') == Some(Or)
  {
    forall o
      ensures GetOperator(Input(o)) == Some(o)
    {
      var r := GetOperator(Input(o));
      assert r.Some?;
      InputsApart(o, r.value);
    }
  }

  /** No input spells another variant's input or output symbol. */
  lemma InputsApart(a: Op, b: Op)
    ensures Input(a) == Input(b) || Input(a) == OperatorString(b) ==> a == b
  {
    if a != b {
      assert Input(a) != Input(b) by {
        assert Input(a)[0] != Input(b)[0];
      }
      assert Input(a)[0] != OperatorString(b)[0];
    }
  }

  /** The slash of the other revision is not an input here. */
  lemma SlashIsNotAnInput()
    ensures GetOperator("/") == None
  {
    forall o: Op ensures "/" != Input(o) && "/" != OperatorString(o) {
      assert |Input(o)| == 1 ==> Input(o)[0] != '/';
    }
  }
}

/**
 * `expressions/Operator.java`: a fixed table of four operator objects, each
 * with a symbol, a weight and a list of alias spellings. The table and its
 * lookups are the same in `classes/Operator.java`.
 */
module OperatorTable {
  import opened Optional
  import opened Operators

  /** The weight stored with each predefined operator. */
  function Weight(o: Op): nat
  {
    match o
    case Implication => 0
    case Or => 1
    case And => 2
    case Not => 3
  }

  /** The alias spellings (`values`) of each predefined operator. */
  function Aliases(o: Op): seq<string>
  {
    match o
    case Implication => ["->", "implication", "imp", "impliserer", "=>"]
    case Or => ["|", "or", "eller", "intersection", "snitt", "\\/"]
    case And => ["&", "and", "og", "union", "/\\"]
    case Not => ["not", "ikke", "!", "~"]
  }

  /** getPredefined: implication, or, and, not. */
  function Predefined(): (r: seq<Op>)
    ensures |r| == 4
    ensures forall i :: 0 <= i < |r| ==> Weight(r[i]) == i
    ensures Symbol(r[0]) == '➔' && Symbol(r[1]) == '⋁' && Symbol(r[2]) == '⋀' && Symbol(r[3]) == '¬'
  {
    [Implication, Or, And, Not]
  }

  /**
   * getOperator(char): the operator whose symbol is `c`, else none, written
   * out per symbol; GetOperatorCharSearches proves it equal to the search
   * over the predefined operators.
   */
  function GetOperatorChar(c: char): (r: Option<Op>)
    ensures r.Some? ==> Symbol(r.value) == c
    ensures r.None? <==> forall o: Op :: Symbol(o) != c
  {
    if c == '➔' then Some(Implication)
    else if c == '⋁' then Some(Or)
    else if c == '⋀' then Some(And)
    else if c == '¬' then Some(Not)
    else None
  }

  /** The per-symbol lookup is the search over getPredefined in weight order. */
  lemma GetOperatorCharSearches(c: char)
    ensures GetOperatorChar(c) == FindFirst(Predefined(), o => Symbol(o) == c)
  {
    var r := FindFirst(Predefined(), o => Symbol(o) == c);
    assert forall o: Op :: Predefined()[Weight(o)] == o;
    if r.Some? {
      SymbolInjective(r.value, GetOperatorChar(c).value);
    }
  }

  /** `s` spells `o`: its symbol or one of its aliases. */
  predicate Spells(s: string, o: Op)
  {
    s == OperatorString(o) || s in Aliases(o)
  }

  /**
   * getOperator(String): the first operator whose symbol is `s` or whose
   * aliases hold `s`, written out in weight order; GetOperatorStringSearches
   * proves it equal to the search over the predefined operators.
   */
  function GetOperatorString(s: string): (r: Option<Op>)
    ensures r.Some? ==> Spells(s, r.value) && forall i :: 0 <= i < Weight(r.value) ==> !Spells(s, Predefined()[i])
    ensures r.None? <==> forall o: Op :: !Spells(s, o)
  {
    if Spells(s, Implication) then Some(Implication)
    else if Spells(s, Or) then Some(Or)
    else if Spells(s, And) then Some(And)
    else if Spells(s, Not) then Some(Not)
    else None
  }

  /** The written-out lookup is the search over getPredefined in weight order. */
  lemma GetOperatorStringSearches(s: string)
    ensures GetOperatorString(s) == FindFirst(Predefined(), o => Spells(s, o))
  {
    assert Predefined() == Values;
    FindFirstValues(o => Spells(s, o));
  }

  /** isOperator(char): a symbol or a one-character alias. */
  function IsOperatorChar(c: char): bool
  {
    exists i :: 0 <= i < 4 && (c == Symbol(Predefined()[i]) || [c] in Aliases(Predefined()[i]))
  }

  /** isOperator(String): a symbol or a listed alias, matched case-sensitively. */
  function IsOperatorString(s: string): bool
  {
    exists i :: 0 <= i < 4 && Spells(s, Predefined()[i])
  }

  /** isOperator(String) holds exactly when getOperator(String) finds an operator. */
  lemma IsOperatorStringAgrees(s: string)
    ensures IsOperatorString(s) <==> GetOperatorString(s).Some?
  {
    if GetOperatorString(s).Some? {
      var o := GetOperatorString(s).value;
      assert Predefined()[Weight(o)] == o;
    }
  }

  /** The one-character spellings: the four symbols and the aliases `|`, `&`, `!`, `~`. */
  lemma IsOperatorCharExactly(c: char)
    ensures IsOperatorChar(c) <==> c in {'➔', '⋁', '⋀', '¬', '|', '&', '!', '~'}
  {
    if c in {'➔', '⋁', '⋀', '¬', '|', '&', '!', '~'} {
      var i := if c == '➔' then 0 else if c == '⋁' || c == '|' then 1
               else if c == '⋀' || c == '&' then 2 else 3;
      assert c == Symbol(Predefined()[i]) || [c] == Aliases(Predefined()[i])[0]
          || [c] == Aliases(Predefined()[i])[2] || [c] == Aliases(Predefined()[i])[3];
    }
  }

  /** Aliases are matched case-sensitively: an upper-case spelling is not an operator. */
  lemma CaseSensitive()
    ensures IsOperatorString("and") && !IsOperatorString("AND")
    ensures GetOperatorString("og") == Some(And) && GetOperatorString("=>") == Some(Implication)
  {
    assert "and" == Aliases(Predefined()[2])[1];
    forall i | 0 <= i < 4 ensures !Spells("AND", Predefined()[i]) {
      var a := Aliases(Predefined()[i]);
      forall j | 0 <= j < |a| ensures a[j] != "AND" {
        assert |a[j]| != 3 || a[j][0] != 'A';
      }
    }
    assert GetOperatorString("og") == Some(And);
    assert GetOperatorString("=>") == Some(Implication);
  }
}

=== FILE: parser.dfy ===
/**
 * The parser of `utils/ExpressionUtils.java`: the validity scan, the
 * outer-parentheses test, the choice of the operator to split on, the
 * recursive builder of the expression tree, and the count of distinct atoms.
 */
module Parser {
  import opened Optional
  import opened Strings
  import opened Operators
  import opened OperatorEnum
  import opened Enums
  import opened Expressions
  import opened Laws

  // ---------------------------------------------------------------------
  // Parenthesis depth

  /** What one character does to the depth. */
  function Delta(c: char): int
  {
    if c == '(' then 1 else if c == ')' then -1 else 0
  }

  /** The number of `(` minus the number of `)`. */
  function Depth(t: string): int
  {
    if t == [] then 0 else Depth(t[..|t| - 1]) + Delta(t[|t| - 1])
  }

  /** Depth adds up over concatenation. */
  lemma {:induction false} DepthAppend(a: string, b: string)
    ensures Depth(a + b) == Depth(a) + Depth(b)
    decreases |b|
  {
    if b == [] {
      assert a + b == a;
    } else {
      assert (a + b)[..|a + b| - 1] == a + b[..|b| - 1];
      DepthAppend(a, b[..|b| - 1]);
    }
  }

  /** One more character of a slice. */
  lemma DepthStep(t: string, a: int, b: int)
    requires 0 <= a <= b < |t|
    ensures Depth(t[a..b + 1]) == Depth(t[a..b]) + Delta(t[b])
  {
    assert t[a..b + 1][..b - a] == t[a..b];
  }

  /** A prefix and the rest of a string. */
  lemma DepthSplit(t: string, a: int, b: int)
    requires 0 <= a <= b <= |t|
    ensures Depth(t[..b]) == Depth(t[..a]) + Depth(t[a..b])
  {
    DepthAppend(t[..a], t[a..b]);
    assert t[..a] + t[a..b] == t[..b];
  }

  /** The depth after the first `j` characters. */
  function PrefixDepth(t: string, j: nat): int
    requires j <= |t|
  {
    Depth(t[..j])
  }

  /** The depth of the slice from `a` to `b`. */
  function SliceDepth(t: string, a: nat, b: nat): int
    requires a <= b <= |t|
  {
    Depth(t[a..b])
  }

  /** Every `)` closes an earlier `(` and every `(` is closed. */
  predicate Balanced(t: string)
  {
    Depth(t) == 0 && forall j :: 0 <= j <= |t| ==> PrefixDepth(t, j) >= 0
  }

  /** No `)` is directly followed by `(`; the validity check rejects that pattern. */
  predicate NoCloseOpen(t: string)
  {
    forall i :: 0 < i < |t| ==> !CloseOpenAt(t, i)
  }

  /** A `)` directly followed by `(` at index `i`. */
  predicate CloseOpenAt(t: string, i: nat)
    requires 0 < i < |t|
  {
    t[i - 1] == ')' && t[i] == '('
  }

  // ---------------------------------------------------------------------
  // Outer parentheses

  /**
   * isOuterParentheses: after the initial run of negation signs comes `(`,
   * and the depth stays positive up to the last character, so that the `(`
   * is closed, if at all, by the last character. `None` is the index
   * overflow on a string of negation signs only.
   */
  function OuterParentheses(s: string): Option<bool>
  {
    var k := NotRun(s);
    if k == |s| then None
    else Some(s[k] == '(' && forall j :: k < j < |s| ==> SliceDepth(s, k, j) > 0)
  }

  /** The two loops of isOuterParentheses: skip the negation signs, then follow the depth. */
  method IsOuterParentheses(s: string) returns (r: Option<bool>)
    ensures r == OuterParentheses(s)
  {
    var index := 0;
    while index < |s| && s[index] == NOT
      invariant index <= |s|
      invariant forall i :: 0 <= i < index ==> s[i] == NOT
    {
      index := index + 1;
    }
    if index == |s| {
      NotRunUnique(s, index);
      return None;
    }
    NotRunUnique(s, index);
    ghost var k := index;
    var operators := 0;
    var isOuter := s[index] == '(';
    while isOuter && index < |s| && (s[index] == '(' || operators > 0)
      invariant k <= index <= |s|
      invariant isOuter ==> s[k] == '(' && operators == Depth(s[k..index]) && operators >= 0
      invariant isOuter && k < index < |s| ==> operators > 0
      invariant isOuter ==> forall j :: k < j <= index && j < |s| ==> SliceDepth(s, k, j) > 0
      invariant !isOuter ==> !(s[k] == '(' && forall j :: k < j < |s| ==> SliceDepth(s, k, j) > 0)
      decreases |s| - index
    {
      DepthStep(s, k, index);
      assert s[k..k] == [];
      assert isOuter && index > k ==> SliceDepth(s, k, index) == operators;
      assert SliceDepth(s, k, index + 1) == Depth(s[k..index + 1]);
      if s[index] == '(' {
        operators := operators + 1;
      } else if s[index] == ')' {
        operators := operators - 1;
        if operators == 0 && index != |s| - 1 {
          isOuter := false;
        }
      }
      index := index + 1;
    }
    return Some(isOuter);
  }

  /** A `(` that the rest of the string closes is not the last character. */
  lemma OpenedNotLast(s: string, k: nat)
    requires k < |s| && s[k] == '(' && Depth(s[k..]) == 0
    ensures |s| > k + 1
  {
    assert s[k..k] == [];
    DepthStep(s, k, |s| - 1);
    assert s[k..|s|] == s[k..];
  }

  /** When the depth stays positive until the last character and ends at zero, that character is `)`. */
  lemma ClosedByLast(s: string, k: nat)
    requires k + 1 < |s| && Depth(s[k..]) == 0 && SliceDepth(s, k, |s| - 1) > 0
    ensures s[|s| - 1] == ')'
  {
    DepthStep(s, k, |s| - 1);
    assert s[k..|s|] == s[k..];
  }

  /** With the initial `(` closed, the matching `)` is the last character. */
  lemma OuterParenthesesClosedLast(s: string, k: nat)
    requires k == NotRun(s) && OuterParentheses(s) == Some(true) && Depth(s[k..]) == 0
    ensures |s| >= k + 2 && s[k] == '(' && s[|s| - 1] == ')'
  {
    OpenedNotLast(s, k);
    assert SliceDepth(s, k, |s| - 1) > 0;
    ClosedByLast(s, k);
  }

  /** Depth over adjacent slices. */
  lemma DepthSlices(t: string, a: int, b: int, c: int)
    requires 0 <= a <= b <= c <= |t|
    ensures Depth(t[a..c]) == Depth(t[a..b]) + Depth(t[b..c])
  {
    DepthAppend(t[a..b], t[b..c]);
    assert t[a..b] + t[b..c] == t[a..c];
  }

  /**
   * removeOuterParentheses: the first and the last character dropped when
   * the string has outer parentheses. `None` is the crash of isOuterParentheses,
   * or of substring on the one-character string `(`.
   */
  function RemoveOuterParentheses(s: string): (r: Option<string>)
    ensures OuterParentheses(s) == Some(false) ==> r == Some(s)
    ensures OuterParentheses(s) == Some(true) && |s| >= 2 ==> r == Some(s[1..|s| - 1])
    ensures r.None? <==> OuterParentheses(s).None? || (OuterParentheses(s) == Some(true) && |s| < 2)
  {
    match OuterParentheses(s)
    case None => None
    case Some(outer) => if !outer then Some(s) else if |s| >= 2 then Some(s[1..|s| - 1]) else None
  }

  /** Inside a first `(` whose depth stays positive, every prefix has a depth of at least zero. */
  lemma InnerPrefixesNonNegative(s: string, u: string)
    requires |s| >= 2 && s[0] == '(' && u == s[1..|s| - 1]
    requires forall j :: 0 < j < |s| ==> SliceDepth(s, 0, j) > 0
    ensures forall j :: 0 <= j <= |u| ==> PrefixDepth(u, j) >= 0
  {
    DepthStep(s, 0, 0);
    assert s[0..0] == [];
    forall j | 0 <= j <= |u|
      ensures PrefixDepth(u, j) >= 0
    {
      DepthSlices(s, 0, 1, j + 1);
      assert s[1..j + 1] == u[..j];
      assert SliceDepth(s, 0, j + 1) > 0;
    }
  }

  /** Dropping a first `(` and a last `)` keeps a depth of zero. */
  lemma InnerDepthZero(s: string)
    requires |s| >= 2 && s[0] == '(' && s[|s| - 1] == ')' && Depth(s) == 0
    ensures Depth(s[1..|s| - 1]) == 0
  {
    DepthStep(s, 0, 0);
    assert s[0..0] == [];
    DepthSlices(s, 0, 1, |s| - 1);
    DepthStep(s, 0, |s| - 1);
    assert s[0..|s|] == s;
  }

  /** Removing balanced outer parentheses leaves a balanced string. */
  lemma RemoveOuterParenthesesBalanced(s: string)
    requires Balanced(s) && OuterParentheses(s) == Some(true) && NotRun(s) == 0
    ensures |s| >= 2 && RemoveOuterParentheses(s) == Some(s[1..|s| - 1])
    ensures Balanced(s[1..|s| - 1])
  {
    assert s[0..] == s;
    OuterParenthesesClosedLast(s, 0);
    InnerPrefixesNonNegative(s, s[1..|s| - 1]);
    InnerDepthZero(s);
  }

  /** A string of no parentheses has depth zero everywhere. */
  lemma {:induction false} NoParenthesesDepth(w: string)
    requires forall i :: 0 <= i < |w| ==> w[i] != '(' && w[i] != ')'
    ensures Depth(w) == 0
  {
    if w != [] {
      NoParenthesesDepth(w[..|w| - 1]);
    }
  }

  /** Without parentheses a string is balanced. */
  lemma NoParenthesesBalanced(w: string)
    requires forall i :: 0 <= i < |w| ==> w[i] != '(' && w[i] != ')'
    ensures Balanced(w) && NoCloseOpen(w)
  {
    NoParenthesesDepth(w);
    forall j | 0 <= j <= |w|
      ensures PrefixDepth(w, j) == 0
    {
      NoParenthesesDepth(w[..j]);
    }
  }

  /**
   * Wrapping a balanced string in parentheses gives a balanced string with
   * outer parentheses, and removing them gives the string back.
   */
  lemma WrapThenRemoveOuterParentheses(w: string)
    requires Balanced(w)
    ensures var s := "(" + w + ")";
            OuterParentheses(s) == Some(true) && RemoveOuterParentheses(s) == Some(w) && Balanced(s)
  {
    var s := "(" + w + ")";
    var n := |s|;
    assert NotRun(s) == 0;
    assert Depth("(") == 1 by {
      assert "("[..0] == [];
    }
    forall j | 0 < j < n
      ensures PrefixDepth(s, j) == 1 + PrefixDepth(w, j - 1) && SliceDepth(s, 0, j) == PrefixDepth(s, j)
    {
      assert s[..j] == "(" + w[..j - 1];
      DepthAppend("(", w[..j - 1]);
      assert s[0..j] == s[..j];
    }
    assert PrefixDepth(s, n - 1) == 1 + PrefixDepth(w, n - 2);
    assert w[..|w|] == w;
    assert s[..n - 1] == "(" + w;
    assert Depth(s) == 0;
    forall j | 0 <= j <= n
      ensures PrefixDepth(s, j) >= 0
    {
      if j == 0 {
        assert s[..0] == [];
      } else if j == n {
        assert s[..n] == s;
      }
    }
    assert s[1..n - 1] == w;
  }

  // ---------------------------------------------------------------------
  // Atomic strings

  /** The line terminators, which `.` in a Java regular expression does not match. */
  predicate IsLineTerminator(c: char)
  {
    c == '\n' || c == '\r' || c == '\U{85}' || c == '\U{2028}' || c == '\U{2029}'
  }

  /**
   * isAtomic of a string: the pattern "anything, a binary operator symbol,
   * anything" does not match the whole string. It matches exactly when the
   * string holds one of ⋁ ⋀ ➔ and no line terminator.
   */
  predicate IsAtomicString(s: string)
  {
    !((forall i :: 0 <= i < |s| ==> !IsLineTerminator(s[i])) &&
      (exists i :: 0 <= i < |s| && s[i] in {'⋁', '⋀', '➔'}))
  }

  // ---------------------------------------------------------------------
  // The center operator

  /** A binary operator of the enum revision, by character. */
  predicate IsCandidate(c: char)
  {
    GetOperatorChar(c).Some? && GetOperatorChar(c).value != Not
  }

  /** `co` names a binary operator standing at its index in `t`. */
  predicate IsCandidateAt(t: string, co: CenterOperator)
  {
    co.index < |t| && GetOperatorChar(t[co.index]) == Some(co.operator) && co.operator != Not
  }

  /** The binary operators among the first `n` characters of `t` that stand outside all parentheses, in order. */
  function DepthZeroOperators(t: string, n: nat): (r: seq<CenterOperator>)
    requires n <= |t|
    ensures forall k :: 0 <= k < |r| ==> IsCandidateAt(t, r[k]) && r[k].index < n && Depth(t[..r[k].index]) == 0
    ensures forall k, l :: 0 <= k < l < |r| ==> r[k].index < r[l].index
  {
    if n == 0 then []
    else
      var rest := DepthZeroOperators(t, n - 1);
      if Depth(t[..n - 1]) == 0 && IsCandidate(t[n - 1]) then
        rest + [CenterOperator(GetOperatorChar(t[n - 1]).value, n - 1)]
      else rest
  }

  /** Positions that are inside parentheses or hold no operator add nothing. */
  lemma {:induction false} DepthZeroOperatorsSkip(t: string, a: nat, b: nat)
    requires a <= b <= |t|
    requires forall p :: a <= p < b ==> !(Depth(t[..p]) == 0 && IsCandidate(t[p]))
    ensures DepthZeroOperators(t, b) == DepthZeroOperators(t, a)
    decreases b
  {
    if b > a {
      DepthZeroOperatorsSkip(t, a, b - 1);
    }
  }

  /**
   * Where the group skip of the scan stops when it starts at `s`: at `s`
   * itself when no `(` stands there, otherwise just after the `)` that
   * brings the depth back to zero for the first time.
   */
  predicate GroupEnd(t: string, s: nat, i: nat)
  {
    s <= i <= |t| && s < |t| && Depth(t[s..i]) == 0 &&
    (forall p :: s < p < i ==> SliceDepth(t, s, p) > 0) &&
    (i == s <==> t[s] != '(') &&
    (i > s ==> t[i - 1] == ')')
  }

  /**
   * The group skip as a function of the loop's state: the index `i`, the
   * depth `p` and the character `c` read last. It goes on while `c` opens a
   * group or the depth is positive.
   */
  function SkipFrom(t: string, i: nat, p: int, c: char): (r: Option<nat>)
    requires i <= |t|
    ensures r.Some? ==> i <= r.value <= |t|
    decreases |t| - i
  {
    if !(c == '(' || p > 0) then Some(i)
    else if i == |t| then None
    else SkipFrom(t, i + 1, p + Delta(t[i]), t[i])
  }

  /**
   * The inner loop of getCenterOperatorIndex's scan, skipping the group
   * that opens at `s`. `None` is the index overflow of a group that is not
   * closed before the end.
   */
  method SkipGroup(t: string, s: nat) returns (r: Option<nat>)
    requires s < |t|
    ensures r == SkipFrom(t, s, 0, t[s])
    ensures r.None? ==> Depth(t[s..]) > 0
    ensures r.Some? ==> GroupEnd(t, s, r.value)
  {
    var i := s;
    var parentheses := 0;
    var c := t[i];
    assert t[s..s] == [];
    while c == '(' || parentheses > 0
      invariant s <= i <= |t|
      invariant parentheses == Depth(t[s..i])
      invariant i == s ==> c == t[s] && parentheses == 0
      invariant i > s ==> c == t[i - 1] && t[s] == '('
      invariant forall p :: s < p < i ==> SliceDepth(t, s, p) > 0
      invariant SkipFrom(t, i, parentheses, c) == SkipFrom(t, s, 0, t[s])
      decreases |t| - i
    {
      if i > s {
        DepthStep(t, s, i - 1);
        assert i - 1 > s ==> SliceDepth(t, s, i - 1) > 0;
        assert SliceDepth(t, s, i) == parentheses;
      }
      if i >= |t| {
        assert t[s..i] == t[s..];
        return None;
      }
      DepthStep(t, s, i);
      c := t[i];
      if c == '(' {
        parentheses := parentheses + 1;
      } else if c == ')' {
        parentheses := parentheses - 1;
      }
      i := i + 1;
    }
    GroupEndAt(t, s, i, c);
    return Some(i);
  }

  /**
   * The skipping function started in the middle of the group opened at `s`
   * either finds the group's end or runs out with the group still open.
   */
  lemma {:induction false} SkipFromEnds(t: string, s: nat, i: nat, p: int, c: char)
    requires s <= i <= |t| && s < |t| && p == Depth(t[s..i])
    requires i == s ==> c == t[s] && p == 0
    requires i > s ==> c == t[i - 1] && t[s] == '('
    requires forall q :: s < q < i ==> SliceDepth(t, s, q) > 0
    ensures SkipFrom(t, i, p, c).None? ==> Depth(t[s..]) > 0
    ensures SkipFrom(t, i, p, c).Some? ==> GroupEnd(t, s, SkipFrom(t, i, p, c).value)
    decreases |t| - i
  {
    if i > s {
      DepthStep(t, s, i - 1);
      assert i - 1 > s ==> SliceDepth(t, s, i - 1) > 0;
      assert SliceDepth(t, s, i) == p;
    }
    if !(c == '(' || p > 0) {
      GroupEndAt(t, s, i, c);
    } else if i == |t| {
      assert t[s..i] == t[s..];
    } else {
      DepthStep(t, s, i);
      SkipFromEnds(t, s, i + 1, p + Delta(t[i]), t[i]);
    }
  }

  /** Where the skipping loop stops, the group opened at `s` ends. */
  lemma GroupEndAt(t: string, s: nat, i: nat, c: char)
    requires s <= i <= |t| && s < |t| && Depth(t[s..i]) <= 0
    requires forall p :: s < p < i ==> SliceDepth(t, s, p) > 0
    requires i == s ==> c == t[s]
    requires i > s ==> c == t[i - 1] && t[s] == '('
    requires c != '('
    ensures GroupEnd(t, s, i)
  {
    if i > s {
      DepthStep(t, s, i - 1);
      assert i - 1 > s ==> SliceDepth(t, s, i - 1) > 0;
    }
  }

  /** In a balanced string a group that starts at depth zero is always closed. */
  lemma BalancedGroupCloses(t: string, s: nat)
    requires Balanced(t) && s < |t| && Depth(t[..s]) == 0
    ensures Depth(t[s..]) == 0
  {
    DepthSplit(t, s, |t|);
    assert t[..|t|] == t && t[s..|t|] == t[s..];
  }

  /**
   * In a balanced string with no `)(`, a skipped group holds no operator at
   * depth zero, and the character after it stands at depth zero again.
   */
  lemma GroupEndSkips(t: string, s: nat, i: nat)
    requires GroupEnd(t, s, i) && Balanced(t) && NoCloseOpen(t) && Depth(t[..s]) == 0
    ensures Depth(t[..i]) == 0 && DepthZeroOperators(t, i) == DepthZeroOperators(t, s)
    ensures i < |t| ==> Depth(t[..i + 1]) == 0
  {
    DepthZeroOperatorsSkip(t, s, i) by {
      forall p | s <= p < i
        ensures !(Depth(t[..p]) == 0 && IsCandidate(t[p]))
      {
        DepthSplit(t, s, p);
        assert p == s ==> t[p] == '(';
        assert p > s ==> SliceDepth(t, s, p) > 0;
      }
    }
    DepthSplit(t, s, i);
    if i < |t| {
      DepthStep(t, 0, i);
      assert t[0..i] == t[..i] && t[0..i + 1] == t[..i + 1];
      assert i > s ==> !CloseOpenAt(t, i);
      assert t[i] != '(';
      assert PrefixDepth(t, i + 1) >= 0;
    }
  }

  /**
   * The scan of getCenterOperatorIndex: a parenthesized group is skipped,
   * the character after it is examined, and every binary operator found is
   * collected with its index. `None` is the index overflow when a group is
   * not closed.
   */
  method ScanOperators(t: string) returns (r: Option<seq<CenterOperator>>)
    ensures r == ScanFrom(t, 0, [])
    ensures r.Some? ==> forall k :: 0 <= k < |r.value| ==> IsCandidateAt(t, r.value[k])
    ensures Balanced(t) && NoCloseOpen(t) ==> r == Some(DepthZeroOperators(t, |t|))
  {
    ScanFromStart(t);
    var operators: seq<CenterOperator> := [];
    var i := 0;
    while i < |t|
      invariant 0 <= i <= |t| + 1
      invariant ScanFrom(t, i, operators) == ScanFrom(t, 0, [])
      decreases |t| + 1 - i
    {
      var next := ScanRound(t, i, operators);
      if next.None? {
        return None;
      }
      i, operators := next.value.0, next.value.1;
    }
    r := Some(operators);
  }

  /**
   * One round of the scan: the group at `i` is skipped and the character
   * after it examined. `None` is the index overflow of a group not closed.
   */
  method ScanRound(t: string, i: nat, ops: seq<CenterOperator>) returns (next: Option<(nat, seq<CenterOperator>)>)
    requires i < |t|
    ensures next == NextScan(t, i, ops)
  {
    var skipped := SkipGroup(t, i);
    if skipped.None? {
      return None;
    }
    var j := skipped.value;
    return Some((j + 1, Record(t, j, ops)));
  }

  /**
   * The scan as a function of the loop's state: the index `i` and the
   * operators collected so far. Every collected entry is a binary operator
   * of `t` at its index; from a state it reaches on a balanced string
   * without `)(` it collects exactly the operators at depth zero.
   */
  function ScanFrom(t: string, i: nat, ops: seq<CenterOperator>): (r: Option<seq<CenterOperator>>)
    ensures r.Some? && (forall k :: 0 <= k < |ops| ==> IsCandidateAt(t, ops[k])) ==>
              forall k :: 0 <= k < |r.value| ==> IsCandidateAt(t, r.value[k])
    ensures Balanced(t) && NoCloseOpen(t) && Scanned(t, i, ops) ==> r == Some(DepthZeroOperators(t, |t|))
    decreases |t| + 1 - i
  {
    if i >= |t| then Some(ops)
    else
      ScanKeeps(t, i, ops);
      match NextScan(t, i, ops)
      case None => None
      case Some(next) => ScanFrom(t, next.0, next.1)
  }

  /**
   * One round of the scan as a function: the index after the skipped group
   * and its following character, and the operators collected; `None` when
   * the group is not closed.
   */
  function NextScan(t: string, i: nat, ops: seq<CenterOperator>): (r: Option<(nat, seq<CenterOperator>)>)
    requires i < |t|
    ensures r.Some? ==> i < r.value.0 <= |t| + 1
    ensures r.Some? && (forall k :: 0 <= k < |ops| ==> IsCandidateAt(t, ops[k])) ==>
              forall k :: 0 <= k < |r.value.1| ==> IsCandidateAt(t, r.value.1[k])
  {
    match SkipFrom(t, i, 0, t[i])
    case None => None
    case Some(j) => Some((j + 1, Record(t, j, ops)))
  }

  /** The whole scan of a balanced string without `)(` collects the operators at depth zero. */
  lemma ScanFromStart(t: string)
    ensures Balanced(t) && NoCloseOpen(t) ==> ScanFrom(t, 0, []) == Some(DepthZeroOperators(t, |t|))
  {
    assert Scanned(t, 0, []);
  }

  /** One round of the scan keeps its invariant on a balanced string without `)(`. */
  lemma ScanKeeps(t: string, i: nat, ops: seq<CenterOperator>)
    requires i < |t|
    ensures Balanced(t) && NoCloseOpen(t) && Scanned(t, i, ops) ==>
              NextScan(t, i, ops).Some? && Scanned(t, NextScan(t, i, ops).value.0, NextScan(t, i, ops).value.1)
  {
    if Balanced(t) && NoCloseOpen(t) && Scanned(t, i, ops) {
      var j := ScanAdvance(t, i, ops);
    }
  }

  /** One round of the scan in a state it reaches on a balanced string without `)(`. */
  lemma ScanAdvance(t: string, s: nat, ops: seq<CenterOperator>) returns (j: nat)
    requires Balanced(t) && NoCloseOpen(t) && Scanned(t, s, ops) && s < |t|
    ensures s <= j <= |t| && SkipFrom(t, s, 0, t[s]) == Some(j)
    ensures Scanned(t, j + 1, Record(t, j, ops))
  {
    j := SkipBalanced(t, s);
    ScanStep(t, s, j);
  }

  /**
   * The state the scan reaches on a balanced string without `)(`: it stands
   * at depth zero and has collected exactly the operators at depth zero so
   * far (all of them once past the end).
   */
  ghost predicate Scanned(t: string, i: nat, ops: seq<CenterOperator>)
  {
    if i <= |t| then Depth(t[..i]) == 0 && ops == DepthZeroOperators(t, i)
    else ops == DepthZeroOperators(t, |t|)
  }

  /** In a balanced string a group that opens at depth zero is skipped to its end. */
  lemma SkipBalanced(t: string, s: nat) returns (j: nat)
    requires Balanced(t) && s < |t| && Depth(t[..s]) == 0
    ensures SkipFrom(t, s, 0, t[s]) == Some(j) && GroupEnd(t, s, j)
  {
    assert t[s..s] == [];
    SkipFromEnds(t, s, s, 0, t[s]);
    BalancedGroupCloses(t, s);
    j := SkipFrom(t, s, 0, t[s]).value;
  }

  /**
   * The operators collected once the character after a group ending at `j`
   * is examined; past the end nothing is examined.
   */
  function Record(t: string, j: nat, ops: seq<CenterOperator>): (r: seq<CenterOperator>)
    ensures (forall k :: 0 <= k < |ops| ==> IsCandidateAt(t, ops[k])) ==>
              forall k :: 0 <= k < |r| ==> IsCandidateAt(t, r[k])
  {
    if j < |t| then ops + CandidateAt(t, j) else ops
  }

  /** The operator the scan records at index `i`, if any. */
  function CandidateAt(t: string, i: nat): (r: seq<CenterOperator>)
    requires i < |t|
    ensures |r| <= 1 && (r != [] <==> IsCandidate(t[i]))
    ensures r != [] ==> IsCandidateAt(t, r[0]) && r[0].index == i
  {
    var op := GetOperatorChar(t[i]);
    if op.Some? && op.value != Not then [CenterOperator(op.value, i)] else []
  }

  /** One round of the scan: a group is skipped and the character after it examined. */
  lemma ScanStep(t: string, s: nat, i: nat)
    requires GroupEnd(t, s, i) && Balanced(t) && NoCloseOpen(t) && Depth(t[..s]) == 0
    ensures i == |t| ==> DepthZeroOperators(t, i) == DepthZeroOperators(t, s)
    ensures i < |t| ==> Depth(t[..i + 1]) == 0 && DepthZeroOperators(t, i + 1) == DepthZeroOperators(t, s) + CandidateAt(t, i)
  {
    GroupEndSkips(t, s, i);
    if i < |t| {
      DepthZeroOperatorsNext(t, i);
    }
  }

  /** One more character at depth zero. */
  lemma DepthZeroOperatorsNext(t: string, i: nat)
    requires i < |t| && Depth(t[..i]) == 0
    ensures DepthZeroOperators(t, i + 1) == DepthZeroOperators(t, i) + CandidateAt(t, i)
  {
  }

  /** The index of the last operator of least ordinal, found left to right. */
  function RightmostMin(ops: seq<CenterOperator>): (m: nat)
    requires ops != []
    ensures m < |ops|
  {
    if |ops| == 1 then 0
    else
      var p := RightmostMin(ops[..|ops| - 1]);
      if Ordinal(ops[|ops| - 1].operator) <= Ordinal(ops[p].operator) then |ops| - 1 else p
  }

  /** RightmostMin picks an operator of least ordinal, and no later one has that ordinal. */
  lemma {:induction false} RightmostMinIsMinimal(ops: seq<CenterOperator>)
    requires ops != []
    ensures forall j :: 0 <= j < |ops| ==> Ordinal(ops[RightmostMin(ops)].operator) <= Ordinal(ops[j].operator)
    ensures forall j :: RightmostMin(ops) < j < |ops| ==> Ordinal(ops[j].operator) > Ordinal(ops[RightmostMin(ops)].operator)
  {
    if |ops| > 1 {
      var init := ops[..|ops| - 1];
      RightmostMinIsMinimal(init);
      assert forall j :: 0 <= j < |init| ==> init[j] == ops[j];
    }
  }

  /** All operators share the ordinal of the first. */
  predicate AllSameOrdinal(ops: seq<CenterOperator>)
  {
    forall j :: 0 <= j < |ops| ==> Ordinal(ops[j].operator) == Ordinal(ops[0].operator)
  }

  /** The choice getCenterOperatorIndex makes among the collected operators. */
  function CenterChoice(ops: seq<CenterOperator>): Option<CenterOperator>
  {
    if ops == [] then None
    else if AllSameOrdinal(ops) then Some(ops[|ops| / 2])
    else Some(ops[RightmostMin(ops)])
  }

  /**
   * The chosen operator has the least ordinal (the weakest binding); when
   * the ordinals differ it is the rightmost such, otherwise the middle one.
   */
  lemma CenterChoiceIsWeakest(ops: seq<CenterOperator>)
    requires ops != []
    ensures CenterChoice(ops).Some? && CenterChoice(ops).value in ops
    ensures forall j :: 0 <= j < |ops| ==> Ordinal(CenterChoice(ops).value.operator) <= Ordinal(ops[j].operator)
    ensures !AllSameOrdinal(ops) ==>
              exists m :: 0 <= m < |ops| && CenterChoice(ops).value == ops[m] &&
                          forall j :: m < j < |ops| ==> Ordinal(ops[j].operator) > Ordinal(ops[m].operator)
  {
    RightmostMinIsMinimal(ops);
    if !AllSameOrdinal(ops) {
      assert CenterChoice(ops).value == ops[RightmostMin(ops)];
    }
  }

  /** The selection loop of getCenterOperatorIndex; `None` is `get(0)` on an empty list. */
  method ChooseCenter(ops: seq<CenterOperator>) returns (r: Option<CenterOperator>)
    ensures r == CenterChoice(ops)
  {
    if |ops| == 0 {
      return None;
    }
    var op := ops[0];
    var allEqual := true;
    var i := 1;
    assert ops[..1] == [ops[0]];
    while i < |ops|
      invariant 1 <= i <= |ops|
      invariant op == ops[RightmostMin(ops[..i])]
      invariant allEqual <==> AllSameOrdinal(ops[..i])
    {
      assert ops[..i + 1][..i] == ops[..i];
      if Ordinal(ops[i].operator) != Ordinal(op.operator) {
        allEqual := false;
      }
      if Ordinal(ops[i].operator) <= Ordinal(op.operator) {
        op := ops[i];
      }
      i := i + 1;
    }
    assert ops[..i] == ops;
    return if allEqual then Some(ops[|ops| / 2]) else Some(op);
  }

  /**
   * getCenterOperatorIndex: remove outer parentheses, collect the binary
   * operators outside all parentheses and choose one. The index refers to
   * the string after the removal.
   */
  method GetCenterOperatorIndex(t: string) returns (r: Option<CenterOperator>)
    ensures r == CenterOf(t)
    ensures r.Some? ==> RemoveOuterParentheses(t).Some? && IsCandidateAt(RemoveOuterParentheses(t).value, r.value)
    ensures RemoveOuterParentheses(t).Some? &&
            Balanced(RemoveOuterParentheses(t).value) && NoCloseOpen(RemoveOuterParentheses(t).value) ==>
              var u := RemoveOuterParentheses(t).value;
              r == CenterChoice(DepthZeroOperators(u, |u|))
  {
    var o := IsOuterParentheses(t);
    if o.None? || (o.value && |t| < 2) {
      return None;
    }
    var u := if o.value then t[1..|t| - 1] else t;
    var operators := ScanOperators(u);
    if operators.None? {
      return None;
    }
    r := ChooseCenter(operators.value);
    if r.Some? {
      CenterChoiceIsWeakest(operators.value);
      assert IsCandidateAt(u, r.value);
    }
  }

  /**
   * getCenterOperatorIndex as a function: the choice among the operators the
   * scan collects in the string without its outer parentheses. `None` is
   * an exception, or no operator to choose from.
   */
  function CenterOf(t: string): (r: Option<CenterOperator>)
    ensures r.Some? ==> RemoveOuterParentheses(t).Some? && IsCandidateAt(RemoveOuterParentheses(t).value, r.value)
  {
    match RemoveOuterParentheses(t)
    case None => None
    case Some(u) =>
      match ScanFrom(u, 0, [])
      case None => None
      case Some(ops) => if ops == [] then None else CenterChoiceIsWeakest(ops); CenterChoice(ops)
  }

  /** `A⋀B` has one binary operator outside parentheses, ⋀ at index 1, and it is chosen. */
  lemma CenterOfConjunction()
    ensures Balanced("A⋀B") && NoCloseOpen("A⋀B")
    ensures CenterChoice(DepthZeroOperators("A⋀B", 3)) == Some(CenterOperator(And, 1))
  {
    var u := "A⋀B";
    NoParenthesesBalanced(u);
    assert Depth(u[..0]) == 0 && Depth(u[..1]) == 0 && Depth(u[..2]) == 0;
    assert !IsCandidate('A') && !IsCandidate('B') && IsCandidate('⋀') && GetOperatorChar('⋀') == Some(And);
    assert DepthZeroOperators(u, 1) == [];
    assert DepthZeroOperators(u, 2) == [CenterOperator(And, 1)];
    assert DepthZeroOperators(u, 3) == [CenterOperator(And, 1)];
  }

  /** `(A⋀B)` is balanced and has outer parentheses around `A⋀B`. */
  lemma StripConjunction()
    ensures RemoveOuterParentheses("(A⋀B)") == Some("A⋀B") && Balanced("(A⋀B)")
  {
    NoParenthesesBalanced("A⋀B");
    WrapThenRemoveOuterParentheses("A⋀B");
    assert "(" + "A⋀B" + ")" == "(A⋀B)";
  }

  /** `((A⋀B))` has outer parentheses around `(A⋀B)`. */
  lemma StripDoubledConjunction()
    ensures RemoveOuterParentheses("((A⋀B))") == Some("(A⋀B)")
  {
    StripConjunction();
    WrapThenRemoveOuterParentheses("(A⋀B)");
    assert "(" + "(A⋀B)" + ")" == "((A⋀B))";
  }

  /**
   * The index refers to the string after removing outer parentheses, and
   * the builder has already removed one pair: for `((A⋀B))` it splits
   * `(A⋀B)` at index 1, which holds `A`, not the operator.
   */
  lemma CenterIndexOfDoubledParentheses()
    ensures RemoveOuterParentheses("((A⋀B))") == Some("(A⋀B)")
    ensures RemoveOuterParentheses("(A⋀B)") == Some("A⋀B")
    ensures CenterChoice(DepthZeroOperators("A⋀B", 3)) == Some(CenterOperator(And, 1))
    ensures "(A⋀B)"[1] == 'A' && !IsCandidate("(A⋀B)"[1])
  {
    CenterOfConjunction();
    StripConjunction();
    StripDoubledConjunction();
  }

  // ---------------------------------------------------------------------
  // Validation

  /** The three exceptions of isValid, with the text or character and the index they report. */
  datatype ValidationError =
    | ExpressionInvalid(text: string, index: nat)
    | MissingCharacter(missing: char, index: nat)
    | TooBigExpression

  /** MAX_EXPRESSION_SIZE: an expression may hold one operator fewer than this. */
  const MaxExpressionSize: nat := 15

  /** The expression with every space removed, which the scan works on. */
  function SpaceLess(expression: string): string
  {
    RemoveAll(expression, ' ')
  }

  /** An operator other than negation: the scan counts these. */
  predicate IsCountedOperator(c: char)
  {
    GetOperatorChar(c).Some? && c != NOT
  }

  /** The number of counted operators in `t`. */
  function OperatorCount(t: string): nat
  {
    if t == [] then 0 else OperatorCount(t[..|t| - 1]) + (if IsCountedOperator(t[|t| - 1]) then 1 else 0)
  }

  /** Longer prefixes hold at least as many operators. */
  lemma {:induction false} OperatorCountMonotone(t: string, i: nat, j: nat)
    requires i <= j <= |t|
    ensures OperatorCount(t[..i]) <= OperatorCount(t[..j])
    decreases j - i
  {
    if i < j {
      OperatorCountMonotone(t, i, j - 1);
      assert t[..j][..j - 1] == t[..j - 1];
    }
  }

  /** Every prefix of `t` has a depth of at least zero: no `)` closes a missing `(`. */
  predicate NeverBelowZero(t: string)
  {
    forall j :: 0 <= j <= |t| ==> PrefixDepth(t, j) >= 0
  }

  /**
   * `i` is the first `)` of `t` with no `(` to close, and the operators up
   * to it are within the limit, so the scan reaches it.
   */
  predicate FirstUnmatchedClose(t: string, i: nat)
  {
    i < |t| && t[i] == ')' && PrefixDepth(t, i + 1) < 0 &&
    (forall j :: 0 <= j <= i ==> PrefixDepth(t, j) >= 0) &&
    OperatorCount(t[..i + 1]) < MaxExpressionSize
  }

  /**
   * What isValid accepts: the illegal-pattern search found nothing, the
   * expression is not empty, and its space-less form has fewer operators
   * than the limit and balanced parentheses.
   */
  predicate Accepted(expression: string, illegal: Option<(string, nat)>)
  {
    illegal.None? && expression != [] &&
    OperatorCount(SpaceLess(expression)) < MaxExpressionSize && Balanced(SpaceLess(expression))
  }

  /**
   * isValid. The composite regular expression is not modelled: `illegal`
   * is its first match (the matched text and its start), or `None`. Then an
   * empty expression is reported, then the space-less string is scanned
   * with a stack of open brackets and a count of operators. `None` means
   * that no exception is thrown.
   */
  method IsValid(expression: string, illegal: Option<(string, nat)>) returns (r: Option<ValidationError>)
    ensures r.None? <==> Accepted(expression, illegal)
    ensures illegal.Some? ==> r == Some(ExpressionInvalid(illegal.value.0, illegal.value.1))
    ensures illegal.None? && expression == [] ==> r == Some(MissingCharacter('A', 0))
    ensures illegal.None? ==> !(r.Some? && r.value.ExpressionInvalid?)
    ensures illegal.None? && expression != [] && r == Some(TooBigExpression) ==>
              OperatorCount(SpaceLess(expression)) >= MaxExpressionSize
    ensures illegal.None? && expression != [] &&
            OperatorCount(SpaceLess(expression)) >= MaxExpressionSize && NeverBelowZero(SpaceLess(expression)) ==>
              r == Some(TooBigExpression)
    ensures illegal.None? && expression != [] ==>
              forall i: nat :: r == Some(MissingCharacter('(', i)) <==> FirstUnmatchedClose(SpaceLess(expression), i)
    ensures illegal.None? && expression != [] ==>
              (r == Some(MissingCharacter(')', |expression|)) <==>
                 OperatorCount(SpaceLess(expression)) < MaxExpressionSize &&
                 NeverBelowZero(SpaceLess(expression)) && Depth(SpaceLess(expression)) > 0)
  {
    if illegal.Some? {
      return Some(ExpressionInvalid(illegal.value.0, illegal.value.1));
    } else if |expression| == 0 {
      return Some(MissingCharacter('A', 0));
    }
    r := ScanBrackets(SpaceLess(expression), |expression|);
  }

  /**
   * The scan of isValid over the space-less string `spaceLess`: a stack of
   * open brackets and a count of operators. An unclosed `(` is reported at
   * `length`, the length of the expression before the spaces were removed.
   */
  method ScanBrackets(spaceLess: string, length: nat) returns (r: Option<ValidationError>)
    ensures r.None? <==> OperatorCount(spaceLess) < MaxExpressionSize && Balanced(spaceLess)
    ensures !(r.Some? && r.value.ExpressionInvalid?)
    ensures r == Some(TooBigExpression) ==> OperatorCount(spaceLess) >= MaxExpressionSize
    ensures OperatorCount(spaceLess) >= MaxExpressionSize && NeverBelowZero(spaceLess) ==> r == Some(TooBigExpression)
    ensures forall i: nat :: r == Some(MissingCharacter('(', i)) <==> FirstUnmatchedClose(spaceLess, i)
    ensures r == Some(MissingCharacter(')', length)) <==>
              OperatorCount(spaceLess) < MaxExpressionSize && NeverBelowZero(spaceLess) && Depth(spaceLess) > 0
  {
    var brackets: seq<char> := [];
    var numberOfOperators := 0;
    var i := 0;
    assert spaceLess[..0] == [];
    while i < |spaceLess|
      invariant 0 <= i <= |spaceLess|
      invariant numberOfOperators == OperatorCount(spaceLess[..i]) < MaxExpressionSize
      invariant |brackets| == PrefixDepth(spaceLess, i)
      invariant forall k :: 0 <= k < |brackets| ==> brackets[k] == '('
      invariant forall j :: 0 <= j <= i ==> PrefixDepth(spaceLess, j) >= 0
    {
      var charAtI := spaceLess[i];
      assert spaceLess[..i + 1][..i] == spaceLess[..i];
      assert PrefixDepth(spaceLess, i + 1) == PrefixDepth(spaceLess, i) + Delta(charAtI);
      IsOperatorCharAgrees(charAtI);
      if IsOperatorChar(charAtI) && charAtI != NOT {
        numberOfOperators := numberOfOperators + 1;
        if numberOfOperators > MaxExpressionSize - 1 {
          TooBigFound(spaceLess, i);
          return Some(TooBigExpression);
        }
      }
      if charAtI == '(' {
        brackets := brackets + [charAtI];
      } else if charAtI == ')' {
        if |brackets| == 0 {
          UnmatchedCloseFirst(spaceLess, i);
          return Some(MissingCharacter('(', i));
        }
        var pop := brackets[|brackets| - 1];
        brackets := brackets[..|brackets| - 1];
        // only `(` is ever pushed, so the mismatched-bracket exception cannot be thrown
        assert pop == '(';
      }
      i := i + 1;
    }
    assert spaceLess[..i] == spaceLess;
    assert Depth(spaceLess) == PrefixDepth(spaceLess, i);
    NoUnmatchedClose(spaceLess);
    if |brackets| > 0 {
      return Some(MissingCharacter(')', length));
    }
    return None;
  }

  /** When the operator limit is passed at `i`, the whole string is over it, and no `)` came unmatched before. */
  lemma {:induction false} TooBigFound(t: string, i: nat)
    requires i < |t| && OperatorCount(t[..i + 1]) >= MaxExpressionSize
    requires forall j :: 0 <= j <= i ==> PrefixDepth(t, j) >= 0
    ensures OperatorCount(t) >= MaxExpressionSize
    ensures forall k: nat :: !FirstUnmatchedClose(t, k)
  {
    OperatorCountMonotone(t, i + 1, |t|);
    assert t[..|t|] == t;
    forall k: nat
      ensures !FirstUnmatchedClose(t, k)
    {
      if k + 1 <= i {
        assert PrefixDepth(t, k + 1) >= 0;
      } else if k < |t| {
        OperatorCountMonotone(t, i + 1, k + 1);
      }
    }
  }

  /** The first `)` without a `(` is the only such first one. */
  lemma UnmatchedCloseFirst(t: string, i: nat)
    requires FirstUnmatchedClose(t, i)
    ensures forall k: nat :: FirstUnmatchedClose(t, k) <==> k == i
  {
    forall k: nat
      ensures FirstUnmatchedClose(t, k) <==> k == i
    {
      if k < i {
        assert PrefixDepth(t, k + 1) >= 0;
      } else if k > i {
        var d := PrefixDepth(t, i + 1);
        assert FirstUnmatchedClose(t, k) ==> d >= 0;
      }
    }
  }

  /** A string that never goes below zero has no unmatched `)`. */
  lemma NoUnmatchedClose(t: string)
    requires NeverBelowZero(t)
    ensures forall k: nat :: !FirstUnmatchedClose(t, k)
  {
    forall k: nat
      ensures !FirstUnmatchedClose(t, k)
    {
      if k < |t| {
        assert PrefixDepth(t, k + 1) >= 0;
      }
    }
  }

  // ---------------------------------------------------------------------
  // Leaves

  /** A run of `n` negation signs. */
  function Nots(n: nat): (r: string)
    ensures |r| == n && CountChar(r, NOT) == n && NotsUpFront(r)
    ensures forall k :: 0 <= k < n ==> r[k] == NOT
  {
    var r := seq(n, _ => NOT);
    AllNotsCount(r);
    NotRunUnique(r, n);
    r
  }

  /** The name of a leaf: a lone parenthesis becomes the empty name, anything else is kept. */
  function LeafName(s: string): (r: string)
    ensures r == s || (r == "" && (s == "(" || s == ")"))
    ensures '(' !in s && ')' !in s ==> r == s
  {
    if s == "(" || s == ")" then "" else s
  }

  /**
   * The leaf the basis of simplifyRec builds from an atomic string: one
   * negation sign in `leading` for every sign removed from the string, the
   * rest as the name, and double negation applied when simplifying.
   */
  function AtomOf(s: string, simplify: bool): (r: Expr)
  {
    var a := Atom(Nots(CountChar(s, NOT)), LeafName(RemoveAll(s, NOT)));
    if simplify then DoubleNegation(a) else a
  }

  /**
   * The leaf is well formed, carries no negation sign in its name, and is
   * negated exactly when the string holds an odd number of signs; when
   * simplifying at most one sign is left.
   */
  lemma AtomOfProperties(s: string, simplify: bool)
    ensures Valid(AtomOf(s, simplify)) && IsAtomic(AtomOf(s, simplify))
    ensures NOT !in AtomOf(s, simplify).atomic.value
    ensures IsInverse(AtomOf(s, simplify)) <==> CountChar(s, NOT) % 2 == 1
    ensures NotsUpFront(AtomOf(s, simplify).leading)
    ensures simplify ==> CountChar(AtomOf(s, simplify).leading, NOT) <= 1
  {
    var n := CountChar(s, NOT);
    RemoveAllCounts(s, NOT, NOT);
    CountCharPositive(RemoveAll(s, NOT), NOT);
    DoubleNegationLeadingParity(Nots(n));
  }

  /** Without simplifying, a leaf whose signs all stand in front renders as the string it came from. */
  lemma AtomOfRoundTrip(s: string)
    requires NotsUpFront(s) && RemoveAll(s, NOT) != "(" && RemoveAll(s, NOT) != ")"
    ensures ToString(AtomOf(s, false)) == s
  {
    NotsUpFrontSplit(s);
    var a := AtomOf(s, false);
    assert a.leading == Nots(CountChar(s, NOT)) && a.atomic.value == RemoveAll(s, NOT);
  }

  /** A string whose signs all stand in front is its signs followed by the rest. */
  lemma {:induction false} NotsUpFrontSplit(s: string)
    requires NotsUpFront(s)
    ensures Nots(CountChar(s, NOT)) + RemoveAll(s, NOT) == s
  {
    var k := NotRun(s);
    NotsUpFrontRest(s);
    assert s[..k] == Nots(k);
    assert s[..k] + s[k..] == s;
  }

  /** Past the leading run of signs there is no sign left to remove. */
  lemma NotsUpFrontRest(s: string)
    requires NotsUpFront(s)
    ensures RemoveAll(s, NOT) == s[NotRun(s)..]
  {
    var k := NotRun(s);
    var front, rest := s[..k], s[k..];
    assert front + rest == s;
    NotRunCounted(s);
    CountCharAppend(front, rest, NOT);
    CountCharPositive(rest, NOT);
    RemoveAllAbsent(rest, NOT);
    RemoveAllAppend(front, rest, NOT);
    RemoveAllCounts(front, NOT, NOT);
    assert RemoveAll(front, NOT) == [];
  }

  /** The basis of simplifyRec: every negation sign moves into `leading`, one at a time. */
  method BuildAtom(s: string, simplify: bool) returns (r: Expr)
    ensures r == AtomOf(s, simplify)
  {
    var name := s;
    var leading: string := [];
    while NOT in name
      invariant RemoveAll(name, NOT) == RemoveAll(s, NOT)
      invariant |leading| + CountChar(name, NOT) == CountChar(s, NOT)
      invariant forall k :: 0 <= k < |leading| ==> leading[k] == NOT
      decreases CountChar(name, NOT)
    {
      RemoveAllAfterRemoveFirst(name, NOT);
      name := RemoveFirst(name, NOT);
      leading := leading + [NOT];
    }
    CountCharPositive(name, NOT);
    RemoveAllAbsent(name, NOT);
    if '(' in name || ')' in name {
      name := LeafName(name);
    }
    assert leading == Nots(CountChar(s, NOT));
    r := Atom(leading, name);
    if simplify {
      r := DoubleNegation(r);
    }
  }

  // ---------------------------------------------------------------------
  // The recursive builder

  /**
   * What the loop before the split leaves: the negation signs it moved
   * (as `leading`) and the rest of the string, which does not start with a
   * sign followed by outer parentheses. As written each step removes every
   * sign of the string, so it runs at most once; corrected, each step
   * removes the first sign only.
   */
  predicate Peeled(s: string, rev: Revision, leading: string, rest: string)
  {
    rest != [] && !(rest[0] == NOT && OuterParentheses(rest[1..]) == Some(true)) &&
    PeelShape(s, rev, leading, rest)
  }

  /** What every round of the loop keeps: the signs moved so far and the rest they came from. */
  predicate PeelShape(s: string, rev: Revision, leading: string, rest: string)
  {
    |rest| <= |s| &&
    (forall k :: 0 <= k < |leading| ==> leading[k] == NOT) &&
    (rev == Corrected ==> leading + rest == s) &&
    (rev == AsWritten ==> (leading == [] && rest == s) || (leading == [NOT] && rest == RemoveAll(s, NOT)))
  }

  /** The loop stops on a rest that is not a sign followed by outer parentheses. */
  lemma PeelStops(s: string, rev: Revision, leading: string, rest: string)
    requires rest != [] && PeelShape(s, rev, leading, rest)
    requires rest[0] != NOT || OuterParentheses(rest[1..]) != Some(true)
    ensures Peeled(s, rev, leading, rest)
  {
  }

  /** Some character of `s` is not a negation sign. */
  predicate HasOther(s: string)
  {
    NotRun(s) < |s|
  }

  /** Removing every negation sign keeps the other characters. */
  lemma RemoveNotsKeepsOther(s: string)
    requires HasOther(s)
    ensures HasOther(RemoveAll(s, NOT))
    ensures NOT !in RemoveAll(s, NOT)
  {
    var d := s[NotRun(s)];
    CountCharPositive(s, d);
    RemoveAllCounts(s, NOT, d);
    CountCharPositive(RemoveAll(s, NOT), d);
    RemoveAllCounts(s, NOT, NOT);
    CountCharPositive(RemoveAll(s, NOT), NOT);
  }

  /** One step of the as-written loop happens on the untouched string only, and leaves no sign behind. */
  lemma AsWrittenPeelStep(s: string, leading: string, rest: string)
    requires PeelShape(s, AsWritten, leading, rest)
    requires rest != [] && rest[0] == NOT
    requires HasOther(s) ==> HasOther(rest)
    ensures PeelShape(s, AsWritten, leading + [NOT], RemoveAll(rest, NOT))
    ensures |RemoveAll(rest, NOT)| < |rest|
    ensures HasOther(s) ==> HasOther(RemoveAll(rest, NOT))
  {
    RemoveAllCounts(s, NOT, NOT);
    CountCharPositive(RemoveAll(s, NOT), NOT);
    assert rest[0] in rest;
    CountCharPositive(rest, NOT);
    RemoveAllShorter(rest, NOT);
    if HasOther(s) {
      RemoveNotsKeepsOther(rest);
    }
  }

  /** A run of signs after the first sign makes isOuterParentheses throw; that needs a string of signs only. */
  lemma PeelCrash(s: string, rest: string)
    requires rest != [] && rest[0] == NOT && OuterParentheses(rest[1..]).None?
    requires HasOther(s) ==> HasOther(rest)
    ensures !HasOther(s)
  {
    assert rest == [NOT] + rest[1..];
  }

  /** One step of the corrected loop moves the first sign of the rest to `leading`. */
  lemma CorrectedPeelStep(s: string, leading: string, rest: string)
    requires PeelShape(s, Corrected, leading, rest)
    requires rest != [] && rest[0] == NOT
    requires HasOther(s) ==> HasOther(rest)
    ensures PeelShape(s, Corrected, leading + [NOT], rest[1..])
    ensures HasOther(s) ==> HasOther(rest[1..])
  {
    assert [NOT] + rest[1..] == rest;
    assert leading + [NOT] + rest[1..] == leading + ([NOT] + rest[1..]);
  }

  /**
   * The loop of simplifyRec before the outer parentheses are removed: while
   * the string is a negation sign followed by a string with outer
   * parentheses, a sign moves to `leading`. `None` is the crash of charAt
   * on an empty string or of isOuterParentheses on a run of signs.
   */
  method PeelNegations(s: string, rev: Revision) returns (r: Option<(string, string)>)
    ensures r == PeelFrom(rev, [], s)
    ensures r.Some? ==> Peeled(s, rev, r.value.0, r.value.1)
    ensures HasOther(s) ==> r.Some?
  {
    var leading: string := [];
    var rest := s;
    if HasOther(s) {
      RemoveNotsKeepsOther(s);
    }
    while true
      invariant PeelShape(s, rev, leading, rest)
      invariant HasOther(s) ==> HasOther(rest)
      invariant PeelFrom(rev, leading, rest) == PeelFrom(rev, [], s)
      decreases |rest|
    {
      if rest == [] {
        return None;
      }
      if rest[0] != NOT {
        PeelStops(s, rev, leading, rest);
        return Some((leading, rest));
      }
      var outer := IsOuterParentheses(rest[1..]);
      if outer.None? {
        PeelCrash(s, rest);
        return None;
      }
      if !outer.value {
        PeelStops(s, rev, leading, rest);
        return Some((leading, rest));
      }
      if rev == AsWritten {
        AsWrittenPeelStep(s, leading, rest);
        leading, rest := leading + [NOT], RemoveAll(rest, NOT);
      } else {
        CorrectedPeelStep(s, leading, rest);
        leading, rest := leading + [NOT], rest[1..];
      }
    }
  }

  /**
   * The negation loop as a function of its state: the signs moved so far
   * and the rest of the string. The rest only shrinks.
   */
  function PeelFrom(rev: Revision, leading: string, rest: string): (r: Option<(string, string)>)
    ensures r.Some? ==> |r.value.1| <= |rest|
    decreases |rest|
  {
    if rest == [] then None
    else if rest[0] != NOT then Some((leading, rest))
    else
      match OuterParentheses(rest[1..])
      case None => None
      case Some(outer) =>
        if !outer then Some((leading, rest))
        else if rev == AsWritten then
          assert rest[0] in rest;
          RemoveAllShorter(rest, NOT);
          PeelFrom(rev, leading + [NOT], RemoveAll(rest, NOT))
        else PeelFrom(rev, leading + [NOT], rest[1..])
  }

  /**
   * As written, `¬(¬A⋀B)` peels to the sign `¬` and the rest `(A⋀B)`: the
   * inner sign is gone, so the built tree reads `¬(A⋀B)`.
   */
  lemma PeelAsWrittenLosesSign()
    ensures var s := "¬(¬A⋀B)";
            forall leading, rest | Peeled(s, AsWritten, leading, rest) ::
              leading == "¬" && rest == "(A⋀B)" && CountChar(leading + rest, NOT) < CountChar(s, NOT)
  {
    var s := "¬(¬A⋀B)";
    NoParenthesesBalanced("¬A⋀B");
    WrapThenRemoveOuterParentheses("¬A⋀B");
    assert s[1..] == "(" + "¬A⋀B" + ")";
    RemoveNotsExample();
  }

  /** The signs of `¬(¬A⋀B)`: removing them all leaves `(A⋀B)`. */
  lemma RemoveNotsExample()
    ensures RemoveAll("¬(¬A⋀B)", NOT) == "(A⋀B)"
    ensures CountChar("¬(¬A⋀B)", NOT) == 2 && CountChar("¬" + "(A⋀B)", NOT) == 1
  {
    RemoveNotsExampleRemoved();
    RemoveNotsExampleCounts();
  }

  lemma RemoveNotsExampleRemoved()
    ensures RemoveAll("¬(¬A⋀B)", NOT) == "(A⋀B)"
  {
    assert NOT !in "(" && NOT !in "A⋀B)";
    RemoveTwoNots("(", "A⋀B)");
    assert "¬(¬A⋀B)" == [NOT] + "(" + [NOT] + "A⋀B)" && "(A⋀B)" == "(" + "A⋀B)";
  }

  lemma RemoveNotsExampleCounts()
    requires RemoveAll("¬(¬A⋀B)", NOT) == "(A⋀B)"
    ensures CountChar("¬(¬A⋀B)", NOT) == 2 && CountChar("¬" + "(A⋀B)", NOT) == 1
  {
    var inner := "(A⋀B)";
    RemoveAllCounts("¬(¬A⋀B)", NOT, NOT);
    assert "¬" + inner == [NOT] + inner;
    RemoveAllPrepend(inner);
    RemoveAllAbsent(inner, NOT);
    RemoveAllCounts([NOT] + inner, NOT, NOT);
  }

  /** Removing the signs of `¬a¬b`, where neither part holds a sign, leaves `ab`. */
  lemma RemoveTwoNots(a: string, b: string)
    requires NOT !in a && NOT !in b
    ensures RemoveAll([NOT] + a + [NOT] + b, NOT) == a + b
  {
    var y := [NOT] + b;
    var x := a + y;
    assert [NOT] + a + [NOT] + b == [NOT] + x;
    calc {
      RemoveAll([NOT] + x, NOT);
      { RemoveAllPrepend(x); }
      RemoveAll(x, NOT);
      { RemoveAllAppend(a, y, NOT); }
      RemoveAll(a, NOT) + RemoveAll(y, NOT);
      { RemoveAllAbsent(a, NOT); RemoveAllPrepend(b); RemoveAllAbsent(b, NOT); }
      a + b;
    }
  }

  /** Corrected, the peeled signs and the rest together hold every sign of the string. */
  lemma PeelCorrectedKeepsSigns(s: string, leading: string, rest: string)
    requires Peeled(s, Corrected, leading, rest)
    ensures leading + rest == s
    ensures |leading| + CountChar(rest, NOT) == CountChar(s, NOT)
  {
    AllNotsCount(leading);
    CountCharAppend(leading, rest, NOT);
  }

  /** removeOuterParentheses never lengthens the string. */
  lemma RemoveOuterParenthesesShorter(s: string)
    ensures RemoveOuterParentheses(s).Some? ==> |RemoveOuterParentheses(s).value| <= |s|
  {
  }

  /**
   * The split of simplifyRec: the string it cuts and the operator it cuts
   * at. getCenterOperatorIndex removes outer parentheses again and reports
   * an index into what is left, but as written the cut is made in the
   * string before that removal; corrected, the cut is made in the string
   * the index refers to. The operator is always a binary operator of the
   * string getCenterOperatorIndex scanned.
   */
  method SplitPoint(t: string, rev: Revision) returns (r: Option<(string, CenterOperator)>)
    ensures r == SplitOf(t, rev)
    ensures r.Some? ==> r.value.1.index < |r.value.0| <= |t| && r.value.1.operator != Not
    ensures r.Some? ==> RemoveOuterParentheses(t).Some? && IsCandidateAt(RemoveOuterParentheses(t).value, r.value.1)
    ensures r.Some? && rev == Corrected ==> r.value.0 == RemoveOuterParentheses(t).value
    ensures r.Some? && rev == AsWritten ==> r.value.0 == t
    ensures RemoveOuterParentheses(t).Some? &&
            Balanced(RemoveOuterParentheses(t).value) && NoCloseOpen(RemoveOuterParentheses(t).value) ==>
              var u := RemoveOuterParentheses(t).value;
              (r.Some? <==> DepthZeroOperators(u, |u|) != []) &&
              (r.Some? ==> Some(r.value.1) == CenterChoice(DepthZeroOperators(u, |u|)))
  {
    var center := GetCenterOperatorIndex(t);
    if center.None? {
      return None;
    }
    RemoveOuterParenthesesShorter(t);
    var u := RemoveOuterParentheses(t).value;
    if rev == AsWritten {
      r := Some((t, center.value));
    } else {
      r := Some((u, center.value));
    }
  }

  /** The split as a function: the string the cut is made in, and the center operator. */
  function SplitOf(t: string, rev: Revision): (r: Option<(string, CenterOperator)>)
    ensures r.Some? ==> r.value.1.index < |r.value.0| <= |t| && r.value.1.operator != Not
  {
    match CenterOf(t)
    case None => None
    case Some(center) =>
      RemoveOuterParenthesesShorter(t);
      Some((if rev == AsWritten then t else RemoveOuterParentheses(t).value, center))
  }

  /**
   * As written, the doubled parentheses of `((A⋀B))` are removed once by
   * simplifyRec, leaving `(A⋀B)`, and once more by getCenterOperatorIndex,
   * which reports ⋀ at index 1 of `A⋀B`; but index 1 of `(A⋀B)`, where the
   * cut is made, holds the name `A`.
   */
  lemma SplitAsWrittenMissesOperator()
    ensures RemoveOuterParentheses("((A⋀B))") == Some("(A⋀B)")
    ensures var u := "A⋀B";
            RemoveOuterParentheses("(A⋀B)") == Some(u) && Balanced(u) && NoCloseOpen(u) &&
            CenterChoice(DepthZeroOperators(u, |u|)) == Some(CenterOperator(And, 1))
    ensures !IsCandidateAt("(A⋀B)", CenterOperator(And, 1))
  {
    CenterIndexOfDoubledParentheses();
    CenterOfConjunction();
  }

  // ---------------------------------------------------------------------
  // Moving nodes up the tree

  /** A node with a left child and no right child, as the absorption law leaves it. */
  predicate IsWrapper(e: Expr)
  {
    e.left.Some? && e.right.None?
  }

  /**
   * The step of simplifyRec after the laws: a node without a right child
   * is replaced by its left child; otherwise a left, else a right, child
   * without a right child of its own is replaced by its left child. `None`
   * is the crash that follows when the node is a leaf.
   */
  function MoveUp(e: Expr): (r: Option<Expr>)
    requires Valid(e)
    ensures r.None? <==> IsAtomic(e)
    ensures r.Some? ==> Valid(r.value)
    ensures r.Some? && e.right.None? ==> r.value == e.left.value
    ensures r.Some? && e.right.Some? ==>
              r.value.leading == e.leading && r.value.trailing == e.trailing && r.value.operator == e.operator &&
              r.value.right.Some?
  {
    if IsAtomic(e) then None
    else if e.right.None? then Some(e.left.value)
    else if IsWrapper(e.left.value) then
      assert Valid(e.left.value);
      Some(e.(left := e.left.value.left))
    else if IsWrapper(e.right.value) then
      assert Valid(e.right.value);
      Some(e.(right := e.right.value.left))
    else Some(e)
  }

  /** The node or child that MoveUp drops carries no negation. */
  predicate MoveUpDropsNoSign(e: Expr)
    requires Valid(e)
  {
    if IsAtomic(e) then true
    else if e.right.None? then !IsInverse(e)
    else if IsWrapper(e.left.value) then !IsInverse(e.left.value)
    else if IsWrapper(e.right.value) then !IsInverse(e.right.value)
    else true
  }

  /**
   * Moving a node up keeps the truth value when the dropped node was not
   * negated; a node without a right child keeps it only then.
   */
  lemma MoveUpSound(e: Expr, env: string -> bool)
    requires Valid(e) && !IsAtomic(e)
    ensures MoveUpDropsNoSign(e) ==> Value(MoveUp(e).value, env) == Value(e, env)
    ensures e.right.None? ==> (MoveUpDropsNoSign(e) <==> Value(MoveUp(e).value, env) == Value(e, env))
  {
  }

  // ---------------------------------------------------------------------
  // simplifyRec and simplify

  /**
   * simplifyRec as a function: an atomic string becomes a leaf; otherwise
   * negation signs in front of outer parentheses and then the outer
   * parentheses themselves move into the markers, spaces are removed, the
   * string is split at the center operator, both halves are built, the
   * left one first, and the node they form is rewritten. The trace only
   * grows. `None` is a Java exception thrown on the way.
   */
  function Build(s: string, simplify: bool, lang: Language, rev: Revision, trace: seq<OrderOperations>)
    : (r: Option<(Expr, seq<OrderOperations>)>)
    ensures r.Some? ==> Valid(r.value.0)
    ensures r.Some? ==> |trace| <= |r.value.1| && r.value.1[..|trace|] == trace
    ensures !simplify && rev == Corrected ==> (r.Some? <==> ParseTree(s, rev).Some?)
    ensures !simplify && rev == Corrected && r.Some? ==>
              !IsWrapper(r.value.0) && forall env :: Value(r.value.0, env) == Value(ParseTree(s, rev).value, env)
    decreases |s|, 2
  {
    if IsAtomicString(s) then
      AtomOfProperties(s, simplify);
      Some((AtomOf(s, simplify), trace))
    else
      match DecomposeOf(s, rev)
      case None => None
      case Some(parts) => BuildCut(parts, simplify, lang, rev, trace)
  }

  /**
   * The tree simplifyRec builds once the string is decomposed: both sides
   * of the center operator, then the node joining them, rewritten.
   */
  function BuildCut(parts: (string, string, string, CenterOperator), simplify: bool, lang: Language, rev: Revision,
                    trace: seq<OrderOperations>): (r: Option<(Expr, seq<OrderOperations>)>)
    requires parts.3.index < |parts.2| && parts.3.operator != Not
    ensures r.Some? ==> Valid(r.value.0)
    ensures r.Some? ==> |trace| <= |r.value.1| && r.value.1[..|trace|] == trace
    ensures !simplify && rev == Corrected ==> (r.Some? <==> ParseCut(parts, rev).Some?)
    ensures !simplify && rev == Corrected && r.Some? ==>
              !IsWrapper(r.value.0) && forall env :: Value(r.value.0, env) == Value(ParseCut(parts, rev).value, env)
    decreases |parts.2|, 1
  {
    var left := Build(parts.2[..parts.3.index], simplify, lang, rev, trace);
    if left.None? then None
    else
      var r := BuildRight(parts, left.value, simplify, lang, rev);
      if r.None? then r
      else
        PrefixChain(trace, left.value.1, r.value.1);
        if !simplify && rev == Corrected then
          var op: BinaryOp := parts.3.operator;
          CutEquivalent(parts, left.value.0, r.value.0,
                        Expr(parts.0, Some(left.value.0), Some(op), ParseTree(parts.2[parts.3.index + 1..], rev), parts.1, None));
          r
        else r
  }

  /**
   * The value claim of BuildCut from those of its halves: a node `m` over the
   * split whose left child is equivalent to the parsed left side is
   * equivalent to the parsed node.
   */
  lemma {:induction false} CutEquivalent(parts: (string, string, string, CenterOperator), l: Expr, b: Expr, m: Expr)
    requires parts.3.index < |parts.2| && Valid(l) && Valid(b) && Valid(m)
    requires ParseTree(parts.2[..parts.3.index], Corrected).Some?
    requires m.leading == parts.0 && m.trailing == parts.1 && m.atomic.None? && m.left == Some(l)
    requires m.operator.Some? && m.operator.value == parts.3.operator
    requires m.right == ParseTree(parts.2[parts.3.index + 1..], Corrected)
    requires forall env :: Value(l, env) == Value(ParseTree(parts.2[..parts.3.index], Corrected).value, env)
    requires forall env :: Value(b, env) == Value(m, env)
    ensures ParseCut(parts, Corrected).Some?
    ensures forall env :: Value(b, env) == Value(ParseCut(parts, Corrected).value, env)
  {
    var pl := ParseTree(parts.2[..parts.3.index], Corrected).value;
    assert ParseCut(parts, Corrected) == Some(m.(left := Some(pl)));
    forall env: string -> bool
      ensures Value(b, env) == Value(m.(left := Some(pl)), env)
    {
      assert Value(b, env) == Value(m, env);
    }
  }

  /** BuildCut once the left side is built: the right side, then the joining node. */
  function BuildRight(parts: (string, string, string, CenterOperator), left: (Expr, seq<OrderOperations>),
                      simplify: bool, lang: Language, rev: Revision)
    : (r: Option<(Expr, seq<OrderOperations>)>)
    requires parts.3.index < |parts.2| && parts.3.operator != Not && Valid(left.0)
    ensures r.Some? ==> Valid(r.value.0)
    ensures r.Some? ==> |left.1| <= |r.value.1| && r.value.1[..|left.1|] == left.1
    ensures !simplify && rev == Corrected && !IsWrapper(left.0) ==>
              (r.Some? <==> ParseTree(parts.2[parts.3.index + 1..], rev).Some?)
    ensures !simplify && rev == Corrected && !IsWrapper(left.0) && r.Some? ==>
              var op: BinaryOp := parts.3.operator;
              !IsWrapper(r.value.0) &&
              forall env :: Value(r.value.0, env) ==
                            Value(Expr(parts.0, Some(left.0), Some(op), ParseTree(parts.2[parts.3.index + 1..], rev), parts.1, None), env)
    decreases |parts.2|, 0
  {
    var (leading, trailing, cut, center) := parts;
    var right := Build(cut[center.index + 1..], simplify, lang, rev, left.1);
    if right.None? then None
    else
      var r := Join(leading, trailing, center.operator, left.0, right.value.0, simplify, lang, rev, right.value.1);
      if r.Some? then
        PrefixChain(left.1, right.value.1, r.value.1);
        if !simplify && rev == Corrected && !IsWrapper(left.0) then
          RightEquivalent(leading, trailing, center.operator, left.0, right.value.0,
                          ParseTree(cut[center.index + 1..], rev).value, r.value.0);
          r
        else r
      else r
  }

  /**
   * The value claim of BuildRight from that of Join: a tree equivalent to a
   * node is equivalent to the node with its right child replaced by an
   * equivalent one.
   */
  lemma {:induction false} RightEquivalent(leading: string, trailing: string, op: BinaryOp, l: Expr, b: Expr, pr: Expr, x: Expr)
    requires Valid(l) && Valid(b) && Valid(pr) && Valid(x)
    requires forall env :: Value(b, env) == Value(pr, env)
    requires forall env :: Value(x, env) == Value(Expr(leading, Some(l), Some(op), Some(b), trailing, None), env)
    ensures forall env :: Value(x, env) == Value(Expr(leading, Some(l), Some(op), Some(pr), trailing, None), env)
  {
    forall env: string -> bool
      ensures Value(x, env) == Value(Expr(leading, Some(l), Some(op), Some(pr), trailing, None), env)
    {
      var nb, np := Expr(leading, Some(l), Some(op), Some(b), trailing, None), Expr(leading, Some(l), Some(op), Some(pr), trailing, None);
      assert Value(nb, env) == (Test(op, Value(l, env), Value(b, env)) != IsInverse(nb));
      assert Value(np, env) == (Test(op, Value(l, env), Value(pr, env)) != IsInverse(np));
    }
  }

  /** The node built from the two halves, rewritten. */
  function Join(leading: string, trailing: string, op: BinaryOp, l: Expr, rt: Expr,
                simplify: bool, lang: Language, rev: Revision, steps: seq<OrderOperations>)
    : (r: Option<(Expr, seq<OrderOperations>)>)
    requires Valid(l) && Valid(rt)
    ensures r.Some? ==> Valid(r.value.0)
    ensures r.Some? ==> |steps| <= |r.value.1| && r.value.1[..|steps|] == steps
    ensures !simplify && rev == Corrected && !IsWrapper(l) && !IsWrapper(rt) ==>
              r.Some? && !IsWrapper(r.value.0) &&
              forall env :: Value(r.value.0, env) == Value(Expr(leading, Some(l), Some(op), Some(rt), trailing, None), env)
    ensures simplify && AbsorptionFails(rev, BeforeAbsorption(Expr(leading, Some(l), Some(op), Some(rt), trailing, None))) ==>
              r.None?
  {
    var e := Expr(leading, Some(l), Some(op), Some(rt), trailing, None);
    if !simplify && rev == Corrected && !IsWrapper(l) && !IsWrapper(rt) then
      RewriteEquivalent(e, lang, steps);
      Rewrite(e, simplify, lang, rev, steps)
    else
      Rewrite(e, simplify, lang, rev, steps)
  }

  /** A prefix of a prefix is a prefix. */
  lemma PrefixChain(t0: seq<OrderOperations>, t1: seq<OrderOperations>, t2: seq<OrderOperations>)
    requires |t0| <= |t1| && t1[..|t0|] == t0
    requires |t1| <= |t2| && t2[..|t1|] == t1
    ensures |t0| <= |t2| && t2[..|t0|] == t0
  {
    assert t2[..|t1|][..|t0|] == t2[..|t0|];
  }

  /** simplifyRec: the recursive builder; see Build. */
  method SimplifyRec(s: string, simplify: bool, lang: Language, rev: Revision, trace: seq<OrderOperations>)
    returns (r: Option<(Expr, seq<OrderOperations>)>)
    ensures r == Build(s, simplify, lang, rev, trace)
    decreases |s|, 2
  {
    if IsAtomicString(s) {
      var leaf := BuildAtom(s, simplify);
      return Some((leaf, trace));
    }
    var parts := Decompose(s, rev);
    if parts.None? {
      return None;
    }
    r := SimplifyCut(parts.value, simplify, lang, rev, trace);
  }

  /** The rest of simplifyRec once the string is decomposed: the two recursive calls and the rewriting. */
  method SimplifyCut(parts: (string, string, string, CenterOperator), simplify: bool, lang: Language, rev: Revision,
                     trace: seq<OrderOperations>) returns (r: Option<(Expr, seq<OrderOperations>)>)
    requires parts.3.index < |parts.2| && parts.3.operator != Not
    ensures r == BuildCut(parts, simplify, lang, rev, trace)
    decreases |parts.2|, 1
  {
    var (leading, trailing, cut, center) := parts;
    var left := SimplifyRec(cut[..center.index], simplify, lang, rev, trace);
    if left.None? {
      return None;
    }
    var right := SimplifyRec(cut[center.index + 1..], simplify, lang, rev, left.value.1);
    if right.None? {
      return None;
    }
    var op: BinaryOp := center.operator;
    var e := Expr(leading, Some(left.value.0), Some(op), Some(right.value.0), trailing, None);
    r := Rewrite(e, simplify, lang, rev, right.value.1);
  }

  /**
   * The tree simplifyRec builds before anything is rewritten: the split and
   * the recursion alone, leaves as they are built without simplifying.
   */
  function ParseTree(s: string, rev: Revision): (r: Option<Expr>)
    ensures r.Some? ==> Valid(r.value)
    decreases |s|, 1
  {
    if IsAtomicString(s) then
      AtomOfProperties(s, false);
      Some(AtomOf(s, false))
    else
      match DecomposeOf(s, rev)
      case None => None
      case Some(parts) => ParseCut(parts, rev)
  }

  /** ParseTree once the string is decomposed: both sides of the center operator, joined under its markers. */
  function ParseCut(parts: (string, string, string, CenterOperator), rev: Revision): (r: Option<Expr>)
    requires parts.3.index < |parts.2| && parts.3.operator != Not
    ensures r.Some? ==> Valid(r.value)
    decreases |parts.2|, 0
  {
    var (leading, trailing, cut, center) := parts;
    match ParseTree(cut[..center.index], rev)
    case None => None
    case Some(l) =>
      match ParseTree(cut[center.index + 1..], rev)
      case None => None
      case Some(rt) =>
        var op: BinaryOp := center.operator;
        Some(Expr(leading, Some(l), Some(op), Some(rt), trailing, None))
  }

  /**
   * The part of simplifyRec before the recursive calls, as a function: the
   * markers, the string to cut and the operator to cut it at.
   */
  function DecomposeOf(s: string, rev: Revision): (r: Option<(string, string, string, CenterOperator)>)
    ensures r.Some? ==> r.value.3.index < |r.value.2| <= |s| && r.value.3.operator != Not
  {
    match PeelFrom(rev, [], s)
    case None => None
    case Some(peeled) => CutOf(peeled.0, peeled.1, rev)
  }

  /**
   * The part of simplifyRec before the recursive calls: the markers the
   * peeled negation signs and the removed outer parentheses leave, the
   * string to cut and the operator to cut it at.
   */
  method Decompose(s: string, rev: Revision) returns (r: Option<(string, string, string, CenterOperator)>)
    ensures r == DecomposeOf(s, rev)
    ensures r.Some? ==> r.value.1 == "" || r.value.1 == ")"
    ensures r.Some? ==> forall k :: 0 <= k < |r.value.0| && r.value.0[k] != NOT ==> k == |r.value.0| - 1 && r.value.0[k] == '('
  {
    var peeled := PeelNegations(s, rev);
    if peeled.None? {
      return None;
    }
    r := Cut(peeled.value.0, peeled.value.1, rev);
  }

  /**
   * Decompose after the negation signs are peeled off, as a function: the
   * outer parentheses of the rest are removed and leave the markers `(` and
   * `)`, the spaces are dropped, and the split of what is left is taken.
   */
  function CutOf(leading: string, rest: string, rev: Revision): (r: Option<(string, string, string, CenterOperator)>)
    ensures r.Some? ==> r.value.3.index < |r.value.2| <= |rest| && r.value.3.operator != Not
  {
    match RemoveOuterParentheses(rest)
    case None => None
    case Some(stripped) =>
      RemoveOuterParenthesesShorter(rest);
      RemoveAllShorter(stripped, ' ');
      var marked := |stripped| != |rest|;
      match SplitOf(RemoveAll(stripped, ' '), rev)
      case None => None
      case Some(split) =>
        Some((if marked then leading + "(" else leading, if marked then ")" else "", split.0, split.1))
  }

  /**
   * Decompose after the negation signs are peeled off: remove the outer
   * parentheses, leaving their markers, drop the spaces and find the cut.
   */
  method Cut(leading: string, rest: string, rev: Revision) returns (r: Option<(string, string, string, CenterOperator)>)
    requires forall k :: 0 <= k < |leading| ==> leading[k] == NOT
    ensures r == CutOf(leading, rest, rev)
    ensures r.Some? ==> r.value.1 == "" || r.value.1 == ")"
    ensures r.Some? ==> forall k :: 0 <= k < |r.value.0| && r.value.0[k] != NOT ==> k == |r.value.0| - 1 && r.value.0[k] == '('
  {
    var leading, trailing := leading, "";
    var outer := IsOuterParentheses(rest);
    if outer.None? || (outer.value && |rest| < 2) {
      return None;
    }
    var stripped := if outer.value then rest[1..|rest| - 1] else rest;
    if |stripped| != |rest| {
      leading := leading + "(";
      trailing := trailing + ")";
    }
    RemoveAllShorter(stripped, ' ');
    var spaceLess := RemoveAll(stripped, ' ');
    var split := SplitPoint(spaceLess, rev);
    if split.None? {
      return None;
    }
    assert RemoveOuterParentheses(rest) == Some(stripped) && "" + ")" == ")";
    return Some((leading, trailing, split.value.0, split.value.1));
  }

  /**
   * The part of simplifyRec after the node is built: the laws when
   * simplifying, the moving up of nodes, the commutative sort (as written,
   * implications are turned around too) and the removal of parentheses,
   * each extending the trace. `None` is a Java exception on the way.
   */
  function Rewrite(e: Expr, simplify: bool, lang: Language, rev: Revision, steps: seq<OrderOperations>)
    : (r: Option<(Expr, seq<OrderOperations>)>)
    requires Valid(e)
    ensures r.Some? ==> Valid(r.value.0)
    ensures r.Some? ==> |steps| <= |r.value.1| && r.value.1[..|steps|] == steps
    ensures simplify && AbsorptionFails(rev, BeforeAbsorption(e)) ==> r.None?
    ensures IsAtomic(e) && !simplify ==> r.None?
  {
    var applied := if simplify then ApplyLaws(rev, e, steps, lang) else Some((e, steps));
    if applied.None? then None
    else
      var r := Rearrange(applied.value.0, rev, applied.value.1);
      if r.Some? then PrefixChain(steps, applied.value.1, r.value.1); r else r
  }

  /**
   * The part of rewrite after the laws: the moving up of nodes, the
   * commutative sort (as written, implications are turned around too) and
   * the removal of parentheses. `None` is a Java exception on the way.
   */
  function Rearrange(e: Expr, rev: Revision, steps: seq<OrderOperations>): (r: Option<(Expr, seq<OrderOperations>)>)
    requires Valid(e)
    ensures r.Some? ==> Valid(r.value.0)
    ensures r.Some? ==> |steps| <= |r.value.1| && r.value.1[..|steps|] == steps
    ensures IsAtomic(e) ==> r.None?
  {
    match MoveUp(e)
    case None => None
    case Some(e2) =>
      var sorted := if rev == AsWritten then CommutativePropertyAsWritten(e2, steps) else CommutativeProperty(e2, steps);
      if sorted.None? then None
      else
        var (e3, s3) := sorted.value;
        var cleaned := RemoveParenthesis(e3, s3);
        PrefixOfExtends(cleaned.1, s3, steps, ToString(e3), ToString(cleaned.0));
        Some(cleaned)
  }

  /**
   * Without the laws, and with implications left in place, rewriting a node
   * with two children only moves nodes up, orders operands and drops
   * markers: it succeeds and keeps the truth value whenever the node it
   * moves up was not negated, and the result still has two children.
   */
  lemma RewriteKeepsValue(e: Expr, lang: Language, steps: seq<OrderOperations>, env: string -> bool)
    requires Valid(e) && e.right.Some? && MoveUpDropsNoSign(e)
    ensures var r := Rewrite(e, false, lang, Corrected, steps);
            r.Some? && r.value.0.right.Some? && Value(r.value.0, env) == Value(e, env)
  {
    RearrangeKeepsValue(e, steps, env);
  }

  /** Rewriting without the laws a node with two children succeeds and leaves two children. */
  lemma RewriteKeepsShape(e: Expr, lang: Language, steps: seq<OrderOperations>)
    requires Valid(e) && e.right.Some?
    ensures var r := Rewrite(e, false, lang, Corrected, steps); r.Some? && r.value.0.right.Some?
  {
    var e2 := MoveUp(e).value;
    var sorted := CommutativeProperty(e2, steps).value;
    assert Rearrange(e, Corrected, steps) == Some(RemoveParenthesis(sorted.0, sorted.1));
  }

  /** The part after the laws keeps the truth value under the same conditions. */
  lemma RearrangeKeepsValue(e: Expr, steps: seq<OrderOperations>, env: string -> bool)
    requires Valid(e) && e.right.Some? && MoveUpDropsNoSign(e)
    ensures var r := Rearrange(e, Corrected, steps);
            r.Some? && r.value.0.right.Some? && Value(r.value.0, env) == Value(e, env)
  {
    MoveUpSound(e, env);
    var e2 := MoveUp(e).value;
    CommutativePropertySound(e2, steps, env);
    var sorted := CommutativeProperty(e2, steps).value;
    RemoveParenthesisSound(sorted.0, sorted.1, env);
    assert Rearrange(e, Corrected, steps) == Some(RemoveParenthesis(sorted.0, sorted.1));
  }

  /**
   * RewriteKeepsValue for every assignment at once: the rewritten node is
   * equivalent to the node as built.
   */
  lemma RewriteEquivalent(e: Expr, lang: Language, steps: seq<OrderOperations>)
    requires Valid(e) && e.right.Some? && MoveUpDropsNoSign(e)
    ensures var r := Rewrite(e, false, lang, Corrected, steps);
            r.Some? && !IsWrapper(r.value.0) && forall env :: Value(r.value.0, env) == Value(e, env)
  {
    RewriteKeepsShape(e, lang, steps);
    forall env: string -> bool
      ensures Value(Rewrite(e, false, lang, Corrected, steps).value.0, env) == Value(e, env)
    {
      RewriteKeepsValue(e, lang, steps, env);
    }
  }

  /** Without the laws, rewrite as written turns `B ➔ A` around into `A ➔ B` (see CommutativeAsWrittenSwapsImplication). */
  lemma RewriteAsWrittenSwapsImplication(lang: Language)
    ensures var e := Node(Atom("", "B"), Implication, Atom("", "A"));
            Rewrite(e, false, lang, AsWritten, []).Some? &&
            Rewrite(e, false, lang, AsWritten, []).value.0 == Node(Atom("", "A"), Implication, Atom("", "B"))
  {
    var e := Node(Atom("", "B"), Implication, Atom("", "A"));
    assert MoveUp(e) == Some(e);
    CommutativeAsWrittenSwapsImplication();
    var swapped := CommutativePropertyAsWritten(e, []).value;
    assert ParenthesesCleared(swapped.0) == swapped.0;
    assert Rearrange(e, AsWritten, []) == Some(RemoveParenthesis(swapped.0, swapped.1));
  }

  /** The corrected rewrite leaves `B ➔ A` as it is. */
  lemma RewriteKeepsImplication(lang: Language)
    ensures var e := Node(Atom("", "B"), Implication, Atom("", "A"));
            Rewrite(e, false, lang, Corrected, []).Some? && Rewrite(e, false, lang, Corrected, []).value.0 == e
  {
    var e := Node(Atom("", "B"), Implication, Atom("", "A"));
    assert MoveUp(e) == Some(e);
    var kept := CommutativeProperty(e, []).value;
    assert kept.0 == e;
    assert ParenthesesCleared(e) == e;
    assert Rearrange(e, Corrected, []) == Some(RemoveParenthesis(kept.0, kept.1));
  }

  /** A trace that extends one with a given prefix keeps that prefix. */
  lemma PrefixOfExtends(t2: seq<OrderOperations>, t1: seq<OrderOperations>, t0: seq<OrderOperations>, a: string, b: string)
    requires |t0| <= |t1| && t1[..|t0|] == t0
    requires Extends(t2, t1, a, b)
    ensures |t0| <= |t2| && t2[..|t0|] == t0
  {
    assert t2[..|t1|][..|t0|] == t2[..|t0|];
  }

  /** The last step of simplify: a root without negation signs loses its markers. */
  function ClearRoot(e: Expr): (r: Expr)
    ensures NOT in e.leading ==> r == e
    ensures NOT !in e.leading ==> r.leading == "" && r.trailing == ""
    ensures r.left == e.left && r.operator == e.operator && r.right == e.right && r.atomic == e.atomic
    ensures IsInverse(r) == IsInverse(e)
  {
    CountCharPositive(e.leading, NOT);
    if NOT !in e.leading then e.(leading := "", trailing := "") else e
  }

  /** Clearing the root's markers keeps the shape and the truth value. */
  lemma ClearRootKeepsValue(e: Expr, env: string -> bool)
    requires Valid(e)
    ensures Valid(ClearRoot(e)) && Value(ClearRoot(e), env) == Value(e, env)
  {
  }

  /** What simplify ends in: a validation error, a Java exception while building, or the tree and its trace. */
  datatype Outcome = Invalid(error: ValidationError) | Crashed | Simplified(e: Expr, trace: seq<OrderOperations>)

  /**
   * simplify: validate, then build the tree from the whole expression with
   * an empty trace, then clear the root's markers when it is not negated.
   */
  method Simplify(expression: string, simplify: bool, lang: Language, rev: Revision, illegal: Option<(string, nat)>)
    returns (r: Outcome)
    ensures r.Invalid? <==> !Accepted(expression, illegal)
    ensures illegal.Some? ==> r == Invalid(ExpressionInvalid(illegal.value.0, illegal.value.1))
    ensures illegal.None? && expression == [] ==> r == Invalid(MissingCharacter('A', 0))
    ensures r.Simplified? ==> Valid(r.e) && (NOT !in r.e.leading ==> r.e.leading == "" && r.e.trailing == "")
    ensures Accepted(expression, illegal) && IsAtomicString(expression) ==>
              r == Simplified(ClearRoot(AtomOf(expression, simplify)), [])
    ensures Accepted(expression, illegal) ==>
              r == match Build(expression, simplify, lang, rev, [])
                   case None => Crashed
                   case Some(built) => Simplified(ClearRoot(built.0), built.1)
  {
    var error := IsValid(expression, illegal);
    if error.Some? {
      return Invalid(error.value);
    }
    var built := SimplifyRec(expression, simplify, lang, rev, []);
    if built.None? {
      return Crashed;
    }
    ClearRootKeepsValue(built.value.0, _ => true);
    r := Simplified(ClearRoot(built.value.0), built.value.1);
  }

  // ---------------------------------------------------------------------
  // Unique atomics

  /** Some earlier atomic entry is the opposite of entry `i`. */
  predicate HasEarlierOpposite(es: seq<Expr>, i: nat)
    requires i < |es|
  {
    exists j :: 0 <= j < i && IsAtomic(es[j]) && EqualsAndOpposite(AsWritten, es[i], es[j])
  }

  /** The atomic entries among the first `n` that have no earlier opposite. */
  function UniqueAtomics(es: seq<Expr>, n: nat): nat
    requires n <= |es|
  {
    if n == 0 then 0
    else UniqueAtomics(es, n - 1) + (if IsAtomic(es[n - 1]) && !HasEarlierOpposite(es, n - 1) then 1 else 0)
  }

  /** The atomic entries among the first `n`. */
  function AtomicEntries(es: seq<Expr>, n: nat): nat
    requires n <= |es|
  {
    if n == 0 then 0 else AtomicEntries(es, n - 1) + (if IsAtomic(es[n - 1]) then 1 else 0)
  }

  /**
   * An entry and its opposite count once, so the count never exceeds the
   * number of atomic entries; it is at least one when there is an atomic
   * entry, since the first one has nothing earlier to match.
   */
  lemma {:induction false} UniqueAtomicsBounds(es: seq<Expr>, n: nat)
    requires n <= |es|
    ensures UniqueAtomics(es, n) <= AtomicEntries(es, n)
    ensures (exists i :: 0 <= i < n && IsAtomic(es[i])) ==> UniqueAtomics(es, n) >= 1
  {
    if n > 0 {
      UniqueAtomicsBounds(es, n - 1);
      if (exists i :: 0 <= i < n && IsAtomic(es[i])) && !(exists i :: 0 <= i < n - 1 && IsAtomic(es[i])) {
        assert IsAtomic(es[n - 1]);
        assert !HasEarlierOpposite(es, n - 1);
      }
    }
  }

  /** A leaf and its negation count as one unique atomic. */
  lemma UniqueAtomicsOfOpposites(a: Expr, b: Expr)
    requires Valid(a) && Valid(b) && IsAtomic(a) && IsAtomic(b) && a.atomic == b.atomic && IsInverse(a) != IsInverse(b)
    ensures UniqueAtomics([a, b], 2) == 1 && AtomicEntries([a, b], 2) == 2
  {
    var es := [a, b];
    EqualsAndOppositeAtoms(AsWritten, b, a);
    assert es[1] == b && es[0] == a;
    assert IsAtomic(es[0]) && EqualsAndOpposite(AsWritten, es[1], es[0]);
    assert HasEarlierOpposite(es, 1);
    assert !HasEarlierOpposite(es, 0);
    assert UniqueAtomics(es, 1) == 1;
    assert AtomicEntries(es, 1) == 1;
  }

  /**
   * getNumberOfUniqueAtomics: for each atomic entry, look backwards for an
   * atomic opposite and count the entry when there is none.
   */
  method GetNumberOfUniqueAtomics(es: seq<Expr>) returns (r: nat)
    ensures r == UniqueAtomics(es, |es|)
  {
    r := 0;
    for i := 0 to |es|
      invariant r == UniqueAtomics(es, i)
    {
      if IsAtomic(es[i]) {
        var found := false;
        var j := i - 1;
        while !found && j >= 0
          invariant -1 <= j < i
          invariant found <==> exists k :: j < k < i && IsAtomic(es[k]) && EqualsAndOpposite(AsWritten, es[i], es[k])
          decreases j + 1
        {
          if IsAtomic(es[j]) && EqualsAndOpposite(AsWritten, es[i], es[j]) {
            found := true;
          }
          j := j - 1;
        }
        if !found {
          r := r + 1;
        }
      }
    }
  }
}

=== FILE: strings.dfy ===
/** A nullable reference of the Java code: `None` stands for `null`. */
module Optional {
  datatype Option<+T> = None | Some(value: T)
}

/**
 * String helpers of `StringUtils` and the few `java.lang.String` operations
 * the simplifier relies on (counting, removing and comparing characters).
 */
module Strings {

  /** The negation sign that the parser stores in a node's `leading` marker. */
  const NOT: char := '¬'

  /** Number of occurrences of `c` in `s`, counted from the left. */
  function CountChar(s: string, c: char): nat
  {
    if s == [] then 0 else CountChar(s[..|s| - 1], c) + (if s[|s| - 1] == c then 1 else 0)
  }

  /** The positions of `s` that hold `c`. */
  ghost function Positions(s: string, c: char): set<nat>
  {
    set i: nat | i < |s| && s[i] == c
  }

  /** StringUtils.numberOfChar: a counting loop over the string. */
  method NumberOfChar(s: string, c: char) returns (numberOf: nat)
    ensures numberOf == CountChar(s, c)
    ensures numberOf <= |s|
  {
    numberOf := 0;
    var i := 0;
    while i < |s|
      invariant 0 <= i <= |s|
      invariant numberOf == CountChar(s[..i], c)
      invariant numberOf <= i
    {
      assert s[..i + 1][..i] == s[..i];
      if s[i] == c {
        numberOf := numberOf + 1;
      }
      i := i + 1;
    }
    assert s[..i] == s;
  }

  /** The count is the number of positions that hold the character. */
  lemma {:induction false} CountCharIsPositions(s: string, c: char)
    ensures CountChar(s, c) == |Positions(s, c)|
  {
    if s != [] {
      var t := s[..|s| - 1];
      CountCharIsPositions(t, c);
      var last: nat := |s| - 1;
      assert forall i: nat :: i < |t| ==> t[i] == s[i];
      if s[last] == c {
        assert Positions(s, c) == Positions(t, c) + {last};
        assert last !in Positions(t, c);
      } else {
        assert Positions(s, c) == Positions(t, c);
      }
    }
  }

  /** 0 <= numberOfChar(s, c) <= |s|. */
  lemma {:induction false} CountCharBound(s: string, c: char)
    ensures CountChar(s, c) <= |s|
  {
    if s != [] {
      CountCharBound(s[..|s| - 1], c);
    }
  }

  /** Counting distributes over concatenation. */
  lemma {:induction false} CountCharAppend(s: string, t: string, c: char)
    ensures CountChar(s + t, c) == CountChar(s, c) + CountChar(t, c)
  {
    if t == [] {
      assert s + t == s;
    } else {
      assert (s + t)[..|s + t| - 1] == s + t[..|t| - 1];
      CountCharAppend(s, t[..|t| - 1], c);
    }
  }

  /** A string holds `c` exactly when its count is positive. */
  lemma {:induction false} CountCharPositive(s: string, c: char)
    ensures CountChar(s, c) > 0 <==> c in s
  {
    if s != [] {
      CountCharPositive(s[..|s| - 1], c);
      assert s == s[..|s| - 1] + [s[|s| - 1]];
    }
  }

  /** `s.replace(c, "")`: every occurrence of `c` removed, the rest kept in order. */
  function RemoveAll(s: string, c: char): string
  {
    if s == [] then [] else RemoveAll(s[..|s| - 1], c) + (if s[|s| - 1] == c then [] else [s[|s| - 1]])
  }

  /** After RemoveAll nothing of `c` is left, every other character keeps its count. */
  lemma {:induction false} RemoveAllCounts(s: string, c: char, d: char)
    ensures CountChar(RemoveAll(s, c), c) == 0
    ensures d != c ==> CountChar(RemoveAll(s, c), d) == CountChar(s, d)
    ensures |RemoveAll(s, c)| == |s| - CountChar(s, c)
  {
    if s != [] {
      var t := s[..|s| - 1];
      RemoveAllCounts(t, c, d);
      CountCharBound(t, c);
      var tail: string := if s[|s| - 1] == c then [] else [s[|s| - 1]];
      CountCharAppend(RemoveAll(t, c), tail, c);
      CountCharAppend(RemoveAll(t, c), tail, d);
      assert [s[|s| - 1]][..0] == [];
    }
  }

  /** RemoveAll only shortens. */
  lemma {:induction false} RemoveAllShorter(s: string, c: char)
    ensures |RemoveAll(s, c)| <= |s|
    ensures c in s ==> |RemoveAll(s, c)| < |s|
  {
    RemoveAllCounts(s, c, c);
    CountCharPositive(s, c);
  }

  /** `s.replaceFirst(c, "")`: the first occurrence of `c` removed. */
  function RemoveFirst(s: string, c: char): (r: string)
    ensures c in s ==> |r| == |s| - 1 && CountChar(r, c) == CountChar(s, c) - 1
    ensures c !in s ==> r == s
  {
    if s == [] then s
    else if s[0] == c then
      CountCharAppend([s[0]], s[1..], c);
      assert s == [s[0]] + s[1..];
      s[1..]
    else
      var rest := RemoveFirst(s[1..], c);
      CountCharAppend([s[0]], s[1..], c);
      CountCharAppend([s[0]], rest, c);
      assert s == [s[0]] + s[1..];
      [s[0]] + rest
  }

  /** Removing a character that does not occur changes nothing. */
  lemma {:induction false} RemoveAllAbsent(s: string, c: char)
    requires c !in s
    ensures RemoveAll(s, c) == s
  {
    if s != [] {
      RemoveAllAbsent(s[..|s| - 1], c);
    }
  }

  /** Removing the first occurrence first does not change what removing all of them leaves. */
  lemma {:induction false} RemoveAllAfterRemoveFirst(s: string, c: char)
    ensures RemoveAll(RemoveFirst(s, c), c) == RemoveAll(s, c)
  {
    if s != [] {
      assert s == [s[0]] + s[1..];
      RemoveAllAppend([s[0]], s[1..], c);
      assert [s[0]][..0] == [];
      if s[0] != c {
        RemoveAllAfterRemoveFirst(s[1..], c);
        RemoveAllAppend([s[0]], RemoveFirst(s[1..], c), c);
      }
    }
  }

  /** `s.replace(c, "")` distributes over concatenation. */
  lemma {:induction false} RemoveAllAppend(s: string, t: string, c: char)
    ensures RemoveAll(s + t, c) == RemoveAll(s, c) + RemoveAll(t, c)
    decreases |t|
  {
    if t == [] {
      assert s + t == s;
    } else {
      assert (s + t)[..|s + t| - 1] == s + t[..|t| - 1];
      RemoveAllAppend(s, t[..|t| - 1], c);
    }
  }

  /**
   * `String.compareTo`: the difference of the first differing characters,
   * otherwise the difference of the lengths. Dafny's `<` on sequences means
   * "proper prefix", so the lexicographic order is spelled out here.
   */
  function CompareTo(a: string, b: string): int
  {
    if a == [] || b == [] then |a| - |b|
    else if a[0] != b[0] then a[0] as int - b[0] as int
    else CompareTo(a[1..], b[1..])
  }

  /** compareTo is zero exactly on equal strings and changes sign when swapped. */
  lemma {:induction false} CompareToProperties(a: string, b: string)
    ensures CompareTo(a, b) == 0 <==> a == b
    ensures CompareTo(b, a) == -CompareTo(a, b)
  {
    if a != [] && b != [] && a[0] == b[0] {
      CompareToProperties(a[1..], b[1..]);
      assert a == [a[0]] + a[1..] && b == [b[0]] + b[1..];
    }
  }

  /** ASCII upper-casing of one character; every other character is kept. */
  function UpperAscii(c: char): char
  {
    if 'a' <= c <= 'z' then (c as int - 32) as char else c
  }

  /** StringUtils.capitalizeFirstLetter. */
  function CapitalizeFirstLetter(s: string): (r: string)
    ensures |r| == |s|
    ensures s == [] ==> r == []
    ensures s != [] ==> r[0] == UpperAscii(s[0]) && r[1..] == s[1..]
  {
    if |s| == 0 then "" else [UpperAscii(s[0])] + (if |s| > 1 then s[1..] else "")
  }

  /** Decimal rendering of a natural number, as Java's string concatenation does it. */
  function NatToString(n: nat): (r: string)
    ensures |r| >= 1
    ensures forall i :: 0 <= i < |r| ==> '0' <= r[i] <= '9'
    decreases n
  {
    var digit := ['0' + (n % 10) as char];
    if n < 10 then digit else NatToString(n / 10) + digit
  }

  /** The value of a string of decimal digits. */
  function DigitsValue(s: string): nat
    requires forall i :: 0 <= i < |s| ==> '0' <= s[i] <= '9'
  {
    if s == [] then 0 else DigitsValue(s[..|s| - 1]) * 10 + (s[|s| - 1] - '0') as nat
  }

  /** Reading the decimal rendering back gives the number. */
  lemma {:induction false} NatToStringRoundTrip(n: nat)
    ensures DigitsValue(NatToString(n)) == n
    decreases n
  {
    var digit := ['0' + (n % 10) as char];
    if n >= 10 {
      NatToStringRoundTrip(n / 10);
      var r := NatToString(n / 10) + digit;
      assert r[..|r| - 1] == NatToString(n / 10);
    }
  }
}

=== FILE: truth_table.dfy ===
/**
 * The truth table of `TruthTable.java`: the helper matrix that enumerates
 * every combination of the unique atomics, the table body filled row by
 * row and column by column, the rows hidden by the value of the last
 * column, the rows bubbled up by that value, and the final filter that
 * drops the hidden rows.
 */
module TruthTables {
  import opened Optional
  import opened Operators
  import opened Strings
  import opened Enums
  import opened Expressions
  import Parser

  // ---------------------------------------------------------------------
  // The helper matrix

  /** 2^n, the integer `Math.pow(2, n)` stands for. */
  function Pow2(n: nat): (r: nat)
    ensures r >= 1
  {
    if n == 0 then 1 else 2 * Pow2(n - 1)
  }

  /** Floor division of r by p > 0, by repeated subtraction. */
  function Quot(r: nat, p: nat): nat
    requires p > 0
    decreases r
  {
    if r < p then 0 else 1 + Quot(r - p, p)
  }

  /** The remainder that goes with `Quot`. */
  function Rem(r: nat, p: nat): (m: nat)
    requires p > 0
    ensures m < p
    decreases r
  {
    if r < p then r else Rem(r - p, p)
  }

  /** The quotient and the remainder make up the number. */
  lemma {:induction false} QuotRem(r: nat, p: nat)
    requires p > 0
    ensures r == p * Quot(r, p) + Rem(r, p)
    decreases r
  {
    if r >= p {
      QuotRem(r - p, p);
    }
  }

  /** Cell (k, r) of the helper matrix of n columns: true iff ⌊r / 2^(n-1-k)⌋ is even. */
  predicate HelperCell(n: nat, k: nat, r: nat)
    requires k < n
  {
    Quot(r, Pow2(n - 1 - k)) % 2 == 0
  }

  /** Moving on by one either wraps the remainder to 0 and bumps the quotient, or bumps the remainder. */
  lemma {:induction false} QuotStep(x: nat, p: nat)
    requires p > 0
    ensures Rem(x, p) == p - 1 ==> Rem(x + 1, p) == 0 && Quot(x + 1, p) == Quot(x, p) + 1
    ensures Rem(x, p) != p - 1 ==> Rem(x + 1, p) == Rem(x, p) + 1 && Quot(x + 1, p) == Quot(x, p)
    decreases x
  {
    if x >= p {
      QuotStep(x - p, p);
    }
  }

  /** Down a column of the helper matrix the value flips exactly when the remainder wraps. */
  lemma CellStep(n: nat, k: nat, x: nat)
    requires k < n
    ensures var p := Pow2(n - 1 - k);
      if Rem(x, p) == p - 1 then Rem(x + 1, p) == 0 && HelperCell(n, k, x + 1) == !HelperCell(n, k, x)
      else Rem(x + 1, p) == Rem(x, p) + 1 && HelperCell(n, k, x + 1) == HelperCell(n, k, x)
  {
    QuotStep(x, Pow2(n - 1 - k));
  }

  /** Halving 2^(m+1) gives 2^m. */
  lemma HalfPow2(m: nat)
    ensures Pow2(m + 1) / 2 == Pow2(m)
  {
  }

  /** Row r of the helper matrix of n columns, read across the columns. */
  function HelperRow(n: nat, r: nat): (row: seq<bool>)
    ensures |row| == n && forall k :: 0 <= k < n ==> row[k] == HelperCell(n, k, r)
  {
    seq(n, k requires 0 <= k < n => HelperCell(n, k, r))
  }

  /** A quotient and a remainder below the divisor determine the number. */
  lemma {:induction false} QuotOf(q: nat, p: nat, m: nat)
    requires m < p
    ensures Quot(p * q + m, p) == q && Rem(p * q + m, p) == m
    decreases q
  {
    if q > 0 {
      assert p * q + m - p == p * (q - 1) + m;
      QuotOf(q - 1, p, m);
    }
  }

  /** Dividing by 2Q is halving and then dividing by Q. */
  lemma {:induction false} QuotQuot(r: nat, q: nat)
    requires q > 0
    ensures Quot(r, 2 * q) == Quot(Quot(r, 2), q)
    decreases r
  {
    if r >= 2 * q {
      QuotQuot(r - 2 * q, q);
      var h := Quot(r - 2 * q, 2);
      QuotRem(r - 2 * q, 2);
      QuotOf(h + q, 2, Rem(r - 2 * q, 2));
      assert Quot(r, 2) == h + q;
    } else {
      QuotRem(r, 2);
    }
  }

  /** Column k of n + 1 columns at row r is column k of n columns at row ⌊r / 2⌋; the last column is the parity of r. */
  lemma {:induction false} HelperCellShift(n: nat, r: nat)
    ensures forall k :: 0 <= k < n ==> HelperCell(n + 1, k, r) == HelperCell(n, k, Quot(r, 2))
    ensures HelperCell(n + 1, n, r) == (Rem(r, 2) == 0)
  {
    forall k | 0 <= k < n
      ensures HelperCell(n + 1, k, r) == HelperCell(n, k, Quot(r, 2))
    {
      assert Pow2(n - k) == 2 * Pow2(n - 1 - k);
      QuotQuot(r, Pow2(n - 1 - k));
    }
    QuotOf(r, 1, 0);
    QuotRem(r, 2);
  }

  /** Distinct rows of the helper matrix are distinct combinations. */
  lemma {:induction false} HelperRowsDistinct(n: nat, r1: nat, r2: nat)
    requires r1 < Pow2(n) && r2 < Pow2(n) && r1 != r2
    ensures HelperRow(n, r1) != HelperRow(n, r2)
  {
    if n > 0 {
      var m := n - 1;
      HelperCellShift(m, r1);
      HelperCellShift(m, r2);
      QuotRem(r1, 2);
      QuotRem(r2, 2);
      if Rem(r1, 2) != Rem(r2, 2) {
        assert HelperRow(n, r1)[m] != HelperRow(n, r2)[m];
      } else {
        HelperRowsDistinct(m, Quot(r1, 2), Quot(r2, 2));
        var k :| 0 <= k < m && HelperRow(m, Quot(r1, 2))[k] != HelperRow(m, Quot(r2, 2))[k];
        assert HelperRow(n, r1)[k] != HelperRow(n, r2)[k];
      }
    }
  }

  /** Every combination of n truth values is a row of the helper matrix. */
  lemma {:induction false} HelperRowsComplete(v: seq<bool>)
    ensures exists r :: 0 <= r < Pow2(|v|) && HelperRow(|v|, r) == v
  {
    if v == [] {
      assert HelperRow(0, 0) == v;
    } else {
      var m := |v| - 1;
      var v' := v[..m];
      HelperRowsComplete(v');
      var r' :| 0 <= r' < Pow2(m) && HelperRow(m, r') == v';
      var b := if v[m] then 0 else 1;
      var r := 2 * r' + b;
      QuotOf(r', 2, b);
      HelperCellShift(m, r);
      assert HelperRow(|v|, r) == v;
    }
  }

  /** The inner loop of helperMatrix: one column, flipping the value each time `counter` reaches `changeIndex`. */
  method FillColumn(m: array2<bool>, n: nat, column: nat, changeIndex: nat)
    requires column < n == m.Length0 && m.Length1 == Pow2(n) && changeIndex == Pow2(n - 1 - column)
    modifies m
    ensures forall r :: 0 <= r < m.Length1 ==> m[column, r] == HelperCell(n, column, r)
    ensures forall k, r :: 0 <= k < m.Length0 && k != column && 0 <= r < m.Length1 ==> m[k, r] == old(m[k, r])
  {
    var boolValue := true;
    var counter := 0;
    var row := 0;
    while row < m.Length1
      invariant 0 <= row <= m.Length1
      invariant row == 0 ==> counter == 0 && boolValue
      invariant row > 0 ==> counter == Rem(row - 1, changeIndex) + 1 && boolValue == HelperCell(n, column, row - 1)
      invariant forall r :: 0 <= r < row ==> m[column, r] == HelperCell(n, column, r)
      invariant forall k, r :: 0 <= k < m.Length0 && k != column && 0 <= r < m.Length1 ==> m[k, r] == old(m[k, r])
    {
      if row > 0 {
        CellStep(n, column, row - 1);
      }
      if counter == changeIndex {
        boolValue := !boolValue;
        counter := 0;
      }
      m[column, row] := boolValue;
      counter := counter + 1;
      row := row + 1;
    }
  }

  /**
   * helperMatrix: column by column, with `changeIndex` halving from one
   * column to the next. The result has n columns of 2^n cells and is the
   * binary counting pattern, column 0 varying slowest.
   */
  method HelperMatrix(n: nat) returns (m: array2<bool>)
    ensures fresh(m) && m.Length0 == n && m.Length1 == Pow2(n)
    ensures forall k, r :: 0 <= k < n && 0 <= r < Pow2(n) ==> m[k, r] == HelperCell(n, k, r)
  {
    var powerToLength := Pow2(n);
    m := new bool[n, powerToLength];
    var changeIndex := powerToLength / 2;
    if n > 0 {
      HalfPow2(n - 1);
    }
    var column := 0;
    while column < n
      invariant 0 <= column <= n
      invariant column < n ==> changeIndex == Pow2(n - 1 - column)
      invariant forall k, r :: 0 <= k < column && 0 <= r < powerToLength ==> m[k, r] == HelperCell(n, k, r)
    {
      FillColumn(m, n, column, changeIndex);
      if column + 1 < n {
        HalfPow2(n - 2 - column);
      }
      changeIndex := changeIndex / 2;
      column := column + 1;
    }
  }

  // ---------------------------------------------------------------------
  // Looking up an expression

  /** The first index at or after `i` whose entry `x` equals, or -1 (see FindFromFirst). */
  function FindFrom(rev: Revision, es: seq<Expr>, x: Expr, i: nat): (r: int)
    requires i <= |es|
    ensures r == -1 || i <= r < |es|
    decreases |es| - i
  {
    if i == |es| then -1 else if EqualsIn(rev, x, es[i]) then i else FindFrom(rev, es, x, i + 1)
  }

  /** FindFrom finds the first equal entry at or after `i`, and -1 means there is none. */
  lemma {:induction false} FindFromFirst(rev: Revision, es: seq<Expr>, x: Expr, i: nat)
    requires i <= |es|
    ensures var r := FindFrom(rev, es, x, i);
            (r != -1 ==> EqualsIn(rev, x, es[r])) &&
            forall j :: i <= j < |es| && (r == -1 || j < r) ==> !EqualsIn(rev, x, es[j])
    decreases |es| - i
  {
    if i < |es| && !EqualsIn(rev, x, es[i]) {
      FindFromFirst(rev, es, x, i + 1);
    }
  }

  /** The first index whose entry `x` equals, or -1 (see FindFirst). */
  function Find(rev: Revision, es: seq<Expr>, x: Expr): (r: int)
    ensures -1 <= r < |es|
  {
    FindFrom(rev, es, x, 0)
  }

  /** Find gives the first index whose entry equals `x`, and -1 exactly when there is none. */
  lemma FindFirst(rev: Revision, es: seq<Expr>, x: Expr)
    ensures var r := Find(rev, es, x);
            (r != -1 ==> EqualsIn(rev, x, es[r]) && forall j :: 0 <= j < r ==> !EqualsIn(rev, x, es[j])) &&
            (r == -1 <==> forall j :: 0 <= j < |es| ==> !EqualsIn(rev, x, es[j]))
  {
    FindFromFirst(rev, es, x, 0);
    var r := Find(rev, es, x);
    if r != -1 {
      assert EqualsIn(rev, x, es[r]);
    }
  }

  /** findExp: a linear search with an early return. */
  method FindExp(rev: Revision, es: seq<Expr>, x: Expr) returns (index: int)
    ensures index == Find(rev, es, x)
  {
    for i := 0 to |es|
      invariant FindFrom(rev, es, x, i) == Find(rev, es, x)
    {
      if EqualsIn(rev, x, es[i]) {
        return i;
      }
    }
    return -1;
  }

  /**
   * As written, findExp's equals also matches a node whose left child is the
   * other's right child, so A ⋀ B is found at C ⋀ A; the corrected equality
   * finds it at its own column.
   */
  lemma FindAsWrittenCrossMatch()
    ensures var a, b, c := Atom("", "A"), Atom("", "B"), Atom("", "C");
            var es := [a, b, c, Node(c, And, a), Node(a, And, b), Node(Node(c, And, a), Or, Node(a, And, b))];
            Find(AsWritten, es, Node(a, And, b)) == 3 && Find(Corrected, es, Node(a, And, b)) == 4
  {
    var a, b, c := Atom("", "A"), Atom("", "B"), Atom("", "C");
    var es := [a, b, c, Node(c, And, a), Node(a, And, b), Node(Node(c, And, a), Or, Node(a, And, b))];
    var x := Node(a, And, b);
    assert !EqualsAsWritten(x, es[0]) && !EqualsAsWritten(x, es[1]) && !EqualsAsWritten(x, es[2]);
    assert EqualsAsWritten(x, es[3]);
    assert FindFrom(AsWritten, es, x, 3) == 3;
    assert FindFrom(AsWritten, es, x, 2) == 3;
    assert FindFrom(AsWritten, es, x, 1) == 3;
    assert !Equals(x, es[0]) && !Equals(x, es[1]) && !Equals(x, es[2]) && !Equals(x, es[3]);
    assert Equals(x, es[4]);
    assert FindFrom(Corrected, es, x, 4) == 4;
    assert FindFrom(Corrected, es, x, 3) == 4;
    assert FindFrom(Corrected, es, x, 2) == 4;
    assert FindFrom(Corrected, es, x, 1) == 4;
  }

  // ---------------------------------------------------------------------
  // The table body

  /**
   * The two round-robin indices into the helper matrix that create keeps
   * across rows: `atom` is truthMatrixRowIndex (a helper column) and
   * `combination` is truthMatrixColIndex (a helper row).
   */
  datatype Cursor = Cursor(atom: nat, combination: nat)

  predicate InRange(n: nat, c: Cursor)
  {
    c.atom < n && c.combination < Pow2(n)
  }

  /** Counting modulo n: one step up wraps n to 0. */
  lemma ModStep(x: nat, n: nat)
    requires 0 < n && x <= n
    ensures x % n == if x < n then x else 0
  {
    if x < n {
      assert x == n * 0 + x;
    } else {
      assert x == n * 1 + 0;
    }
  }

  /**
   * The next helper column, and the next helper row each time the column
   * wraps to 0. Java counts modulo n and modulo 2^n; as each counter is at
   * most one past its bound, the wrap is a comparison (see AdvanceWraps).
   */
  function Advance(n: nat, c: Cursor): (d: Cursor)
    requires InRange(n, c)
    ensures InRange(n, d)
  {
    if c.atom + 1 < n then Cursor(c.atom + 1, c.combination)
    else Cursor(0, if c.combination + 1 < Pow2(n) then c.combination + 1 else 0)
  }

  /** Advance is Java's pair of modular increments. */
  lemma AdvanceWraps(n: nat, c: Cursor)
    requires InRange(n, c)
    ensures var atom := (c.atom + 1) % n;
            Advance(n, c) == if atom == 0 then Cursor(atom, (c.combination + 1) % Pow2(n)) else Cursor(atom, c.combination)
  {
    ModStep(c.atom + 1, n);
    ModStep(c.combination + 1, Pow2(n));
  }

  /** The negated atomic's twin: the same leaf without its leading and trailing markers. */
  function Twin(e: Expr): Expr
  {
    Expr("", e.left, e.operator, e.right, "", e.atomic)
  }

  /** A row as Java allocates it: every cell false. */
  function Blank(width: nat): (cells: seq<bool>)
    ensures |cells| == width && forall i :: 0 <= i < width ==> !cells[i]
  {
    seq(width, _ => false)
  }

  /**
   * The value create writes in one column of the current row, and the
   * cursor after it; `None` where Java throws (a missing child, or a child
   * findExp does not find). `cells` is the current row, still false from
   * the column on.
   */
  function ColumnSpec(rev: Revision, es: seq<Expr>, n: nat, column: nat, cells: seq<bool>, c: Cursor): (r: Option<(bool, Cursor)>)
    requires column < |es| == |cells| && InRange(n, c)
    ensures r.Some? ==> InRange(n, r.value.1)
  {
    var e := es[column];
    if IsAtomic(e) && !IsInverse(e) then Some((HelperCell(n, c.atom, c.combination), Advance(n, c)))
    else if IsAtomic(e) then
      (var index := Find(rev, es, Twin(e));
       Some((!(index != -1 && cells[index]), c)))
    else if e.left.None? || e.right.None? then None
    else
      var l := Find(rev, es, e.left.value);
      var r := Find(rev, es, e.right.value);
      if l == -1 || r == -1 then None else Some((Solve(e, cells[l], cells[r]), c))
  }

  /** The current row from `column` on. */
  function RowFrom(rev: Revision, es: seq<Expr>, n: nat, column: nat, cells: seq<bool>, c: Cursor): (r: Option<(seq<bool>, Cursor)>)
    requires column <= |es| == |cells| && InRange(n, c)
    ensures r.Some? ==> |r.value.0| == |es| && InRange(n, r.value.1)
    decreases |es| - column
  {
    if column == |es| then Some((cells, c))
    else
      match ColumnSpec(rev, es, n, column, cells, c)
      case None => None
      case Some((v, d)) => RowFrom(rev, es, n, column + 1, cells[column := v], d)
  }

  /** The rows from `row` on, before hiding and sorting. */
  function RowsFrom(rev: Revision, es: seq<Expr>, n: nat, row: nat, c: Cursor): (r: Option<seq<seq<bool>>>)
    requires row <= Pow2(n) && InRange(n, c)
    ensures r.Some? ==> |r.value| == Pow2(n) - row && forall i :: 0 <= i < |r.value| ==> |r.value[i]| == |es|
    decreases Pow2(n) - row
  {
    if row == Pow2(n) then Some([])
    else
      match RowFrom(rev, es, n, 0, Blank(|es|), c)
      case None => None
      case Some((cells, d)) =>
        match RowsFrom(rev, es, n, row + 1, d)
        case None => None
        case Some(rest) => Some([cells] + rest)
  }

  /** `Some(p + s)` for `Some(s)`, `None` for `None`. */
  function Prefixed(p: seq<seq<bool>>, o: Option<seq<seq<bool>>>): Option<seq<seq<bool>>>
  {
    if o.None? then None else Some(p + o.value)
  }

  // ---------------------------------------------------------------------
  // Hiding and sorting by the last column

  predicate LastCompound(es: seq<Expr>)
  {
    |es| > 0 && !IsAtomic(es[|es| - 1])
  }

  /** The value of the last column whose rows are hidden, when the last column is compound. */
  function HideValue(es: seq<Expr>, hiding: Hide): Option<bool>
  {
    if !LastCompound(es) then None
    else if hiding == HideTrue then Some(true)
    else if hiding == HideFalse then Some(false)
    else None
  }

  /** The value of the last column whose rows come first, when the last column is compound. */
  function FirstValue(es: seq<Expr>, sort: Sort): Option<bool>
  {
    if !LastCompound(es) then None
    else if sort == TrueFirst then Some(true)
    else if sort == FalseFirst then Some(false)
    else None
  }

  /** The row's last cell is the given value. */
  predicate Matches(v: Option<bool>, cells: seq<bool>)
  {
    v.Some? && |cells| > 0 && cells[|cells| - 1] == v.value
  }

  /** The rows that are not hidden, in order. */
  function Shown(rows: seq<seq<bool>>, hv: Option<bool>): (r: seq<seq<bool>>)
    ensures forall i :: 0 <= i < |r| ==> !Matches(hv, r[i])
  {
    if rows == [] then []
    else
      var last := rows[|rows| - 1];
      Shown(rows[..|rows| - 1], hv) + (if Matches(hv, last) then [] else [last])
  }

  /** The rows whose last cell is the value that comes first, in order. */
  function Leading(rows: seq<seq<bool>>, fv: Option<bool>): (r: seq<seq<bool>>)
    ensures forall i :: 0 <= i < |r| ==> Matches(fv, r[i])
  {
    if rows == [] then []
    else
      var last := rows[|rows| - 1];
      Leading(rows[..|rows| - 1], fv) + (if Matches(fv, last) then [last] else [])
  }

  /** The other rows, in order. */
  function Trailing(rows: seq<seq<bool>>, fv: Option<bool>): (r: seq<seq<bool>>)
    ensures forall i :: 0 <= i < |r| ==> !Matches(fv, r[i])
  {
    if rows == [] then []
    else
      var last := rows[|rows| - 1];
      Trailing(rows[..|rows| - 1], fv) + (if Matches(fv, last) then [] else [last])
  }

  /** The rows whose last cell comes first, then the others, each group in its own order. */
  function Arranged(rows: seq<seq<bool>>, fv: Option<bool>): seq<seq<bool>>
  {
    Leading(rows, fv) + Trailing(rows, fv)
  }

  /**
   * What create returns: `None` where Java throws (no unique atomic, so no
   * helperMatrix[0]; or a column that throws); otherwise all 2^n rows with
   * the hidden ones dropped and the rest arranged by the last column.
   */
  function Table(rev: Revision, es: seq<Expr>, hiding: Hide, sort: Sort): Option<seq<seq<bool>>>
  {
    match AllRows(rev, es)
    case None => None
    case Some(rows) => Some(Arranged(Shown(rows, HideValue(es, hiding)), FirstValue(es, sort)))
  }

  /** The rows of the matrix that are not null, in order (the final filter). */
  function NonNull(m: seq<Option<seq<bool>>>): seq<seq<bool>>
  {
    if m == [] then [] else
      NonNull(m[..|m| - 1]) + (if m[|m| - 1].Some? then [m[|m| - 1].value] else [])
  }

  lemma {:induction false} NonNullAppend(a: seq<Option<seq<bool>>>, b: seq<Option<seq<bool>>>)
    ensures NonNull(a + b) == NonNull(a) + NonNull(b)
    decreases |b|
  {
    if b != [] {
      var b' := b[..|b| - 1];
      assert (a + b)[..|a + b| - 1] == a + b';
      NonNullAppend(a, b');
    } else {
      assert a + b == a;
    }
  }

  /** A null row leaves the arrangement as it is; a row that does not come first goes last. */
  lemma AppendRow(p: seq<Option<seq<bool>>>, x: seq<bool>, kept: seq<seq<bool>>, fv: Option<bool>)
    requires NonNull(p) == Arranged(kept, fv)
    ensures NonNull(p + [None]) == Arranged(kept, fv)
    ensures !Matches(fv, x) ==> NonNull(p + [Some(x)]) == Arranged(kept + [x], fv)
  {
    assert (p + [None])[..|p|] == p;
    assert (p + [Some(x)])[..|p|] == p;
    assert (kept + [x])[..|kept|] == kept;
  }

  /** A prefix and a suffix of a list split at a point where the groups change are the two groups. */
  lemma SplitAtGroups(x: seq<seq<bool>>, y: seq<seq<bool>>, a: seq<seq<bool>>, b: seq<seq<bool>>, fv: Option<bool>)
    requires x + y == a + b
    requires forall i :: 0 <= i < |a| ==> Matches(fv, a[i])
    requires forall i :: 0 <= i < |b| ==> !Matches(fv, b[i])
    requires forall i :: 0 <= i < |y| ==> !Matches(fv, y[i])
    requires x == [] || Matches(fv, x[|x| - 1])
    ensures x == a && y == b
  {
    assert x != [] ==> (x + y)[|x| - 1] == x[|x| - 1];
    assert forall i :: |a| <= i < |a + b| ==> (a + b)[i] == b[i - |a|];
    assert |y| > 0 ==> (x + y)[|x|] == y[0];
    assert forall i :: 0 <= i < |a| ==> (a + b)[i] == a[i];
    assert |x| == |a|;
    assert x == (x + y)[..|x|] == (a + b)[..|a|] == a;
    assert y == (x + y)[|x|..] == (a + b)[|a|..] == b;
  }

  /**
   * After the bubble loop: the new row `x`, which comes first, sits below
   * the rows that come first and above the others, so the non-null rows are
   * again arranged.
   */
  lemma BubbledIn(p: seq<Option<seq<bool>>>, q: seq<Option<seq<bool>>>, x: seq<bool>, kept: seq<seq<bool>>, fv: Option<bool>)
    requires NonNull(p + q) == Arranged(kept, fv) && Matches(fv, x)
    requires forall j :: 0 <= j < |q| ==> q[j].None? || !Matches(fv, q[j].value)
    requires p == [] || (p[|p| - 1].Some? && Matches(fv, p[|p| - 1].value))
    ensures NonNull(p + [Some(x)] + q) == Arranged(kept + [x], fv)
  {
    NonNullAppend(p, q);
    NonNullSkips(q, fv);
    NonNullEndsMatching(p, fv);
    SplitAtGroups(NonNull(p), NonNull(q), Leading(kept, fv), Trailing(kept, fv), fv);
    calc {
      NonNull(p + [Some(x)] + q);
    == { NonNullAppend(p + [Some(x)], q); }
      NonNull(p + [Some(x)]) + NonNull(q);
    == { NonNullAppend(p, [Some(x)]); NonNullSingle(x); }
      Leading(kept, fv) + [x] + Trailing(kept, fv);
    == { GroupsSnoc(kept, x, fv); }
      Arranged(kept + [x], fv);
    }
  }

  lemma NonNullSingle(x: seq<bool>)
    ensures NonNull([Some(x)]) == [x]
  {
    assert [Some(x)][..0] == [];
  }

  /** When the last entry is a row that comes first, so is the last non-null row. */
  lemma NonNullEndsMatching(p: seq<Option<seq<bool>>>, fv: Option<bool>)
    requires p == [] || (p[|p| - 1].Some? && Matches(fv, p[|p| - 1].value))
    ensures NonNull(p) == [] || Matches(fv, NonNull(p)[|NonNull(p)| - 1])
  {
  }

  /** A row that comes first joins the end of the leading group. */
  lemma GroupsSnoc(kept: seq<seq<bool>>, x: seq<bool>, fv: Option<bool>)
    requires Matches(fv, x)
    ensures Leading(kept + [x], fv) == Leading(kept, fv) + [x]
    ensures Trailing(kept + [x], fv) == Trailing(kept, fv)
  {
    assert (kept + [x])[..|kept|] == kept;
  }

  /** The non-null rows of a stretch holding no row that comes first hold none either. */
  lemma {:induction false} NonNullSkips(q: seq<Option<seq<bool>>>, fv: Option<bool>)
    requires forall j :: 0 <= j < |q| ==> q[j].None? || !Matches(fv, q[j].value)
    ensures forall i :: 0 <= i < |NonNull(q)| ==> !Matches(fv, NonNull(q)[i])
  {
    if q != [] {
      NonNullSkips(q[..|q| - 1], fv);
    }
  }

  // ---------------------------------------------------------------------
  // create

  /** The helper matrix of n columns, holding the cells of its definition. */
  ghost predicate IsHelperMatrix(m: array2<bool>, n: nat)
    reads m
  {
    m.Length0 == n && m.Length1 == Pow2(n) &&
    forall k, j :: 0 <= k < n && 0 <= j < Pow2(n) ==> m[k, j] == HelperCell(n, k, j)
  }

  /** One column of the current row: the helper value, the negated twin's complement, or solve over the children. */
  method ColumnValue(rev: Revision, es: seq<Expr>, n: nat, helperMatrix: array2<bool>, column: nat, cells: seq<bool>, c: Cursor)
    returns (r: Option<(bool, Cursor)>)
    requires column < |es| == |cells| && InRange(n, c)
    requires IsHelperMatrix(helperMatrix, n)
    ensures r == ColumnSpec(rev, es, n, column, cells, c)
  {
    var exp := es[column];
    if IsAtomic(exp) && CountChar(exp.leading, NOT) % 2 == 0 {
      AdvanceWraps(n, c);
      var value := helperMatrix[c.atom, c.combination];
      var truthMatrixRowIndex := (c.atom + 1) % helperMatrix.Length0;
      var truthMatrixColIndex := c.combination;
      if truthMatrixRowIndex == 0 {
        truthMatrixColIndex := (truthMatrixColIndex + 1) % helperMatrix.Length1;
      }
      return Some((value, Cursor(truthMatrixRowIndex, truthMatrixColIndex)));
    } else if IsAtomic(exp) {
      var index := FindExp(rev, es, Twin(exp));
      var found := false;
      if index != -1 {
        found := cells[index];
      }
      return Some((!found, c));
    }
    if exp.left.None? {
      return None;
    }
    var l := FindExp(rev, es, exp.left.value);
    if l == -1 {
      return None;
    }
    var left := cells[l];
    if exp.right.None? {
      return None;
    }
    var ri := FindExp(rev, es, exp.right.value);
    if ri == -1 {
      return None;
    }
    var right := cells[ri];
    return Some((Solve(exp, left, right), c));
  }

  /** One more row: a row that throws ends the table; otherwise the row joins the rows computed so far. */
  lemma NextRow(rev: Revision, es: seq<Expr>, n: nat, row: nat, c: Cursor, rows: seq<seq<bool>>, hv: Option<bool>)
    requires row < Pow2(n) && InRange(n, c)
    ensures RowFrom(rev, es, n, 0, Blank(|es|), c).None? ==> Prefixed(rows, RowsFrom(rev, es, n, row, c)).None?
    ensures RowFrom(rev, es, n, 0, Blank(|es|), c).Some? ==>
      var (cells, d) := RowFrom(rev, es, n, 0, Blank(|es|), c).value;
      Prefixed(rows, RowsFrom(rev, es, n, row, c)) == Prefixed(rows + [cells], RowsFrom(rev, es, n, row + 1, d)) &&
      Shown(rows + [cells], hv) == if Matches(hv, cells) then Shown(rows, hv) else Shown(rows, hv) + [cells]
  {
    if RowFrom(rev, es, n, 0, Blank(|es|), c).Some? {
      var (cells, d) := RowFrom(rev, es, n, 0, Blank(|es|), c).value;
      assert (rows + [cells])[..|rows|] == rows;
      assert Shown(rows, hv) + [] == Shown(rows, hv);
      if RowsFrom(rev, es, n, row + 1, d).Some? {
        assert rows + ([cells] + RowsFrom(rev, es, n, row + 1, d).value) == rows + [cells] + RowsFrom(rev, es, n, row + 1, d).value;
      }
    }
  }

  /** The column loop of create for one row, starting from a fresh row of false cells. */
  method FillRow(rev: Revision, es: seq<Expr>, n: nat, helperMatrix: array2<bool>, cursor: Cursor) returns (r: Option<(seq<bool>, Cursor)>)
    requires InRange(n, cursor)
    requires IsHelperMatrix(helperMatrix, n)
    ensures r == RowFrom(rev, es, n, 0, Blank(|es|), cursor)
  {
    var cells := Blank(|es|);
    var c := cursor;
    var column := 0;
    while column < |es|
      invariant column <= |es| == |cells| && InRange(n, c)
      invariant RowFrom(rev, es, n, 0, Blank(|es|), cursor) == RowFrom(rev, es, n, column, cells, c)
    {
      var v := ColumnValue(rev, es, n, helperMatrix, column, cells, c);
      if v.None? {
        return None;
      }
      cells := cells[column := v.value.0];
      c := v.value.1;
      column := column + 1;
    }
    return Some((cells, c));
  }

  /**
   * The end of a row in create: a hidden row becomes null; a row whose last
   * cell comes first is swapped upwards past null rows and rows with the
   * other last value.
   */
  method PlaceRow(truthMatrix: array<Option<seq<bool>>>, row: nat, cells: seq<bool>, hv: Option<bool>, fv: Option<bool>,
                  ghost kept: seq<seq<bool>>)
    requires row < truthMatrix.Length && |cells| > 0
    requires forall i :: 0 <= i < truthMatrix.Length && truthMatrix[i].Some? ==> |truthMatrix[i].value| == |cells|
    requires NonNull(truthMatrix[..row]) == Arranged(kept, fv)
    modifies truthMatrix
    ensures forall i :: 0 <= i < truthMatrix.Length && truthMatrix[i].Some? ==> |truthMatrix[i].value| == |cells|
    ensures NonNull(truthMatrix[..row + 1]) == Arranged(if Matches(hv, cells) then kept else kept + [cells], fv)
    ensures truthMatrix[row + 1..] == old(truthMatrix[row + 1..])
  {
    AppendRow(truthMatrix[..row], cells, kept, fv);
    if Matches(hv, cells) {
      truthMatrix[row] := None;
      assert truthMatrix[..row + 1] == old(truthMatrix[..row]) + [None];
      return;
    }
    truthMatrix[row] := Some(cells);
    if !Matches(fv, cells) {
      assert truthMatrix[..row + 1] == old(truthMatrix[..row]) + [Some(cells)];
      return;
    }
    assert truthMatrix[..row] == old(truthMatrix[..row]);
    RaiseRow(truthMatrix, row, cells, fv, kept);
  }

  /** A row whose last cell comes first is bubbled up, and joins the arrangement of the rows above it. */
  method RaiseRow(truthMatrix: array<Option<seq<bool>>>, row: nat, cells: seq<bool>, fv: Option<bool>, ghost kept: seq<seq<bool>>)
    requires row < truthMatrix.Length && |cells| > 0 && truthMatrix[row] == Some(cells) && Matches(fv, cells)
    requires forall i :: 0 <= i < truthMatrix.Length && truthMatrix[i].Some? ==> |truthMatrix[i].value| == |cells|
    requires NonNull(truthMatrix[..row]) == Arranged(kept, fv)
    modifies truthMatrix
    ensures forall i :: 0 <= i < truthMatrix.Length && truthMatrix[i].Some? ==> |truthMatrix[i].value| == |cells|
    ensures NonNull(truthMatrix[..row + 1]) == Arranged(kept + [cells], fv)
    ensures truthMatrix[row + 1..] == old(truthMatrix[row + 1..])
  {
    var last := |cells| - 1;
    var boolExp := cells[last];
    ghost var before := truthMatrix[..];
    var r := BubbleUp(truthMatrix, row, last, boolExp);
    Bubbled(truthMatrix[..], before, row, r, last, boolExp, cells, kept, fv);
  }

  /** What the bubble loop leaves, in terms of the rows before it: the arrangement and the row lengths are kept. */
  lemma Bubbled(after: seq<Option<seq<bool>>>, before: seq<Option<seq<bool>>>, row: nat, r: nat, last: nat, b: bool,
                cells: seq<bool>, kept: seq<seq<bool>>, fv: Option<bool>)
    requires Bubble(after, before, row, r, last, b) && last + 1 == |cells| && b == cells[last]
    requires before[row] == Some(cells) && Matches(fv, cells)
    requires NonNull(before[..row]) == Arranged(kept, fv)
    ensures forall i :: 0 <= i < |after| && after[i].Some? ==> |after[i].value| == |cells|
    ensures NonNull(after[..row + 1]) == Arranged(kept + [cells], fv)
    ensures after[row + 1..] == before[row + 1..]
  {
    var p, q := before[..r], before[r..row];
    BubbleShape(after, before, row, r, cells);
    assert before[..row] == p + q;
    BubbleSkipped(before, row, r, cells, fv);
    BubbledIn(p, q, cells, kept, fv);
    BubbleLengths(after, before, row, r, cells);
  }

  /** The rows after the bubble loop: those above `r`, the new row, then the rows it passed. */
  lemma BubbleShape(after: seq<Option<seq<bool>>>, before: seq<Option<seq<bool>>>, row: nat, r: nat, cells: seq<bool>)
    requires |before| == |after| && r <= row < |before| && before[row] == Some(cells)
    requires forall i :: 0 <= i < r ==> after[i] == before[i]
    requires after[r] == before[row]
    requires forall i :: r < i <= row ==> after[i] == before[i - 1]
    requires forall i :: row < i < |after| ==> after[i] == before[i]
    ensures after[..row + 1] == before[..r] + [Some(cells)] + before[r..row]
    ensures after[row + 1..] == before[row + 1..]
  {
    var s := before[..r] + [Some(cells)] + before[r..row];
    forall i | 0 <= i < row + 1
      ensures after[i] == s[i]
    {
      if r < i {
        assert s[i] == before[r..row][i - r - 1];
      }
    }
  }

  /** None of the rows the new row passed comes first. */
  lemma BubbleSkipped(before: seq<Option<seq<bool>>>, row: nat, r: nat, cells: seq<bool>, fv: Option<bool>)
    requires r <= row < |before| && Matches(fv, cells)
    requires forall i :: 0 <= i < |before| && before[i].Some? ==> |before[i].value| == |cells|
    requires forall j :: r <= j < row ==> before[j].None? || before[j].value[|cells| - 1] != cells[|cells| - 1]
    ensures var q := before[r..row];
            forall j :: 0 <= j < |q| ==> q[j].None? || !Matches(fv, q[j].value)
  {
    var q := before[r..row];
    forall j | 0 <= j < |q|
      ensures q[j].None? || !Matches(fv, q[j].value)
    {
      assert q[j] == before[r + j];
    }
  }

  /** Every row keeps the width it had. */
  lemma BubbleLengths(after: seq<Option<seq<bool>>>, before: seq<Option<seq<bool>>>, row: nat, r: nat, cells: seq<bool>)
    requires |before| == |after| && r <= row < |before| && before[row] == Some(cells)
    requires forall i :: 0 <= i < |before| && before[i].Some? ==> |before[i].value| == |cells|
    requires forall i :: 0 <= i < r ==> after[i] == before[i]
    requires after[r] == before[row]
    requires forall i :: r < i <= row ==> after[i] == before[i - 1]
    requires forall i :: row < i < |after| ==> after[i] == before[i]
    ensures forall i :: 0 <= i < |after| && after[i].Some? ==> |after[i].value| == |cells|
  {
    forall i | 0 <= i < |after| && after[i].Some?
      ensures |after[i].value| == |cells|
    {
      if r < i <= row {
        assert after[i] == before[i - 1];
      }
    }
  }

  /**
   * `after` is `before` with the row at `row` moved up to `r`, past rows that
   * are null or have a value other than `b` in cell `last`, and stopped under
   * a row whose cell `last` is `b`; the rows in between move down by one.
   */
  predicate Bubble(after: seq<Option<seq<bool>>>, before: seq<Option<seq<bool>>>, row: nat, r: nat, last: nat, b: bool)
  {
    |before| == |after| && r <= row < |before| &&
    (forall i :: 0 <= i < |before| && before[i].Some? ==> |before[i].value| == last + 1) &&
    (forall i :: 0 <= i < r ==> after[i] == before[i]) &&
    after[r] == before[row] &&
    (forall i :: r < i <= row ==> after[i] == before[i - 1]) &&
    (forall i :: row < i < |after| ==> after[i] == before[i]) &&
    (forall j :: r <= j < row ==> before[j].None? || before[j].value[last] != b) &&
    (r == 0 || (before[r - 1].Some? && before[r - 1].value[last] == b))
  }

  /**
   * The bubble loop of create: the row at `row` is swapped upwards while the
   * row above is null or has the other value in its last cell.
   */
  method BubbleUp(truthMatrix: array<Option<seq<bool>>>, row: nat, last: nat, boolExp: bool) returns (r: nat)
    requires row < truthMatrix.Length
    requires forall i :: 0 <= i < truthMatrix.Length && truthMatrix[i].Some? ==> |truthMatrix[i].value| == last + 1
    modifies truthMatrix
    ensures Bubble(truthMatrix[..], old(truthMatrix[..]), row, r, last, boolExp)
  {
    r := row;
    while r > 0 && (truthMatrix[r - 1].None? || truthMatrix[r - 1].value[last] == !boolExp)
      invariant 0 <= r <= row
      invariant forall i :: 0 <= i < r ==> truthMatrix[i] == old(truthMatrix[i])
      invariant truthMatrix[r] == old(truthMatrix[row])
      invariant forall i :: r < i <= row ==> truthMatrix[i] == old(truthMatrix[i - 1])
      invariant forall i :: row < i < truthMatrix.Length ==> truthMatrix[i] == old(truthMatrix[i])
      invariant forall j :: r <= j < row ==> old(truthMatrix[j]).None? || old(truthMatrix[j]).value[last] != boolExp
    {
      var help := truthMatrix[r];
      truthMatrix[r] := truthMatrix[r - 1];
      truthMatrix[r - 1] := help;
      r := r - 1;
    }
  }

  /** The final stream filter: the non-null rows, in order. */
  method NonNullRows(truthMatrix: array<Option<seq<bool>>>) returns (rows: seq<seq<bool>>)
    ensures rows == NonNull(truthMatrix[..])
  {
    rows := [];
    for i := 0 to truthMatrix.Length
      invariant rows == NonNull(truthMatrix[..i])
    {
      assert truthMatrix[..i + 1][..i] == truthMatrix[..i];
      if truthMatrix[i].Some? {
        rows := rows + [truthMatrix[i].value];
      }
    }
    assert truthMatrix[..truthMatrix.Length] == truthMatrix[..];
  }

  /**
   * create: the helper matrix for the unique atomics, then row by row the
   * column loop, the hiding and the bubbling of the row, and at the end the
   * filter that drops the null rows. `None` is an exception.
   */
  method Create(rev: Revision, es: seq<Expr>, hiding: Hide, sort: Sort) returns (table: Option<seq<seq<bool>>>)
    ensures table == Table(rev, es, hiding, sort)
  {
    var n := Parser.GetNumberOfUniqueAtomics(es);
    var helperMatrix := HelperMatrix(n);
    if n == 0 {
      // helperMatrix[0] does not exist
      return None;
    }
    var truthMatrix := FillTable(rev, es, n, helperMatrix, HideValue(es, hiding), FirstValue(es, sort));
    if truthMatrix.None? {
      return None;
    }
    var result := NonNullRows(truthMatrix.value);
    return Some(result);
  }

  /**
   * The row loop of create: each row is filled column by column, then
   * hidden or bubbled into place. `None` is a row that throws.
   */
  method FillTable(rev: Revision, es: seq<Expr>, n: nat, helperMatrix: array2<bool>, hv: Option<bool>, fv: Option<bool>)
    returns (truthMatrix: Option<array<Option<seq<bool>>>>)
    requires n > 0 && |es| > 0 && IsHelperMatrix(helperMatrix, n)
    ensures truthMatrix.None? <==> RowsFrom(rev, es, n, 0, Cursor(0, 0)).None?
    ensures truthMatrix.Some? ==>
              NonNull(truthMatrix.value[..]) == Arranged(Shown(RowsFrom(rev, es, n, 0, Cursor(0, 0)).value, hv), fv)
  {
    var cursor := Cursor(0, 0);
    var matrix := new Option<seq<bool>>[helperMatrix.Length1](_ => Some(Blank(|es|)));
    ghost var rows: seq<seq<bool>> := [];
    var row := 0;
    PrefixedEmpty(RowsFrom(rev, es, n, 0, cursor));
    while row < helperMatrix.Length1
      invariant row <= helperMatrix.Length1 && IsHelperMatrix(helperMatrix, n)
      invariant Filled(rev, es, n, hv, fv, matrix, row, cursor, rows)
    {
      var next;
      ghost var cells;
      next, cells := AddRow(rev, es, n, helperMatrix, matrix, row, cursor, hv, fv, rows);
      if next.None? {
        return None;
      }
      rows := rows + [cells];
      cursor := next.value;
      row := row + 1;
    }
    assert rows + [] == rows;
    assert matrix[..row] == matrix[..];
    return Some(matrix);
  }

  /**
   * The state of the row loop after `row` rows: they are the first rows of
   * the table, and the matrix holds them hidden and arranged.
   */
  ghost predicate Filled(rev: Revision, es: seq<Expr>, n: nat, hv: Option<bool>, fv: Option<bool>,
                         matrix: array<Option<seq<bool>>>, row: nat, cursor: Cursor, rows: seq<seq<bool>>)
    reads matrix
  {
    row <= Pow2(n) == matrix.Length && InRange(n, cursor) && |rows| == row &&
    RowsFrom(rev, es, n, 0, Cursor(0, 0)) == Prefixed(rows, RowsFrom(rev, es, n, row, cursor)) &&
    RowsPlaced(matrix, row, |es|, Shown(rows, hv), fv)
  }

  /** The first `row` entries of the matrix hold the arranged rows `kept`, and every row has the given width. */
  ghost predicate RowsPlaced(matrix: array<Option<seq<bool>>>, row: nat, width: nat, kept: seq<seq<bool>>, fv: Option<bool>)
    reads matrix
  {
    row <= matrix.Length &&
    (forall i :: 0 <= i < matrix.Length && matrix[i].Some? ==> |matrix[i].value| == width) &&
    NonNull(matrix[..row]) == Arranged(kept, fv)
  }

  lemma PrefixedEmpty(o: Option<seq<seq<bool>>>)
    ensures Prefixed([], o) == o
  {
    if o.Some? {
      assert [] + o.value == o.value;
    }
  }

  /** One turn of the row loop: the row is filled, then hidden, stored or bubbled up. */
  method AddRow(rev: Revision, es: seq<Expr>, n: nat, helperMatrix: array2<bool>, matrix: array<Option<seq<bool>>>, row: nat, cursor: Cursor,
                hv: Option<bool>, fv: Option<bool>, ghost rows: seq<seq<bool>>)
    returns (next: Option<Cursor>, ghost cells: seq<bool>)
    requires |es| > 0 && IsHelperMatrix(helperMatrix, n) && row < matrix.Length
    requires Filled(rev, es, n, hv, fv, matrix, row, cursor, rows)
    modifies matrix
    ensures next.None? ==> RowsFrom(rev, es, n, 0, Cursor(0, 0)).None?
    ensures next.Some? ==> Filled(rev, es, n, hv, fv, matrix, row + 1, next.value, rows + [cells])
  {
    var r := FillRow(rev, es, n, helperMatrix, cursor);
    NextRow(rev, es, n, row, cursor, rows, hv);
    if r.None? {
      return None, [];
    }
    PlaceRow(matrix, row, r.value.0, hv, fv, Shown(rows, hv));
    return Some(r.value.1), r.value.0;
  }

  // ---------------------------------------------------------------------
  // What create promises

  /** All 2^n rows before hiding and sorting, for the n unique atomics; `None` where create throws. */
  function AllRows(rev: Revision, es: seq<Expr>): Option<seq<seq<bool>>>
  {
    var n := Parser.UniqueAtomics(es, |es|);
    if n == 0 then None else RowsFrom(rev, es, n, 0, Cursor(0, 0))
  }

  /** The rows that come first in a concatenation are those of each part, in order. */
  lemma {:induction false} LeadingAppend(a: seq<seq<bool>>, b: seq<seq<bool>>, fv: Option<bool>)
    ensures Leading(a + b, fv) == Leading(a, fv) + Leading(b, fv)
    decreases |b|
  {
    if b == [] {
      assert a + b == a;
    } else {
      var b', x := b[..|b| - 1], b[|b| - 1];
      assert (a + b)[..|a + b| - 1] == a + b' && (a + b)[|a + b| - 1] == x;
      LeadingAppend(a, b', fv);
      var tail := if Matches(fv, x) then [x] else [];
      assert Leading(a + b, fv) == (Leading(a, fv) + Leading(b', fv)) + tail;
    }
  }

  /** The other rows of a concatenation are those of each part, in order. */
  lemma {:induction false} TrailingAppend(a: seq<seq<bool>>, b: seq<seq<bool>>, fv: Option<bool>)
    ensures Trailing(a + b, fv) == Trailing(a, fv) + Trailing(b, fv)
    decreases |b|
  {
    if b == [] {
      assert a + b == a;
    } else {
      var b', x := b[..|b| - 1], b[|b| - 1];
      assert (a + b)[..|a + b| - 1] == a + b' && (a + b)[|a + b| - 1] == x;
      TrailingAppend(a, b', fv);
      var tail := if Matches(fv, x) then [] else [x];
      assert Trailing(a + b, fv) == (Trailing(a, fv) + Trailing(b', fv)) + tail;
    }
  }

  /** A list whose rows all come first is its own leading group. */
  lemma {:induction false} LeadingOfLeadingGroup(a: seq<seq<bool>>, fv: Option<bool>)
    requires forall i :: 0 <= i < |a| ==> Matches(fv, a[i])
    ensures Leading(a, fv) == a && Trailing(a, fv) == []
  {
    if a != [] {
      var a', x := a[..|a| - 1], a[|a| - 1];
      LeadingOfLeadingGroup(a', fv);
      assert Matches(fv, x);
      assert a' + [x] == a;
    }
  }

  /** A list none of whose rows comes first is its own trailing group. */
  lemma {:induction false} LeadingOfTrailingGroup(a: seq<seq<bool>>, fv: Option<bool>)
    requires forall i :: 0 <= i < |a| ==> !Matches(fv, a[i])
    ensures Leading(a, fv) == [] && Trailing(a, fv) == a
  {
    if a != [] {
      var a', x := a[..|a| - 1], a[|a| - 1];
      LeadingOfTrailingGroup(a', fv);
      assert !Matches(fv, x);
      assert a' + [x] == a;
    }
  }

  lemma {:induction false} SplitMultiset(rows: seq<seq<bool>>, fv: Option<bool>)
    ensures multiset(Arranged(rows, fv)) == multiset(rows)
  {
    if rows != [] {
      var rows' := rows[..|rows| - 1];
      SplitMultiset(rows', fv);
      assert rows' + [rows[|rows| - 1]] == rows;
    }
  }

  /** Hiding keeps every copy of a row without the hidden value and no copy of a row with it. */
  lemma {:induction false} ShownCount(rows: seq<seq<bool>>, hv: Option<bool>, x: seq<bool>)
    ensures multiset(Shown(rows, hv))[x] == if Matches(hv, x) then 0 else multiset(rows)[x]
  {
    if rows != [] {
      var rows' := rows[..|rows| - 1];
      ShownCount(rows', hv, x);
      assert rows' + [rows[|rows| - 1]] == rows;
    }
  }

  lemma {:induction false} ShownNone(rows: seq<seq<bool>>)
    ensures Shown(rows, None) == rows
  {
    if rows != [] {
      ShownNone(rows[..|rows| - 1]);
      assert rows[..|rows| - 1] + [rows[|rows| - 1]] == rows;
    }
  }

  /** The arranged rows that are not hidden: a permutation of them, as wide as the rows were. */
  lemma ArrangedShown(rows: seq<seq<bool>>, hv: Option<bool>, fv: Option<bool>, width: nat)
    requires forall i :: 0 <= i < |rows| ==> |rows[i]| == width
    ensures var t := Arranged(Shown(rows, hv), fv);
            (forall x :: multiset(t)[x] == if Matches(hv, x) then 0 else multiset(rows)[x]) &&
            (forall i :: 0 <= i < |t| ==> !Matches(hv, t[i]) && |t[i]| == width) &&
            (hv.None? ==> multiset(t) == multiset(rows) && |t| == |rows|)
  {
    var kept := Shown(rows, hv);
    var t := Arranged(kept, fv);
    SplitMultiset(kept, fv);
    forall x
      ensures multiset(t)[x] == if Matches(hv, x) then 0 else multiset(rows)[x]
    {
      ShownCount(rows, hv, x);
    }
    forall i | 0 <= i < |t|
      ensures !Matches(hv, t[i]) && |t[i]| == width
    {
      assert multiset(t)[t[i]] > 0;
      assert t[i] in rows;
    }
    if hv.None? {
      ShownNone(rows);
      assert |t| == |multiset(t)| == |multiset(rows)| == |rows|;
    }
  }

  /** create throws exactly where the rows do; it needs at least one unique atomic, so an atomic entry. */
  lemma TableNeedsAtomic(rev: Revision, es: seq<Expr>, hiding: Hide, sort: Sort)
    ensures Table(rev, es, hiding, sort).Some? <==> AllRows(rev, es).Some?
    ensures AllRows(rev, es).Some? ==> Parser.UniqueAtomics(es, |es|) >= 1 && exists i :: 0 <= i < |es| && IsAtomic(es[i])
  {
    Parser.UniqueAtomicsBounds(es, |es|);
    if AllRows(rev, es).Some? {
      AtomicEntriesWitness(es, |es|);
    }
  }

  lemma {:induction false} AtomicEntriesWitness(es: seq<Expr>, k: nat)
    requires k <= |es| && Parser.AtomicEntries(es, k) > 0
    ensures exists i :: 0 <= i < k && IsAtomic(es[i])
  {
    if !IsAtomic(es[k - 1]) {
      AtomicEntriesWitness(es, k - 1);
    }
  }

  /**
   * The table holds exactly the rows that are not hidden, each as often as
   * among all rows; no row left has the hidden value in its last column.
   * Without hiding it has all 2^n rows, each as wide as the expression list.
   */
  lemma TableHides(rev: Revision, es: seq<Expr>, hiding: Hide, sort: Sort)
    requires AllRows(rev, es).Some?
    ensures var rows := AllRows(rev, es).value;
            var t := Table(rev, es, hiding, sort).value;
            var hv := HideValue(es, hiding);
            (forall x :: multiset(t)[x] == if Matches(hv, x) then 0 else multiset(rows)[x]) &&
            (forall i :: 0 <= i < |t| ==> !Matches(hv, t[i]) && |t[i]| == |es|) &&
            (hiding == HideNone ==> multiset(t) == multiset(rows) && |t| == Pow2(Parser.UniqueAtomics(es, |es|)))
  {
    var rows := AllRows(rev, es).value;
    assert Table(rev, es, hiding, sort) == Some(Arranged(Shown(rows, HideValue(es, hiding)), FirstValue(es, sort)));
    ArrangedShown(rows, HideValue(es, hiding), FirstValue(es, sort), |es|);
  }

  /** The arrangement puts the rows that come first before the others and keeps the order within each group. */
  lemma ArrangedGroups(kept: seq<seq<bool>>, fv: Option<bool>)
    ensures var t := Arranged(kept, fv);
            (forall i, j :: 0 <= i < j < |t| && Matches(fv, t[j]) ==> Matches(fv, t[i])) &&
            Leading(t, fv) == Leading(kept, fv) && Trailing(t, fv) == Trailing(kept, fv) &&
            (fv.None? ==> t == kept)
  {
    var a, b := Leading(kept, fv), Trailing(kept, fv);
    LeadingAppend(a, b, fv);
    TrailingAppend(a, b, fv);
    LeadingOfLeadingGroup(a, fv);
    LeadingOfTrailingGroup(b, fv);
    if fv.None? {
      LeadingOfTrailingGroup(kept, fv);
    }
  }

  /**
   * The sort keeps every row that comes first before every other row, and
   * within each group the order of the rows as they were computed; without
   * a sort the rows stay in that order.
   */
  lemma TableSorted(rev: Revision, es: seq<Expr>, hiding: Hide, sort: Sort)
    requires AllRows(rev, es).Some?
    ensures var kept := Shown(AllRows(rev, es).value, HideValue(es, hiding));
            var t := Table(rev, es, hiding, sort).value;
            var fv := FirstValue(es, sort);
            (forall i, j :: 0 <= i < j < |t| && Matches(fv, t[j]) ==> Matches(fv, t[i])) &&
            Leading(t, fv) == Leading(kept, fv) && Trailing(t, fv) == Trailing(kept, fv) &&
            (sort == Default ==> t == kept)
  {
    var kept := Shown(AllRows(rev, es).value, HideValue(es, hiding));
    assert Table(rev, es, hiding, sort) == Some(Arranged(kept, FirstValue(es, sort)));
    ArrangedGroups(kept, FirstValue(es, sort));
  }

  // ---------------------------------------------------------------------
  // The columns of a row

  /**
   * Column c of a row: a negated atomic is the complement of its twin, or
   * true without a twin; a compound column has both children, findExp finds
   * both, and the column is solve over their cells. A cell at or after c
   * was still false when column c read it.
   */
  predicate ColumnHolds(rev: Revision, es: seq<Expr>, cells: seq<bool>, c: nat)
    requires c < |es| == |cells|
  {
    var e := es[c];
    (IsAtomic(e) && IsInverse(e) ==>
      var i := Find(rev, es, Twin(e));
      cells[c] == !(i != -1 && i < c && cells[i]))
    && (!IsAtomic(e) ==>
      e.left.Some? && e.right.Some? &&
      var l := Find(rev, es, e.left.value);
      var r := Find(rev, es, e.right.value);
      l != -1 && r != -1 && cells[c] == Solve(e, l < c && cells[l], r < c && cells[r]))
  }

  /** Column c reads only the cells up to c. */
  lemma ColumnHoldsFrame(rev: Revision, es: seq<Expr>, cells: seq<bool>, cells': seq<bool>, c: nat)
    requires c < |es| == |cells| == |cells'|
    requires forall j :: 0 <= j <= c ==> cells[j] == cells'[j]
    ensures ColumnHolds(rev, es, cells, c) == ColumnHolds(rev, es, cells', c)
  {
  }

  /** The rest of the row leaves the cells before `column` as they are and makes every column hold. */
  lemma {:induction false} RowFromColumns(rev: Revision, es: seq<Expr>, n: nat, column: nat, cells: seq<bool>, c: Cursor)
    requires column <= |es| == |cells| && InRange(n, c)
    requires forall j :: column <= j < |es| ==> !cells[j]
    requires forall j :: 0 <= j < column ==> ColumnHolds(rev, es, cells, j)
    requires RowFrom(rev, es, n, column, cells, c).Some?
    ensures var final := RowFrom(rev, es, n, column, cells, c).value.0;
            (forall j :: 0 <= j < column ==> final[j] == cells[j]) &&
            (forall j :: 0 <= j < |es| ==> ColumnHolds(rev, es, final, j))
    decreases |es| - column
  {
    if column < |es| {
      var (v, d) := ColumnSpec(rev, es, n, column, cells, c).value;
      var cells' := cells[column := v];
      forall j | 0 <= j < column
        ensures ColumnHolds(rev, es, cells', j)
      {
        ColumnHoldsFrame(rev, es, cells, cells', j);
      }
      assert ColumnHolds(rev, es, cells', column);
      RowFromColumns(rev, es, n, column + 1, cells', d);
    }
  }

  /** In every row create computes, every column holds. */
  lemma {:induction false} RowsFromColumns(rev: Revision, es: seq<Expr>, n: nat, row: nat, c: Cursor)
    requires row <= Pow2(n) && InRange(n, c) && RowsFrom(rev, es, n, row, c).Some?
    ensures var rows := RowsFrom(rev, es, n, row, c).value;
            forall i, j :: 0 <= i < |rows| && 0 <= j < |es| ==> ColumnHolds(rev, es, rows[i], j)
    decreases Pow2(n) - row
  {
    if row < Pow2(n) {
      var (cells, d) := RowFrom(rev, es, n, 0, Blank(|es|), c).value;
      RowFromColumns(rev, es, n, 0, Blank(|es|), c);
      RowsFromColumns(rev, es, n, row + 1, d);
    }
  }

  /**
   * In every row of the table a negated atomic column is the complement of
   * its twin (true without one), and a compound column is solve over the
   * columns of its children, which are both in the list.
   */
  lemma TableColumns(rev: Revision, es: seq<Expr>, hiding: Hide, sort: Sort)
    requires Table(rev, es, hiding, sort).Some?
    ensures var t := Table(rev, es, hiding, sort).value;
            forall i, j :: 0 <= i < |t| && 0 <= j < |es| ==> |t[i]| == |es| && ColumnHolds(rev, es, t[i], j)
  {
    TableNeedsAtomic(rev, es, hiding, sort);
    var rows := AllRows(rev, es).value;
    RowsFromColumns(rev, es, Parser.UniqueAtomics(es, |es|), 0, Cursor(0, 0));
    TableHides(rev, es, hiding, sort);
    var t := Table(rev, es, hiding, sort).value;
    forall i | 0 <= i < |t|
      ensures forall j :: 0 <= j < |es| ==> ColumnHolds(rev, es, t[i], j)
    {
      assert multiset(t)[t[i]] > 0;
      assert t[i] in rows;
    }
  }

  // ---------------------------------------------------------------------
  // The plain atomic columns enumerate every combination

  /** An atomic column without a negation: the one that reads the helper matrix. */
  predicate Plain(e: Expr)
  {
    IsAtomic(e) && !IsInverse(e)
  }

  /** The plain atomic columns among the first k. */
  function PlainBefore(es: seq<Expr>, k: nat): nat
    requires k <= |es|
  {
    if k == 0 then 0 else PlainBefore(es, k - 1) + (if Plain(es[k - 1]) then 1 else 0)
  }

  lemma {:induction false} PlainBeforeGrows(es: seq<Expr>, j: nat, k: nat)
    requires j <= k <= |es|
    ensures PlainBefore(es, j) <= PlainBefore(es, k)
    decreases k - j
  {
    if j < k {
      PlainBeforeGrows(es, j, k - 1);
    }
  }

  /** The cursor in row r once k of the n plain columns are filled: row r + 1 (or 0 after the last) once all are. */
  function CursorAt(n: nat, r: nat, k: nat): (c: Cursor)
    requires 0 < n && r < Pow2(n)
    ensures InRange(n, c)
  {
    if k < n then Cursor(k, r) else Cursor(0, if r + 1 < Pow2(n) then r + 1 else 0)
  }

  /** Filling a row leaves the cells already filled as they are. */
  lemma {:induction false} RowFromKeeps(rev: Revision, es: seq<Expr>, n: nat, column: nat, cells: seq<bool>, c: Cursor)
    requires column <= |es| == |cells| && InRange(n, c)
    requires RowFrom(rev, es, n, column, cells, c).Some?
    ensures forall j :: 0 <= j < column ==> RowFrom(rev, es, n, column, cells, c).value.0[j] == cells[j]
    decreases |es| - column
  {
    if column < |es| {
      var (v, d) := ColumnSpec(rev, es, n, column, cells, c).value;
      RowFromKeeps(rev, es, n, column + 1, cells[column := v], d);
    }
  }

  /**
   * When the row has exactly n plain columns, the k-th of them in row r is
   * column k of helper row r, and the row hands on the cursor of row r + 1.
   */
  lemma RowFromPlain(rev: Revision, es: seq<Expr>, n: nat, r: nat, column: nat, cells: seq<bool>)
    requires 0 < n && r < Pow2(n) && PlainBefore(es, |es|) == n
    requires column <= |es| == |cells|
    requires RowFrom(rev, es, n, column, cells, CursorAt(n, r, PlainBefore(es, column))).Some?
    ensures var (final, d) := RowFrom(rev, es, n, column, cells, CursorAt(n, r, PlainBefore(es, column))).value;
            d == CursorAt(n, r, n) && PlainCells(es, n, r, column, final)
  {
    RowFromCursor(rev, es, n, r, column, cells);
    RowFromPlainCells(rev, es, n, r, column, cells, RowFrom(rev, es, n, column, cells, CursorAt(n, r, PlainBefore(es, column))).value);
  }

  /** One column of the row: RowFrom moves on with the value and cursor ColumnSpec gives. */
  lemma RowFromStep(rev: Revision, es: seq<Expr>, n: nat, column: nat, cells: seq<bool>, c: Cursor)
    requires column < |es| == |cells| && InRange(n, c)
    requires ColumnSpec(rev, es, n, column, cells, c).Some?
    ensures var (v, d) := ColumnSpec(rev, es, n, column, cells, c).value;
            RowFrom(rev, es, n, column, cells, c) == RowFrom(rev, es, n, column + 1, cells[column := v], d)
  {
  }

  /** The cursor half of RowFromPlain. */
  lemma {:induction false} RowFromCursor(rev: Revision, es: seq<Expr>, n: nat, r: nat, column: nat, cells: seq<bool>)
    requires 0 < n && r < Pow2(n) && PlainBefore(es, |es|) == n
    requires column <= |es| == |cells|
    requires RowFrom(rev, es, n, column, cells, CursorAt(n, r, PlainBefore(es, column))).Some?
    ensures RowFrom(rev, es, n, column, cells, CursorAt(n, r, PlainBefore(es, column))).value.1 == CursorAt(n, r, n)
    decreases |es| - column
  {
    if column < |es| {
      var c := CursorAt(n, r, PlainBefore(es, column));
      PlainStep(rev, es, n, r, column, cells);
      var (v, d) := ColumnSpec(rev, es, n, column, cells, c).value;
      RowFromStep(rev, es, n, column, cells, c);
      RowFromCursor(rev, es, n, r, column + 1, cells[column := v]);
    }
  }

  /** The plain columns of `final` from `column` on read helper row r. */
  ghost predicate PlainCells(es: seq<Expr>, n: nat, r: nat, column: nat, final: seq<bool>)
  {
    |final| == |es| &&
    forall j :: column <= j < |es| && Plain(es[j]) ==>
      PlainBefore(es, j) < n && final[j] == HelperCell(n, PlainBefore(es, j), r)
  }

  /** The cells half of RowFromPlain. */
  lemma {:induction false} RowFromPlainCells(rev: Revision, es: seq<Expr>, n: nat, r: nat, column: nat, cells: seq<bool>, row: (seq<bool>, Cursor))
    requires 0 < n && r < Pow2(n) && PlainBefore(es, |es|) == n
    requires column <= |es| == |cells|
    requires RowFrom(rev, es, n, column, cells, CursorAt(n, r, PlainBefore(es, column))) == Some(row)
    ensures PlainCells(es, n, r, column, row.0)
    decreases |es| - column
  {
    if column < |es| {
      var cells' := PlainCellsStep(rev, es, n, r, column, cells, row);
      RowFromPlainCells(rev, es, n, r, column + 1, cells', row);
      PlainCellsExtend(es, n, r, column, row.0);
    }
  }

  /**
   * One plain-counting step of a row: the row from `column` on is the row
   * from column + 1 on with the cells `next`, and a plain column keeps the
   * helper cell it reads.
   */
  lemma PlainColumn(rev: Revision, es: seq<Expr>, n: nat, r: nat, column: nat, cells: seq<bool>) returns (next: seq<bool>)
    requires 0 < n && r < Pow2(n) && PlainBefore(es, |es|) == n
    requires column < |es| == |cells|
    requires RowFrom(rev, es, n, column, cells, CursorAt(n, r, PlainBefore(es, column))).Some?
    ensures |next| == |es|
    ensures RowFrom(rev, es, n, column, cells, CursorAt(n, r, PlainBefore(es, column))) ==
            RowFrom(rev, es, n, column + 1, next, CursorAt(n, r, PlainBefore(es, column + 1)))
    ensures var final := RowFrom(rev, es, n, column, cells, CursorAt(n, r, PlainBefore(es, column))).value.0;
            Plain(es[column]) ==> PlainBefore(es, column) < n && final[column] == HelperCell(n, PlainBefore(es, column), r)
  {
    var c := CursorAt(n, r, PlainBefore(es, column));
    PlainStep(rev, es, n, r, column, cells);
    var (v, d) := ColumnSpec(rev, es, n, column, cells, c).value;
    next := cells[column := v];
    RowFromStep(rev, es, n, column, cells, c);
    RowFromKeeps(rev, es, n, column + 1, next, d);
  }

  /** PlainColumn, read on a row that is known to be filled. */
  lemma PlainCellsStep(rev: Revision, es: seq<Expr>, n: nat, r: nat, column: nat, cells: seq<bool>, row: (seq<bool>, Cursor))
      returns (next: seq<bool>)
    requires 0 < n && r < Pow2(n) && PlainBefore(es, |es|) == n
    requires column < |es| == |cells|
    requires RowFrom(rev, es, n, column, cells, CursorAt(n, r, PlainBefore(es, column))) == Some(row)
    ensures |next| == |es| == |row.0|
    ensures RowFrom(rev, es, n, column + 1, next, CursorAt(n, r, PlainBefore(es, column + 1))) == Some(row)
    ensures Plain(es[column]) ==> PlainBefore(es, column) < n && row.0[column] == HelperCell(n, PlainBefore(es, column), r)
  {
    next := PlainColumn(rev, es, n, r, column, cells);
  }

  /** The step from column + 1 to column of PlainCells. */
  lemma PlainCellsExtend(es: seq<Expr>, n: nat, r: nat, column: nat, final: seq<bool>)
    requires column < |es| == |final|
    requires Plain(es[column]) ==> PlainBefore(es, column) < n && final[column] == HelperCell(n, PlainBefore(es, column), r)
    requires PlainCells(es, n, r, column + 1, final)
    ensures PlainCells(es, n, r, column, final)
  {
  }

  /** One column of RowFromPlain: a plain column reads the helper cell and moves the cursor on by one. */
  lemma PlainStep(rev: Revision, es: seq<Expr>, n: nat, r: nat, column: nat, cells: seq<bool>)
    requires 0 < n && r < Pow2(n) && PlainBefore(es, |es|) == n
    requires column < |es| == |cells|
    requires ColumnSpec(rev, es, n, column, cells, CursorAt(n, r, PlainBefore(es, column))).Some?
    ensures var (v, d) := ColumnSpec(rev, es, n, column, cells, CursorAt(n, r, PlainBefore(es, column))).value;
            d == CursorAt(n, r, PlainBefore(es, column + 1)) &&
            (Plain(es[column]) ==> PlainBefore(es, column) < n && v == HelperCell(n, PlainBefore(es, column), r))
  {
    PlainBeforeGrows(es, column + 1, |es|);
  }

  /** The plain columns of the i-th row read helper row `row + i`. */
  ghost predicate PlainRows(es: seq<Expr>, n: nat, row: nat, rows: seq<seq<bool>>)
  {
    forall i :: 0 <= i < |rows| ==> PlainCells(es, n, row + i, 0, rows[i])
  }

  /** Rows from `row` on: the plain columns of the i-th one read helper row `row + i`. */
  lemma {:induction false} RowsFromPlain(rev: Revision, es: seq<Expr>, n: nat, row: nat, c: Cursor)
    requires 0 < n && PlainBefore(es, |es|) == n
    requires row <= Pow2(n) && InRange(n, c) && (row < Pow2(n) ==> c == Cursor(0, row))
    requires RowsFrom(rev, es, n, row, c).Some?
    ensures PlainRows(es, n, row, RowsFrom(rev, es, n, row, c).value)
    decreases Pow2(n) - row
  {
    if row < Pow2(n) {
      assert c == CursorAt(n, row, PlainBefore(es, 0));
      var (cells, d) := RowFrom(rev, es, n, 0, Blank(|es|), c).value;
      RowFromPlain(rev, es, n, row, 0, Blank(|es|));
      RowsFromPlain(rev, es, n, row + 1, d);
      PlainRowsCons(es, n, row, cells, RowsFrom(rev, es, n, row + 1, d).value);
    }
  }

  lemma PlainRowsCons(es: seq<Expr>, n: nat, row: nat, cells: seq<bool>, rest: seq<seq<bool>>)
    requires PlainCells(es, n, row, 0, cells) && PlainRows(es, n, row + 1, rest)
    ensures PlainRows(es, n, row, [cells] + rest)
  {
    forall i | 0 <= i < |[cells] + rest|
      ensures PlainCells(es, n, row + i, 0, ([cells] + rest)[i])
    {
      if i > 0 {
        assert ([cells] + rest)[i] == rest[i - 1];
        assert row + i == row + 1 + (i - 1);
      }
    }
  }

  /** PlainRows, cell by cell. */
  lemma PlainRowsCells(es: seq<Expr>, n: nat, rows: seq<seq<bool>>)
    requires PlainRows(es, n, 0, rows)
    ensures forall r, j :: 0 <= r < |rows| && 0 <= j < |es| && Plain(es[j]) ==>
              PlainBefore(es, j) < n && rows[r][j] == HelperCell(n, PlainBefore(es, j), r)
  {
    forall r, j | 0 <= r < |rows| && 0 <= j < |es| && Plain(es[j])
      ensures PlainBefore(es, j) < n && rows[r][j] == HelperCell(n, PlainBefore(es, j), r)
    {
      PlainRowCell(es, n, rows, r, j);
    }
  }

  /** One cell of PlainRowsCells. */
  lemma PlainRowCell(es: seq<Expr>, n: nat, rows: seq<seq<bool>>, r: nat, j: nat)
    requires PlainRows(es, n, 0, rows) && r < |rows| && j < |es| && Plain(es[j])
    ensures PlainBefore(es, j) < n && rows[r][j] == HelperCell(n, PlainBefore(es, j), r)
  {
    assert PlainCells(es, n, 0 + r, 0, rows[r]);
  }

  /**
   * When the list has exactly one plain column per unique atomic, row r of
   * the unhidden, unsorted table gives the atomics the values of helper row
   * r, so the 2^n rows give them every combination of truth values, each
   * exactly once.
   */
  lemma AllRowsEnumerate(rev: Revision, es: seq<Expr>, n: nat, rows: seq<seq<bool>>)
    requires n == Parser.UniqueAtomics(es, |es|) && AllRows(rev, es) == Some(rows) && PlainBefore(es, |es|) == n
    ensures |rows| == Pow2(n)
    ensures forall r, j :: 0 <= r < |rows| && 0 <= j < |es| && Plain(es[j]) ==>
              PlainBefore(es, j) < n && rows[r][j] == HelperCell(n, PlainBefore(es, j), r)
    ensures forall r1, r2 :: 0 <= r1 < r2 < |rows| ==> HelperRow(n, r1) != HelperRow(n, r2)
    ensures forall v :: |v| == n ==> exists r :: 0 <= r < |rows| && HelperRow(n, r) == v
  {
    assert 0 < n && RowsFrom(rev, es, n, 0, Cursor(0, 0)) == Some(rows);
    RowsFromPlain(rev, es, n, 0, Cursor(0, 0));
    PlainRowsCells(es, n, rows);
    forall r1, r2 | 0 <= r1 < r2 < Pow2(n)
      ensures HelperRow(n, r1) != HelperRow(n, r2)
    {
      HelperRowsDistinct(n, r1, r2);
    }
    forall v: seq<bool> | |v| == n
      ensures exists r :: 0 <= r < Pow2(n) && HelperRow(n, r) == v
    {
      HelperRowsComplete(v);
    }
  }

  // ---------------------------------------------------------------------
  // Rendering the columns

  /**
   * StringUtils.mapToStrings: no table gives no headers; otherwise one
   * rendering per expression of the table, in the table's order.
   */
  function MapToStrings(table: Option<seq<Expr>>): (r: Option<seq<string>>)
    ensures r.None? <==> table.None?
    ensures r.Some? ==> |r.value| == |table.value| &&
                        forall i :: 0 <= i < |r.value| ==> r.value[i] == ToString(table.value[i])
    decreases if table.Some? then |table.value| else 0
  {
    if table.None? then None
    else if table.value == [] then Some([])
    else
      var es := table.value;
      var rest := MapToStrings(Some(es[..|es| - 1])).value;
      Some(rest + [ToString(es[|es| - 1])])
  }
}
